=== FILE: README.md ===
# CSSMALG traffic toolchain, modelled in Dafny

CSSMALG is a traffic simulation toolchain. This project models the parts of
it that carry real logic and proves properties about them:

- **RAG** (`tsimTrafficGenerator.py`) is the synthetic agent workload
  generator. It shapes a day's demand from a 24-hour pattern, splits each hour
  into cars and bikes, and rejection-samples (start, end) pairs against a
  reachability table with a budget of 1000 draws. It samples kinematics per
  mode, hands out sequential ids, and sweeps bike percentages × retrials into
  `agents_out/prefix_p/prefix_rr.json`.
- **Routing** (`routing.cpp`) runs Floyd–Warshall with next-hop tracking over
  the street graph (the shortest-path tree) and retrieves paths from it.
- **Actor population** (`utils.cpp`) covers the KISS-based `randint`,
  `choseRandomPath` with its bounded retry and `(start + 1) % size` fallback,
  and `createRandomActors`.
- **The street pass** (`update.cpp`) covers the three decision predicates and
  `updateStreets`. The pass advances, overtakes and adjacent-swaps the
  vehicles of each street. It works over the `Actor`/`Street` structs of
  `actors.hpp`.
- **The OSM parser** (`Parser.php`) covers bounding-box normalisation,
  node-usage counting and pruning, splitting ways at kept nodes, directed road
  emission with opposite ids, lane counts, and the extra bike streets.
- **The zone-based car generator** (`AgentGenerator.php`) covers the in/out
  partition of intersections, the hourly car distribution, per-minute counts,
  direction thresholds, the global key counter and waiting periods.
- **The JSON id normaliser** (`temporaryCaster.py`) is a recursive walk that
  casts ids to strings, wraps start/end ids and casts speed limits to int. It
  is idempotent.
- **The arrival split** (`getArrivedAgents.py`) splits agent ids into arrived
  and stuck, counts the statistics, filters the agents file and writes the filtered files.

Modelling conventions:

- Randomness is an explicit stream:
  - Python `random` is a stream of reals in [0, 1);
  - PHP `rand` is a stream of naturals;
  - the KISS generator is a stream of unsigned 64-bit values.
- JSON objects are ordered association lists, and Python dicts are Dafny maps
  where only membership matters.
- Floating-point arithmetic is exact `real` arithmetic, with Python `int()`
  and PHP `round()` written out.
- An exception, a C++ `assert` or a PHP error is an `Err` value.
- Each `AsWritten…` member models code whose behaviour looks unintended; each
  one has a corrected partner (see "## Findings").

## Model

| member | source | states |
|---|---|---|
| RagDemand.SelectPattern | code/Simulation/scripts/tsimTrafficGenerator.py:157-163 | `True` selects the 24-entry default pattern and `False` selects 24 ones. A given list is used as it is exactly when it has 24 entries; any other length fails with the pattern-length error. |
| RagDemand.TruncDiv | code/Simulation/scripts/tsimTrafficGenerator.py:180 | Python `int(a / b)` truncates toward zero: the quotient is at most the exact one in absolute value, less than one below it, and carries the sign of the exact quotient. |
| RagDemand.TotalsUpToBounds | code/Simulation/scripts/tsimTrafficGenerator.py:165-180 | For non-negative weights, the hour totals of the first k hours lie within k of `num_agents` × their share of the pattern: never above it, and strictly less than k below it. Each hour total is `HourTotal`, `int(num_agents × pattern[h] / div)`. |
| RagDemand.HourTotalsDrift | code/Simulation/scripts/tsimTrafficGenerator.py:178-180 | The 24 hour totals sum to at most `num_agents` and to more than `num_agents` − 24. |
| RagDemand.AsWrittenStarvesBikes | code/Simulation/scripts/tsimTrafficGenerator.py:181-182 | As written (`100 - p / 100`), every percentage up to 9900 gives a bike count ≤ 0. A percentage up to 100 gives at least 99 × the hour total in car slots. |
| RagDemand.AsWrittenExample | code/Simulation/scripts/tsimTrafficGenerator.py:181-182 | As written, an hour of 24 agents at 10 % bikes gets 2397 car slots and −2373 bikes. |
| RagDemand.PercentSplit | code/Simulation/scripts/tsimTrafficGenerator.py:181-182 | With the percentage read as a percentage (0–100), cars and bikes each lie in [0, total]. Bikes are the rounded-up p % of the total. 0 % gives no bikes and 100 % gives no cars. `CarsOfHour` and `BikesOfHour` are the two counts under either split rule. |
| Draws.Uniform | code/Simulation/scripts/tsimTrafficGenerator.py:66-78 | `random.uniform(a, b)` lies between a and b, in either order. |
| Draws.ChoiceIndex | code/Simulation/scripts/tsimTrafficGenerator.py:191-192 | `random.choice` picks an index inside the sequence. |
| RagSampling.GenerateAgent | code/Simulation/scripts/tsimTrafficGenerator.py:57-87 | The agent has the given start and end, a waiting period of 0.0, and each of its five kinematic fields within the mode's range. It consumes exactly five draws. |
| RagSampling.Drawn | code/Simulation/scripts/tsimTrafficGenerator.py:191-192 | Both ends of a drawn pair are intersection ids of the map. |
| RagSampling.Attempt | code/Simulation/scripts/tsimTrafficGenerator.py:190-195 | From draw t, every draw before the last one used was rejected, and at most 1000 draws are used. A found pair is the last draw, and it was accepted. No pair means all draws up to the 1000th were rejected. A `KeyError` names the start of the first draw whose row is missing. |
| RagSampling.SamplePair | code/Simulation/scripts/tsimTrafficGenerator.py:186-195 | An empty intersection list fails and nothing else does that. Any other failure is a missing reachability row. 1 to 1000 draws are used. A found pair has its start in the tree, is accepted by that row, and lies in the map. |
| RagSampling.SamplePairTrace | code/Simulation/scripts/tsimTrafficGenerator.py:190-198 | All draws before the last one were rejected. A slot without a pair saw 1000 rejections. A failure names the first draw that lacks a row. |
| RagSampling.Acceptance | code/Simulation/scripts/tsimTrafficGenerator.py:194 | An accepted pair has a row for its start, and in that row the end is missing, `null` or `True`. |
| RagSweep.IdSetSize | code/Simulation/scripts/tsimTrafficGenerator.py:201-202 | The ids `"0"` … `str(k−1)` are k distinct strings. |
| RagSweep.ValidSize | code/Simulation/scripts/tsimTrafficGenerator.py:176 | In a valid population, the counts of cars and bikes add up to the id counter. |
| RagSweep.FillSlot | code/Simulation/scripts/tsimTrafficGenerator.py:185-202 | One slot keeps the population valid. Valid means: disjoint car and bike keys that are exactly `"0"` … `str(id_int−1)`, and every agent in range, on an accepted pair and within the day. The slot adds at most one agent, only of its own mode, with its waiting period inside hour h. Every old agent stays. The result follows the pair search: its error (an empty map or a missing row) is the slot's error. A search without a pair leaves the population as it was, 2 × attempts draws later. A found pair becomes the agent under `str(id_int)`, running between that pair, and `id_int` advances by one. |
| RagSweep.Place | code/Simulation/scripts/tsimTrafficGenerator.py:198-202 | An accepted pair becomes an agent under the next id, with its waiting period in [h·3600, (h+1)·3600]. The counter advances by exactly one. The agent under that id runs from the pair's start to its end, and six draws are used after the pair. |
| RagSweep.InsertOk | code/Simulation/scripts/tsimTrafficGenerator.py:201-202 | Storing an admissible agent under `str(id_int)` and incrementing the counter preserves validity and keeps every earlier agent. `Insert` is that store. |
| RagSweep.HourWithinDay | code/Simulation/scripts/tsimTrafficGenerator.py:200 | A waiting period inside an hour of the day lies in [0, 86400]. |
| RagSweep.FillSlots | code/Simulation/scripts/tsimTrafficGenerator.py:185 | `range(count)` slots: none when count ≤ 0. They preserve validity, add at most count agents of their mode, all inside the hour, and keep the other mode's dict. |
| RagSweep.FillHour | code/Simulation/scripts/tsimTrafficGenerator.py:178-222 | One hour preserves validity, adds agents only inside the hour, and adds at most its car plus bike slot counts. |
| RagSweep.FillHours | code/Simulation/scripts/tsimTrafficGenerator.py:178 | Hours h … 23 preserve validity, keep every earlier agent, and add at most the slots of those hours. |
| RagSweep.Trial | code/Simulation/scripts/tsimTrafficGenerator.py:172-222 | One (p, r) trial fails with `ZeroDivisionError` exactly when the pattern sums to 0. Otherwise it yields a valid population with at most the day's slot count of ids. |
| RagSweep.AsWrittenNoBikesFrom | code/Simulation/scripts/tsimTrafficGenerator.py:204-222 | As written, for a percentage ≤ 9900 the bike dict stays empty through hours h … 23. |
| RagSweep.AsWrittenNoBikes | code/Simulation/scripts/tsimTrafficGenerator.py:181-222 | As written, no trial with a bike percentage ≤ 9900 produces a single bike. |
| RagSweep.PercentSlotsFrom | code/Simulation/scripts/tsimTrafficGenerator.py:180-182 | With the corrected split, the slots of hours h … 23 are exactly the hour totals of those hours. |
| RagSweep.PercentTrialWithinBudget | code/Simulation/scripts/tsimTrafficGenerator.py:176-222 | With the corrected split, a trial writes at most `num_agents` agents, and their count equals the id counter. |
| RagSweep.Range | code/Simulation/scripts/tsimTrafficGenerator.py:169 | Python `range(start, stop, step)`: it starts at start, steps by step, stays on the near side of stop, and is empty exactly when start is already past stop. |
| RagSweep.PyRange | code/Simulation/scripts/tsimTrafficGenerator.py:129 | A step of 0 raises, and nothing else does. Otherwise the result is the range above. |
| RagSweep.Join | code/Simulation/scripts/tsimTrafficGenerator.py:111-112 | `os.path.join(a, b)` is b when b is absolute. Otherwise it is a, then at most one added `/`, then b. |
| RagSweep.AgentsPathShape | code/Simulation/scripts/tsimTrafficGenerator.py:111-112 | The file of (p, r) is `agents_out/` + `prefix_p` + `/` + `prefix_rr.json`. `AgentsPath` is that path. |
| RagSweep.AgentsPathInjective | code/Simulation/scripts/tsimTrafficGenerator.py:111-112 | With a prefix without `/`, distinct (percentage, retrial) pairs write distinct files. |
| RagSweep.BuildDirs | code/Simulation/scripts/tsimTrafficGenerator.py:115-130 | `build_dirs` stores the ratios, step and prefix. It raises exactly when the step is 0. Otherwise it creates one directory `agents_out/prefix_i` for each i of `range(start, end + 1, step)`, in order. |
| RagSweep.RetrialTagsShape | code/Simulation/scripts/tsimTrafficGenerator.py:170 | The retrials r … retrials−1 of a percentage are exactly the tags (p, r') with r ≤ r' < retrials, and there are max(0, retrials − r) of them. |
| RagSweep.ScheduleShape | code/Simulation/scripts/tsimTrafficGenerator.py:169-170 | The sweep's schedule has \|ps\| × retrials tags, and (p, r) is in it exactly when p is one of the percentages and 0 ≤ r < retrials. `Schedule` is that list. |
| RagSweep.ScheduleSound | code/Simulation/scripts/tsimTrafficGenerator.py:169-170 | Every scheduled percentage is one of the swept percentages. |
| RagSweep.RunRetrials | code/Simulation/scripts/tsimTrafficGenerator.py:170-225 | The files written for one percentage are a prefix of its retrial tags, and all of them when nothing raised. Each file holds a valid population at its own path. A zero-sum pattern raises before the first write. |
| RagSweep.RunPercents | code/Simulation/scripts/tsimTrafficGenerator.py:169-225 | The files written are a prefix of the schedule in sweep order, and the whole schedule when nothing raised. Each file is valid. A zero-sum pattern writes nothing. |
| RagSweep.MakeRandomAgents | code/Simulation/scripts/tsimTrafficGenerator.py:132-225 | `make_random_agents` writes nothing when the pattern has the wrong length or the step is 0. Otherwise it writes a prefix of the (p, r) schedule in order, and all of it unless an exception stopped it. A zero-sum pattern with a non-empty schedule raises before the first file. Every file written is valid at its own path. |
| RagSweep.FilesInBuiltDirs | code/Simulation/scripts/tsimTrafficGenerator.py:111-130 | Every file that `make_random_agents` writes after `build_dirs` lies in one of the directories `build_dirs` created. |
| RagSweep.OutcomeInBuiltDirs | code/Simulation/scripts/tsimTrafficGenerator.py:111-112 | Files tagged from the schedule lie in the directory of their percentage. |
| RoutingGraph.StreetEdgesFrom | code/Simulation/src/routing.cpp:16-19 | The initial distances cover exactly the (start, end) pairs of the streets, and each one is the length of a street with that pair. `StreetEdges` is that initialisation. |
| RoutingGraph.EdgeOrigin | code/Simulation/src/routing.cpp:16-19 | Each initial distance comes from a street with that start and end, and has that street's length. |
| RoutingGraph.EdgeOfStreet | code/Simulation/src/routing.cpp:16-19 | Every street's (start, end) gets an initial distance. |
| RoutingGraph.StreetEdgesShortest | code/Simulation/src/routing.cpp:16-19 | With the corrected initialisation, each initial distance is at most every parallel street's length. |
| RoutingGraph.StreetEdgesLast | code/Simulation/src/routing.cpp:16-19 | As written, the initial distance of a pair is the length of the last street with that pair. |
| RoutingGraph.StreetEdgesProperties | code/Simulation/src/routing.cpp:16-19 | Non-negative (positive) street lengths give non-negative (positive) distances. Streets between listed crossings give distances between listed crossings. |
| RoutingGraph.WeightAppend | code/Simulation/include/routing.hpp:13-21 | Joining two walks at a shared vertex gives a walk whose length is the sum of the two. |
| RoutingGraph.WeightSplit | code/Simulation/include/routing.hpp:13-21 | Cutting a walk at a vertex gives two walks whose lengths add up to the whole. |
| RoutingFW.RoundAt | code/Simulation/src/routing.cpp:33-38 | After round k, a pair has an entry exactly when it was relaxed or already had one. A relaxed pair gets the detour's entry, and every other pair keeps its old one. `Round` is round k. |
| RoutingFW.RoundMonotone | code/Simulation/src/routing.cpp:35-37 | A relaxation never lengthens an entry. A changed entry is strictly shorter, and it copies the first hop toward k and adds the two distances. |
| RoutingFW.RoundBound | code/Simulation/src/routing.cpp:33-37 | After round k, a pair with entries to and from k has an entry no longer than the detour through k. |
| RoutingFW.RoundOutside | code/Simulation/src/routing.cpp:26-31 | Pairs outside the crossing list are never touched. |
| RoutingFW.RoundFixesCross | code/Simulation/src/routing.cpp:33-37 | When spt[k][k] has distance 0, round k leaves every entry into k and out of k as it was. |
| RoutingFW.RoundSound | code/Simulation/src/routing.cpp:35-37 | If every entry is realised by a walk over crossings already processed, this holds again with k added. The walk has the entry's length and its first step goes to the entry's hop. |
| RoutingFW.RoundLeast | code/Simulation/src/routing.cpp:35-37 | If every walk over processed crossings has an entry no longer than it, this holds again with k added, given non-negative lengths. |
| RoutingFW.SplitAround | code/Simulation/src/routing.cpp:35-37 | A walk through k splits into a walk to k and a walk from k, each avoiding k, that are together no longer. |
| RoutingFW.RoundDiagonal | code/Simulation/src/routing.cpp:35 | With non-negative distances, relaxation never changes spt[c][c] = c at distance 0, because a change needs a strict decrease. |
| RoutingFW.RoundNonNegative | code/Simulation/src/routing.cpp:36 | Distances stay non-negative. |
| RoutingFW.RoundHops | code/Simulation/src/routing.cpp:37 | Each off-diagonal hop stays a crossing one street away whose own entry covers the rest of the distance. |
| RoutingFW.RoundInv | code/Simulation/src/routing.cpp:26-41 | One round preserves the whole invariant: sound, least, diagonal, non-negative and hop-advancing. |
| RoutingFW.InitAt | code/Simulation/src/routing.cpp:16-24 | After initialisation, every crossing has spt[c][c] = c at distance 0. Every other street pair has spt[start][end] = end at its initial distance, and there is nothing else. `InitTable` is that initialisation. |
| RoutingFW.InitInv | code/Simulation/src/routing.cpp:16-24 | The initial table satisfies the invariant with no crossing processed. |
| RoutingFW.RoundsInv | code/Simulation/src/routing.cpp:26-41 | The rounds for a list of crossings establish the invariant for exactly those crossings. `Rounds` runs them. |
| RoutingFW.ShortestPathTreeCorrect | code/Simulation/src/routing.cpp:6-44 | For non-negative lengths the final table is sound and least over all crossings, diagonal, non-negative and hop-advancing. `ShortestPathTree` is the table after all rounds. |
| RoutingFW.TreeSound | code/Simulation/src/routing.cpp:26-43 | Each entry between crossings is realised by a walk with its distance whose first step is the entry's hop. |
| RoutingFW.TreeLeast | code/Simulation/include/routing.hpp:13-21 | Every walk between crossings has an entry, and the entry's distance is at most the walk's length. |
| RoutingFW.TreeDiagonal | code/Simulation/src/routing.cpp:21-24 | On return, spt[c][c] = c at distance 0 for every crossing. |
| RoutingFW.TreeHops | code/Simulation/src/routing.cpp:18-37 | For i ≠ j with an entry, spt[i][j] is the end of a street starting at i. Its entry toward j covers the rest of the distance. |
| RoutingFW.ProgressStep | code/Simulation/src/routing.cpp:30-38 | One in-place relaxation of (i, j) moves the loop state one column further toward the round's result. |
| RoutingFW.ProgressDone | code/Simulation/src/routing.cpp:28-40 | After all rows, the in-place table equals the round's result: reading entries already updated in the same round changes nothing. |
| RoutingFW.RelaxThrough | code/Simulation/src/routing.cpp:27-40 | The i/j loops for crossing k compute round k whenever spt[k][k] has distance 0. |
| RoutingFW.InitialDiagonal | code/Simulation/src/routing.cpp:21-24 | Before each round k, spt[k][k] has distance 0. |
| RoutingFW.RelaxAll | code/Simulation/src/routing.cpp:26-41 | The triple loop computes the rounds for every crossing in list order. |
| RoutingFW.CalculateShortestPathTree | code/Simulation/src/routing.cpp:6-44 | `calculateShortestPathTree` returns the shortest-path tree of the model: with ShortestPathTreeCorrect, EntryIffReachable and ShortestStreetIsLeast, the table of reachability, least distances and next hops. |
| RoutingPath.Follow | code/Simulation/src/routing.cpp:54-58 | The walk loop pushes the hop from u first and ends with `end`. Each pushed crossing is the hop toward `end` from the previous one, `end` appears only last, and the path is empty exactly when u == end. `NextHop` is the hop `spt[u][end]`. |
| RoutingPath.RetrievePath | code/Simulation/src/routing.cpp:46-59 | `retrievePath` is empty when spt[start] lacks end, and when start == end. |
| RoutingPath.FollowTerminates | code/Simulation/src/routing.cpp:55-58 | With positive lengths and hop-advancing entries, the walk reaches `end` within as many steps as there are crossings closer to it. |
| RoutingPath.FollowWeight | code/Simulation/src/routing.cpp:54-58 | start + the followed path is a walk over crossings no longer than the entry's distance. |
| RoutingPath.RetrievePathCorrect | code/Simulation/src/routing.cpp:46-59 | On the computed tree with positive lengths, retrieval terminates within \|crossings\| steps. With an entry, start + path is a walk from start to end whose length is the entry's distance. |
| RoutingPath.RetrieveTerminates | code/Simulation/src/routing.cpp:55-58 | For positive lengths, the next-hop walk reaches end within \|crossings\| steps. |
| RoutingPath.RetrieveShortest | code/Simulation/src/routing.cpp:51-58 | The retrieved path omits start, ends at end, and has exactly the tree's least distance. |
| RoutingStreets.RouteVertices | code/Simulation/include/routing.hpp:13-21 | A route of street indices visits the first street's start and then each street's end. |
| RoutingStreets.RouteWalk | code/Simulation/src/routing.cpp:16-19 | A route of streets is a walk over the corrected initial distances, no longer than the route. |
| RoutingStreets.WalkRoute | code/Simulation/src/routing.cpp:16-19 | A walk over the corrected initial distances is realised by a route of streets of exactly its length. |
| RoutingStreets.RouteVia | code/Simulation/include/routing.hpp:13-21 | A route between listed crossings only passes listed crossings. |
| RoutingStreets.ShortestStreetIsLeast | code/Simulation/include/routing.hpp:13-21 | With the corrected initialisation, every route from i to j gives an entry no longer than the route. Each entry for i ≠ j is the length of some route, and spt[i][i] is at distance 0. |
| RoutingStreets.EntryIffReachable | code/Simulation/src/routing.cpp:26-41 | For either initialisation, spt[i] contains j exactly when i == j or j is reachable from i along streets. |
| RoutingStreets.EntryReachable | code/Simulation/src/routing.cpp:26-41 | An entry for i ≠ j means there is a route of streets from i to j. |
| RoutingStreets.ReachableEntry | code/Simulation/src/routing.cpp:26-41 | A route of streets from i to j means spt[i] contains j. |
| RoutingStreets.RouteEdges | code/Simulation/src/routing.cpp:16-19 | A route of streets is a walk over the initial distances for either rule. |
| RoutingStreets.AnyWalkRoute | code/Simulation/src/routing.cpp:16-19 | A walk over the initial distances is realised by a route of streets. |
| RoutingStreets.ParallelResult | code/Simulation/src/routing.cpp:16-19 | For two parallel A→B streets of lengths 1 and 2 in that order, the final A→B distance is 2 as written and 1 when corrected. |
| RoutingStreets.ParallelStreetsCounterexample | code/Simulation/src/routing.cpp:16-19 | As written, the final A→B distance is 2, although the route over the first street has length 1. The corrected initialisation gives 1. |
| RandomActors.ToInt32 | code/Simulation/src/utils.cpp:24 | `static_cast<int>` of a 32-bit pattern is the signed value congruent to it modulo 2³². |
| RandomActors.Mix | code/Simulation/src/utils.cpp:24 | `KISS % (max - min + 1) + min` in unsigned 64-bit arithmetic is a 64-bit value. For a positive range that fits int, its 32-bit cast is min + KISS mod range. |
| RandomActors.Randint | code/Simulation/src/utils.cpp:22-25 | `randint` is undefined exactly when the `int` subtraction `max - min` overflows, when the `+ 1` after it overflows, or when the divisor `max - min + 1` is 0. Otherwise, for min ≤ max, it is min + KISS mod (max − min + 1). |
| RandomActors.RandintSubtractionOverflows | code/Simulation/src/utils.cpp:24 | `randint(1, INT_MIN)` is undefined, because `max - min` overflows, even though `max - min + 1` would fit an `int`. |
| RandomActors.RandintInRange | code/Simulation/include/utils.hpp:12-17 | For min ≤ max, with the range fitting int, `randint(min, max)` lies in [min, max] whatever the KISS value. |
| RandomActors.RandintCovers | code/Simulation/src/utils.cpp:22-25 | Every value of [min, max] is produced by some KISS value. |
| RandomActors.Draw | code/Simulation/src/utils.cpp:33 | `randint(0, n - 1)` for n intersections lies in [0, n). |
| RandomActors.DrawIsRandint | code/Simulation/src/utils.cpp:33-38 | The draw is `randint(0, n - 1)` itself. |
| RandomActors.Retry | code/Simulation/src/utils.cpp:35-40 | The retry loop keeps start and end in [0, n) and makes at most 1000 rounds of two draws. It stops early only on distinct crossings with a matrix entry other than −1. |
| RandomActors.ChoosePath | code/Simulation/src/utils.cpp:27-44 | With no intersections, start and end are untouched and nothing is drawn. Otherwise start is in [0, n) and end is in [0, spt size). They differ whenever the matrix has size ≥ 2. Stopping before the budget means the pair is linked. |
| RandomActors.Successor | code/Simulation/src/utils.cpp:41-43 | The fallback end is inside the matrix and differs from start when the size is ≥ 2. |
| RandomActors.SuccessorIsMod | code/Simulation/src/utils.cpp:42 | The fallback is `(start + 1) % spt->size`. |
| RandomActors.ChoseRandomPath | code/Simulation/src/utils.cpp:27-44 | The imperative loop computes exactly ChoosePath. |
| RandomActors.RetryLoop | code/Simulation/src/utils.cpp:33-40 | The `while` loop with its counter computes exactly Retry from its first draw. |
| RandomActors.FirstWithId | code/Simulation/src/utils.cpp:71-75 | The search finds the first intersection whose id is the actor's start id, or reports that none has it. |
| RandomActors.Enqueue | code/Simulation/src/utils.cpp:71-76 | The actor is appended to the queue of exactly the first intersection whose id equals its start id, and every other intersection stays as it was. |
| RandomActors.GrewByEnqueue | code/Simulation/src/utils.cpp:71-76 | Enqueueing a created actor only extends queues, by actors starting at that intersection. |
| RandomActors.Slot | code/Simulation/src/utils.cpp:51-77 | One iteration is undefined exactly when one of its two `randint`s is. Its out-of-range throw (`world->actors.at(i)`) comes only for a slot outside `world->actors`. On success it either leaves the world as it was, or fills slot i with a created actor. A filled slot's actor also joined the queue of the first intersection with its start id, and no other slot or queue changed. |
| RandomActors.PopulatedStep | code/Simulation/src/utils.cpp:50 | Adding slot i to the finished slots [lo, i) keeps every other slot unchanged. |
| RandomActors.CreateRandomActors | code/Simulation/src/utils.cpp:46-79 | `createRandomActors` writes only slots start … start + numberOfActors − 1. Each one stays as it was (for an empty path) or holds a created actor: its kind and length, speed in [min, max] × 0.277778, insertAfter in [0, max_start_time], distinct ends and a non-empty path. The returned record lists the filled slots in increasing order with their actors. The slots it does not list are unchanged. The final queues are the initial queues with exactly those actors enqueued in slot order. A speed range the C++ leaves undefined fails. No slots means no change. |
| StreetUpdate.Decisions | code/Simulation/src/update.cpp:9-58 | At index 0 the vehicle always has room to drive, never overtakes, and has arrived exactly when its distance is ≤ PRECISION. Behind another vehicle it has arrived exactly when the front one waits and there is no gap, which excludes having room. It overtakes exactly when it is faster, has offset ≤ 0, and fits in the width. |
| StreetUpdate.Min | code/Simulation/src/update.cpp:78 | `std::min` is one of its arguments and no larger than either. |
| StreetUpdate.Trunc | code/Simulation/src/update.cpp:83 | Storing a float into the `int` field `distanceToRight` truncates toward zero. |
| StreetUpdate.Act | code/Simulation/src/update.cpp:64-84 | The three-way decision changes only vehicle i. An arrived vehicle becomes waiting. A driving one advances by exactly min(maxDistance, speed·dt). An overtaking one gets the offset trunc(front offset + front width + 0.5). Otherwise nothing changes, and identity, kind, speed, length and width always stay. The three decisions are `Arrived`, `EnoughSpace` and `Overtake`, and `MaxDistance` is the move limit. |
| StreetUpdate.Order | code/Simulation/src/update.cpp:86-107 | After the ordering check at i > 0, traffic[i−1] is no farther than traffic[i]. Out-of-order neighbours swap places and exchange their lateral offsets. Otherwise only a slower, offset vehicle with clear space ahead may be reset to offset 0. Nothing else changes. |
| StreetUpdate.ActTracks | code/Simulation/src/update.cpp:64-84 | The decision step keeps the same vehicles, each pointer once, and sets waiting only from false to true. |
| StreetUpdate.OrderTracks | code/Simulation/src/update.cpp:86-107 | The ordering step permutes the vehicles, each pointer once, and changes only offsets. |
| StreetUpdate.StepProperties | code/Simulation/src/update.cpp:63-107 | One iteration is a permutation that changes only position, offset and waiting (false to true), and leaves traffic[i−1] ≤ traffic[i] by distance. `Step` is that iteration. |
| StreetUpdate.PassTracks | code/Simulation/src/update.cpp:62-108 | The whole pass over a street permutes its vehicles, keeps each pointer once, and never clears `waitingAtCrossing`. `Pass` is that pass. |
| StreetUpdate.UpdateStreet | code/Simulation/src/update.cpp:62-108 | The imperative loop over one street's traffic computes the pass, which permutes the street's vehicles and changes only what the pass may change. |
| StreetUpdate.UpdateStreets | code/Simulation/src/update.cpp:60-110 | `updateStreets` runs the pass on every street independently and keeps the street list's length. |
| StreetUpdate.FrontPositionPassesFront | code/Simulation/src/update.cpp:70-78 | As written, a vehicle at 100 m, behind a 5 m long front vehicle at 50 m, driving 100 m/s for 1 s, ends at 45 m, ahead of the front vehicle. The ordering step then swaps them. |
| StreetUpdate.GapKeepsBehind | code/Simulation/src/update.cpp:70-78 | With the gap as the limit, a driving vehicle never moves past the rear of the one in front (or past the crossing at index 0), so no swap reorders them. |
| OsmParser.NewBbox | code/Parsing/src/Parser.php:22-36 | After construction lon1 ≤ lon2 and lat1 ≤ lat2. Each pair holds the given values, swapped only when they were given reversed. |
| OsmParser.Occurrence | code/Parsing/src/Parser.php:80-92 | A way position adds 1 or 2 to its node's count. |
| OsmParser.CountPositionsWeight | code/Parsing/src/Parser.php:79-93 | After counting the first k positions of a way, a node's count has grown by its weight there: 2 for the first and last position, 1 for an interior one. It is set exactly when it was set before or occurs there. |
| OsmParser.CountNodesWeight | code/Parsing/src/Parser.php:76-94 | A node's final count is its total weight over all ways, and it is counted exactly when some way uses it. `CountNodes` is that count. |
| OsmParser.WaysWeightAtLeast | code/Parsing/src/Parser.php:80-91 | A node at a position of some way gets at least that position's weight: an endpoint at least 2. |
| OsmParser.Fresh | code/Parsing/src/Parser.php:99-104 | A kept node gets the string of its id, no roads, and roundabout = false. |
| OsmParser.KeepNodes | code/Parsing/src/Parser.php:97-106 | Every kept node is a listed raw node that passed the test, stored as a fresh node. Every raw node that passes is kept. |
| OsmParser.EndpointsKept | code/Parsing/src/Parser.php:77-106 | Every way endpoint that the raw data lists is kept. |
| OsmParser.KeptIff | code/Parsing/src/Parser.php:98 | A node is kept exactly when some way uses it and its weight is above 1 or it is tagged `traffic_signals`. `ParseNodes` with the test `Keep` is that selection. |
| OsmParser.Split | code/Parsing/src/Parser.php:120-134 | Splitting starts at the first node. Segment k's end is segment k+1's start, and every segment end and later start is a kept node. Only the last segment may stay open, which it does exactly when the last node was not kept. There is one segment per kept node at positions 1 … n−2, plus the first. |
| OsmParser.OpenersKept | code/Parsing/src/Parser.php:127-134 | The kept nodes at positions 1 … n−1 are the segment openers plus a kept last node. |
| OsmParser.SegmentsPerKeptNode | code/Parsing/src/Parser.php:127-134 | When a way ends at a kept node, it yields exactly one closed segment per kept node at positions 1 … n−1. |
| OsmParser.EmitOneway | code/Parsing/src/Parser.php:148-155 | `oneway=yes` appends roads c and c+1 with reversed endpoints that name each other as opposite, and advances `streetCount` by 2. Each road is registered as "outgoing" at its start and under its end node's own controller ("traffic_signal" or "NONE") at its end. This is stated through `RegisterOneway`. |
| OsmParser.RegisterOnewayRegisters | code/Parsing/src/Parser.php:151-154 | The four registrations of a oneway pair only add to the road lists. Each of the two roads ends up "outgoing" at its start and under its end node's controller at its end. |
| OsmParser.EmitTwoWay | code/Parsing/src/Parser.php:156-161 | Any other way appends one road with opposite "-1" and advances `streetCount` by 1. The road is registered as "outgoing" at its start and under its end node's own controller at its end. |
| OsmParser.EmitSegment | code/Parsing/src/Parser.php:137-161 | A segment fails exactly when it is open or an end is not a kept node. Otherwise it appends one road, or a partnered pair for `oneway=yes`, numbered from `streetCount`. Each road registers "outgoing" at its start and the end node's controller at its end. |
| OsmParser.EmitSegments | code/Parsing/src/Parser.php:137-162 | A way's segments fail exactly when one is broken. Otherwise they append 1 or 2 roads each, all numbered and paired. Each road is registered as "outgoing" at its start and under its end node's controller at its end. |
| OsmParser.WaySegments | code/Parsing/src/Parser.php:118-134 | A way without nodes fails (`$nodes[0]`). Otherwise the segments are the split. |
| OsmParser.EmitWays | code/Parsing/src/Parser.php:116-163 | The road loop appends a numbered and paired block of roads from the remaining ways, and never succeeds on a way without nodes. Each road is registered as "outgoing" at its start and under its end node's controller at its end. |
| OsmParser.PairSharesLanes | code/Parsing/src/Parser.php:177-183 | With `lanes` and `lanes:forward`, the lower-id road of a oneway pair gets `lanes:forward` and its partner gets the rest of `lanes`. `LaneCount` and `LaneKind` are the lane rule this states. |
| OsmParser.LaneArray | code/Parsing/src/Parser.php:204-206 | The lane loop produces max(0, lanes) copies of one lane of the given type. |
| OsmParser.RoadStreets | code/Parsing/src/Parser.php:166-213 | A primary/trunk/secondary way without `bicycle=no` first adds a single-bike-lane street under key `streetCount` + 1, with no opposite id, and increments the counter. The road then gets its entry under its own id. The lanes are `LaneKind`'s type repeated `LaneCount` times, and the entry carries the opposite id when paired. Both entries share the road's endpoints, `maxspeed` (or 50) and the rounded distance (`StreetOf`). |
| OsmParser.RoadStreetsDescribes | code/Parsing/src/Parser.php:166-213 | One road's entries are exactly its own entry and, when the way gets one, its bike street. Nothing else is added. |
| OsmParser.EmitStreets | code/Parsing/src/Parser.php:166-214 | The lane loop never lowers `streetCount` and yields at least one entry per road. |
| OsmParser.StreetsDescribeRoads | code/Parsing/src/Parser.php:166-214 | The lane loop over a list of roads stores, for each road, its own entry under its id, and a bike street for each road whose way gets one. Every entry it stores is one of these. |
| OsmParser.RoadStreetsKeys | code/Parsing/src/Parser.php:197-213 | One road raises the counter by at most 1. Its bike entry lies in (count, count'], its road entry is under its id, and it covers the road. |
| OsmParser.BikeKeys | code/Parsing/src/Parser.php:197-199 | Every bike street is keyed above the counter before the loop and at most the counter after it. |
| OsmParser.RoadKeys | code/Parsing/src/Parser.php:209-213 | Every other entry is keyed by a road's id. |
| OsmParser.StreetsCoverRoads | code/Parsing/src/Parser.php:166-214 | Every split road has a street entry under its id. |
| OsmParser.StreetKeysDistinct | code/Parsing/src/Parser.php:166-214 | With road ids below the counter, no two street entries share a key, so no bike street overwrites a road. |
| OsmParser.ParseStreets | code/Parsing/src/Parser.php:113-215 | `parseStreets` succeeds only when every way has nodes. Its roads are numbered from 0, registered at their ends and paired. Node road lists only grow. Every road has a street entry, and all keys are distinct. Every entry is described: each road has its own entry, each road that gets a bike street has one, and every entry is one of these. |
| ZoneAgents.MakeZone | code/Parsing/src/AgentGenerator.php:21-27 | The zone's centre is the box's midpoint. Its radius is round(min(east–west, north–south half-distance) / 3). |
| ZoneAgents.Partition | code/Parsing/src/AgentGenerator.php:142-152 | `readData` splits the intersections into nodesIn and nodesOut with nothing lost or duplicated: inside the radius goes in, beyond it goes out. |
| ZoneAgents.PartitionExact | code/Parsing/src/AgentGenerator.php:145-151 | Each intersection lands in exactly one of the two pools, as often as it occurs in the export. |
| ZoneAgents.ReadPools | code/Parsing/src/AgentGenerator.php:145-151 | The two id pools together have as many ids as the export has intersections. |
| ZoneAgents.HourAmount | code/Parsing/src/AgentGenerator.php:118-120 | An hour's amount is round(fraction × maxCarAmount), between 0 and round(maxCarAmount). |
| ZoneAgents.CarDistribution | code/Parsing/src/AgentGenerator.php:110-123 | `calculateCarDistribution` returns 24 entries, each round(fraction × maxCarAmount). |
| ZoneAgents.PeakHour | code/Parsing/src/AgentGenerator.php:116-120 | Hour 17 (fraction 1) gets round(maxCarAmount), and no hour gets more or a negative amount. |
| ZoneAgents.PerMinute | code/Parsing/src/AgentGenerator.php:55 | `max(round($amount / 60), 1)` is at least 1. |
| ZoneAgents.Thresholds | code/Parsing/src/AgentGenerator.php:59 | The three direction thresholds are ordered and lie in [0, amount] for a direction share in [0, 1]. |
| ZoneAgents.RouteBands | code/Parsing/src/AgentGenerator.php:76-92 | The hour's n-th car goes out→in below threshold 0, in→in up to threshold 1, in→out up to threshold 2, and out→out after that. `RouteOf` is that choice. |
| ZoneAgents.RoutesInOrder | code/Parsing/src/AgentGenerator.php:76-92 | Within an hour, routes come in the order out→in, in→in, in→out, out→out. |
| ZoneAgents.Pick | code/Parsing/src/AgentGenerator.php:77-78 | `$pool[rand(0, count($pool) - 1)]` is an id of a non-empty pool. An empty pool reads null, here "". `NodeAt` reads the index. |
| ZoneAgents.DistinctPair | code/Parsing/src/AgentGenerator.php:80-83 | The `while ($startId == $endId)` loop exits only with two different ids of the pool, after at least two draws. |
| ZoneAgents.NoDistinctNeverExits | code/Parsing/src/AgentGenerator.php:80-91 | A pool without two distinct ids never lets the loop exit. |
| ZoneAgents.DistinctExits | code/Parsing/src/AgentGenerator.php:80-83 | Two draws of distinct ids end the loop with exactly that pair. |
| ZoneAgents.MakeCar | code/Parsing/src/AgentGenerator.php:64-92 | A car has length in {3.5, 4, 4.5, 5}, maxVelocity in [100, 250], acceleration in [1.5, 5], deceleration in [2, 6] and exponent in [8, 12]. Its ends come from its route's pools and differ for in→in and out→out. Only those two routes can fail to finish. |
| ZoneAgents.MinuteCars | code/Parsing/src/AgentGenerator.php:62-97 | One minute appends exactly the per-minute count of cars. They are keyed by consecutive counter values, routed by their rank in the hour, and wait that minute's 60·i seconds. |
| ZoneAgents.HourCars | code/Parsing/src/AgentGenerator.php:61-99 | An hour appends 60 × the per-minute count of cars with consecutive keys. Waiting periods are multiples of 60 in [60·i, 3540], restarting each hour. |
| ZoneAgents.DayCars | code/Parsing/src/AgentGenerator.php:53-100 | The day appends the sum over the hours of 60 × max(round(amount/60), 1) cars. All are keyed by the one counter, in range, and wait {0, 60, …, 3540}. `DayCount` is that sum. |
| ZoneAgents.GenerateCars | code/Parsing/src/AgentGenerator.php:42-104 | `generateCars` yields exactly the day's count of cars. The n-th is keyed `strval(n)`, has its kinematics in range, and waits a whole number of minutes up to 3540. The day's count is `DayCount` over the distribution of `MaxCarAmount`, the rounded box area over 3000. |
| ZoneAgents.KeysDistinct | code/Parsing/src/AgentGenerator.php:94-96 | Keys drawn from one counter are distinct. |
| ZoneAgents.HourAtLeastSixty | code/Parsing/src/AgentGenerator.php:55-62 | Each hour adds at least 60 cars, even for an amount of 0. |
| IdCaster.PyInt | code/Parsing/src/temporaryCaster.py:36-37 | Python `int()` keeps an integer, raises on `None`, and parses a string exactly when `Strings.ParseInt` reads it. That is: whitespace around it, an optional sign, and decimal digits with single underscores between them. |
| IdCaster.CastValue | code/Parsing/src/temporaryCaster.py:26-46 | A dict value is walked with its keys kept, and a list value is walked with its length kept, under any key (those branches come first). A scalar under "id" or "oppositeStreetId" becomes `str(value)`, under "start"/"end" it becomes `{"id": str(value)}`, under "speed_limit" it becomes `int(value)` (raising exactly when `int` does), and under any other key it stays. |
| IdCaster.WalkDict | code/Parsing/src/temporaryCaster.py:18-46 | `dict_walker_id_caster` keeps the dict's key sequence and reassigns each value to its cast. |
| IdCaster.WalkList | code/Parsing/src/temporaryCaster.py:7-15 | `list_processor` walks the list from its first item. It keeps the list's length. A first item that is a dict whose walk fails stops the walk with that error, before any later item is looked at. |
| IdCaster.WalkItem | code/Parsing/src/temporaryCaster.py:13-15 | One list item: a dict is walked and fails exactly when its walk does, and anything else stays. |
| IdCaster.WalkListHead | code/Parsing/src/temporaryCaster.py:13-15 | The walk of a list is the walk of its tail after its head. A non-dict head stays, and a dict head is walked. |
| IdCaster.WalkListElements | code/Parsing/src/temporaryCaster.py:7-15 | Inside lists only dict elements are walked. Scalars and nested lists are left untouched. |
| IdCaster.CastDocument | code/Parsing/src/temporaryCaster.py:56-57 | A document that is not a dict is left as it is, and a dict document keeps its keys. |
| IdCaster.CastValueIdempotent | code/Parsing/src/temporaryCaster.py:26-46 | Casting a value twice under the same key equals casting it once. |
| IdCaster.WalkDictIdempotent | code/Parsing/src/temporaryCaster.py:18-46 | Walking an already walked dict changes nothing: wrapped start/end are dicts on the second pass, and `str`/`int` are stable. |
| IdCaster.WalkListIdempotent | code/Parsing/src/temporaryCaster.py:7-15 | Walking an already walked list changes nothing. |
| IdCaster.CastDocumentIdempotent | code/Parsing/src/temporaryCaster.py:52-57 | Running the normaliser on its own output gives the same document. |
| ArrivedAgents.Field | code/Simulation/scripts/getArrivedAgents.py:25-29 | `a[key]` succeeds exactly on a dict holding the key and returns its value. Otherwise it raises `KeyError` on a dict and `TypeError` on anything else. |
| ArrivedAgents.First | code/Simulation/scripts/getArrivedAgents.py:17 | `[0]` of a non-empty list is its first element. Of an empty list or string it raises `IndexError`. |
| ArrivedAgents.AgentsValue | code/Simulation/scripts/getArrivedAgents.py:17 | `sim_out["simulation"][0]["agents"]` succeeds exactly when each step finds what it indexes, and it returns the value stored there. |
| ArrivedAgents.AgentsOf | code/Simulation/scripts/getArrivedAgents.py:17-24 | Iterating `sim_out["simulation"][0]["agents"]` with `.items()` raises what the lookup raises, raises `AttributeError` on any value that is not a dict, and otherwise gives that dict. |
| ArrivedAgents.SplitAgents | code/Simulation/scripts/getArrivedAgents.py:62-68 | The loop succeeds exactly when every agent has an `end_time`. Then each id goes to exactly one list, both lists keep iteration order, arrived holds exactly the ids with `end_time != -1`, and stuck holds the rest. |
| ArrivedAgents.SplitArrivedStuck | code/Simulation/scripts/getArrivedAgents.py:56-68 | `split_arrived_stuck` raises what the agent lookup raises, and otherwise is the split of the agents. |
| ArrivedAgents.PrependClassified | code/Simulation/scripts/getArrivedAgents.py:63-66 | Adding one agent's id to its side keeps both lists exact. |
| ArrivedAgents.ReadAgent | code/Simulation/scripts/getArrivedAgents.py:25-30 | One agent is read exactly when the fields the three tests touch exist. done means `end_time != -1`. waiting means `end_time == -1` and `distance_to_side == -10000.0`. held_back means `start_time != -1`. done and waiting exclude each other. |
| ArrivedAgents.CountAgents | code/Simulation/scripts/getArrivedAgents.py:19-30 | The counting loop succeeds exactly when every agent is readable. Then total is the number of agents, and done + waiting ≤ total and held_back ≤ total. |
| ArrivedAgents.Tally | code/Simulation/scripts/getArrivedAgents.py:24-30 | One agent adds one to the total and keeps the counters within it. |
| ArrivedAgents.CountsMatchSplit | code/Simulation/scripts/getArrivedAgents.py:24-30 | Whenever the counters can be read, the split succeeds too. `done` is the length of the arrived list, and total − done is the length of the stuck list. |
| ArrivedAgents.WaitingIsStuck | code/Simulation/scripts/getArrivedAgents.py:27-28 | An agent counted as waiting is in the stuck list. |
| ArrivedAgents.Percent | code/Simulation/scripts/getArrivedAgents.py:33-35 | `n / total * 100` lies in [0, 100], and is 100 when n == total. |
| ArrivedAgents.PrintStats | code/Simulation/scripts/getArrivedAgents.py:11-35 | `print_stats` raises what the agents lookup raises. `len(agents)` comes first, so a number, boolean or `None` raises `TypeError`. A string or list passes `len` and then raises `AttributeError` at `.items()`. Zero agents raise `ZeroDivisionError`. It succeeds exactly when there are agents and all are readable, reports the counted values, and gives each percentage in [0, 100]. |
| ArrivedAgents.Put | code/Simulation/scripts/getArrivedAgents.py:47 | `result[key] = value` overwrites in place or appends a new key, and the key then maps to the value. |
| ArrivedAgents.Iterate | code/Simulation/scripts/getArrivedAgents.py:45 | Iterating a dict yields its key strings in order. |
| ArrivedAgents.Unpack | code/Simulation/scripts/getArrivedAgents.py:45 | `key, value = s` on a string succeeds exactly when it has two characters, and gives them as two one-character strings. |
| ArrivedAgents.AsWrittenKeepOk | code/Simulation/scripts/getArrivedAgents.py:45-51 | As written, the loop over a dict's keys gets through exactly when every key has two characters. `AsWrittenKeep` is that loop. |
| ArrivedAgents.AsWrittenNeedsTwoCharIds | code/Simulation/scripts/getArrivedAgents.py:38-53 | As written, `build_new_imput` returns only when every bike id has two characters. `AsWrittenBuild` is `build_new_imput` as written. |
| ArrivedAgents.AsWrittenRejectsLongId | code/Simulation/scripts/getArrivedAgents.py:45-47 | As written, a bike with id "100" makes it raise `ValueError`. |
| ArrivedAgents.AsWrittenDropsAllowedAgent | code/Simulation/scripts/getArrivedAgents.py:45-47 | As written, an allowed bike "10" is dropped: it unpacks to "1" and "0", and "1" is not allowed. |
| ArrivedAgents.Filter | code/Simulation/scripts/getArrivedAgents.py:44-51 | The intended filter keeps exactly the entries whose key is allowed, in order. |
| ArrivedAgents.KeepFilters | code/Simulation/scripts/getArrivedAgents.py:45-47 | Over distinct keys, the `.items()` loop that stores allowed entries computes the filter. `Keep` is that loop. |
| ArrivedAgents.KeepSection | code/Simulation/scripts/getArrivedAgents.py:45-51 | A section is filtered exactly when it is a dict. With distinct keys the result is the filter. |
| ArrivedAgents.BuildNewInput | code/Simulation/scripts/getArrivedAgents.py:38-53 | The corrected `build_new_imput` succeeds exactly when "bikes" and "cars" are dicts, and returns both filtered to the allowed ids. |
| ArrivedAgents.BuildKeepsAllowedAgent | code/Simulation/scripts/getArrivedAgents.py:38-53 | Corrected, the allowed bike "10" is kept. |
| ArrivedAgents.Rebuild | code/Simulation/scripts/getArrivedAgents.py:112-122 | An output is built exactly when asked for, and it is the input filtered by the corrected `build_new_imput`. |
| ArrivedAgents.Outputs | code/Simulation/scripts/getArrivedAgents.py:108-122 | The arrived and stuck outputs exist exactly when asked for. They are the input filtered to the arrived and to the stuck ids by the corrected `build_new_imput`. The files written from them are stated by `ArrivedAgents.WriteOutputs`. |
| ArrivedAgents.RunScript | code/Simulation/scripts/getArrivedAgents.py:101-122 | The script fails as `print_stats` does. Asking for arrived or stuck output without an input file raises `ValueError`. Each requested output is the input filtered to the arrived or stuck ids of the split, by the corrected `build_new_imput`. |
| ArrivedAgents.StatsThenSplit | code/Simulation/scripts/getArrivedAgents.py:102-109 | When `print_stats` got through, `split_arrived_stuck` cannot fail. |
| ArrivedAgents.WriteJson | code/Simulation/scripts/getArrivedAgents.py:76-78 | `write_json` succeeds exactly when the file then holds the data. Otherwise the file is left empty and `AttributeError` is raised. As written, with the path passed as `json.dump`'s file, that always happens. |
| ArrivedAgents.Rebuilt | code/Simulation/scripts/getArrivedAgents.py:114 | `build_new_imput` as written (`ArrivedAgents.AsWrittenBuild`) or corrected (`ArrivedAgents.BuildNewInput`), by the rule. |
| ArrivedAgents.WriteOne | code/Simulation/scripts/getArrivedAgents.py:112-122 | An output not asked for leaves its file unopened. A rebuild that raises does so before the file is opened. Otherwise the rebuilt input goes to `write_json`. As written, the rebuild is the as-written `build_new_imput` and the write is `json.dump(data, path)`. Corrected, both are fixed. |
| ArrivedAgents.WriteOutputs | code/Simulation/scripts/getArrivedAgents.py:112-122 | A file holds content only with both corrections, only when its output was asked for, and then it holds that output's corrected rebuild. As written, any requested output raises, and a requested arrived file leaves the stuck file unopened. When the as-written rebuild of the arrived output raises, no file is opened and its error is the result. Corrected, a rebuilt arrived output is in its file even when the stuck rebuild then fails. |
| ArrivedAgents.Script | code/Simulation/scripts/getArrivedAgents.py:98-122 | The whole script with its rebuilds and writes. A `print_stats` error comes first and touches no file. Success reports the statistics. Without `-a` and `-s` no file is touched. As written, no file ever holds content, and asking for any output makes the script raise. |
| ArrivedAgents.ScriptWritesOutcome | code/Simulation/scripts/getArrivedAgents.py:98-122 | With both corrections, the script succeeds exactly when `RunScript` does. Its files then hold exactly `RunScript`'s outputs, and the untouched ones are those not asked for. |
| ArrivedAgents.AsWrittenEmptiesArrivedFile | code/Simulation/scripts/getArrivedAgents.py:76-78 | As written, a run with `-a` whose statistics, split and as-written rebuild all succeed (every bike and car id has exactly two characters) leaves the arrived file empty. It raises `AttributeError` and never opens the stuck file. |
| ArrivedAgents.AsWrittenKeepRaises | code/Simulation/scripts/getArrivedAgents.py:45-47 | As written, the loop over key strings raises `ValueError` when any key is not two characters long. |
| ArrivedAgents.AsWrittenBuildRaises | code/Simulation/scripts/getArrivedAgents.py:36-51 | As written, a bike id that is not two characters long makes `build_new_imput` raise `ValueError`. |
| ArrivedAgents.AsWrittenRaisesBeforeOpening | code/Simulation/scripts/getArrivedAgents.py:112-116 | As written, when `build_new_imput` raises for the arrived output, the script raises that error before `write_json` opens any file. |
| ArrivedAgents.AsWrittenLongIdOpensNothing | code/Simulation/scripts/getArrivedAgents.py:112-116 | As written, a bike id such as "100" or "7" ends a run with `-a` in `ValueError`, with no file opened. |
| Php.Round | code/Parsing/src/AgentGenerator.php:26 | PHP `round` rounds half away from zero: the result is within ½ of x and has x's sign. |
| Php.Rand | code/Parsing/src/AgentGenerator.php:64-72 | `rand(lo, hi)` lies between the bounds, in either order. |
| Php.RandCovers | code/Parsing/src/AgentGenerator.php:64-72 | Every value between the bounds is produced by some raw draw. |
| Strings.NatToStringInjective | code/Simulation/scripts/tsimTrafficGenerator.py:201 | `f"{id_int}"` gives distinct ids distinct keys. |
| Strings.Pad2Injective | code/Simulation/scripts/tsimTrafficGenerator.py:112 | `{r:02d}` gives distinct retrials distinct file names. |
| Strings.Pad2 | code/Simulation/scripts/tsimTrafficGenerator.py:112 | `{r:02d}` of a non-negative number has at least two characters, all decimal digits. |
| Strings.ParseIntOfIntToString | code/Parsing/src/temporaryCaster.py:37 | `int(str(i)) == i`, through `Strings.ParseInt`, the model of Python `int()` on a string. |
| Strings.ParseIntOfDigits | code/Parsing/src/temporaryCaster.py:37 | `int()` of a string of decimal digits is their decimal value. |
| Strings.ParseIntOfNegative | code/Parsing/src/temporaryCaster.py:37 | `int()` of a minus sign followed by decimal digits is minus their value. |
| Strings.ParseIntIgnoresSpace | code/Parsing/src/temporaryCaster.py:37 | `int()` reads a number the same with any whitespace before and after it: `int(" 50 ")` is `int("50")`. |
| Strings.ParseIntSkipsUnderscore | code/Parsing/src/temporaryCaster.py:37 | A single underscore between digit groups is skipped: `int("1_000")` is 1000. |
| Strings.ParseIntRejectsDoubleUnderscore | code/Parsing/src/temporaryCaster.py:37 | Two underscores in a row make `int()` raise `ValueError`. |
| Strings.IntValOfIntToString | code/Parsing/src/Parser.php:172 | `intval(strval(i)) == i`, through `Strings.IntVal`, the model of PHP `intval` on a string. |
| Strings.IntValOfDigits | code/Parsing/src/Parser.php:172 | `intval` of a string of decimal digits is their decimal value. |
| Strings.IntValOfNegative | code/Parsing/src/Parser.php:172 | `intval` of a minus sign followed by decimal digits is minus their value. |
| Json.Get | code/Simulation/scripts/getArrivedAgents.py:17 | A key lookup finds a value exactly when the key is present, and the value is stored under that key. |

## Left out

- Floating point: every `float`, `double` and Python float is an exact `real`. `int(num_agents * w / div)` truncates the exact quotient, PRECISION is exactly 2 × 2⁻²³, and speeds use the factor 0.277778 exactly. Rounding error, NaN and infinities are not modelled.
- Randomness:
  - Python `random`, PHP `rand`, `std::rand` and the KISS generator are explicit streams that the caller passes in;
  - the seeding (`random.seed` from the clock or the `seed` argument) is not modelled;
  - the KISS state update (MWC, XSH, CNG) is not modelled: its outputs are an arbitrary stream of unsigned 64-bit values.
- Input and output:
  - `load_data` and `json.load`/`json.dump` are not modelled;
  - `write_agents_file` only computes its path, and `build_dirs` only computes its directory list (`os.makedirs` is not modelled);
  - `print` and `std::cerr` messages, the `argparse` entry points, and file handling in `temporaryCaster.py` and `getArrivedAgents.py` are not modelled.
- `write_json` in `getArrivedAgents.py` passes the path rather than the file to `json.dump`. `open(path, "w")` has already emptied the file, and `json.dump` then calls `write` on a `str`, which raises `AttributeError`. So as written every write raises, and the script never produces an output file with content. A write is only reached when the as-written `build_new_imput` returns, that is when every bike and car id has exactly two characters. For any other id, the `ValueError` at line 114 comes first and no file is opened. `ArrivedAgents.Script` models both under `AsWritten`. The file system itself is only the three states untouched, emptied and holding a document.
- ArrivedAgents.RunScript: it states the outputs of the script with the corrected `build_new_imput` and before any write. As written, `build_new_imput` raises `ValueError` for any bike or car id that is not two characters long. It reads a two-character id as its first character, so it drops an allowed id such as "10". When it does return, the first `write_json` raises `AttributeError` after emptying its file, so with `-a` and `-s` the stuck file is never produced. ArrivedAgents.Rebuild and ArrivedAgents.Outputs share this choice. The as-written run and its files are stated by `ArrivedAgents.Script` under `AsWritten`, and the corrected one by `ArrivedAgents.ScriptWritesOutcome`.
- ArrivedAgents.Outputs: it gives both filtered outputs, built by the corrected `build_new_imput`. As written, the first rebuild raises `ValueError` unless every id has two characters, and otherwise the first `write_json` raises `AttributeError` before the second output is built. That behaviour is stated by `ArrivedAgents.WriteOutputs`, `ArrivedAgents.AsWrittenLongIdOpensNothing` and `ArrivedAgents.AsWrittenEmptiesArrivedFile`.
- ArrivedAgents.Rebuild: it uses the corrected `build_new_imput`. The as-written loop is `ArrivedAgents.AsWrittenBuild`.
- `readData` and `writeJSON` of `Parser.php` are not modelled: the Overpass network call and the file write. The raw ways and nodes are inputs.
- The `readData` file read and `writeJSON` of `AgentGenerator.php` are not modelled. The exported intersections are an input.
- The haversine `distance` of `Parser.php` and `AgentGenerator.php` is a function parameter, because it is floating-point trigonometry.
- PHP loose comparison is not modelled. Ids compare as strings in the `while ($startId == $endId)` loops. `"-1"` is `None`. `oppositeStreetId > id` compares numbers. The lane loop at `Parser.php:204` compares `$i < $lanes` against the raw tag string, while `OsmParser.LaneCount` reads the tag with `intval`:
  - a tag of "2.5" or "2;3" gives 3 lanes in PHP but 2 in the model;
  - a non-numeric tag makes PHP 8 compare as strings, so the loop never ends;
  - `lanes - lanes:forward` (`Parser.php:180`) on a non-numeric tag raises `TypeError` in PHP 8.
- JSON objects are ordered association lists. Duplicate keys are not collapsed as `json.load` would do. The results about filtering (`KeepSection`, `BuildNewInput`) are stated for distinct keys.
- `str` of a float in `temporaryCaster.py` is the parameter `repr`, because Python's shortest-repr float printing is not modelled.
- `calculateShortestPathTree` is declared with an `include` street-type filter (`routing.hpp:21`), but the implementation shown takes none. The model follows `routing.cpp`.
- The `retrievePath` over the `spt_t` matrix that `createRandomActors` calls is not shown. It is the parameter `retrieve`.
- The ids a fresh `Actor` carries before `choseRandomPath` runs are the parameter `unset`.
- The C++ `assert` on equal ends is modelled as an error value. A build with `NDEBUG` would skip it.
- The leaked `new Actor()` of a skipped slot is not modelled.
- The pass over `world->streets` assumes that each street's `traffic` holds distinct pointers and that no actor sits on two streets.
- The `opposite` pointer of `Street`, and the crossing and world fields the pass does not read, are not modelled.
- A `traffic_pattern` argument that is neither a bool nor a list passes unchecked in Python. The model only offers the three documented forms.
- The MapCreation JavaScript UI is not part of this model, and neither are:
  - the C++ drivers (`Simulate.cpp`, `Visualize.cpp`, `largeSim.cpp`, `main.cpp`, `GenerateAgents.cpp`, `PrecalculateSPT.cpp`);
  - the JSON marshalling in `io.cpp`/`export.cpp`;
  - the declarations-only headers `base64.hpp` and `update.hpp`;
  - the Python plotting, database, server and batch-script tools.
- The commented-out OpenMP parallelism is not modelled. Everything is sequential.
- RoutingPath.Follow: the `while (u != end)` loop runs on `fuel` steps and yields `None` when they run out. RoutingPath.FollowTerminates and RoutingPath.RetrieveTerminates show that \|crossings\| steps suffice on the computed tree when lengths are positive. With zero-length cycles the source loop may not terminate, and the model does not decide that case.
- RoutingPath.RetrievePath: its own contract states only the two empty cases. The path's shape, termination and length are stated by RoutingPath.RetrievePathCorrect and RoutingPath.RetrieveShortest.
- ZoneAgents.DistinctPair: the PHP `while` loop is bounded by `fuel`. ZoneAgents.NoDistinctNeverExits shows that a pool without two distinct ids never exits for any fuel, which is where the source spins forever. MakeCar, MinuteCars, HourCars, DayCars and GenerateCars inherit the bound as a `None` result.
- ZoneAgents.GenerateCars: its contract states the count, keys, kinematics and waiting periods. Routes and pools are stated per hour by ZoneAgents.HourCars.
- RagSampling.SamplePair: its own contract states the result's shape. The per-draw trace (rejections before the last draw, 1000 rejections without a pair, the first missing row) is in RagSampling.SamplePairTrace.
- IdCaster.WalkList: its own contract states the length and that a failing first dict stops the walk. The element-wise behaviour is in IdCaster.WalkListElements and IdCaster.WalkListHead.
- OsmParser.EmitStreets: its own contract states only that the counter never falls and that each road yields an entry. The entries themselves are stated by OsmParser.StreetsDescribeRoads and OsmParser.ParseStreets.
- IdCaster.PyInt: Python `int()` also accepts non-ASCII Unicode decimal digits (such as Arabic-Indic digits). `Strings.ParseInt` reads only ASCII 0–9 and treats any other digit as a `ValueError`.
- Strings.IntVal: PHP 7.1 and later read a numeric string such as "1e3" as a float and then truncate it, and a value beyond the integer range saturates. The model reads only the sign and the leading decimal digits, so `maxspeed` values in exponent form or with overflow are not modelled.
- RagSweep.Trial: the agents of a trial are bounded by the slot count rather than equal to it, because slots whose 1000 draws all fail are skipped without consuming an id.

## Findings

| source | as written | input that shows it | evidently intended | confidence | as-written member | corrected member |
|---|---|---|---|---|---|---|
| code/Simulation/scripts/tsimTrafficGenerator.py:181-182 | `cars_of_hour = int(total * (100 - p / 100))` scales the total by almost 100, so `bikes_of_hour` is never positive for p ≤ 9900 and no bike is ever generated | an hour total of 24 at p = 10 gives 2397 car slots and −2373 bikes | `int(total * (100 - p) / 100)`: p % of the hour's agents are bikes, and a trial writes at most `num_agents` agents | not executed | RagDemand.AsWrittenStarvesBikes | RagSweep.PercentTrialWithinBudget |
| code/Simulation/src/routing.cpp:16-19 | each street overwrites `minimumDistance[start][end]`, so of two parallel streets the last one counts, even when it is longer | streets A→B of length 1 and then of length 2 give a final A→B distance of 2 | the initial distance is the shortest parallel street, so every entry is the least route length | not executed | RoutingStreets.ParallelStreetsCounterexample | RoutingStreets.ShortestStreetIsLeast |
| code/Simulation/src/update.cpp:75 | `maxDistance = front->distanceToCrossing + front->length` caps the move by the front vehicle's position, not by the gap to it | front at 50 m (5 m long) and follower at 100 m driving 100 m/s for 1 s: the follower ends at 45 m, past the front | the move is capped by the gap `actor.distance − (front.distance + front.length)`, so a driving vehicle never passes the one ahead | not executed | StreetUpdate.FrontPositionPassesFront | StreetUpdate.GapKeepsBehind |
| code/Simulation/scripts/getArrivedAgents.py:45-51 | `for key, value in bikes:` iterates the keys and unpacks each key string into two characters | a bike id "100" raises `ValueError`, and an allowed bike id "10" is dropped | `for key, value in bikes.items():`, keeping exactly the allowed agents | not executed | ArrivedAgents.AsWrittenDropsAllowedAgent | ArrivedAgents.BuildNewInput |
| code/Simulation/scripts/getArrivedAgents.py:76-78 | `json.dump(data, path)` passes the path string as the file, after `open(path, "w")` has emptied it | a run with `-a out.json` where every bike and car id in the input has exactly two characters, so the as-written `build_new_imput` returns: `out.json` is left empty and `str` has no attribute `write`. On other ids the `ValueError` at line 114 comes first | `json.dump(data, file)`, so each requested file holds its rebuilt input | not executed | ArrivedAgents.AsWrittenEmptiesArrivedFile | ArrivedAgents.ScriptWritesOutcome |

The split rule (`RagDemand.SplitRule`), the initialisation rule for parallel streets (`RoutingGraph.InitRule`) and the drive rule (`StreetUpdate.DriveRule`) select between the code as written and the corrected code; members that hold for both take the rule as an argument, the agents-file rebuild (`ArrivedAgents.RunScript`) uses the corrected filter, and the script rule (`ArrivedAgents.ScriptRule`) selects between the whole script as written, with its `build_new_imput` and `write_json`, and the script with both corrected.

=== FILE: arrived_agents.dfy ===
/**
 * The arrived-agents script: reads a simulation's agents output, counts
 * how many agents arrived, waited or never left their queue, splits the
 * agent ids into arrived and stuck, and filters the original agents input
 * down to either group.
 *
 * JSON files are supplied as loaded documents; reading and writing them
 * and the printed lines are not part of this model.
 */
module ArrivedAgents {
  import opened Wrappers
  import opened Seqs
  import opened Json

  /** The Python exceptions the script can raise on a loaded document. */
  datatype Raised =
    | KeyError
    | IndexError
    | TypeError
    | AttributeError
    | ValueError
    | ZeroDivisionError

  type Agents = seq<(string, Json)>

  /** `v[key]` with a string key: a dict looks it up; nothing else can be indexed by a string. */
  function Field(v: Json, key: string): (r: Result<Json, Raised>)
    ensures r.Ok? <==> v.JObj? && key in Keys(v.fields)
    ensures r.Ok? ==> Get(v.fields, key) == Some(r.value)
    ensures r.Err? ==> r.error == (if v.JObj? then KeyError else TypeError)
  {
    match v
    case JObj(fields) =>
      (match Get(fields, key)
       case Some(x) => Ok(x)
       case None => Err(KeyError))
    case _ => Err(TypeError)
  }

  /** `v[0]`: the first element of a list or the first character of a string. */
  function First(v: Json): (r: Result<Json, Raised>)
    ensures v.JArr? && |v.items| > 0 ==> r == Ok(v.items[0])
    ensures (v.JArr? && |v.items| == 0) || (v.JStr? && |v.s| == 0) ==> r == Err(IndexError)
  {
    match v
    case JArr(items) => if |items| == 0 then Err(IndexError) else Ok(items[0])
    case JStr(s) => if |s| == 0 then Err(IndexError) else Ok(JStr([s[0]]))
    case JObj(_) => Err(KeyError)
    case _ => Err(TypeError)
  }

  /** `sim_out["simulation"][0]["agents"]`, whatever kind of value it is. */
  function AgentsValue(simOut: Json): (r: Result<Json, Raised>)
    ensures r.Ok? <==>
      simOut.JObj? && Get(simOut.fields, "simulation").Some? &&
      First(Get(simOut.fields, "simulation").value).Ok? &&
      Field(First(Get(simOut.fields, "simulation").value).value, "agents").Ok?
    ensures r.Ok? ==> r == Field(First(Get(simOut.fields, "simulation").value).value, "agents")
  {
    var sims :- Field(simOut, "simulation");
    var first :- First(sims);
    Field(first, "agents")
  }

  /** The agents value iterated with `.items()`: anything but a dict raises `AttributeError`. */
  function AgentsOf(simOut: Json): (r: Result<Agents, Raised>)
    ensures r.Ok? <==> AgentsValue(simOut).Ok? && AgentsValue(simOut).value.JObj?
    ensures r.Ok? ==> JObj(r.value) == AgentsValue(simOut).value
    ensures AgentsValue(simOut).Err? ==> r == Err(AgentsValue(simOut).error)
    ensures AgentsValue(simOut).Ok? && !AgentsValue(simOut).value.JObj? ==> r == Err(AttributeError)
  {
    var agents :- AgentsValue(simOut);
    if agents.JObj? then Ok(agents.fields) else Err(AttributeError)
  }

  /** Python's `len(v)` is defined: strings, lists and dicts. */
  predicate Sized(v: Json) {
    v.JStr? || v.JArr? || v.JObj?
  }

  // ------------------------------------------------------------ the split

  /** The agent has an `end_time`, and it is `-1` exactly when `arrived` is false. */
  predicate Ends(a: Json, arrived: bool) {
    var e := Field(a, "end_time");
    e.Ok? && (NumEquals(e.value, -1.0) != arrived)
  }

  /** The ids of the agents whose `end_time` says `arrived`. */
  function KeysWhere(agents: Agents, arrived: bool): set<string> {
    IdsWhere(agents, (e: (string, Json)) => Ends(e.1, arrived))
  }

  /** The ids of the entries that satisfy `P`. */
  function IdsWhere(agents: Agents, P: ((string, Json)) -> bool): set<string> {
    set i | 0 <= i < |agents| && P(agents[i]) :: agents[i].0
  }

  /** `xs` is `ys` with some elements left out, order kept. */
  predicate Subseq<T(==)>(xs: seq<T>, ys: seq<T>)
    decreases |ys|
  {
    if |ys| == 0 then |xs| == 0
    else (|xs| > 0 && xs[0] == ys[0] && Subseq(xs[1..], ys[1..])) || Subseq(xs, ys[1..])
  }

  lemma KeysWhereCons(agents: Agents, arrived: bool)
    requires |agents| > 0
    ensures KeysWhere(agents, arrived) ==
      (if Ends(agents[0].1, arrived) then {agents[0].0} else {}) + KeysWhere(agents[1..], arrived)
  {
    IdsWhereCons(agents, (e: (string, Json)) => Ends(e.1, arrived));
  }

  lemma IdsWhereCons(agents: Agents, P: ((string, Json)) -> bool)
    requires |agents| > 0
    ensures IdsWhere(agents, P) == (if P(agents[0]) then {agents[0].0} else {}) + IdsWhere(agents[1..], P)
  {
    var tail := agents[1..];
    var head: set<string> := if P(agents[0]) then {agents[0].0} else {};
    forall k | k in IdsWhere(agents, P)
      ensures k in head + IdsWhere(tail, P)
    {
      var i :| 0 <= i < |agents| && P(agents[i]) && agents[i].0 == k;
      if i > 0 {
        assert tail[i - 1] == agents[i];
      }
    }
    forall k | k in head + IdsWhere(tail, P)
      ensures k in IdsWhere(agents, P)
    {
      if k !in head {
        var j :| 0 <= j < |tail| && P(tail[j]) && tail[j].0 == k;
        assert agents[j + 1] == tail[j];
      }
    }
  }

  lemma KeysCons(agents: Agents)
    requires |agents| > 0
    ensures Keys(agents) == [agents[0].0] + Keys(agents[1..])
  {
    assert Keys(agents)[1..] == Keys(agents[1..]);
  }

  type Split = (seq<string>, seq<string>)

  /** Every id goes to exactly one of the two lists. */
  predicate Partitioned(agents: Agents, p: Split) {
    multiset(p.0) + multiset(p.1) == multiset(Keys(agents))
  }

  /** Both lists keep the iteration order of the agents dict. */
  predicate InOrder(agents: Agents, p: Split) {
    Subseq(p.0, Keys(agents)) && Subseq(p.1, Keys(agents))
  }

  /** The first list holds exactly the arrived ids and the second exactly the others. */
  predicate Classified(agents: Agents, p: Split) {
    (set k | k in p.0) == KeysWhere(agents, true) && (set k | k in p.1) == KeysWhere(agents, false)
  }

  /** The split of the agents after adding the first agent's id to its side. */
  function Prepend(agents: Agents, rest: Split): Split
    requires |agents| > 0 && Field(agents[0].1, "end_time").Ok?
  {
    if Ends(agents[0].1, true) then ([agents[0].0] + rest.0, rest.1) else (rest.0, [agents[0].0] + rest.1)
  }

  lemma PrependPartitioned(agents: Agents, rest: Split)
    requires |agents| > 0 && Field(agents[0].1, "end_time").Ok?
    requires Partitioned(agents[1..], rest)
    ensures Partitioned(agents, Prepend(agents, rest))
  {
    KeysCons(agents);
  }

  lemma PrependInOrder(agents: Agents, rest: Split)
    requires |agents| > 0 && Field(agents[0].1, "end_time").Ok?
    requires InOrder(agents[1..], rest)
    ensures InOrder(agents, Prepend(agents, rest))
  {
    KeysCons(agents);
    var ks := Keys(agents);
    assert ks[1..] == Keys(agents[1..]);
    assert ks[0] == agents[0].0;
  }

  lemma PrependClassified(agents: Agents, rest: Split)
    requires |agents| > 0 && Field(agents[0].1, "end_time").Ok?
    requires Classified(agents[1..], rest)
    ensures Classified(agents, Prepend(agents, rest))
  {
    KeysWhereCons(agents, true);
    KeysWhereCons(agents, false);
  }

  /**
   * `split_arrived_stuck` on the agents dict: arrived takes the ids whose
   * `end_time` is not -1, stuck takes the others, both in iteration order;
   * an agent without an `end_time` raises.
   */
  function SplitAgents(agents: Agents): (r: Result<Split, Raised>)
    decreases |agents|
    ensures r.Ok? <==> forall i :: 0 <= i < |agents| ==> Field(agents[i].1, "end_time").Ok?
    ensures r.Ok? ==> Partitioned(agents, r.value)
    ensures r.Ok? ==> InOrder(agents, r.value)
    ensures r.Ok? ==> Classified(agents, r.value)
  {
    if |agents| == 0 then Ok(([], []))
    else
      var e := Field(agents[0].1, "end_time");
      var rest := SplitAgents(agents[1..]);
      AllCons(agents, (a: (string, Json)) => Field(a.1, "end_time").Ok?);
      if e.Err? then Err(e.error)
      else if rest.Err? then Err(rest.error)
      else
        PrependPartitioned(agents, rest.value);
        PrependInOrder(agents, rest.value);
        PrependClassified(agents, rest.value);
        Ok(Prepend(agents, rest.value))
  }

  /** `split_arrived_stuck(sim_out)`. */
  function SplitArrivedStuck(simOut: Json): (r: Result<(seq<string>, seq<string>), Raised>)
    ensures AgentsOf(simOut).Err? ==> r == Err(AgentsOf(simOut).error)
    ensures AgentsOf(simOut).Ok? ==> r == SplitAgents(AgentsOf(simOut).value)
  {
    var agents :- AgentsOf(simOut);
    SplitAgents(agents)
  }

  // ------------------------------------------------------------ the counters

  datatype Counts = Counts(done: nat, waiting: nat, heldBack: nat, total: nat)

  /** What the loop of `print_stats` reads of one agent, in the order it reads it. */
  predicate Readable(a: Json) {
    var e := Field(a, "end_time");
    e.Ok? &&
    (NumEquals(e.value, -1.0) ==> Field(a, "distance_to_side").Ok?) &&
    Field(a, "start_time").Ok?
  }

  /** The agent is counted as waiting: not arrived and still at the queue's distance mark. */
  predicate Waiting(a: Json)
    requires Readable(a)
  {
    NumEquals(Field(a, "end_time").value, -1.0) &&
    NumEquals(Field(a, "distance_to_side").value, -10000.0)
  }

  datatype Marks = Marks(done: bool, waiting: bool, heldBack: bool)

  /** One pass of the counting loop over an agent: which of the three counters it adds to. */
  function ReadAgent(a: Json): (r: Result<Marks, Raised>)
    ensures r.Ok? <==> Readable(a)
    ensures r.Ok? ==> r.value.done == Ends(a, true)
    ensures r.Ok? ==> r.value.waiting == Waiting(a)
    ensures r.Ok? ==> r.value.heldBack == !NumEquals(Field(a, "start_time").value, -1.0)
    ensures r.Ok? ==> !(r.value.done && r.value.waiting)
  {
    var e :- Field(a, "end_time");
    var wait :- if NumEquals(e, -1.0) then
        var dist :- Field(a, "distance_to_side");
        Ok(NumEquals(dist, -10000.0))
      else Ok(false);
    var start :- Field(a, "start_time");
    Ok(Marks(!NumEquals(e, -1.0), wait, !NumEquals(start, -1.0)))
  }

  /**
   * The counting loop of `print_stats`: done counts `end_time != -1`,
   * waiting counts `end_time == -1 and distance_to_side == -10000.0`
   * (the second key is read only when the first holds), held back counts
   * `start_time != -1`.
   */
  function CountAgents(agents: Agents): (r: Result<Counts, Raised>)
    decreases |agents|
    ensures r.Ok? <==> forall i :: 0 <= i < |agents| ==> Readable(agents[i].1)
    ensures r.Ok? ==> r.value.total == |agents|
    ensures r.Ok? ==> Bounded(r.value)
  {
    if |agents| == 0 then Ok(Counts(0, 0, 0, 0))
    else
      var one := ReadAgent(agents[0].1);
      var rest := CountAgents(agents[1..]);
      ReadableCons(agents);
      if one.Err? then Err(one.error)
      else if rest.Err? then Err(rest.error)
      else Ok(Tally(one.value, rest.value))
  }

  /** No counter exceeds the total, and an agent is never both arrived and waiting. */
  predicate Bounded(c: Counts) {
    c.done + c.waiting <= c.total && c.heldBack <= c.total
  }

  /** The counters after one more agent. */
  function Tally(m: Marks, c: Counts): (r: Counts)
    requires !(m.done && m.waiting)
    ensures r.total == c.total + 1
    ensures Bounded(c) ==> Bounded(r)
  {
    Counts(c.done + (if m.done then 1 else 0),
           c.waiting + (if m.waiting then 1 else 0),
           c.heldBack + (if m.heldBack then 1 else 0),
           c.total + 1)
  }

  lemma ReadableCons(agents: Agents)
    requires |agents| > 0
    ensures (forall i :: 0 <= i < |agents| ==> Readable(agents[i].1)) <==>
      Readable(agents[0].1) && forall i :: 0 <= i < |agents| - 1 ==> Readable(agents[1..][i].1)
  {
    AllCons(agents, (e: (string, Json)) => Readable(e.1));
  }

  /** The counters agree with the split: done is the number of arrived ids, the rest are stuck. */
  lemma {:induction false} CountsMatchSplit(agents: Agents)
    requires CountAgents(agents).Ok?
    ensures SplitAgents(agents).Ok?
    ensures CountAgents(agents).value.done == |SplitAgents(agents).value.0|
    ensures CountAgents(agents).value.total - CountAgents(agents).value.done == |SplitAgents(agents).value.1|
  {
    if |agents| > 0 {
      assert CountAgents(agents[1..]).Ok?;
      CountsMatchSplit(agents[1..]);
    }
  }

  /** A waiting agent is a stuck one: every waiting agent's id is in the stuck list. */
  lemma WaitingIsStuck(agents: Agents, i: nat)
    requires CountAgents(agents).Ok? && i < |agents|
    requires Readable(agents[i].1) && Waiting(agents[i].1)
    ensures SplitAgents(agents).Ok? && agents[i].0 in SplitAgents(agents).value.1
  {
    CountsMatchSplit(agents);
    assert agents[i].0 in KeysWhere(agents, false);
  }

  lemma ShareAtMostOne(n: real, t: real)
    requires 0.0 < t && 0.0 <= n <= t
    ensures 0.0 <= n / t <= 1.0
  {
  }

  /** `n / total * 100`. */
  function Percent(n: nat, total: nat): (p: real)
    requires 0 < total && n <= total
    ensures 0.0 <= p <= 100.0
    ensures n == total ==> p == 100.0
  {
    var q := n as real / total as real;
    ShareAtMostOne(n as real, total as real);
    q * 100.0
  }

  datatype Report = Report(counts: Counts, arrivedPct: real, waitingPct: real, heldBackPct: real)

  /**
   * `print_stats`: the counters and their shares. `len(agents)` comes first,
   * so a number, boolean or `None` raises `TypeError` before `.items()`
   * raises `AttributeError` on a string or list; no agents at all divides by zero.
   */
  function PrintStats(simOut: Json): (r: Result<Report, Raised>)
    ensures AgentsValue(simOut).Err? ==> r == Err(AgentsValue(simOut).error)
    ensures AgentsValue(simOut).Ok? && !Sized(AgentsValue(simOut).value) ==> r == Err(TypeError)
    ensures AgentsValue(simOut).Ok? && Sized(AgentsValue(simOut).value) && !AgentsValue(simOut).value.JObj? ==>
              r == Err(AttributeError)
    ensures AgentsOf(simOut).Ok? && |AgentsOf(simOut).value| == 0 ==> r == Err(ZeroDivisionError)
    ensures r.Ok? <==>
      AgentsOf(simOut).Ok? && |AgentsOf(simOut).value| > 0 && CountAgents(AgentsOf(simOut).value).Ok?
    ensures r.Ok? ==> r.value.counts == CountAgents(AgentsOf(simOut).value).value
    ensures r.Ok? ==>
      0.0 <= r.value.arrivedPct <= 100.0 && 0.0 <= r.value.waitingPct <= 100.0 &&
      0.0 <= r.value.heldBackPct <= 100.0
  {
    var v :- AgentsValue(simOut);
    if !Sized(v) then Err(TypeError)
    else
      var agents :- AgentsOf(simOut);
      var c :- CountAgents(agents);
      if c.total == 0 then Err(ZeroDivisionError)
      else Ok(Report(c, Percent(c.done, c.total), Percent(c.waiting, c.total), Percent(c.heldBack, c.total)))
  }

  // ------------------------------------------------------------ rebuilding the input

  /** `d[key] = value` on a dict: an existing key keeps its place, a new one goes last. */
  function Put(fields: seq<(string, Json)>, key: string, value: Json): (r: seq<(string, Json)>)
    ensures key in Keys(fields) ==> |r| == |fields|
    ensures key !in Keys(fields) ==> r == fields + [(key, value)]
    ensures Get(r, key) == Some(value)
  {
    if |fields| == 0 then [(key, value)]
    else if fields[0].0 == key then [(key, value)] + fields[1..]
    else
      var rest := Put(fields[1..], key, value);
      assert Keys(fields) == [fields[0].0] + Keys(fields[1..]);
      GetPastHead(fields[0], rest, key);
      if key !in Keys(fields) then
        ConsAppend(fields, (key, value));
        [fields[0]] + rest
      else [fields[0]] + rest
  }

  /** Looking up a key past a first entry with another key. */
  lemma GetPastHead(head: (string, Json), rest: seq<(string, Json)>, key: string)
    requires head.0 != key
    ensures Get([head] + rest, key) == Get(rest, key)
  {
    assert ([head] + rest)[1..] == rest;
  }

  /** `key in allowed` for a JSON value and a list of id strings. */
  predicate Allowed(key: Json, allowed: seq<string>) {
    key.JStr? && key.s in allowed
  }

  /** What `for x in v` yields: a dict its keys, a list its items, a string its characters. */
  function Iterate(v: Json): (r: Result<seq<Json>, Raised>)
    ensures v.JObj? ==>
      (r.Ok? && |r.value| == |v.fields| &&
       forall i :: 0 <= i < |v.fields| ==> r.value[i] == JStr(v.fields[i].0))
  {
    match v
    case JObj(fields) => Ok(seq(|fields|, i requires 0 <= i < |fields| => JStr(fields[i].0)))
    case JArr(items) => Ok(items)
    case JStr(s) => Ok(seq(|s|, i requires 0 <= i < |s| => JStr([s[i]])))
    case _ => Err(TypeError)
  }

  /** `key, value = x`: only a two-element string, list or dict unpacks into two names. */
  function Unpack(x: Json): (r: Result<(Json, Json), Raised>)
    ensures x.JStr? ==> (r.Ok? <==> |x.s| == 2)
    ensures x.JStr? && |x.s| == 2 ==> r == Ok((JStr([x.s[0]]), JStr([x.s[1]])))
  {
    match x
    case JStr(s) => if |s| == 2 then Ok((JStr([s[0]]), JStr([s[1]]))) else Err(ValueError)
    case JArr(items) => if |items| == 2 then Ok((items[0], items[1])) else Err(ValueError)
    case JObj(fields) => if |fields| == 2 then Ok((JStr(fields[0].0), JStr(fields[1].0))) else Err(ValueError)
    case _ => Err(TypeError)
  }

  /** The loop `for key, value in bikes` of `build_new_imput`, as written. */
  function AsWrittenKeep(xs: seq<Json>, allowed: seq<string>, acc: seq<(string, Json)>)
    : (r: Result<seq<(string, Json)>, Raised>)
    decreases |xs|
  {
    if |xs| == 0 then Ok(acc)
    else
      var u := Unpack(xs[0]);
      if u.Err? then Err(u.error)
      else AsWrittenKeep(xs[1..], allowed, AsWrittenStore(u.value, allowed, acc))
  }

  /** `if key in allowed: new[key] = value` after the unpacking. */
  function AsWrittenStore(kv: (Json, Json), allowed: seq<string>, acc: seq<(string, Json)>): seq<(string, Json)> {
    if Allowed(kv.0, allowed) then Put(acc, kv.0.s, kv.1) else acc
  }

  /** Over key strings the as-written loop gets through exactly when every key has two characters. */
  lemma {:induction false} AsWrittenKeepOk(xs: seq<Json>, allowed: seq<string>, acc: seq<(string, Json)>)
    requires forall i :: 0 <= i < |xs| ==> xs[i].JStr?
    ensures AsWrittenKeep(xs, allowed, acc).Ok? <==> forall i :: 0 <= i < |xs| ==> |xs[i].s| == 2
    decreases |xs|
  {
    if |xs| > 0 {
      AllCons(xs, (x: Json) => x.JStr?);
      AllCons(xs, (x: Json) => x.JStr? && |x.s| == 2);
      var u := Unpack(xs[0]);
      if u.Ok? {
        AsWrittenKeepOk(xs[1..], allowed, AsWrittenStore(u.value, allowed, acc));
      }
    }
  }

  /** `build_new_imput` as written: it iterates a dict's keys and unpacks each key string. */
  function AsWrittenBuild(allowed: seq<string>, allAgents: Json): (r: Result<Json, Raised>)
  {
    var bikes :- Field(allAgents, "bikes");
    var cars :- Field(allAgents, "cars");
    var bikeItems :- Iterate(bikes);
    var keptBikes :- AsWrittenKeep(bikeItems, allowed, []);
    var carItems :- Iterate(cars);
    var keptCars :- AsWrittenKeep(carItems, allowed, []);
    Ok(JObj([("bikes", JObj(keptBikes)), ("cars", JObj(keptCars))]))
  }

  /** As written, the rebuild succeeds on a dict of bikes only when every bike id is two characters long. */
  lemma AsWrittenNeedsTwoCharIds(allowed: seq<string>, allAgents: Json)
    requires Field(allAgents, "bikes").Ok? && Field(allAgents, "bikes").value.JObj?
    requires AsWrittenBuild(allowed, allAgents).Ok?
    ensures forall i :: 0 <= i < |Field(allAgents, "bikes").value.fields| ==>
      |Field(allAgents, "bikes").value.fields[i].0| == 2
  {
    var bikes := Field(allAgents, "bikes").value;
    var items := Iterate(bikes).value;
    assert Field(allAgents, "cars").Ok?;
    assert AsWrittenKeep(items, allowed, []).Ok?;
    AsWrittenKeepOk(items, allowed, []);
    forall i | 0 <= i < |bikes.fields|
      ensures |bikes.fields[i].0| == 2
    {
      assert items[i] == JStr(bikes.fields[i].0);
    }
  }

  /** A three-character bike id makes the as-written rebuild raise `ValueError`. */
  lemma AsWrittenRejectsLongId()
    ensures AsWrittenBuild(["100"], JObj([("bikes", JObj([("100", JNull)])), ("cars", JObj([]))]))
      == Err(ValueError)
  {
    var doc := JObj([("bikes", JObj([("100", JNull)])), ("cars", JObj([]))]);
    assert Field(doc, "bikes") == Ok(JObj([("100", JNull)]));
    assert Field(doc, "cars") == Ok(JObj([]));
    var it := Iterate(JObj([("100", JNull)]));
    assert it.Ok? && |it.value| == 1 && it.value[0] == JStr("100");
    assert it.value == [JStr("100")];
  }

  /** An allowed two-character id is split into two one-character names and the agent is dropped. */
  lemma AsWrittenDropsAllowedAgent()
    ensures AsWrittenBuild(["10"], JObj([("bikes", JObj([("10", JNull)])), ("cars", JObj([]))]))
      == Ok(JObj([("bikes", JObj([])), ("cars", JObj([]))]))
  {
    var doc := JObj([("bikes", JObj([("10", JNull)])), ("cars", JObj([]))]);
    assert Field(doc, "bikes") == Ok(JObj([("10", JNull)]));
    assert Field(doc, "cars") == Ok(JObj([]));
    var it := Iterate(JObj([("10", JNull)]));
    assert it.Ok? && |it.value| == 1 && it.value[0] == JStr("10");
    assert it.value == [JStr("10")];
    assert Unpack(JStr("10")) == Ok((JStr("1"), JStr("0")));
    assert !Allowed(JStr("1"), ["10"]);
  }

  /** The entries of a dict whose key is allowed, in the dict's order. */
  function Filter(fields: seq<(string, Json)>, allowed: seq<string>): (r: seq<(string, Json)>)
    ensures forall p :: p in r <==> p in fields && p.0 in allowed
    ensures Subseq(r, fields)
  {
    if |fields| == 0 then []
    else if fields[0].0 in allowed then [fields[0]] + Filter(fields[1..], allowed)
    else Filter(fields[1..], allowed)
  }

  predicate DistinctKeys(fields: seq<(string, Json)>) {
    forall i, j :: 0 <= i < j < |fields| ==> fields[i].0 != fields[j].0
  }

  /** The loop `for key, value in bikes.items()`: allowed entries are stored in the new dict. */
  function Keep(fields: seq<(string, Json)>, allowed: seq<string>, acc: seq<(string, Json)>)
    : (r: seq<(string, Json)>)
    decreases |fields|
  {
    if |fields| == 0 then acc
    else Keep(fields[1..], allowed, if fields[0].0 in allowed then Put(acc, fields[0].0, fields[0].1) else acc)
  }

  lemma FilterKeys(fields: seq<(string, Json)>, allowed: seq<string>, k: string)
    requires k !in Keys(fields)
    ensures k !in Keys(Filter(fields, allowed))
  {
  }

  lemma DistinctTail(fields: seq<(string, Json)>)
    requires |fields| > 0 && DistinctKeys(fields)
    ensures DistinctKeys(fields[1..])
    ensures forall i :: 0 <= i < |fields| - 1 ==> fields[1..][i].0 != fields[0].0
  {
    var tail := fields[1..];
    forall i, j | 0 <= i < j < |tail| ensures tail[i].0 != tail[j].0 {
      assert tail[i] == fields[i + 1] && tail[j] == fields[j + 1];
    }
    forall i | 0 <= i < |tail| ensures tail[i].0 != fields[0].0 {
      assert tail[i] == fields[i + 1];
    }
  }

  lemma KeysAppend(acc: seq<(string, Json)>, p: (string, Json))
    ensures Keys(acc + [p]) == Keys(acc) + [p.0]
  {
  }

  /** None of the keys still to come is in `acc`. */
  predicate FreshFor(fields: seq<(string, Json)>, acc: seq<(string, Json)>) {
    forall i :: 0 <= i < |fields| ==> fields[i].0 !in Keys(acc)
  }

  lemma FreshTail(fields: seq<(string, Json)>, acc: seq<(string, Json)>, grown: bool)
    requires |fields| > 0 && DistinctKeys(fields) && FreshFor(fields, acc)
    ensures FreshFor(fields[1..], if grown then acc + [fields[0]] else acc)
  {
    DistinctTail(fields);
    KeysAppend(acc, fields[0]);
    var tail := fields[1..];
    forall i | 0 <= i < |tail| ensures tail[i].0 !in Keys(acc) {
      assert tail[i] == fields[i + 1];
    }
  }

  /** One step of the loop on a key not stored yet: an allowed entry is appended. */
  lemma KeepStep(fields: seq<(string, Json)>, allowed: seq<string>, acc: seq<(string, Json)>)
    requires |fields| > 0 && fields[0].0 !in Keys(acc)
    ensures Keep(fields, allowed, acc) ==
      Keep(fields[1..], allowed, if fields[0].0 in allowed then acc + [fields[0]] else acc)
  {
  }

  lemma FilterStep(fields: seq<(string, Json)>, allowed: seq<string>, acc: seq<(string, Json)>)
    requires |fields| > 0
    ensures (if fields[0].0 in allowed then acc + [fields[0]] else acc) + Filter(fields[1..], allowed) ==
      acc + Filter(fields, allowed)
  {
    if fields[0].0 in allowed {
      assert Filter(fields, allowed) == [fields[0]] + Filter(fields[1..], allowed);
    }
  }

  /** Storing each allowed entry of a dict with distinct keys just appends it: the loop filters. */
  lemma {:induction false} KeepFilters(fields: seq<(string, Json)>, allowed: seq<string>, acc: seq<(string, Json)>)
    requires DistinctKeys(fields) && FreshFor(fields, acc)
    ensures Keep(fields, allowed, acc) == acc + Filter(fields, allowed)
    decreases |fields|
  {
    if |fields| > 0 {
      var grown := fields[0].0 in allowed;
      var acc' := if grown then acc + [fields[0]] else acc;
      DistinctTail(fields);
      FreshTail(fields, acc, grown);
      KeepStep(fields, allowed, acc);
      KeepFilters(fields[1..], allowed, acc');
      FilterStep(fields, allowed, acc);
    }
  }

  /** `bikes.items()` needs a dict; the entries kept are those with an allowed id. */
  function KeepSection(section: Json, allowed: seq<string>): (r: Result<seq<(string, Json)>, Raised>)
    ensures r.Ok? <==> section.JObj?
    ensures r.Ok? && DistinctKeys(section.fields) ==> r.value == Filter(section.fields, allowed)
  {
    if !section.JObj? then Err(AttributeError)
    else
      assert DistinctKeys(section.fields) ==> Keep(section.fields, allowed, []) == Filter(section.fields, allowed) by {
        if DistinctKeys(section.fields) {
          KeepFilters(section.fields, allowed, []);
        }
      }
      Ok(Keep(section.fields, allowed, []))
  }

  /**
   * `build_new_imput` as intended: a new input holding only the bikes and
   * cars whose ids are allowed, with their original records.
   */
  function BuildNewInput(allowed: seq<string>, allAgents: Json): (r: Result<Json, Raised>)
    ensures r.Ok? <==>
      Field(allAgents, "bikes").Ok? && Field(allAgents, "cars").Ok? &&
      Field(allAgents, "bikes").value.JObj? && Field(allAgents, "cars").value.JObj?
    ensures r.Ok? && DistinctKeys(Field(allAgents, "bikes").value.fields) &&
            DistinctKeys(Field(allAgents, "cars").value.fields) ==>
      r.value == JObj([("bikes", JObj(Filter(Field(allAgents, "bikes").value.fields, allowed))),
                       ("cars", JObj(Filter(Field(allAgents, "cars").value.fields, allowed)))])
  {
    var bikes :- Field(allAgents, "bikes");
    var cars :- Field(allAgents, "cars");
    var keptBikes :- KeepSection(bikes, allowed);
    var keptCars :- KeepSection(cars, allowed);
    Ok(JObj([("bikes", JObj(keptBikes)), ("cars", JObj(keptCars))]))
  }

  /** The corrected rebuild keeps the allowed agent the as-written one drops. */
  lemma BuildKeepsAllowedAgent()
    ensures BuildNewInput(["10"], JObj([("bikes", JObj([("10", JNull)])), ("cars", JObj([]))]))
      == Ok(JObj([("bikes", JObj([("10", JNull)])), ("cars", JObj([]))]))
  {
    var doc := JObj([("bikes", JObj([("10", JNull)])), ("cars", JObj([]))]);
    assert Field(doc, "bikes") == Ok(JObj([("10", JNull)]));
    assert Field(doc, "cars") == Ok(JObj([]));
  }

  // ------------------------------------------------------------ the script

  datatype Outcome = Outcome(report: Report, arrived: Option<Json>, stuck: Option<Json>)

  /** One requested output file: the input rebuilt for `ids`, or nothing when not asked for. */
  function Rebuild(want: bool, ids: seq<string>, initial: Json): (r: Result<Option<Json>, Raised>)
    ensures r.Ok? ==> (r.value.Some? <==> want)
    ensures want ==> (r.Ok? <==> BuildNewInput(ids, initial).Ok?)
    ensures r.Ok? && want ==> r.value == Some(BuildNewInput(ids, initial).value)
  {
    if want then
      var a :- BuildNewInput(ids, initial);
      Ok(Some(a))
    else Ok(None)
  }

  /** The outputs asked for, from the split ids and the loaded input. */
  function Outputs(report: Report, split: Split, initial: Json, wantArrived: bool, wantStuck: bool)
    : (r: Result<Outcome, Raised>)
    ensures r.Ok? ==> r.value.report == report
    ensures r.Ok? ==> (r.value.arrived.Some? <==> wantArrived) && (r.value.stuck.Some? <==> wantStuck)
    ensures r.Ok? && wantArrived ==>
      BuildNewInput(split.0, initial).Ok? && r.value.arrived == Some(BuildNewInput(split.0, initial).value)
    ensures r.Ok? && wantStuck ==>
      BuildNewInput(split.1, initial).Ok? && r.value.stuck == Some(BuildNewInput(split.1, initial).value)
  {
    var arrived :- Rebuild(wantArrived, split.0, initial);
    var stuck :- Rebuild(wantStuck, split.1, initial);
    Ok(Outcome(report, arrived, stuck))
  }

  /**
   * The script body: statistics first, then, when an arrived or stuck file
   * is asked for, the split and the rebuilt inputs. `initial` is the
   * loaded input file, `None` when none was given.
   */
  function RunScript(data: Json, initial: Option<Json>, wantArrived: bool, wantStuck: bool)
    : (r: Result<Outcome, Raised>)
    ensures PrintStats(data).Err? ==> r == Err(PrintStats(data).error)
    ensures PrintStats(data).Ok? && (wantArrived || wantStuck) && initial.None? ==> r == Err(ValueError)
    ensures r.Ok? ==> (r.value.arrived.Some? <==> wantArrived) && (r.value.stuck.Some? <==> wantStuck)
    ensures r.Ok? && wantArrived ==>
      SplitArrivedStuck(data).Ok? && initial.Some? &&
      BuildNewInput(SplitArrivedStuck(data).value.0, initial.value).Ok? &&
      r.value.arrived == Some(BuildNewInput(SplitArrivedStuck(data).value.0, initial.value).value)
    ensures r.Ok? && wantStuck ==>
      SplitArrivedStuck(data).Ok? && initial.Some? &&
      BuildNewInput(SplitArrivedStuck(data).value.1, initial.value).Ok? &&
      r.value.stuck == Some(BuildNewInput(SplitArrivedStuck(data).value.1, initial.value).value)
  {
    var report :- PrintStats(data);
    if !wantArrived && !wantStuck then Ok(Outcome(report, None, None))
    else if initial.None? then Err(ValueError)
    else
      var split :- SplitArrivedStuck(data);
      Outputs(report, split, initial.value, wantArrived, wantStuck)
  }

  /** Once the statistics are printed the split cannot fail: the counters read every `end_time`. */
  lemma StatsThenSplit(data: Json)
    requires PrintStats(data).Ok?
    ensures SplitArrivedStuck(data).Ok?
  {
    CountsMatchSplit(AgentsOf(data).value);
  }

  // ------------------------------------------------------------ writing the outputs

  /**
   * The script as written (`build_new_imput` unpacking key strings, and
   * `write_json` handing the path to `json.dump`), or with both corrected.
   */
  datatype ScriptRule = AsWritten | Corrected

  /** An output file after the script: never opened, opened and left empty, or holding a document. */
  datatype FileState = Untouched | Emptied | Holds(data: Json)

  /** The `--arrived` and `--stuck` files. */
  datatype Files = Files(arrived: FileState, stuck: FileState)

  /** The file an output asked for ends up as, once written. */
  function Stored(out: Option<Json>): FileState {
    if out.Some? then Holds(out.value) else Untouched
  }

  /**
   * `write_json(path, data)`: `open(path, "w")` empties the file, then `json.dump`
   * writes through the `write` of its second argument. As written that argument is
   * `path`, a `str`, which has no `write`.
   */
  function WriteJson(rule: ScriptRule, data: Json): (r: (FileState, Result<(), Raised>))
    ensures r.1.Ok? <==> r.0 == Holds(data)
    ensures r.1.Err? ==> r.0 == Emptied && r.1.error == AttributeError
    ensures rule == AsWritten ==> r.1.Err?
  {
    match rule
    case AsWritten => (Emptied, Err(AttributeError))
    case Corrected => (Holds(data), Ok(()))
  }

  /** `build_new_imput` under the rule. */
  function Rebuilt(rule: ScriptRule, ids: seq<string>, initial: Json): Result<Json, Raised> {
    match rule
    case AsWritten => AsWrittenBuild(ids, initial)
    case Corrected => BuildNewInput(ids, initial)
  }

  /** One output: built from its ids and written when asked for, and left alone otherwise. */
  function WriteOne(rule: ScriptRule, want: bool, ids: seq<string>, initial: Json): (r: (FileState, Result<(), Raised>))
    ensures !want ==> r == (Untouched, Ok(()))
    ensures want && Rebuilt(rule, ids, initial).Err? ==> r == (Untouched, Err(Rebuilt(rule, ids, initial).error))
    ensures want && Rebuilt(rule, ids, initial).Ok? ==> r == WriteJson(rule, Rebuilt(rule, ids, initial).value)
  {
    if !want then (Untouched, Ok(()))
    else
      match Rebuilt(rule, ids, initial)
      case Err(e) => (Untouched, Err(e))
      case Ok(a) => WriteJson(rule, a)
  }

  /** The arrived file is built and written first, and the stuck file only when that did not raise. */
  function WriteOutputs(rule: ScriptRule, split: Split, initial: Json, wantArrived: bool, wantStuck: bool)
    : (r: (Files, Result<(), Raised>))
    ensures r.0.arrived.Holds? ==>
              rule == Corrected && wantArrived && BuildNewInput(split.0, initial).Ok? &&
              r.0.arrived.data == BuildNewInput(split.0, initial).value
    ensures r.0.stuck.Holds? ==>
              rule == Corrected && wantStuck && BuildNewInput(split.1, initial).Ok? &&
              r.0.stuck.data == BuildNewInput(split.1, initial).value
    ensures rule == AsWritten && (wantArrived || wantStuck) ==> r.1.Err?
    ensures rule == AsWritten && wantArrived ==> r.0.stuck == Untouched
    ensures rule == AsWritten && wantArrived && AsWrittenBuild(split.0, initial).Err? ==>
              r == (Files(Untouched, Untouched), Err(AsWrittenBuild(split.0, initial).error))
    ensures rule == Corrected && wantArrived && BuildNewInput(split.0, initial).Ok? ==>
              r.0.arrived == Holds(BuildNewInput(split.0, initial).value)
  {
    var (fa, ra) := WriteOne(rule, wantArrived, split.0, initial);
    if ra.Err? then (Files(fa, Untouched), ra)
    else
      var (fs, rs) := WriteOne(rule, wantStuck, split.1, initial);
      (Files(fa, fs), rs)
  }

  /**
   * The whole script (lines 98-122) with its writes: the statistics, the missing
   * input check, the split, then the two outputs.
   */
  function Script(rule: ScriptRule, data: Json, initial: Option<Json>, wantArrived: bool, wantStuck: bool)
    : (r: (Files, Result<Report, Raised>))
    ensures PrintStats(data).Err? ==> r == (Files(Untouched, Untouched), Err(PrintStats(data).error))
    ensures r.1.Ok? ==> PrintStats(data).Ok? && r.1.value == PrintStats(data).value
    ensures !wantArrived && !wantStuck ==> r.0 == Files(Untouched, Untouched)
    ensures rule == AsWritten ==> !r.0.arrived.Holds? && !r.0.stuck.Holds?
    ensures rule == AsWritten && (wantArrived || wantStuck) ==> r.1.Err?
  {
    var none := Files(Untouched, Untouched);
    match PrintStats(data)
    case Err(e) => (none, Err(e))
    case Ok(report) =>
      if !wantArrived && !wantStuck then (none, Ok(report))
      else if initial.None? then (none, Err(ValueError))
      else
        match SplitArrivedStuck(data)
        case Err(e) => (none, Err(e))
        case Ok(split) =>
          var (files, w) := WriteOutputs(rule, split, initial.value, wantArrived, wantStuck);
          (files, if w.Err? then Err(w.error) else Ok(report))
  }

  /**
   * With both corrections, the script succeeds exactly when `RunScript` does,
   * and then the files hold exactly its outputs.
   */
  lemma ScriptWritesOutcome(data: Json, initial: Option<Json>, wantArrived: bool, wantStuck: bool)
    ensures Script(Corrected, data, initial, wantArrived, wantStuck).1.Ok? <==>
              RunScript(data, initial, wantArrived, wantStuck).Ok?
    ensures RunScript(data, initial, wantArrived, wantStuck).Ok? ==>
              var out := RunScript(data, initial, wantArrived, wantStuck).value;
              Script(Corrected, data, initial, wantArrived, wantStuck) ==
                (Files(Stored(out.arrived), Stored(out.stuck)), Ok(out.report))
  {
  }

  /** Over key strings the as-written loop can only raise `ValueError`, at the first key not two characters long. */
  lemma {:induction false} AsWrittenKeepRaises(xs: seq<Json>, allowed: seq<string>, acc: seq<(string, Json)>, i: nat)
    requires forall j :: 0 <= j < |xs| ==> xs[j].JStr?
    requires i < |xs| && |xs[i].s| != 2
    ensures AsWrittenKeep(xs, allowed, acc) == Err(ValueError)
    decreases |xs|
  {
    if |xs[0].s| == 2 {
      AsWrittenKeepRaises(xs[1..], allowed, AsWrittenStore(Unpack(xs[0]).value, allowed, acc), i - 1);
    }
  }

  /** As written, a bike id that is not two characters long makes the rebuild raise `ValueError`. */
  lemma AsWrittenBuildRaises(allowed: seq<string>, allAgents: Json, i: nat)
    requires Field(allAgents, "bikes").Ok? && Field(allAgents, "bikes").value.JObj?
    requires Field(allAgents, "cars").Ok?
    requires i < |Field(allAgents, "bikes").value.fields| && |Field(allAgents, "bikes").value.fields[i].0| != 2
    ensures AsWrittenBuild(allowed, allAgents) == Err(ValueError)
  {
    var items := Iterate(Field(allAgents, "bikes").value).value;
    assert items[i] == JStr(Field(allAgents, "bikes").value.fields[i].0);
    AsWrittenKeepRaises(items, allowed, [], i);
  }

  /**
   * As written, a run asked for the arrived agents whose rebuild raises (as it
   * does for any id not two characters long) opens no file and raises that error.
   */
  lemma AsWrittenRaisesBeforeOpening(data: Json, initial: Json, wantStuck: bool)
    requires PrintStats(data).Ok? && SplitArrivedStuck(data).Ok?
    requires AsWrittenBuild(SplitArrivedStuck(data).value.0, initial).Err?
    ensures Script(AsWritten, data, Some(initial), true, wantStuck) ==
              (Files(Untouched, Untouched), Err(AsWrittenBuild(SplitArrivedStuck(data).value.0, initial).error))
  {
  }

  /** As written, a bike id such as "100" or "7" stops the run with `ValueError` before any file is opened. */
  lemma AsWrittenLongIdOpensNothing(data: Json, initial: Json, wantStuck: bool, i: nat)
    requires PrintStats(data).Ok? && SplitArrivedStuck(data).Ok?
    requires Field(initial, "bikes").Ok? && Field(initial, "bikes").value.JObj? && Field(initial, "cars").Ok?
    requires i < |Field(initial, "bikes").value.fields| && |Field(initial, "bikes").value.fields[i].0| != 2
    ensures Script(AsWritten, data, Some(initial), true, wantStuck) == (Files(Untouched, Untouched), Err(ValueError))
  {
    AsWrittenBuildRaises(SplitArrivedStuck(data).value.0, initial, i);
    AsWrittenRaisesBeforeOpening(data, initial, wantStuck);
  }

  /**
   * As written, a run asked for the arrived agents whose statistics, split and
   * as-written rebuild all succeed (every id has two characters) empties the
   * arrived file, raises `AttributeError`, and never opens the stuck file.
   */
  lemma AsWrittenEmptiesArrivedFile(data: Json, initial: Json, wantStuck: bool)
    requires PrintStats(data).Ok? && SplitArrivedStuck(data).Ok?
    requires AsWrittenBuild(SplitArrivedStuck(data).value.0, initial).Ok?
    ensures Script(AsWritten, data, Some(initial), true, wantStuck) == (Files(Emptied, Untouched), Err(AttributeError))
  {
  }
}

=== FILE: draws.dfy ===
/**
 * Abstract random sources. The programs draw from Python's `random`, PHP's
 * `rand` and a KISS generator; the model replaces each by an explicit stream
 * of draws indexed by a position that the caller threads through.
 */
module Draws {

  /** One value of Python's `random.random()`: a real in [0, 1). */
  type Unit = r: real | 0.0 <= r < 1.0

  /** The Python generator, as the sequence of values it would return. */
  type UnitStream = nat -> Unit

  /** `x` lies between `a` and `b`, whichever of the two is larger. */
  predicate Between(a: real, b: real, x: real) {
    (a <= x <= b) || (b <= x <= a)
  }

  /** The index `random.choice` picks among `n` candidates for the draw `u`. */
  function ChoiceIndex(u: Unit, n: nat): (i: nat)
    requires 0 < n
    ensures i < n
  {
    var x := u * (n as real);
    assert 0.0 <= x < n as real;
    x.Floor
  }

  /** `d * u`, with the bounds a draw in [0, 1) gives it. */
  function Scale(d: real, u: Unit): (y: real)
    ensures d >= 0.0 ==> 0.0 <= y <= d
    ensures d < 0.0 ==> d <= y <= 0.0
  {
    var y := d * u;
    ScaleBounds(d, u, y);
    y
  }

  lemma ScaleBounds(d: real, u: Unit, y: real)
    requires y == d * u
    ensures d >= 0.0 ==> 0.0 <= y <= d
    ensures d < 0.0 ==> d <= y <= 0.0
  {
    if d >= 0.0 {
      assert d - y == d * (1.0 - u);
      MulNonneg(d, 1.0 - u);
      MulNonneg(d, u);
    } else {
      assert y - d == (-d) * (1.0 - u);
      MulNonneg(-d, 1.0 - u);
      MulNonneg(-d, u);
      assert -y == (-d) * u;
    }
  }

  lemma MulNonneg(x: real, y: real)
    requires 0.0 <= x && 0.0 <= y
    ensures 0.0 <= x * y
  {
  }

  /** `random.uniform(a, b)`, which computes `a + (b - a) * random()`. */
  function Uniform(a: real, b: real, u: Unit): (x: real)
    ensures Between(a, b, x)
    ensures a <= b ==> a <= x <= b
  {
    a + Scale(b - a, u)
  }
}

=== FILE: id_caster.dfy ===
/**
 * The map-export id normaliser: a walk over a JSON document that rewrites
 * the scalar values stored under a handful of keys (`id`,
 * `oppositeStreetId`, `speed_limit`, `start`, `end`) and descends into
 * nested objects and into the objects held directly in lists.
 */
module IdCaster {
  import opened Wrappers
  import opened Json
  import Strings

  /** Python's `int(v)` raised `TypeError` or `ValueError`. */
  datatype CastError = NotAnInt(v: Json)

  predicate Scalar(v: Json) {
    !v.JArr? && !v.JObj?
  }

  /** Python `str(v)` of a scalar; `repr` renders a float, which this model leaves open. */
  function Str(v: Json, repr: real -> string): string
    requires Scalar(v)
  {
    match v
    case JNull => "None"
    case JBool(b) => if b then "True" else "False"
    case JInt(i) => Strings.IntToString(i)
    case JFloat(r) => repr(r)
    case JStr(s) => s
  }

  /** Python `int(v)` of a scalar: booleans count as 0 and 1, floats truncate toward zero. */
  function PyInt(v: Json): (r: Result<int, CastError>)
    requires Scalar(v)
    ensures v.JInt? ==> r == Ok(v.i)
    ensures v.JNull? ==> r.Err?
    ensures v.JStr? ==> (r.Ok? <==> Strings.ParseInt(v.s).Some?)
  {
    match v
    case JNull => Err(NotAnInt(v))
    case JBool(b) => Ok(if b then 1 else 0)
    case JInt(i) => Ok(i)
    case JFloat(r) => Ok(if 0.0 <= r then r.Floor else -((-r).Floor))
    case JStr(s) =>
      match Strings.ParseInt(s)
      case None => Err(NotAnInt(v))
      case Some(i) => Ok(i)
  }

  /** `part` is what remains of `whole` after dropping some leading elements. */
  predicate Suffix<T(==)>(part: seq<T>, whole: seq<T>) {
    |part| <= |whole| && part == whole[|whole| - |part|..]
  }

  /** The keys whose scalar values become strings. */
  predicate StrKey(key: string) {
    key == "id" || key == "oppositeStreetId"
  }

  /** The keys whose scalar values become `{"id": str(value)}`. */
  predicate WrapKey(key: string) {
    key == "start" || key == "end"
  }

  /**
   * The value stored under `key` after the walk. Lists and objects are
   * walked whatever the key, because those branches are checked first.
   */
  function CastValue(key: string, v: Json, repr: real -> string): (r: Result<Json, CastError>)
    decreases v, 1, 0
    ensures r.Ok? && v.JObj? ==> r.value.JObj? && Keys(r.value.fields) == Keys(v.fields)
    ensures r.Ok? && v.JArr? ==> r.value.JArr? && |r.value.items| == |v.items|
    ensures Scalar(v) && StrKey(key) ==> r == Ok(JStr(Str(v, repr)))
    ensures Scalar(v) && WrapKey(key) ==> r == Ok(JObj([("id", JStr(Str(v, repr)))]))
    ensures Scalar(v) && key == "speed_limit" ==> (r.Ok? <==> PyInt(v).Ok?) && (r.Ok? ==> r.value == JInt(PyInt(v).value))
    ensures Scalar(v) && !StrKey(key) && !WrapKey(key) && key != "speed_limit" ==> r == Ok(v)
  {
    if v.JArr? then
      var w :- WalkList(v, v.items, repr);
      Ok(JArr(w))
    else if v.JObj? then
      var w :- WalkDict(v, v.fields, repr);
      Ok(JObj(w))
    else if StrKey(key) then Ok(JStr(Str(v, repr)))
    else if key == "speed_limit" then
      var i :- PyInt(v);
      Ok(JInt(i))
    else if WrapKey(key) then Ok(JObj([("id", JStr(Str(v, repr)))]))
    else Ok(v)
  }

  /**
   * `dict_walker_id_caster` over the remaining fields of object `parent`:
   * every value is replaced in place; the keys and their order stay.
   */
  function WalkDict(parent: Json, fields: seq<(string, Json)>, repr: real -> string): (r: Result<seq<(string, Json)>, CastError>)
    requires parent.JObj? && Suffix(fields, parent.fields)
    decreases parent, 0, |fields|
    ensures r.Ok? ==> Keys(r.value) == Keys(fields)
    ensures r.Ok? ==> forall i :: 0 <= i < |fields| ==> CastValue(fields[i].0, fields[i].1, repr) == Ok(r.value[i].1)
  {
    if |fields| == 0 then Ok([])
    else
      assert fields[0] == parent.fields[|parent.fields| - |fields|];
      var v :- CastValue(fields[0].0, fields[0].1, repr);
      var rest :- WalkDict(parent, fields[1..], repr);
      Ok([(fields[0].0, v)] + rest)
  }

  /**
   * `list_processor` over the remaining items of list `parent`, first item
   * first: objects are walked; other elements, nested lists included, stay.
   * The first object whose walk fails stops the walk with its error.
   */
  function WalkList(parent: Json, items: seq<Json>, repr: real -> string): (r: Result<seq<Json>, CastError>)
    requires parent.JArr? && Suffix(items, parent.items)
    decreases parent, 0, |items|
    ensures r.Ok? ==> |r.value| == |items|
    ensures 0 < |items| && items[0].JObj? && WalkDict(items[0], items[0].fields, repr).Err? ==>
              r == Err(WalkDict(items[0], items[0].fields, repr).error)
  {
    if |items| == 0 then Ok([])
    else
      assert items[0] == parent.items[|parent.items| - |items|];
      var head :- WalkItem(parent, items, repr);
      var rest :- WalkList(parent, items[1..], repr);
      Ok([head] + rest)
  }

  /** The walked first item of `items`: an object is walked, anything else stays. */
  function WalkItem(parent: Json, items: seq<Json>, repr: real -> string): (r: Result<Json, CastError>)
    requires parent.JArr? && Suffix(items, parent.items) && 0 < |items|
    decreases parent, 0, 0
    ensures !items[0].JObj? ==> r == Ok(items[0])
    ensures items[0].JObj? ==> (r.Ok? <==> WalkDict(items[0], items[0].fields, repr).Ok?)
    ensures items[0].JObj? && r.Ok? ==> r.value == JObj(WalkDict(items[0], items[0].fields, repr).value)
  {
    assert items[0] == parent.items[|parent.items| - |items|];
    if items[0].JObj? then
      var w :- WalkDict(items[0], items[0].fields, repr);
      Ok(JObj(w))
    else Ok(items[0])
  }

  /** The first item of a walked list is the walked first item; the rest is the walked rest. */
  lemma WalkListHead(parent: Json, items: seq<Json>, repr: real -> string)
    requires parent.JArr? && Suffix(items, parent.items) && |items| > 0 && WalkList(parent, items, repr).Ok?
    ensures WalkList(parent, items[1..], repr).Ok?
    ensures WalkList(parent, items, repr).value[1..] == WalkList(parent, items[1..], repr).value
    ensures !items[0].JObj? ==> WalkList(parent, items, repr).value[0] == items[0]
    ensures items[0].JObj? ==>
              (WalkList(parent, items, repr).value[0].JObj? &&
               WalkDict(items[0], items[0].fields, repr) == Ok(WalkList(parent, items, repr).value[0].fields))
  {
    assert items[0] == parent.items[|parent.items| - |items|];
  }

  /** Objects in a walked list are walked; every other element, nested lists included, stays. */
  lemma {:induction false} WalkListElements(parent: Json, items: seq<Json>, repr: real -> string)
    requires parent.JArr? && Suffix(items, parent.items) && WalkList(parent, items, repr).Ok?
    ensures forall i :: 0 <= i < |items| && !items[i].JObj? ==> WalkList(parent, items, repr).value[i] == items[i]
    ensures forall i :: 0 <= i < |items| && items[i].JObj? ==>
              WalkList(parent, items, repr).value[i].JObj? &&
              WalkDict(items[i], items[i].fields, repr) == Ok(WalkList(parent, items, repr).value[i].fields)
    decreases |items|
  {
    if |items| != 0 {
      WalkListHead(parent, items, repr);
      WalkListElements(parent, items[1..], repr);
      var w := WalkList(parent, items, repr).value;
      assert forall i :: 1 <= i < |items| ==> items[i] == items[1..][i - 1] && w[i] == w[1..][i - 1];
    }
  }

  /** The script's top level: only an object document is walked. */
  function CastDocument(doc: Json, repr: real -> string): (r: Result<Json, CastError>)
    ensures !doc.JObj? ==> r == Ok(doc)
    ensures r.Ok? && doc.JObj? ==> r.value.JObj? && Keys(r.value.fields) == Keys(doc.fields)
  {
    if doc.JObj? then
      var w :- WalkDict(doc, doc.fields, repr);
      Ok(JObj(w))
    else Ok(doc)
  }

  // ---------------------------------------------------------------- idempotence

  /** A second walk changes nothing: rewritten values are strings, integers or already-wrapped objects. */
  lemma {:induction false} CastValueIdempotent(key: string, v: Json, repr: real -> string)
    requires CastValue(key, v, repr).Ok?
    ensures CastValue(key, CastValue(key, v, repr).value, repr) == CastValue(key, v, repr)
    decreases v, 1, 0
  {
    var w := CastValue(key, v, repr).value;
    if v.JArr? {
      WalkListIdempotent(v, v.items, w, repr);
    } else if v.JObj? {
      WalkDictIdempotent(v, v.fields, w, repr);
    } else if WrapKey(key) && !StrKey(key) && key != "speed_limit" {
      var s := Str(v, repr);
      var inner := [("id", JStr(s))];
      assert w == JObj(inner);
      var once := CastValue("id", JStr(s), repr);
      assert once == Ok(JStr(s));
      assert inner[1..] == [];
      assert WalkDict(w, inner[1..], repr) == Ok([]);
      assert inner[0].0 == "id" && inner[0].1 == JStr(s);
      assert CastValue(inner[0].0, inner[0].1, repr) == Ok(JStr(s));
      assert [(inner[0].0, JStr(s))] + [] == inner;
      assert WalkDict(w, inner, repr) == Ok(inner);
    }
  }

  lemma {:induction false} WalkDictIdempotent(parent: Json, fields: seq<(string, Json)>, parent': Json, repr: real -> string)
    requires parent.JObj? && Suffix(fields, parent.fields) && WalkDict(parent, fields, repr).Ok?
    requires parent'.JObj? && Suffix(WalkDict(parent, fields, repr).value, parent'.fields)
    ensures WalkDict(parent', WalkDict(parent, fields, repr).value, repr) == WalkDict(parent, fields, repr)
    decreases parent, 0, |fields|
  {
    if |fields| != 0 {
      assert fields[0] == parent.fields[|parent.fields| - |fields|];
      var w := WalkDict(parent, fields, repr).value;
      var v := CastValue(fields[0].0, fields[0].1, repr).value;
      var rest := WalkDict(parent, fields[1..], repr).value;
      assert w == [(fields[0].0, v)] + rest;
      assert w[1..] == rest;
      CastValueIdempotent(fields[0].0, fields[0].1, repr);
      WalkDictIdempotent(parent, fields[1..], parent', repr);
    }
  }

  lemma {:induction false} WalkListIdempotent(parent: Json, items: seq<Json>, parent': Json, repr: real -> string)
    requires parent.JArr? && Suffix(items, parent.items) && WalkList(parent, items, repr).Ok?
    requires parent'.JArr? && Suffix(WalkList(parent, items, repr).value, parent'.items)
    ensures WalkList(parent', WalkList(parent, items, repr).value, repr) == WalkList(parent, items, repr)
    decreases parent, 0, |items|
  {
    if |items| != 0 {
      assert items[0] == parent.items[|parent.items| - |items|];
      var w := WalkList(parent, items, repr).value;
      WalkListHead(parent, items, repr);
      WalkListIdempotent(parent, items[1..], parent', repr);
      if items[0].JObj? {
        WalkDictIdempotent(items[0], items[0].fields, w[0], repr);
      }
      WalkListFixedCons(parent', w, repr);
    }
  }

  /** A list whose head and tail are left alone by the walk is left alone as a whole. */
  lemma WalkListFixedCons(parent: Json, items: seq<Json>, repr: real -> string)
    requires parent.JArr? && Suffix(items, parent.items) && |items| > 0
    requires WalkList(parent, items[1..], repr) == Ok(items[1..])
    requires items[0].JObj? ==> WalkDict(items[0], items[0].fields, repr) == Ok(items[0].fields)
    ensures WalkList(parent, items, repr) == Ok(items)
  {
    assert items == [items[0]] + items[1..];
  }

  /** Casting a whole document twice is casting it once. */
  lemma CastDocumentIdempotent(doc: Json, repr: real -> string)
    requires CastDocument(doc, repr).Ok?
    ensures CastDocument(CastDocument(doc, repr).value, repr) == CastDocument(doc, repr)
  {
    if doc.JObj? {
      WalkDictIdempotent(doc, doc.fields, CastDocument(doc, repr).value, repr);
    }
  }
}

=== FILE: json.dfy ===
/** JSON documents as Python's `json` module loads them: objects keep their key order. */
module Json {
  import opened Wrappers

  datatype Json =
    | JNull
    | JBool(b: bool)
    | JInt(i: int)
    | JFloat(r: real)
    | JStr(s: string)
    | JArr(items: seq<Json>)
    | JObj(fields: seq<(string, Json)>)

  /** The keys of an object, in iteration order. */
  function Keys(fields: seq<(string, Json)>): (ks: seq<string>)
    ensures |ks| == |fields|
    ensures forall i :: 0 <= i < |fields| ==> ks[i] == fields[i].0
  {
    if |fields| == 0 then [] else [fields[0].0] + Keys(fields[1..])
  }

  /** `d[key]` on a Python dict: the value stored under `key`, if any. */
  function Get(fields: seq<(string, Json)>, key: string): (r: Option<Json>)
    ensures r.None? <==> key !in Keys(fields)
    ensures r.Some? ==> exists i :: 0 <= i < |fields| && fields[i] == (key, r.value)
  {
    if |fields| == 0 then None
    else if fields[0].0 == key then Some(fields[0].1)
    else Get(fields[1..], key)
  }

  /** `v == x` in Python for a JSON value and a number (`True == 1`, `-1 == -1.0`). */
  predicate NumEquals(v: Json, x: real) {
    match v
    case JInt(i) => i as real == x
    case JFloat(r) => r == x
    case JBool(b) => (if b then 1.0 else 0.0) == x
    case _ => false
  }
}

=== FILE: osm_parser.dfy ===
/**
 * The OpenStreetMap parser of the map export: bounding-box normalisation,
 * counting how often ways use each node, keeping the nodes that join ways
 * or carry a signal, splitting ways into segments at kept nodes, emitting
 * directed roads, and deriving lanes and extra bike streets.
 */
module OsmParser {
  import opened Wrappers
  import Strings
  import Php

  // ---------------------------------------------------------------- bounding box

  datatype Bbox = Bbox(lon1: real, lon2: real, lat1: real, lat2: real)

  /** The constructor: each pair of bounds is swapped when given reversed. */
  function NewBbox(lon1: real, lon2: real, lat1: real, lat2: real): (b: Bbox)
    ensures b.lon1 <= b.lon2 && b.lat1 <= b.lat2
    ensures multiset{b.lon1, b.lon2} == multiset{lon1, lon2}
    ensures multiset{b.lat1, b.lat2} == multiset{lat1, lat2}
    ensures lon1 <= lon2 ==> b.lon1 == lon1 && b.lon2 == lon2
    ensures lat1 <= lat2 ==> b.lat1 == lat1 && b.lat2 == lat2
  {
    var (lo1, lo2) := if lon1 > lon2 then (lon2, lon1) else (lon1, lon2);
    var (la1, la2) := if lat1 > lat2 then (lat2, lat1) else (lat1, lat2);
    Bbox(lo1, lo2, la1, la2)
  }

  // ---------------------------------------------------------------- raw data

  type Tags = map<string, string>

  datatype RawNode = RawNode(id: int, lon: real, lat: real, tags: Tags)
  datatype RawWay = RawWay(id: int, nodes: seq<int>, tags: Tags)

  /** `$tags[key] == value`, where a missing tag never matches. */
  predicate TagIs(tags: Tags, key: string, value: string) {
    key in tags && tags[key] == value
  }

  // ---------------------------------------------------------------- node usage

  type Counts = map<int, nat>

  /** What position `p` of a way adds: 2 at either end, 1 inside. */
  function Occurrence(nodes: seq<int>, p: nat): (d: nat)
    requires p < |nodes|
    ensures 1 <= d <= 2
  {
    if p != 0 && p != |nodes| - 1 then 1 else 2
  }

  function Get(c: Counts, n: int): nat {
    if n in c then c[n] else 0
  }

  /** The counter loop over the first `k` positions of one way. */
  function CountPositions(c: Counts, nodes: seq<int>, k: nat): Counts
    requires k <= |nodes|
  {
    if k == 0 then c
    else
      var c' := CountPositions(c, nodes, k - 1);
      var n := nodes[k - 1];
      c'[n := Get(c', n) + Occurrence(nodes, k - 1)]
  }

  /** The counter loop over all ways. */
  function CountNodes(ways: seq<RawWay>): Counts {
    if |ways| == 0 then map[]
    else
      var w := ways[|ways| - 1];
      CountPositions(CountNodes(ways[..|ways| - 1]), w.nodes, |w.nodes|)
  }

  /** Reference: the weight node `n` gets from the first `k` positions of a way. */
  function Weight(nodes: seq<int>, n: int, k: nat): nat
    requires k <= |nodes|
  {
    if k == 0 then 0
    else Weight(nodes, n, k - 1) + (if nodes[k - 1] == n then Occurrence(nodes, k - 1) else 0)
  }

  function WaysWeight(ways: seq<RawWay>, n: int): nat {
    if |ways| == 0 then 0
    else WaysWeight(ways[..|ways| - 1], n) + Weight(ways[|ways| - 1].nodes, n, |ways[|ways| - 1].nodes|)
  }

  lemma {:induction false} CountPositionsWeight(c: Counts, nodes: seq<int>, k: nat, n: int)
    requires k <= |nodes|
    ensures Get(CountPositions(c, nodes, k), n) == Get(c, n) + Weight(nodes, n, k)
    ensures n in CountPositions(c, nodes, k) <==> n in c || Weight(nodes, n, k) > 0
  {
    if k > 0 {
      CountPositionsWeight(c, nodes, k - 1, n);
    }
  }

  /**
   * The counter holds a node exactly when some way uses it, and its value is
   * the sum over all uses: 2 at a way's ends, 1 inside.
   */
  lemma {:induction false} CountNodesWeight(ways: seq<RawWay>, n: int)
    ensures Get(CountNodes(ways), n) == WaysWeight(ways, n)
    ensures n in CountNodes(ways) <==> WaysWeight(ways, n) > 0
  {
    if |ways| > 0 {
      var w := ways[|ways| - 1];
      CountNodesWeight(ways[..|ways| - 1], n);
      CountPositionsWeight(CountNodes(ways[..|ways| - 1]), w.nodes, |w.nodes|, n);
    }
  }

  lemma {:induction false} WeightAtLeast(nodes: seq<int>, n: int, k: nat, p: nat)
    requires p < k <= |nodes| && nodes[p] == n
    ensures Weight(nodes, n, k) >= Occurrence(nodes, p)
  {
    if p < k - 1 {
      WeightAtLeast(nodes, n, k - 1, p);
    }
  }

  lemma {:induction false} WaysWeightAtLeast(ways: seq<RawWay>, n: int, q: nat, p: nat)
    requires q < |ways| && p < |ways[q].nodes| && ways[q].nodes[p] == n
    ensures WaysWeight(ways, n) >= Occurrence(ways[q].nodes, p)
  {
    if q == |ways| - 1 {
      WeightAtLeast(ways[q].nodes, n, |ways[q].nodes|, p);
    } else {
      assert ways[..|ways| - 1][q] == ways[q];
      WaysWeightAtLeast(ways[..|ways| - 1], n, q, p);
    }
  }

  // ---------------------------------------------------------------- kept nodes

  predicate Signal(nd: RawNode) {
    TagIs(nd.tags, "highway", "traffic_signals")
  }

  /** A node survives when ways use it and it joins ways, ends one, or carries a signal. */
  predicate Keep(c: Counts, nd: RawNode) {
    nd.id in c && (c[nd.id] > 1 || Signal(nd))
  }

  /** A road registered at a node, with its traffic controller. */
  datatype RoadRef = RoadRef(id: string, controller: string)

  datatype ParsedNode = ParsedNode(id: string, lon: real, lat: real, roads: seq<RoadRef>, trafficSignal: bool, roundabout: bool)

  type Nodes = map<int, ParsedNode>

  /** A freshly kept node: no roads yet, never a roundabout. */
  function Fresh(nd: RawNode): (p: ParsedNode)
    ensures p.roads == [] && !p.roundabout && p.id == Strings.IntToString(nd.id)
  {
    ParsedNode(Strings.IntToString(nd.id), nd.lon, nd.lat, [], Signal(nd), false)
  }

  /** The pruning loop over the raw nodes; a later node with the same id replaces an earlier one. */
  function KeepNodes(c: Counts, raw: seq<RawNode>): (r: Nodes)
    ensures forall n :: n in r ==> exists q :: 0 <= q < |raw| && raw[q].id == n && Keep(c, raw[q]) && r[n] == Fresh(raw[q])
    ensures forall q :: 0 <= q < |raw| && Keep(c, raw[q]) ==> raw[q].id in r
  {
    if |raw| == 0 then map[]
    else
      var r := KeepNodes(c, raw[..|raw| - 1]);
      var nd := raw[|raw| - 1];
      assert forall q :: 0 <= q < |raw| - 1 ==> raw[..|raw| - 1][q] == raw[q];
      if Keep(c, nd) then r[nd.id := Fresh(nd)] else r
  }

  /** `parseNodes`. */
  function ParseNodes(ways: seq<RawWay>, raw: seq<RawNode>): Nodes {
    KeepNodes(CountNodes(ways), raw)
  }

  /**
   * A node that ends a way, or that two ways share, survives whenever the
   * raw data lists it; an interior node of a single way survives only with
   * a signal.
   */
  lemma EndpointsKept(ways: seq<RawWay>, raw: seq<RawNode>, q: nat, p: nat, k: nat)
    requires q < |ways| && p < |ways[q].nodes| && (p == 0 || p == |ways[q].nodes| - 1)
    requires k < |raw| && raw[k].id == ways[q].nodes[p]
    ensures raw[k].id in ParseNodes(ways, raw)
  {
    var n := raw[k].id;
    WaysWeightAtLeast(ways, n, q, p);
    CountNodesWeight(ways, n);
  }

  lemma KeptIff(ways: seq<RawWay>, nd: RawNode)
    ensures Keep(CountNodes(ways), nd) <==> WaysWeight(ways, nd.id) > 0 && (WaysWeight(ways, nd.id) > 1 || Signal(nd))
  {
    CountNodesWeight(ways, nd.id);
  }

  // ---------------------------------------------------------------- splitting ways

  /** A piece of a way between kept nodes; `end` is unset until a kept node closes it. */
  datatype Segment = Segment(start: int, end: Option<int>)

  /** Kept nodes at positions 1 .. i-1 other than the way's last position: each opens a new segment. */
  function Openers(nodes: seq<int>, kept: set<int>, i: nat): nat
    requires i <= |nodes|
  {
    if i <= 1 then 0
    else Openers(nodes, kept, i - 1) + (if nodes[i - 1] in kept && i - 1 != |nodes| - 1 then 1 else 0)
  }

  /** Kept nodes at positions 1 .. i-1. */
  function KeptAfterFirst(nodes: seq<int>, kept: set<int>, i: nat): nat
    requires i <= |nodes|
  {
    if i <= 1 then 0
    else KeptAfterFirst(nodes, kept, i - 1) + (if nodes[i - 1] in kept then 1 else 0)
  }

  /**
   * The splitting loop over positions 1 .. i-1: a kept node closes the
   * current segment and, unless it is the last node, opens the next one.
   */
  function Split(nodes: seq<int>, kept: set<int>, i: nat): (r: seq<Segment>)
    requires 1 <= i <= |nodes|
    ensures 1 <= |r| && r[0].start == nodes[0]
    ensures forall k :: 0 <= k < |r| - 1 ==> r[k].end == Some(r[k + 1].start)
    ensures forall k :: 0 <= k < |r| && r[k].end.Some? ==> r[k].end.value in kept
    ensures forall k :: 1 <= k < |r| ==> r[k].start in kept
    ensures i < |nodes| ==> r[|r| - 1].end.None?
    ensures i == |nodes| && 2 <= |nodes| ==> (r[|r| - 1].end.Some? <==> nodes[|nodes| - 1] in kept)
    ensures |nodes| == 1 ==> r == [Segment(nodes[0], None)]
    ensures |r| == 1 + Openers(nodes, kept, i)
  {
    if i == 1 then [Segment(nodes[0], None)]
    else
      var r := Split(nodes, kept, i - 1);
      var n := nodes[i - 1];
      if n in kept then
        var closed := r[|r| - 1 := r[|r| - 1].(end := Some(n))];
        if i - 1 != |nodes| - 1 then closed + [Segment(n, None)] else closed
      else r
  }

  lemma {:induction false} OpenersKept(nodes: seq<int>, kept: set<int>, i: nat)
    requires 1 <= i <= |nodes|
    ensures KeptAfterFirst(nodes, kept, i) == Openers(nodes, kept, i) + (if i == |nodes| && 2 <= |nodes| && nodes[|nodes| - 1] in kept then 1 else 0)
  {
    if i > 1 {
      OpenersKept(nodes, kept, i - 1);
    }
  }

  /**
   * A way whose last node is kept splits into one closed segment per kept
   * node at positions 1 .. n-1; otherwise its last segment stays open.
   */
  lemma SegmentsPerKeptNode(nodes: seq<int>, kept: set<int>)
    requires 2 <= |nodes|
    ensures var r := Split(nodes, kept, |nodes|);
            nodes[|nodes| - 1] in kept ==> |r| == KeptAfterFirst(nodes, kept, |nodes|) && forall k :: 0 <= k < |r| ==> r[k].end.Some?
  {
    OpenersKept(nodes, kept, |nodes|);
    var r := Split(nodes, kept, |nodes|);
    if nodes[|nodes| - 1] in kept {
      forall k | 0 <= k < |r|
        ensures r[k].end.Some?
      {
        if k < |r| - 1 {
          assert r[k].end == Some(r[k + 1].start);
        }
      }
    }
  }

  // ---------------------------------------------------------------- directed roads

  /** What stops the parse: PHP reads a missing entry as null and fails once a length is computed from it. */
  datatype ParseError =
    | EmptyWay(way: int)        // `$nodes[0]` of a way without nodes
    | OpenSegment(way: int)     // a segment never closed by a kept node
    | UnknownNode(node: int)    // a segment end the pruning did not keep

  /** An entry of `splittedRoads`; road ids are the numbers the export writes with `strval`, `None` is "-1". */
  datatype SplitRoad = SplitRoad(id: nat, osmId: int, arrayId: nat, startNode: int, endNode: int, opposite: Option<nat>)

  predicate Oneway(tags: Tags) {
    TagIs(tags, "oneway", "yes")
  }

  function Controller(n: ParsedNode): string {
    if n.trafficSignal then "traffic_signal" else "NONE"
  }

  function Register(nodes: Nodes, n: int, ref: RoadRef): Nodes
    requires n in nodes
  {
    nodes[n := nodes[n].(roads := nodes[n].roads + [ref])]
  }

  /** The nodes are the same except that more roads were registered at their ends. */
  predicate Grew(before: Nodes, after: Nodes) {
    && after.Keys == before.Keys
    && forall n :: n in before ==>
         && after[n] == before[n].(roads := after[n].roads)
         && |before[n].roads| <= |after[n].roads|
         && after[n].roads[..|before[n].roads|] == before[n].roads
  }

  lemma GrewRegister(nodes: Nodes, n: int, ref: RoadRef)
    requires n in nodes
    ensures Grew(nodes, Register(nodes, n, ref))
  {
    var r := Register(nodes, n, ref);
    assert r[n].roads[..|nodes[n].roads|] == nodes[n].roads;
  }

  lemma GrewTrans(a: Nodes, b: Nodes, c: Nodes)
    requires Grew(a, b) && Grew(b, c)
    ensures Grew(a, c)
  {
    forall n | n in a
      ensures c[n].roads[..|a[n].roads|] == a[n].roads
    {
      assert c[n].roads[..|a[n].roads|] == c[n].roads[..|b[n].roads|][..|a[n].roads|];
    }
  }

  /** Two consecutive roads of a oneway segment: reversed endpoints, each naming the other as opposite. */
  predicate Partners(a: SplitRoad, b: SplitRoad) {
    && b.id == a.id + 1 && a.opposite == Some(b.id) && b.opposite == Some(a.id)
    && a.startNode == b.endNode && a.endNode == b.startNode && a.osmId == b.osmId && a.arrayId == b.arrayId
  }

  /** A road is listed as `outgoing` at its start node and under the end node's own controller at its end node. */
  predicate Registered(nodes: Nodes, r: SplitRoad) {
    && r.startNode in nodes && r.endNode in nodes
    && RoadRef(Strings.NatToString(r.id), "outgoing") in nodes[r.startNode].roads
    && RoadRef(Strings.NatToString(r.id), Controller(nodes[r.endNode])) in nodes[r.endNode].roads
  }

  lemma RegisteredGrew(before: Nodes, after: Nodes, r: SplitRoad)
    requires Registered(before, r) && Grew(before, after)
    ensures Registered(after, r)
  {
    var s, e := r.startNode, r.endNode;
    assert after[s].roads[..|before[s].roads|] == before[s].roads;
    assert after[e].roads[..|before[e].roads|] == before[e].roads;
  }

  /** The loop state: the nodes, the roads so far, and `streetCount`. */
  datatype Emit = Emit(nodes: Nodes, roads: seq<SplitRoad>, count: nat)

  /** Road ids count up from `base`, as `streetCount` does. */
  predicate Numbered(roads: seq<SplitRoad>, base: nat) {
    forall k :: 0 <= k < |roads| ==> roads[k].id == base + k
  }

  predicate AllRegistered(nodes: Nodes, roads: seq<SplitRoad>) {
    forall k :: 0 <= k < |roads| ==> Registered(nodes, roads[k])
  }

  /** Every road comes from one of the raw ways `lo` .. `hi`-1. */
  predicate FromWays(roads: seq<SplitRoad>, lo: nat, hi: nat) {
    forall k :: 0 <= k < |roads| ==> lo <= roads[k].arrayId < hi
  }

  /** A road with an opposite sits next to its partner. */
  predicate Paired(roads: seq<SplitRoad>) {
    forall k :: 0 <= k < |roads| ==> PairedAt(roads, k)
  }

  predicate PairedAt(roads: seq<SplitRoad>, k: nat)
    requires k < |roads|
  {
    roads[k].opposite.Some? ==>
      (k + 1 < |roads| && Partners(roads[k], roads[k + 1])) || (0 < k && Partners(roads[k - 1], roads[k]))
  }

  /** What holds of a run of roads emitted from `streetCount` = `base` on. */
  predicate Block(nodes: Nodes, roads: seq<SplitRoad>, base: nat, lo: nat, hi: nat) {
    Numbered(roads, base) && AllRegistered(nodes, roads) && FromWays(roads, lo, hi) && Paired(roads)
  }

  /** `after` is `before` with a well-formed block of roads appended and their ends registered. */
  predicate Extended(before: Emit, after: Emit, lo: nat, hi: nat) {
    && Grew(before.nodes, after.nodes)
    && |before.roads| <= |after.roads|
    && after.roads[..|before.roads|] == before.roads
    && after.count == before.count + (|after.roads| - |before.roads|)
    && Block(after.nodes, after.roads[|before.roads|..], before.count, lo, hi)
  }

  lemma ExtendedRefl(st: Emit, lo: nat, hi: nat)
    ensures Extended(st, st, lo, hi)
  {
    assert st.roads[..|st.roads|] == st.roads;
    forall n | n in st.nodes
      ensures st.nodes[n].roads[..|st.nodes[n].roads|] == st.nodes[n].roads
    {
    }
  }

  lemma AllRegisteredGrew(before: Nodes, after: Nodes, roads: seq<SplitRoad>)
    requires AllRegistered(before, roads) && Grew(before, after)
    ensures AllRegistered(after, roads)
  {
    forall k | 0 <= k < |roads|
      ensures Registered(after, roads[k])
    {
      RegisteredGrew(before, after, roads[k]);
    }
  }

  lemma PairedAppend(x: seq<SplitRoad>, y: seq<SplitRoad>)
    requires Paired(x) && Paired(y)
    ensures Paired(x + y)
  {
    var z := x + y;
    forall k | 0 <= k < |z|
      ensures PairedAt(z, k)
    {
      if k < |x| {
        assert PairedAt(x, k);
        assert z[k] == x[k];
        if k + 1 < |x| { assert z[k + 1] == x[k + 1]; }
        if 0 < k { assert z[k - 1] == x[k - 1]; }
      } else {
        var j := k - |x|;
        assert PairedAt(y, j);
        assert z[k] == y[j];
        if j + 1 < |y| { assert z[k + 1] == y[j + 1]; }
        if 0 < j { assert z[k - 1] == y[j - 1]; }
      }
    }
  }

  lemma BlockAppend(nodes: Nodes, x: seq<SplitRoad>, y: seq<SplitRoad>, base: nat, lo1: nat, hi1: nat, lo2: nat, hi2: nat)
    requires Block(nodes, x, base, lo1, hi1) && Block(nodes, y, base + |x|, lo2, hi2)
    requires lo1 <= lo2 && hi1 <= hi2
    ensures Block(nodes, x + y, base, lo1, hi2)
  {
    PairedAppend(x, y);
    var z := x + y;
    forall k | 0 <= k < |z|
      ensures z[k].id == base + k && Registered(nodes, z[k]) && lo1 <= z[k].arrayId < hi2
    {
      if k < |x| { assert z[k] == x[k]; } else { assert z[k] == y[k - |x|]; }
    }
  }

  lemma {:induction false} ExtendedTrans(a: Emit, b: Emit, c: Emit, lo1: nat, hi1: nat, lo2: nat, hi2: nat)
    requires Extended(a, b, lo1, hi1) && Extended(b, c, lo2, hi2)
    requires lo1 <= lo2 && hi1 <= hi2
    ensures Extended(a, c, lo1, hi2)
  {
    GrewTrans(a.nodes, b.nodes, c.nodes);
    var x, y := b.roads[|a.roads|..], c.roads[|b.roads|..];
    assert c.roads[..|a.roads|] == c.roads[..|b.roads|][..|a.roads|];
    assert c.roads[|a.roads|..] == x + y by {
      assert c.roads[|a.roads|..] == c.roads[|a.roads|..|b.roads|] + c.roads[|b.roads|..];
      assert c.roads[|a.roads|..|b.roads|] == c.roads[..|b.roads|][|a.roads|..];
    }
    AllRegisteredGrew(b.nodes, c.nodes, x);
    BlockAppend(c.nodes, x, y, a.count, lo1, hi1, lo2, hi2);
  }

  lemma GrewThenRegister(before: Nodes, nodes: Nodes, n: int, ref: RoadRef)
    requires Grew(before, nodes) && n in nodes
    ensures Grew(before, Register(nodes, n, ref))
  {
    GrewRegister(nodes, n, ref);
    GrewTrans(before, nodes, Register(nodes, n, ref));
  }

  lemma RegisteredRegister(nodes: Nodes, n: int, ref: RoadRef, r: SplitRoad)
    requires Registered(nodes, r) && n in nodes
    ensures Registered(Register(nodes, n, ref), r)
  {
  }

  /** Appending a well-formed block of roads to the state extends it. */
  lemma ExtendedBy(st: Emit, nodes: Nodes, block: seq<SplitRoad>, lo: nat, hi: nat)
    requires Grew(st.nodes, nodes) && Block(nodes, block, st.count, lo, hi)
    ensures Extended(st, Emit(nodes, st.roads + block, st.count + |block|), lo, hi)
  {
    var roads := st.roads + block;
    assert roads[..|st.roads|] == st.roads;
    assert roads[|st.roads|..] == block;
  }

  /** The four registrations of a oneway segment with roads `c` and `c` + 1, in the source's order. */
  function RegisterOneway(nodes: Nodes, s: int, e: int, c: nat): Nodes
    requires s in nodes && e in nodes
  {
    var n1 := Register(nodes, s, RoadRef(Strings.NatToString(c), "outgoing"));
    var n2 := Register(n1, e, RoadRef(Strings.NatToString(c), Controller(nodes[e])));
    var n3 := Register(n2, e, RoadRef(Strings.NatToString(c + 1), "outgoing"));
    Register(n3, s, RoadRef(Strings.NatToString(c + 1), Controller(nodes[s])))
  }

  lemma RegisterOnewayRegisters(nodes: Nodes, s: int, e: int, c: nat, a: SplitRoad, b: SplitRoad)
    requires s in nodes && e in nodes
    requires a.id == c && a.startNode == s && a.endNode == e && b.id == c + 1 && b.startNode == e && b.endNode == s
    ensures Grew(nodes, RegisterOneway(nodes, s, e, c))
    ensures Registered(RegisterOneway(nodes, s, e, c), a) && Registered(RegisterOneway(nodes, s, e, c), b)
  {
    var ra, ra' := RoadRef(Strings.NatToString(c), "outgoing"), RoadRef(Strings.NatToString(c), Controller(nodes[e]));
    var rb, rb' := RoadRef(Strings.NatToString(c + 1), "outgoing"), RoadRef(Strings.NatToString(c + 1), Controller(nodes[s]));
    var n1 := Register(nodes, s, ra);
    var n2 := Register(n1, e, ra');
    var n3 := Register(n2, e, rb);
    var n4 := Register(n3, s, rb');
    GrewRegister(nodes, s, ra);
    GrewThenRegister(nodes, n1, e, ra');
    GrewThenRegister(nodes, n2, e, rb);
    GrewThenRegister(nodes, n3, s, rb');
    assert ra in n1[s].roads;
    assert Registered(n2, a);
    RegisteredRegister(n2, e, rb, a);
    RegisteredRegister(n3, s, rb', a);
    assert rb in n3[e].roads;
    if s != e {
      assert n4[e] == n3[e];
    } else {
      assert n4[e].roads == n3[e].roads + [rb'];
    }
    assert Registered(n4, b);
  }

  /** A oneway segment: the road as drawn and its reverse, each naming the other as opposite. */
  function EmitOneway(st: Emit, way: RawWay, arrayId: nat, s: int, e: int): (r: Emit)
    requires s in st.nodes && e in st.nodes
    ensures Extended(st, r, arrayId, arrayId + 1) && |r.roads| == |st.roads| + 2
    ensures var a := r.roads[|st.roads|];
            a.startNode == s && a.endNode == e && a.osmId == way.id && Partners(a, r.roads[|st.roads| + 1])
  {
    var c := st.count;
    var a := SplitRoad(c, way.id, arrayId, s, e, Some(c + 1));
    var b := SplitRoad(c + 1, way.id, arrayId, e, s, Some(c));
    var nodes := RegisterOneway(st.nodes, s, e, c);
    RegisterOnewayRegisters(st.nodes, s, e, c, a, b);
    assert PairedAt([a, b], 0) && PairedAt([a, b], 1);
    assert Block(nodes, [a, b], c, arrayId, arrayId + 1);
    ExtendedBy(st, nodes, [a, b], arrayId, arrayId + 1);
    Emit(nodes, st.roads + [a, b], c + 2)
  }

  /** A two-way segment: one road with no opposite. */
  function EmitTwoWay(st: Emit, way: RawWay, arrayId: nat, s: int, e: int): (r: Emit)
    requires s in st.nodes && e in st.nodes
    ensures Extended(st, r, arrayId, arrayId + 1) && |r.roads| == |st.roads| + 1
    ensures var a := r.roads[|st.roads|];
            a.startNode == s && a.endNode == e && a.osmId == way.id && a.opposite.None?
  {
    var c := st.count;
    var a := SplitRoad(c, way.id, arrayId, s, e, None);
    var ra, ra' := RoadRef(Strings.NatToString(c), "outgoing"), RoadRef(Strings.NatToString(c), Controller(st.nodes[e]));
    var n1 := Register(st.nodes, s, ra);
    var n2 := Register(n1, e, ra');
    GrewRegister(st.nodes, s, ra);
    GrewThenRegister(st.nodes, n1, e, ra');
    assert ra in n1[s].roads;
    assert Registered(n2, a);
    assert PairedAt([a], 0);
    assert Block(n2, [a], c, arrayId, arrayId + 1);
    ExtendedBy(st, n2, [a], arrayId, arrayId + 1);
    Emit(n2, st.roads + [a], c + 1)
  }

  /** One pass of the segment loop; a segment that is open or ends at a pruned node fails. */
  function EmitSegment(st: Emit, way: RawWay, arrayId: nat, seg: Segment): (r: Result<Emit, ParseError>)
    ensures r.Err? <==> seg.end.None? || seg.start !in st.nodes || seg.end.value !in st.nodes
    ensures r.Ok? ==> Extended(st, r.value, arrayId, arrayId + 1)
    ensures r.Ok? ==> |r.value.roads| == |st.roads| + (if Oneway(way.tags) then 2 else 1)
    ensures r.Ok? && Oneway(way.tags) ==>
              var a := r.value.roads[|st.roads|];
              a.startNode == seg.start && Some(a.endNode) == seg.end && a.osmId == way.id && Partners(a, r.value.roads[|st.roads| + 1])
    ensures r.Ok? && !Oneway(way.tags) ==>
              var a := r.value.roads[|st.roads|];
              a.startNode == seg.start && Some(a.endNode) == seg.end && a.osmId == way.id && a.opposite.None?
  {
    if seg.end.None? then Err(OpenSegment(way.id))
    else if seg.start !in st.nodes then Err(UnknownNode(seg.start))
    else if seg.end.value !in st.nodes then Err(UnknownNode(seg.end.value))
    else if Oneway(way.tags) then Ok(EmitOneway(st, way, arrayId, seg.start, seg.end.value))
    else Ok(EmitTwoWay(st, way, arrayId, seg.start, seg.end.value))
  }

  /** A segment the loop cannot emit. */
  predicate Broken(nodes: Nodes, seg: Segment) {
    seg.end.None? || seg.start !in nodes || seg.end.value !in nodes
  }

  /** The segment loop of one way: one road per segment, two when the way is oneway. */
  function EmitSegments(st: Emit, way: RawWay, arrayId: nat, segs: seq<Segment>): (r: Result<Emit, ParseError>)
    ensures r.Ok? ==> Extended(st, r.value, arrayId, arrayId + 1)
    ensures r.Ok? ==> |r.value.roads| == |st.roads| + |segs| * (if Oneway(way.tags) then 2 else 1)
    ensures r.Err? <==> exists k :: 0 <= k < |segs| && Broken(st.nodes, segs[k])
    decreases |segs|
  {
    if segs == [] then ExtendedRefl(st, arrayId, arrayId + 1); Ok(st)
    else
      var one := EmitSegment(st, way, arrayId, segs[0]);
      if one.Err? then
        assert Broken(st.nodes, segs[0]);
        one
      else
        var rest := EmitSegments(one.value, way, arrayId, segs[1..]);
        BrokenShift(st, one.value, segs);
        if rest.Ok? then ExtendedTrans(st, one.value, rest.value, arrayId, arrayId + 1, arrayId, arrayId + 1); rest else rest
  }

  /** Registering roads adds no node, so a segment breaks the same way before and after. */
  lemma BrokenShift(st: Emit, next: Emit, segs: seq<Segment>)
    requires segs != [] && next.nodes.Keys == st.nodes.Keys && !Broken(st.nodes, segs[0])
    ensures (exists k :: 0 <= k < |segs| && Broken(st.nodes, segs[k])) <==> (exists k :: 0 <= k < |segs[1..]| && Broken(next.nodes, segs[1..][k]))
  {
    if exists k :: 0 <= k < |segs| && Broken(st.nodes, segs[k]) {
      var k :| 0 <= k < |segs| && Broken(st.nodes, segs[k]);
      assert Broken(next.nodes, segs[1..][k - 1]);
    } else {
      assert forall k :: 0 <= k < |segs[1..]| ==> segs[1..][k] == segs[k + 1];
    }
  }

  /** The segments of a way, split at the nodes that survived the pruning. */
  function WaySegments(way: RawWay, kept: set<int>): (r: Result<seq<Segment>, ParseError>)
    ensures r.Err? <==> way.nodes == []
    ensures r.Ok? ==> r.value == Split(way.nodes, kept, |way.nodes|)
  {
    if way.nodes == [] then Err(EmptyWay(way.id)) else Ok(Split(way.nodes, kept, |way.nodes|))
  }

  /** The first loop of `parseStreets` over the raw ways from position `from` on. */
  function EmitWays(st: Emit, ways: seq<RawWay>, from: nat): (r: Result<Emit, ParseError>)
    requires from <= |ways|
    ensures r.Ok? ==> Extended(st, r.value, from, |ways|)
    ensures r.Ok? ==> forall q :: from <= q < |ways| ==> ways[q].nodes != []
    decreases |ways| - from
  {
    if from == |ways| then ExtendedRefl(st, from, |ways|); Ok(st)
    else
      var segs :- WaySegments(ways[from], st.nodes.Keys);
      var one :- EmitSegments(st, ways[from], from, segs);
      var rest := EmitWays(one, ways, from + 1);
      if rest.Ok? then ExtendedTrans(st, one, rest.value, from, from + 1, from + 1, |ways|); rest else rest
  }

  // ---------------------------------------------------------------- streets

  datatype Lane = Lane(kind: string, left: bool, forward: bool, right: bool)

  /** The export's `lanes`: a list of lanes, or for a bike street a single lane object. */
  datatype Lanes = LaneList(lanes: seq<Lane>) | SingleLane(lane: Lane)

  datatype ParsedStreet = ParsedStreet(id: string, start: int, end: int, lanes: Lanes, speedLimit: int, distance: int, opposite: Option<string>)

  /** An entry of `parsedStreets`: the array key and the street stored under it. */
  type StreetEntry = (nat, ParsedStreet)

  /** The number of lanes of one direction, read with PHP's numeric-string rules. */
  function LaneCount(r: SplitRoad, tags: Tags): int {
    if r.opposite.None? then (if "lanes" in tags then Strings.IntVal(tags["lanes"]) else 1)
    else if "lanes" !in tags then 1
    else if "lanes:forward" !in tags then Strings.IntVal(tags["lanes"])
    else if r.opposite.value > r.id then Strings.IntVal(tags["lanes:forward"])
    else Strings.IntVal(tags["lanes"]) - Strings.IntVal(tags["lanes:forward"])
  }

  /** The two roads of a oneway segment share out the way's lanes: forward ones to the first, the rest to the second. */
  lemma PairSharesLanes(a: SplitRoad, b: SplitRoad, tags: Tags)
    requires Partners(a, b) && "lanes" in tags && "lanes:forward" in tags
    ensures LaneCount(a, tags) + LaneCount(b, tags) == Strings.IntVal(tags["lanes"])
    ensures LaneCount(a, tags) == Strings.IntVal(tags["lanes:forward"])
  {
  }

  /** A main road open to bicycles gets a separate bike street. */
  predicate GetsBikeStreet(tags: Tags) {
    (TagIs(tags, "highway", "primary") || TagIs(tags, "highway", "trunk") || TagIs(tags, "highway", "secondary"))
    && !TagIs(tags, "bicycle", "no")
  }

  function LaneKind(tags: Tags): string {
    if GetsBikeStreet(tags) || TagIs(tags, "bicycle", "no") then "car" else "both"
  }

  /** `$lanes` copies of a lane of the given kind; the loop runs no times for a count below one. */
  function LaneArray(kind: string, n: int): (r: seq<Lane>)
    ensures |r| == if n <= 0 then 0 else n
    ensures forall i :: 0 <= i < |r| ==> r[i] == Lane(kind, true, true, true)
  {
    if n <= 0 then [] else LaneArray(kind, n - 1) + [Lane(kind, true, true, true)]
  }

  /** The fields a road's street entries share: the key as id, the road's ends, speed limit and length. */
  predicate StreetOf(e: StreetEntry, r: SplitRoad, way: RawWay, start: ParsedNode, end: ParsedNode, dist: (real, real, real, real) -> real) {
    && e.1.id == Strings.NatToString(e.0)
    && e.1.start == r.startNode && e.1.end == r.endNode
    && e.1.speedLimit == (if "maxspeed" in way.tags then Strings.IntVal(way.tags["maxspeed"]) else 50)
    && e.1.distance == Php.Round(dist(start.lon, start.lat, end.lon, end.lat))
  }

  /** `e` is the entry stored for road `r` itself: its lanes by the lane rule, its opposite road, and the shared fields. */
  predicate RoadEntryOf(e: StreetEntry, r: SplitRoad, way: RawWay, start: ParsedNode, end: ParsedNode, dist: (real, real, real, real) -> real) {
    && e.0 == r.id
    && e.1.lanes == LaneList(LaneArray(LaneKind(way.tags), LaneCount(r, way.tags)))
    && e.1.opposite == (if r.opposite.None? then None else Some(Strings.NatToString(r.opposite.value)))
    && StreetOf(e, r, way, start, end, dist)
  }

  /** `e` is the bike street added beside road `r`: one bike lane, no opposite, and the shared fields. */
  predicate BikeEntryOf(e: StreetEntry, r: SplitRoad, way: RawWay, start: ParsedNode, end: ParsedNode, dist: (real, real, real, real) -> real) {
    && e.1.lanes == SingleLane(Lane("bike", true, true, true))
    && e.1.opposite.None?
    && StreetOf(e, r, way, start, end, dist)
  }

  /**
   * The street entries one road produces, with `streetCount` before and
   * after: the bike street under key count + 1 first when there is one,
   * then the road under its own id.
   */
  function RoadStreets(r: SplitRoad, way: RawWay, start: ParsedNode, end: ParsedNode, count: nat,
                       dist: (real, real, real, real) -> real): (out: (seq<StreetEntry>, nat))
    ensures GetsBikeStreet(way.tags) ==> |out.0| == 2 && out.1 == count + 1 && out.0[0].0 == count + 1
                                         && BikeEntryOf(out.0[0], r, way, start, end, dist)
    ensures !GetsBikeStreet(way.tags) ==> |out.0| == 1 && out.1 == count
    ensures RoadEntryOf(out.0[|out.0| - 1], r, way, start, end, dist)
  {
    var length := Php.Round(dist(start.lon, start.lat, end.lon, end.lat));
    var maxSpeed := if "maxspeed" in way.tags then Strings.IntVal(way.tags["maxspeed"]) else 50;
    var opposite := if r.opposite.None? then None else Some(Strings.NatToString(r.opposite.value));
    var road := ParsedStreet(Strings.NatToString(r.id), r.startNode, r.endNode,
                             LaneList(LaneArray(LaneKind(way.tags), LaneCount(r, way.tags))), maxSpeed, length, opposite);
    if GetsBikeStreet(way.tags) then
      var bike := ParsedStreet(Strings.NatToString(count + 1), r.startNode, r.endNode,
                               SingleLane(Lane("bike", true, true, true)), maxSpeed, length, None);
      ([(count + 1, bike), (r.id, road)], count + 1)
    else ([(r.id, road)], count)
  }

  predicate InDomain(roads: seq<SplitRoad>, ways: seq<RawWay>, nodes: Nodes) {
    forall k :: 0 <= k < |roads| ==> roads[k].arrayId < |ways| && roads[k].startNode in nodes && roads[k].endNode in nodes
  }

  /** The entries of the first road, with `streetCount` after it. */
  function FirstStreets(roads: seq<SplitRoad>, ways: seq<RawWay>, nodes: Nodes, count: nat,
                        dist: (real, real, real, real) -> real): (seq<StreetEntry>, nat)
    requires roads != [] && InDomain(roads, ways, nodes)
  {
    var r := roads[0];
    RoadStreets(r, ways[r.arrayId], nodes[r.startNode], nodes[r.endNode], count, dist)
  }

  /** The lanes loop of `parseStreets` over the split roads. */
  function EmitStreets(roads: seq<SplitRoad>, ways: seq<RawWay>, nodes: Nodes, count: nat,
                       dist: (real, real, real, real) -> real): (out: (seq<StreetEntry>, nat))
    requires InDomain(roads, ways, nodes)
    ensures count <= out.1 && |roads| <= |out.0|
    decreases |roads|
  {
    if roads == [] then ([], count)
    else
      var one := FirstStreets(roads, ways, nodes, count, dist);
      TailInDomain(roads, ways, nodes);
      var rest := EmitStreets(roads[1..], ways, nodes, one.1, dist);
      (one.0 + rest.0, rest.1)
  }

  lemma TailInDomain(roads: seq<SplitRoad>, ways: seq<RawWay>, nodes: Nodes)
    requires roads != [] && InDomain(roads, ways, nodes)
    ensures InDomain(roads[1..], ways, nodes)
  {
    assert forall k :: 0 <= k < |roads| - 1 ==> roads[1..][k] == roads[k + 1];
  }

  /** The roads' ids are below `streetCount` and increasing, as the first loop leaves them. */
  predicate Below(roads: seq<SplitRoad>, count: nat) {
    && (forall k :: 0 <= k < |roads| ==> roads[k].id < count)
    && (forall a, b :: 0 <= a < b < |roads| ==> roads[a].id < roads[b].id)
  }

  /** Bike street entries are keyed above `lo` and at most `hi`. */
  predicate BikeKeysIn(es: seq<StreetEntry>, lo: nat, hi: nat) {
    forall i :: 0 <= i < |es| && es[i].1.lanes.SingleLane? ==> lo < es[i].0 <= hi
  }

  /** Every other entry is keyed by the id of one of `roads`. */
  predicate RoadKeysFrom(es: seq<StreetEntry>, roads: seq<SplitRoad>) {
    forall i :: 0 <= i < |es| && es[i].1.lanes.LaneList? ==> exists k :: 0 <= k < |roads| && es[i].0 == roads[k].id
  }

  /** Each of `roads` has an entry under its own id. */
  predicate CoversRoads(es: seq<StreetEntry>, roads: seq<SplitRoad>) {
    forall k :: 0 <= k < |roads| ==> exists i :: 0 <= i < |es| && es[i].0 == roads[k].id && es[i].1.lanes.LaneList?
  }

  /** Road `r` points into the raw ways and the parsed nodes. */
  predicate Fits(r: SplitRoad, ways: seq<RawWay>, nodes: Nodes) {
    r.arrayId < |ways| && r.startNode in nodes && r.endNode in nodes
  }

  predicate IsRoadEntry(e: StreetEntry, r: SplitRoad, ways: seq<RawWay>, nodes: Nodes, dist: (real, real, real, real) -> real) {
    Fits(r, ways, nodes) && RoadEntryOf(e, r, ways[r.arrayId], nodes[r.startNode], nodes[r.endNode], dist)
  }

  predicate IsBikeEntry(e: StreetEntry, r: SplitRoad, ways: seq<RawWay>, nodes: Nodes, dist: (real, real, real, real) -> real) {
    Fits(r, ways, nodes) && GetsBikeStreet(ways[r.arrayId].tags)
    && BikeEntryOf(e, r, ways[r.arrayId], nodes[r.startNode], nodes[r.endNode], dist)
  }

  predicate NeedsBike(r: SplitRoad, ways: seq<RawWay>, nodes: Nodes) {
    Fits(r, ways, nodes) && GetsBikeStreet(ways[r.arrayId].tags)
  }

  /** Each road has its own entry. */
  predicate HasRoadEntries(es: seq<StreetEntry>, roads: seq<SplitRoad>, ways: seq<RawWay>, nodes: Nodes, dist: (real, real, real, real) -> real) {
    forall k :: 0 <= k < |roads| ==> exists i :: 0 <= i < |es| && IsRoadEntry(es[i], roads[k], ways, nodes, dist)
  }

  /** Each main road open to bicycles has its bike street. */
  predicate HasBikeEntries(es: seq<StreetEntry>, roads: seq<SplitRoad>, ways: seq<RawWay>, nodes: Nodes, dist: (real, real, real, real) -> real) {
    forall k :: 0 <= k < |roads| && NeedsBike(roads[k], ways, nodes) ==>
      exists i :: 0 <= i < |es| && IsBikeEntry(es[i], roads[k], ways, nodes, dist)
  }

  /** Every entry is a road's own entry or its bike street. */
  predicate OnlyRoadEntries(es: seq<StreetEntry>, roads: seq<SplitRoad>, ways: seq<RawWay>, nodes: Nodes, dist: (real, real, real, real) -> real) {
    forall i :: 0 <= i < |es| ==>
      exists k :: 0 <= k < |roads| && (IsRoadEntry(es[i], roads[k], ways, nodes, dist) || IsBikeEntry(es[i], roads[k], ways, nodes, dist))
  }

  /**
   * The entries describe the roads: each road has its own entry and, on a
   * main road open to bicycles, its bike street; and every entry is one of these.
   */
  predicate Describes(es: seq<StreetEntry>, roads: seq<SplitRoad>, ways: seq<RawWay>, nodes: Nodes, dist: (real, real, real, real) -> real) {
    HasRoadEntries(es, roads, ways, nodes, dist) && HasBikeEntries(es, roads, ways, nodes, dist)
    && OnlyRoadEntries(es, roads, ways, nodes, dist)
  }

  /** One road's entries describe that road. */
  lemma RoadStreetsDescribes(r: SplitRoad, ways: seq<RawWay>, nodes: Nodes, count: nat, dist: (real, real, real, real) -> real)
    requires Fits(r, ways, nodes)
    ensures Describes(RoadStreets(r, ways[r.arrayId], nodes[r.startNode], nodes[r.endNode], count, dist).0, [r], ways, nodes, dist)
  {
    var es := RoadStreets(r, ways[r.arrayId], nodes[r.startNode], nodes[r.endNode], count, dist).0;
    assert [r][0] == r;
    assert IsRoadEntry(es[|es| - 1], [r][0], ways, nodes, dist);
    if GetsBikeStreet(ways[r.arrayId].tags) {
      assert IsBikeEntry(es[0], [r][0], ways, nodes, dist);
    }
  }

  lemma HasRoadEntriesAppend(x: seq<StreetEntry>, y: seq<StreetEntry>, roads: seq<SplitRoad>, ways: seq<RawWay>, nodes: Nodes,
                             dist: (real, real, real, real) -> real)
    requires roads != [] && HasRoadEntries(x, [roads[0]], ways, nodes, dist) && HasRoadEntries(y, roads[1..], ways, nodes, dist)
    ensures HasRoadEntries(x + y, roads, ways, nodes, dist)
  {
    var z := x + y;
    forall k | 0 <= k < |roads|
      ensures exists i :: 0 <= i < |z| && IsRoadEntry(z[i], roads[k], ways, nodes, dist)
    {
      if k == 0 {
        var i :| 0 <= i < |x| && IsRoadEntry(x[i], [roads[0]][0], ways, nodes, dist);
        assert z[i] == x[i];
      } else {
        assert roads[1..][k - 1] == roads[k];
        var i :| 0 <= i < |y| && IsRoadEntry(y[i], roads[1..][k - 1], ways, nodes, dist);
        assert z[|x| + i] == y[i];
      }
    }
  }

  lemma HasBikeEntriesAppend(x: seq<StreetEntry>, y: seq<StreetEntry>, roads: seq<SplitRoad>, ways: seq<RawWay>, nodes: Nodes,
                             dist: (real, real, real, real) -> real)
    requires roads != [] && HasBikeEntries(x, [roads[0]], ways, nodes, dist) && HasBikeEntries(y, roads[1..], ways, nodes, dist)
    ensures HasBikeEntries(x + y, roads, ways, nodes, dist)
  {
    var z := x + y;
    forall k | 0 <= k < |roads| && NeedsBike(roads[k], ways, nodes)
      ensures exists i :: 0 <= i < |z| && IsBikeEntry(z[i], roads[k], ways, nodes, dist)
    {
      if k == 0 {
        assert NeedsBike([roads[0]][0], ways, nodes);
        var i :| 0 <= i < |x| && IsBikeEntry(x[i], [roads[0]][0], ways, nodes, dist);
        assert z[i] == x[i];
      } else {
        assert roads[1..][k - 1] == roads[k];
        assert NeedsBike(roads[1..][k - 1], ways, nodes);
        var i :| 0 <= i < |y| && IsBikeEntry(y[i], roads[1..][k - 1], ways, nodes, dist);
        assert z[|x| + i] == y[i];
      }
    }
  }

  lemma OnlyRoadEntriesAppend(x: seq<StreetEntry>, y: seq<StreetEntry>, roads: seq<SplitRoad>, ways: seq<RawWay>, nodes: Nodes,
                              dist: (real, real, real, real) -> real)
    requires roads != [] && OnlyRoadEntries(x, [roads[0]], ways, nodes, dist) && OnlyRoadEntries(y, roads[1..], ways, nodes, dist)
    ensures OnlyRoadEntries(x + y, roads, ways, nodes, dist)
  {
    var z := x + y;
    forall i | 0 <= i < |z|
      ensures exists k :: 0 <= k < |roads| && (IsRoadEntry(z[i], roads[k], ways, nodes, dist) || IsBikeEntry(z[i], roads[k], ways, nodes, dist))
    {
      if i < |x| {
        assert z[i] == x[i];
        var k :| 0 <= k < 1 && (IsRoadEntry(x[i], [roads[0]][k], ways, nodes, dist) || IsBikeEntry(x[i], [roads[0]][k], ways, nodes, dist));
        assert [roads[0]][k] == roads[0];
      } else {
        assert z[i] == y[i - |x|];
        var k :| 0 <= k < |roads| - 1 &&
          (IsRoadEntry(y[i - |x|], roads[1..][k], ways, nodes, dist) || IsBikeEntry(y[i - |x|], roads[1..][k], ways, nodes, dist));
        assert roads[1..][k] == roads[k + 1];
      }
    }
  }

  predicate DistinctKeys(es: seq<StreetEntry>) {
    forall i, j :: 0 <= i < j < |es| ==> es[i].0 != es[j].0
  }

  /** The keys of one road's entries: the bike street under count + 1, the road under its id. */
  lemma RoadStreetsKeys(r: SplitRoad, way: RawWay, start: ParsedNode, end: ParsedNode, count: nat,
                        dist: (real, real, real, real) -> real)
    ensures count <= RoadStreets(r, way, start, end, count, dist).1 <= count + 1
    ensures BikeKeysIn(RoadStreets(r, way, start, end, count, dist).0, count, RoadStreets(r, way, start, end, count, dist).1)
    ensures RoadKeysFrom(RoadStreets(r, way, start, end, count, dist).0, [r])
    ensures CoversRoads(RoadStreets(r, way, start, end, count, dist).0, [r])
  {
    var one := RoadStreets(r, way, start, end, count, dist);
    assert [r][0] == r;
    if GetsBikeStreet(way.tags) {
      assert one.0[0].1.lanes.SingleLane? && one.0[1].1.lanes.LaneList?;
      assert one.0[1].0 == [r][0].id;
    } else {
      assert one.0[0].1.lanes.LaneList? && one.0[0].0 == [r][0].id;
    }
  }

  lemma RoadStreetsDistinct(r: SplitRoad, way: RawWay, start: ParsedNode, end: ParsedNode, count: nat,
                            dist: (real, real, real, real) -> real)
    requires r.id < count
    ensures DistinctKeys(RoadStreets(r, way, start, end, count, dist).0)
  {
  }

  lemma BikeKeysAppend(x: seq<StreetEntry>, y: seq<StreetEntry>, lo: nat, mid: nat, hi: nat)
    requires BikeKeysIn(x, lo, mid) && BikeKeysIn(y, mid, hi) && lo <= mid <= hi
    ensures BikeKeysIn(x + y, lo, hi)
  {
    forall i | 0 <= i < |x + y| && (x + y)[i].1.lanes.SingleLane?
      ensures lo < (x + y)[i].0 <= hi
    {
      if i < |x| { assert (x + y)[i] == x[i]; } else { assert (x + y)[i] == y[i - |x|]; }
    }
  }

  lemma RoadKeysAppend(x: seq<StreetEntry>, y: seq<StreetEntry>, roads: seq<SplitRoad>)
    requires roads != [] && RoadKeysFrom(x, [roads[0]]) && RoadKeysFrom(y, roads[1..])
    ensures RoadKeysFrom(x + y, roads)
  {
    forall i | 0 <= i < |x + y| && (x + y)[i].1.lanes.LaneList?
      ensures exists k :: 0 <= k < |roads| && (x + y)[i].0 == roads[k].id
    {
      if i < |x| {
        assert (x + y)[i] == x[i];
        var k :| 0 <= k < 1 && x[i].0 == [roads[0]][k].id;
      } else {
        assert (x + y)[i] == y[i - |x|];
        var k :| 0 <= k < |roads| - 1 && y[i - |x|].0 == roads[1..][k].id;
        assert roads[1..][k] == roads[k + 1];
      }
    }
  }

  lemma CoversAppend(x: seq<StreetEntry>, y: seq<StreetEntry>, roads: seq<SplitRoad>)
    requires roads != [] && CoversRoads(x, [roads[0]]) && CoversRoads(y, roads[1..])
    ensures CoversRoads(x + y, roads)
  {
    forall k | 0 <= k < |roads|
      ensures exists i :: 0 <= i < |x + y| && (x + y)[i].0 == roads[k].id && (x + y)[i].1.lanes.LaneList?
    {
      if k == 0 {
        var i :| 0 <= i < |x| && x[i].0 == [roads[0]][0].id && x[i].1.lanes.LaneList?;
        assert (x + y)[i] == x[i];
      } else {
        assert roads[1..][k - 1] == roads[k];
        var i :| 0 <= i < |y| && y[i].0 == roads[1..][k - 1].id && y[i].1.lanes.LaneList?;
        assert (x + y)[|x| + i] == y[i];
      }
    }
  }

  /** The first road's entries and the rest's never share a key. */
  lemma DistinctAppend(x: seq<StreetEntry>, y: seq<StreetEntry>, roads: seq<SplitRoad>, count: nat, mid: nat, hi: nat)
    requires roads != [] && Below(roads, count) && mid <= count + 1 && count <= mid
    requires DistinctKeys(x) && BikeKeysIn(x, count, mid) && RoadKeysFrom(x, [roads[0]])
    requires DistinctKeys(y) && BikeKeysIn(y, mid, hi) && RoadKeysFrom(y, roads[1..])
    ensures DistinctKeys(x + y)
  {
    var z := x + y;
    forall i, j | 0 <= i < j < |z|
      ensures z[i].0 != z[j].0
    {
      if j < |x| {
        assert z[i] == x[i] && z[j] == x[j];
      } else if |x| <= i {
        assert z[i] == y[i - |x|] && z[j] == y[j - |x|];
      } else {
        assert z[i] == x[i] && z[j] == y[j - |x|];
        if x[i].1.lanes.LaneList? {
          var k :| 0 <= k < 1 && x[i].0 == [roads[0]][k].id;
        }
        if y[j - |x|].1.lanes.LaneList? {
          var k :| 0 <= k < |roads| - 1 && y[j - |x|].0 == roads[1..][k].id;
          assert y[j - |x|].0 == roads[k + 1].id;
        }
      }
    }
  }

  /** Bike streets take the keys above `streetCount`. */
  lemma {:induction false} BikeKeys(roads: seq<SplitRoad>, ways: seq<RawWay>, nodes: Nodes, count: nat,
                                    dist: (real, real, real, real) -> real)
    requires InDomain(roads, ways, nodes)
    ensures BikeKeysIn(EmitStreets(roads, ways, nodes, count, dist).0, count, EmitStreets(roads, ways, nodes, count, dist).1)
    decreases |roads|
  {
    if roads != [] {
      var r := roads[0];
      var one := FirstStreets(roads, ways, nodes, count, dist);
      RoadStreetsKeys(r, ways[r.arrayId], nodes[r.startNode], nodes[r.endNode], count, dist);
      TailInDomain(roads, ways, nodes);
      BikeKeys(roads[1..], ways, nodes, one.1, dist);
      var rest := EmitStreets(roads[1..], ways, nodes, one.1, dist);
      BikeKeysAppend(one.0, rest.0, count, one.1, rest.1);
    }
  }

  /** Every entry other than a bike street is stored under the id of a split road. */
  lemma {:induction false} RoadKeys(roads: seq<SplitRoad>, ways: seq<RawWay>, nodes: Nodes, count: nat,
                                    dist: (real, real, real, real) -> real)
    requires InDomain(roads, ways, nodes)
    ensures RoadKeysFrom(EmitStreets(roads, ways, nodes, count, dist).0, roads)
    decreases |roads|
  {
    if roads != [] {
      var r := roads[0];
      var one := FirstStreets(roads, ways, nodes, count, dist);
      RoadStreetsKeys(r, ways[r.arrayId], nodes[r.startNode], nodes[r.endNode], count, dist);
      TailInDomain(roads, ways, nodes);
      RoadKeys(roads[1..], ways, nodes, one.1, dist);
      RoadKeysAppend(one.0, EmitStreets(roads[1..], ways, nodes, one.1, dist).0, roads);
    }
  }

  /** Every split road is stored under its own id. */
  lemma {:induction false} StreetsCoverRoads(roads: seq<SplitRoad>, ways: seq<RawWay>, nodes: Nodes, count: nat,
                                             dist: (real, real, real, real) -> real)
    requires InDomain(roads, ways, nodes)
    ensures CoversRoads(EmitStreets(roads, ways, nodes, count, dist).0, roads)
    decreases |roads|
  {
    if roads != [] {
      var r := roads[0];
      var one := FirstStreets(roads, ways, nodes, count, dist);
      RoadStreetsKeys(r, ways[r.arrayId], nodes[r.startNode], nodes[r.endNode], count, dist);
      TailInDomain(roads, ways, nodes);
      StreetsCoverRoads(roads[1..], ways, nodes, one.1, dist);
      CoversAppend(one.0, EmitStreets(roads[1..], ways, nodes, one.1, dist).0, roads);
    }
  }

  /** The entries are exactly each road's own entry and its bike street, built by the lane rule. */
  lemma {:induction false} StreetsDescribeRoads(roads: seq<SplitRoad>, ways: seq<RawWay>, nodes: Nodes, count: nat,
                                                dist: (real, real, real, real) -> real)
    requires InDomain(roads, ways, nodes)
    ensures Describes(EmitStreets(roads, ways, nodes, count, dist).0, roads, ways, nodes, dist)
    decreases |roads|
  {
    if roads != [] {
      var r := roads[0];
      var one := FirstStreets(roads, ways, nodes, count, dist);
      RoadStreetsDescribes(r, ways, nodes, count, dist);
      TailInDomain(roads, ways, nodes);
      StreetsDescribeRoads(roads[1..], ways, nodes, one.1, dist);
      var rest := EmitStreets(roads[1..], ways, nodes, one.1, dist).0;
      HasRoadEntriesAppend(one.0, rest, roads, ways, nodes, dist);
      HasBikeEntriesAppend(one.0, rest, roads, ways, nodes, dist);
      OnlyRoadEntriesAppend(one.0, rest, roads, ways, nodes, dist);
    }
  }

  /** No two entries share a key, so storing them by key in `parsedStreets` never overwrites one. */
  lemma {:induction false} StreetKeysDistinct(roads: seq<SplitRoad>, ways: seq<RawWay>, nodes: Nodes, count: nat,
                                              dist: (real, real, real, real) -> real)
    requires InDomain(roads, ways, nodes) && Below(roads, count)
    ensures DistinctKeys(EmitStreets(roads, ways, nodes, count, dist).0)
    decreases |roads|
  {
    if roads != [] {
      var one := FirstStreets(roads, ways, nodes, count, dist);
      FirstKeys(roads, ways, nodes, count, dist);
      TailInDomain(roads, ways, nodes);
      BelowTail(roads, count, one.1);
      StreetKeysDistinct(roads[1..], ways, nodes, one.1, dist);
      TailKeys(roads, ways, nodes, count, dist);
      var rest := EmitStreets(roads[1..], ways, nodes, one.1, dist);
      DistinctAppend(one.0, rest.0, roads, count, one.1, rest.1);
    }
  }

  /** The first road's entries: distinct keys, its bike street between `count` and the new count, the rest under its id. */
  lemma FirstKeys(roads: seq<SplitRoad>, ways: seq<RawWay>, nodes: Nodes, count: nat, dist: (real, real, real, real) -> real)
    requires roads != [] && InDomain(roads, ways, nodes) && Below(roads, count)
    ensures var one := FirstStreets(roads, ways, nodes, count, dist);
            && count <= one.1 <= count + 1
            && DistinctKeys(one.0) && BikeKeysIn(one.0, count, one.1) && RoadKeysFrom(one.0, [roads[0]])
  {
    var r := roads[0];
    RoadStreetsKeys(r, ways[r.arrayId], nodes[r.startNode], nodes[r.endNode], count, dist);
    RoadStreetsDistinct(r, ways[r.arrayId], nodes[r.startNode], nodes[r.endNode], count, dist);
  }

  /** The later roads' bike streets are keyed above the count after the first road, the rest under their ids. */
  lemma TailKeys(roads: seq<SplitRoad>, ways: seq<RawWay>, nodes: Nodes, count: nat, dist: (real, real, real, real) -> real)
    requires roads != [] && InDomain(roads, ways, nodes)
    ensures InDomain(roads[1..], ways, nodes)
    ensures var one := FirstStreets(roads, ways, nodes, count, dist);
            var rest := EmitStreets(roads[1..], ways, nodes, one.1, dist);
            BikeKeysIn(rest.0, one.1, rest.1) && RoadKeysFrom(rest.0, roads[1..])
  {
    var one := FirstStreets(roads, ways, nodes, count, dist);
    TailInDomain(roads, ways, nodes);
    BikeKeys(roads[1..], ways, nodes, one.1, dist);
    RoadKeys(roads[1..], ways, nodes, one.1, dist);
  }

  lemma BelowTail(roads: seq<SplitRoad>, count: nat, count': nat)
    requires roads != [] && Below(roads, count) && count <= count'
    ensures Below(roads[1..], count')
  {
    assert forall k :: 0 <= k < |roads| - 1 ==> roads[1..][k] == roads[k + 1];
  }

  /**
   * `parseStreets`: the split roads, registered at their end nodes, and the
   * street entries in the order they are stored. `dist` is the great-circle
   * distance in metres.
   */
  function ParseStreets(ways: seq<RawWay>, nodes: Nodes, dist: (real, real, real, real) -> real): (r: Result<(Nodes, seq<SplitRoad>, seq<StreetEntry>), ParseError>)
    ensures r.Ok? ==> Grew(nodes, r.value.0) && Block(r.value.0, r.value.1, 0, 0, |ways|)
    ensures r.Ok? ==> forall q :: 0 <= q < |ways| ==> ways[q].nodes != []
    ensures r.Ok? ==> DistinctKeys(r.value.2) && CoversRoads(r.value.2, r.value.1)
    ensures r.Ok? ==> InDomain(r.value.1, ways, r.value.0) && Describes(r.value.2, r.value.1, ways, r.value.0, dist)
  {
    var st :- EmitWays(Emit(nodes, [], 0), ways, 0);
    assert st.roads[0..] == st.roads;
    assert InDomain(st.roads, ways, st.nodes);
    assert Below(st.roads, st.count);
    StreetKeysDistinct(st.roads, ways, st.nodes, st.count, dist);
    StreetsCoverRoads(st.roads, ways, st.nodes, st.count, dist);
    StreetsDescribeRoads(st.roads, ways, st.nodes, st.count, dist);
    var (streets, _) := EmitStreets(st.roads, ways, st.nodes, st.count, dist);
    Ok((st.nodes, st.roads, streets))
  }
}

=== FILE: php.dfy ===
/** PHP built-ins the parsing scripts rely on, over exact arithmetic. */
module Php {

  /** `round($x)`: to the nearest integer, halves away from zero. */
  function Round(x: real): (r: int)
    ensures 0.0 <= x ==> 0 <= r && r as real - 0.5 <= x < r as real + 0.5
    ensures x < 0.0 ==> r <= 0 && r as real - 0.5 < x <= r as real + 0.5
  {
    if 0.0 <= x then (x + 0.5).Floor else -((-x + 0.5).Floor)
  }

  lemma RoundOfInt(i: int)
    ensures Round(i as real) == i
  {
  }

  lemma RoundMonotone(x: real, y: real)
    requires x <= y
    ensures Round(x) <= Round(y)
  {
  }

  /** `max(round($x), 1)`. */
  function AtLeastOne(x: real): (r: int)
    ensures 1 <= r && (r == 1 || r == Round(x))
  {
    if Round(x) < 1 then 1 else Round(x)
  }

  function Min(a: int, b: int): int { if a <= b then a else b }
  function Max(a: int, b: int): int { if a <= b then b else a }

  /**
   * `rand($lo, $hi)` from a raw generator value; like PHP it accepts the
   * bounds in either order.
   */
  function Rand(lo: int, hi: int, raw: nat): (r: int)
    ensures Min(lo, hi) <= r <= Max(lo, hi)
  {
    Min(lo, hi) + raw % (Max(lo, hi) - Min(lo, hi) + 1)
  }

  /** Every value in the range comes out of some generator value. */
  lemma RandCovers(lo: int, hi: int, v: int)
    requires Min(lo, hi) <= v <= Max(lo, hi)
    ensures Rand(lo, hi, v - Min(lo, hi)) == v
  {
    var d := v - Min(lo, hi);
    var m := Max(lo, hi) - Min(lo, hi) + 1;
    assert 0 <= d < m;
    assert d % m == d;
  }
}

=== FILE: rag_demand.dfy ===
/**
 * Demand shaping of the workload generator: the 24-slot traffic pattern,
 * the per-hour agent totals and the split of an hour into car and bike slots.
 */
module RagDemand {
  import opened Wrappers
  import opened RagTypes

  const HoursPerDay := 24

  const DefaultPattern: seq<int> := [1, 1, 1, 1, 1, 2, 5, 7, 4, 4, 4, 4, 5, 5, 4, 4, 4, 7, 7, 3, 3, 2, 1, 1]

  /** The `traffic_pattern` argument: `True`, `False` or an explicit list. */
  datatype PatternArg = DefaultCurve | UniformCurve | Given(weights: seq<int>)

  /** The pattern the generator uses; a list whose length is not 24 raises. */
  function SelectPattern(arg: PatternArg): (r: Result<seq<int>, RagError>)
    ensures r.Ok? ==> |r.value| == HoursPerDay
    ensures arg.DefaultCurve? ==> r == Ok(DefaultPattern)
    ensures arg.UniformCurve? ==> r.Ok? && forall h :: 0 <= h < HoursPerDay ==> r.value[h] == 1
    ensures arg.Given? ==> (r.Ok? <==> |arg.weights| == HoursPerDay)
    ensures arg.Given? && r.Ok? ==> r.value == arg.weights
    ensures r.Err? ==> r.error == PatternLength
  {
    match arg
    case DefaultCurve => Ok(DefaultPattern)
    case UniformCurve => Ok(seq(HoursPerDay, _ => 1))
    case Given(w) => if |w| != HoursPerDay then Err(PatternLength) else Ok(w)
  }

  function Sum(s: seq<int>): int {
    if |s| == 0 then 0 else Sum(s[..|s| - 1]) + s[|s| - 1]
  }

  function Abs(x: int): nat {
    if x < 0 then -x else x
  }

  /**
   * Python `int(a / b)`: the exact quotient truncated toward zero. (The model
   * uses the exact rational quotient where Python rounds to a float first.)
   */
  function TruncDiv(a: int, b: int): (q: int)
    requires b != 0
    ensures Abs(q) * Abs(b) <= Abs(a) < (Abs(q) + 1) * Abs(b)
    ensures q != 0 ==> ((q > 0) <==> ((a > 0) == (b > 0)))
    ensures 0 <= a && 0 < b ==> q * b <= a < q * b + b
  {
    var m := Abs(a) / Abs(b);
    DivBounds(Abs(a), Abs(b));
    if (a < 0) == (b < 0) then m else -m
  }

  lemma DivBounds(x: nat, y: nat)
    requires 0 < y
    ensures (x / y) * y <= x < (x / y + 1) * y
    ensures x / y == 0 <==> x < y
  {
    var q := x / y;
    assert q * y + x % y == x;
    assert (q + 1) * y == q * y + y;
  }

  /** `int(num_agents * traffic_pattern[h] / div)` with `div` the pattern's sum. */
  function HourTotal(numAgents: int, pattern: seq<int>, h: nat): int
    requires h < |pattern|
    requires Sum(pattern) != 0
  {
    TruncDiv(numAgents * pattern[h], Sum(pattern))
  }

  /** The totals of the first `k` hours, added up. */
  function TotalsUpTo(numAgents: int, pattern: seq<int>, k: nat): int
    requires k <= |pattern|
    requires Sum(pattern) != 0
  {
    if k == 0 then 0 else TotalsUpTo(numAgents, pattern, k - 1) + HourTotal(numAgents, pattern, k - 1)
  }

  lemma {:induction false} TotalsUpToBounds(numAgents: nat, pattern: seq<int>, k: nat)
    requires k <= |pattern|
    requires forall h :: 0 <= h < |pattern| ==> 0 <= pattern[h]
    requires Sum(pattern) > 0
    ensures TotalsUpTo(numAgents, pattern, k) * Sum(pattern) <= numAgents * Sum(pattern[..k])
    ensures numAgents * Sum(pattern[..k]) - k * Sum(pattern) <= TotalsUpTo(numAgents, pattern, k) * Sum(pattern)
    ensures 0 < k ==> numAgents * Sum(pattern[..k]) - k * Sum(pattern) < TotalsUpTo(numAgents, pattern, k) * Sum(pattern)
  {
    if k == 0 {
      assert pattern[..0] == [];
    } else {
      TotalsUpToBounds(numAgents, pattern, k - 1);
      var d := Sum(pattern);
      var w := pattern[k - 1];
      var x := numAgents * w;
      var sPrev := Sum(pattern[..k - 1]);
      var sNow := Sum(pattern[..k]);
      var tPrev := TotalsUpTo(numAgents, pattern, k - 1);
      var q := HourTotal(numAgents, pattern, k - 1);
      assert pattern[..k][..k - 1] == pattern[..k - 1];
      assert sNow == sPrev + w;
      assert 0 <= x;
      assert q * d <= x < q * d + d;
      assert TotalsUpTo(numAgents, pattern, k) == tPrev + q;
      TotalsStep(numAgents, sPrev, w, tPrev, q, d, k);
    }
  }

  /** The arithmetic of one step of `TotalsUpToBounds`, over plain integers. */
  lemma TotalsStep(n: int, sPrev: int, w: int, tPrev: int, q: int, d: int, k: int)
    requires 0 < k && 0 < d
    requires q * d <= n * w < q * d + d
    requires tPrev * d <= n * sPrev
    requires n * sPrev - (k - 1) * d <= tPrev * d
    ensures (tPrev + q) * d <= n * (sPrev + w)
    ensures n * (sPrev + w) - k * d < (tPrev + q) * d
  {
    assert n * (sPrev + w) == n * sPrev + n * w;
    assert (tPrev + q) * d == tPrev * d + q * d;
    assert k * d == (k - 1) * d + d;
  }

  /**
   * With non-negative weights and a positive sum, the 24 hourly totals never
   * exceed `num_agents`, and truncation loses less than one agent per hour.
   */
  lemma HourTotalsDrift(numAgents: nat, pattern: seq<int>)
    requires |pattern| == HoursPerDay
    requires forall h :: 0 <= h < |pattern| ==> 0 <= pattern[h]
    requires Sum(pattern) > 0
    ensures numAgents - HoursPerDay < TotalsUpTo(numAgents, pattern, HoursPerDay) <= numAgents
  {
    TotalsUpToBounds(numAgents, pattern, HoursPerDay);
    assert pattern[..HoursPerDay] == pattern;
    var t := TotalsUpTo(numAgents, pattern, HoursPerDay);
    var d := Sum(pattern);
    var n := numAgents;
    assert t * d <= n * d;
    assert n * d - HoursPerDay * d < t * d;
    assert (n - HoursPerDay) * d == n * d - HoursPerDay * d;
    MulMonotone(t, n, d);
    MulMonotone(n - HoursPerDay, t, d);
  }

  /** Cancelling a positive factor from both sides of an inequality. */
  lemma MulMonotone(a: int, b: int, d: int)
    requires 0 < d
    ensures a * d <= b * d ==> a <= b
    ensures a * d < b * d ==> a < b
  {
    if a > b {
      assert a * d - b * d == (a - b) * d;
    }
    if a == b {
    }
  }

  /** How the hour total is split into car and bike slots. */
  datatype SplitRule =
    | AsWritten // `int(total * (100 - p / 100))`, the script's formula
    | Percent   // `int(total * (100 - p) / 100)`, reading `p` as a percentage

  /** The number of car slots of an hour, for bike percentage `p`. */
  function CarsOfHour(rule: SplitRule, total: int, p: int): int {
    match rule
    case AsWritten => TruncDiv(total * (10000 - p), 100)
    case Percent => TruncDiv(total * (100 - p), 100)
  }

  /** `bikes_of_hour = total_agents_of_hour - cars_of_hour`. */
  function BikesOfHour(rule: SplitRule, total: int, p: int): int {
    total - CarsOfHour(rule, total, p)
  }

  /**
   * As written, the formula scales the total by almost 100: for every bike
   * percentage up to 9900 the bike count is never positive, so `range`
   * produces no bike, and for percentages up to 100 the hour gets at least
   * 99 times its total in car slots.
   */
  lemma AsWrittenStarvesBikes(total: nat, p: int)
    requires p <= 9900
    ensures BikesOfHour(AsWritten, total, p) <= 0
    ensures p <= 100 ==> CarsOfHour(AsWritten, total, p) >= 99 * total
  {
    var c := CarsOfHour(AsWritten, total, p);
    assert c * 100 <= total * (10000 - p) < c * 100 + 100;
    assert total * (10000 - p) >= total * 100;
    if p <= 100 {
      assert total * (10000 - p) >= total * 9900;
    }
  }

  /** The concrete hour of 24 agents at 10 percent bikes: 2397 car slots, -2373 bikes. */
  lemma AsWrittenExample()
    ensures CarsOfHour(AsWritten, 24, 10) == 2397
    ensures BikesOfHour(AsWritten, 24, 10) == -2373
  {
  }

  /**
   * Read as a percentage, the split keeps both counts within the hour total,
   * gives the bikes the ceiling of `p` percent of it, and none at `p = 0`.
   */
  lemma PercentSplit(total: nat, p: int)
    requires 0 <= p <= 100
    ensures 0 <= CarsOfHour(Percent, total, p) <= total
    ensures 0 <= BikesOfHour(Percent, total, p) <= total
    ensures total * p <= 100 * BikesOfHour(Percent, total, p) < total * p + 100
    ensures p == 0 ==> BikesOfHour(Percent, total, p) == 0
    ensures p == 100 ==> CarsOfHour(Percent, total, p) == 0
  {
    var c := CarsOfHour(Percent, total, p);
    assert c * 100 <= total * (100 - p) < c * 100 + 100;
    assert 0 <= total * (100 - p) <= total * 100;
    assert total * (100 - p) == total * 100 - total * p;
  }
}

=== FILE: rag_sampling.dfy ===
/**
 * The property sampler (`RAG.generate_agent`) and the constrained pair
 * sampler (the bounded `while` loops of `RAG.make_random_agents`).
 */
module RagSampling {
  import opened Wrappers
  import opened Json
  import opened Draws
  import opened RagTypes

  /**
   * `generate_agent`: five uniform draws, in the order length, maximum
   * velocity, acceleration, deceleration and exponent, from the mode's
   * ranges; the waiting period is a 0.0 placeholder.
   */
  function GenerateAgent(m: ModeRanges, startId: string, endId: string, src: UnitStream, pos: nat): (r: (Agent, nat))
    ensures r.1 == pos + 5
    ensures WithinRanges(r.0, m)
    ensures r.0.startId == startId && r.0.endId == endId
    ensures r.0.waitingPeriod == 0.0
  {
    var a := Agent(
      startId, endId,
      Uniform(m.length.min, m.length.max, src(pos)),
      Uniform(m.maxVelocity.min, m.maxVelocity.max, src(pos + 1)),
      Uniform(m.acceleration.min, m.acceleration.max, src(pos + 2)),
      Uniform(m.deceleration.min, m.deceleration.max, src(pos + 3)),
      Uniform(m.exponent.min, m.exponent.max, src(pos + 4)),
      0.0);
    (a, pos + 5)
  }

  /** The retry budget of one agent slot. */
  const MaxAttempts := 1000

  /** The pair drawn at attempt `t` of a slot whose first draw is at `pos`: two `random.choice` calls. */
  function Drawn(intersections: seq<string>, src: UnitStream, pos: nat, t: nat): (pair: (string, string))
    requires 0 < |intersections|
    ensures pair.0 in intersections && pair.1 in intersections
  {
    var n := |intersections|;
    (intersections[ChoiceIndex(src(pos + 2 * t), n)], intersections[ChoiceIndex(src(pos + 2 * t + 1), n)])
  }

  /** What happens to one drawn pair: a `KeyError`, acceptance, or another try. */
  datatype Verdict = Missing | Accepted | Rejected

  function VerdictOf(tree: Tree, pair: (string, string)): Verdict {
    if pair.0 !in tree then Missing
    else if Accepts(tree[pair.0], pair.1) then Accepted
    else Rejected
  }

  function VerdictAt(intersections: seq<string>, tree: Tree, src: UnitStream, pos: nat, t: nat): Verdict
    requires 0 < |intersections|
  {
    VerdictOf(tree, Drawn(intersections, src, pos, t))
  }

  /** Attempts `t` to `i - 1` are rejected and attempt `i` draws a start without a row. */
  predicate MissingFirstAt(intersections: seq<string>, tree: Tree, src: UnitStream, pos: nat, t: nat, i: nat)
    requires 0 < |intersections|
  {
    && VerdictAt(intersections, tree, src, pos, i) == Missing
    && forall j :: t <= j < i ==> VerdictAt(intersections, tree, src, pos, j) == Rejected
  }

  /** The outcome of a slot: the accepted pair, if any, and how many attempts were made. */
  datatype PairDraw = PairDraw(pair: Option<(string, string)>, attempts: nat)

  /** Attempts `t`, `t + 1`, ... of one slot, until a pair is accepted, a row is missing or the budget is spent. */
  function Attempt(intersections: seq<string>, tree: Tree, src: UnitStream, pos: nat, t: nat): (r: Result<PairDraw, RagError>)
    requires 0 < |intersections|
    requires t < MaxAttempts
    decreases MaxAttempts - t
    ensures r.Ok? ==> t < r.value.attempts <= MaxAttempts
    ensures r.Ok? ==> forall i :: t <= i < r.value.attempts - 1 ==> VerdictAt(intersections, tree, src, pos, i) == Rejected
    ensures r.Ok? && r.value.pair.Some? ==>
      && VerdictAt(intersections, tree, src, pos, r.value.attempts - 1) == Accepted
      && r.value.pair.value == Drawn(intersections, src, pos, r.value.attempts - 1)
    ensures r.Ok? && r.value.pair.None? ==>
      r.value.attempts == MaxAttempts && VerdictAt(intersections, tree, src, pos, MaxAttempts - 1) == Rejected
    ensures r.Err? ==>
      exists i :: t <= i < MaxAttempts && MissingFirstAt(intersections, tree, src, pos, t, i) && r.error == MissingRow(Drawn(intersections, src, pos, i).0)
  {
    var pair := Drawn(intersections, src, pos, t);
    match VerdictOf(tree, pair)
    case Missing => Err(MissingRow(pair.0))
    case Accepted => Ok(PairDraw(Some(pair), t + 1))
    case Rejected =>
      if t + 1 == MaxAttempts then Ok(PairDraw(None, MaxAttempts))
      else
        var rest := Attempt(intersections, tree, src, pos, t + 1);
        if rest.Err? then
          MissingBack(intersections, tree, src, pos, t, rest.error);
          rest
        else
          RejectedBack(intersections, tree, src, pos, t, rest.value.attempts);
          rest
  }

  /** A rejected attempt `t` in front of rejected attempts `t + 1`, ..., `n - 2`. */
  lemma RejectedBack(intersections: seq<string>, tree: Tree, src: UnitStream, pos: nat, t: nat, n: nat)
    requires 0 < |intersections|
    requires VerdictAt(intersections, tree, src, pos, t) == Rejected
    requires forall i :: t + 1 <= i < n - 1 ==> VerdictAt(intersections, tree, src, pos, i) == Rejected
    ensures forall i :: t <= i < n - 1 ==> VerdictAt(intersections, tree, src, pos, i) == Rejected
  {
  }

  /** A rejected attempt `t` in front of a run that ends at a missing row. */
  lemma MissingBack(intersections: seq<string>, tree: Tree, src: UnitStream, pos: nat, t: nat, err: RagError)
    requires 0 < |intersections|
    requires VerdictAt(intersections, tree, src, pos, t) == Rejected
    requires exists i :: t + 1 <= i < MaxAttempts && MissingFirstAt(intersections, tree, src, pos, t + 1, i) && err == MissingRow(Drawn(intersections, src, pos, i).0)
    ensures exists i :: t <= i < MaxAttempts && MissingFirstAt(intersections, tree, src, pos, t, i) && err == MissingRow(Drawn(intersections, src, pos, i).0)
  {
    var i :| t + 1 <= i < MaxAttempts && MissingFirstAt(intersections, tree, src, pos, t + 1, i) && err == MissingRow(Drawn(intersections, src, pos, i).0);
    assert MissingFirstAt(intersections, tree, src, pos, t, i);
  }

  /**
   * One slot's pair search: at most 1000 attempts of two draws each; the
   * first accepted pair is returned, a slot whose attempts all fail yields
   * no pair, and a drawn start without a row raises `KeyError`.
   */
  function SamplePair(intersections: seq<string>, tree: Tree, src: UnitStream, pos: nat): (r: Result<PairDraw, RagError>)
    ensures |intersections| == 0 <==> r == Err(EmptyChoice)
    ensures r.Err? && 0 < |intersections| ==> r.error.MissingRow?
    ensures r.Ok? ==> 1 <= r.value.attempts <= MaxAttempts
    ensures r.Ok? && r.value.pair.Some? ==>
      && r.value.pair.value.0 in tree
      && Accepts(tree[r.value.pair.value.0], r.value.pair.value.1)
      && r.value.pair.value.0 in intersections && r.value.pair.value.1 in intersections
  {
    if |intersections| == 0 then Err(EmptyChoice)
    else
      var r := Attempt(intersections, tree, src, pos, 0);
      if r.Ok? && r.value.pair.Some? then
        Acceptance(tree, r.value.pair.value);
        r
      else r
  }

  /**
   * The attempts behind a slot's outcome: every attempt before the last
   * was rejected; no pair means all 1000 were; a `KeyError` comes from the
   * first attempt that drew a start without a row.
   */
  lemma SamplePairTrace(intersections: seq<string>, tree: Tree, src: UnitStream, pos: nat)
    requires 0 < |intersections|
    ensures var r := SamplePair(intersections, tree, src, pos);
            r.Ok? ==> forall i :: 0 <= i < r.value.attempts - 1 ==> VerdictAt(intersections, tree, src, pos, i) == Rejected
    ensures var r := SamplePair(intersections, tree, src, pos);
            r.Ok? && r.value.pair.None? ==>
              r.value.attempts == MaxAttempts && forall i :: 0 <= i < MaxAttempts ==> VerdictAt(intersections, tree, src, pos, i) == Rejected
    ensures var r := SamplePair(intersections, tree, src, pos);
            r.Err? ==>
              exists i :: 0 <= i < MaxAttempts && MissingFirstAt(intersections, tree, src, pos, 0, i) && r.error == MissingRow(Drawn(intersections, src, pos, i).0)
  {
    var r := Attempt(intersections, tree, src, pos, 0);
    assert SamplePair(intersections, tree, src, pos) == r;
    if r.Ok? && r.value.pair.None? {
      AllRejected(intersections, tree, src, pos, r.value.attempts);
    }
  }

  lemma Acceptance(tree: Tree, pair: (string, string))
    requires VerdictOf(tree, pair) == Accepted
    ensures pair.0 in tree && Accepts(tree[pair.0], pair.1)
  {
  }

  /** Attempts `0`, ..., `n - 2` rejected and attempt `n - 1` rejected too: all `n` rejected. */
  lemma AllRejected(intersections: seq<string>, tree: Tree, src: UnitStream, pos: nat, n: nat)
    requires 0 < |intersections| && 0 < n
    requires forall i :: 0 <= i < n - 1 ==> VerdictAt(intersections, tree, src, pos, i) == Rejected
    requires VerdictAt(intersections, tree, src, pos, n - 1) == Rejected
    ensures forall i :: 0 <= i < n ==> VerdictAt(intersections, tree, src, pos, i) == Rejected
  {
  }
}

=== FILE: rag_sweep.dfy ===
/**
 * The sweep driver and output paths of the workload generator
 * (`RAG.make_random_agents`, `RAG.build_dirs`, `RAG.write_agents_file`):
 * for every bike percentage and retrial, one population of cars and bikes
 * keyed by a per-trial counter, written to a path derived from both.
 */
module RagSweep {
  import opened Wrappers
  import opened Seqs
  import opened Strings
  import opened Draws
  import opened RagTypes
  import opened RagDemand
  import opened RagSampling

  /** The generator's settings: kinematic ranges, the percentage sweep, the output root and the split rule. */
  datatype Config = Config(
    carRanges: ModeRanges,
    bikeRanges: ModeRanges,
    startRatio: int,
    endRatio: int,
    stepSize: int,
    prefix: string,
    agentsOut: string,
    split: SplitRule)

  /** The settings right after construction. */
  function InitialConfig(agentsOut: string): Config {
    Config(CarDefaults, BikeDefaults, 0, 20, 1, "test", agentsOut, AsWritten)
  }

  /** The loaded map and reachability data: the intersection ids and the two trees. */
  datatype Inputs = Inputs(intersections: seq<string>, carTree: Tree, bikeTree: Tree)

  function TreeOf(inp: Inputs, mode: Mode): Tree {
    if mode == Car then inp.carTree else inp.bikeTree
  }

  function RangesOf(cfg: Config, mode: Mode): ModeRanges {
    if mode == Car then cfg.carRanges else cfg.bikeRanges
  }

  // ---------------------------------------------------------------- ids

  /** The ids `"0"`, ..., `str(k - 1)`. */
  function IdSet(k: nat): set<string> {
    set i | 0 <= i < k :: NatToString(i)
  }

  lemma IdSetStep(k: nat)
    ensures IdSet(k + 1) == IdSet(k) + {NatToString(k)}
    ensures NatToString(k) !in IdSet(k)
  {
    if NatToString(k) in IdSet(k) {
      var i :| 0 <= i < k && NatToString(i) == NatToString(k);
      NatToStringInjective(i, k);
    }
  }

  lemma {:induction false} IdSetSize(k: nat)
    ensures |IdSet(k)| == k
  {
    if k > 0 {
      IdSetSize(k - 1);
      IdSetStep(k - 1);
    } else {
      assert IdSet(0) == {};
    }
  }

  // ---------------------------------------------------------------- populations

  /** One trial's agents so far, and the next id to hand out. */
  datatype Population = Population(cars: map<string, Agent>, bikes: map<string, Agent>, nextId: nat)

  const Empty := Population(map[], map[], 0)

  const SecondsPerDay: real := 86400.0

  /** An agent the generator can produce for `mode`: in range, on an accepted pair, active during the day. */
  predicate AgentOk(a: Agent, m: ModeRanges, tree: Tree, intersections: seq<string>) {
    && WithinRanges(a, m)
    && a.startId in tree && Accepts(tree[a.startId], a.endId)
    && a.startId in intersections && a.endId in intersections
    && 0.0 <= a.waitingPeriod <= SecondsPerDay
  }

  /** Cars and bikes carry disjoint keys that together are exactly the ids handed out. */
  predicate Valid(pop: Population, inp: Inputs, cfg: Config) {
    && pop.cars.Keys !! pop.bikes.Keys
    && pop.cars.Keys + pop.bikes.Keys == IdSet(pop.nextId)
    && (forall k :: k in pop.cars ==> AgentOk(pop.cars[k], cfg.carRanges, inp.carTree, inp.intersections))
    && (forall k :: k in pop.bikes ==> AgentOk(pop.bikes[k], cfg.bikeRanges, inp.bikeTree, inp.intersections))
  }

  /** `after` keeps every agent of `before`, and each agent it adds starts within [lo, hi]. */
  predicate Extends(before: Population, after: Population, lo: real, hi: real) {
    && before.nextId <= after.nextId
    && (forall k :: k in before.cars ==> k in after.cars && after.cars[k] == before.cars[k])
    && (forall k :: k in before.bikes ==> k in after.bikes && after.bikes[k] == before.bikes[k])
    && (forall k :: k in after.cars && k !in before.cars ==> lo <= after.cars[k].waitingPeriod <= hi)
    && (forall k :: k in after.bikes && k !in before.bikes ==> lo <= after.bikes[k].waitingPeriod <= hi)
  }

  lemma ValidSize(pop: Population, inp: Inputs, cfg: Config)
    requires Valid(pop, inp, cfg)
    ensures |pop.cars| + |pop.bikes| == pop.nextId
  {
    IdSetSize(pop.nextId);
    assert |pop.cars.Keys + pop.bikes.Keys| == |pop.cars.Keys| + |pop.bikes.Keys|;
  }

  /** `cars[str(id_int)] = agent; id_int += 1` (or the same for bikes). */
  function Insert(pop: Population, mode: Mode, a: Agent): Population {
    var key := NatToString(pop.nextId);
    if mode == Car then pop.(cars := pop.cars[key := a], nextId := pop.nextId + 1)
    else pop.(bikes := pop.bikes[key := a], nextId := pop.nextId + 1)
  }

  function HourStart(h: nat): real {
    (h * 3600) as real
  }

  /**
   * One agent slot of hour `h`: search a pair; when one is found, sample the
   * agent, draw its waiting period within the hour and give it the next id.
   * A slot whose search fails adds nothing and consumes no id.
   */
  function FillSlot(inp: Inputs, cfg: Config, mode: Mode, h: nat, pop: Population, src: UnitStream, pos: nat)
    : (r: Result<(Population, nat), RagError>)
    requires h < HoursPerDay
    requires Valid(pop, inp, cfg)
    ensures r.Ok? ==> Valid(r.value.0, inp, cfg)
    ensures r.Ok? ==> Extends(pop, r.value.0, HourStart(h), HourStart(h + 1))
    ensures r.Ok? ==> r.value.0.nextId <= pop.nextId + 1
    ensures r.Ok? && mode == Car ==> r.value.0.bikes == pop.bikes
    ensures r.Ok? && mode == Bike ==> r.value.0.cars == pop.cars
    ensures r.Err? ==> r.error == EmptyChoice || r.error.MissingRow?
    ensures FollowsDraw(pop, mode, pos, SamplePair(inp.intersections, TreeOf(inp, mode), src, pos), r)
  {
    Settle(inp, cfg, mode, h, pop, SamplePair(inp.intersections, TreeOf(inp, mode), src, pos), src, pos)
  }

  /** The slot's outcome once its pair search has given `found`. */
  function Settle(inp: Inputs, cfg: Config, mode: Mode, h: nat, pop: Population, found: Result<PairDraw, RagError>,
                  src: UnitStream, pos: nat)
    : (r: Result<(Population, nat), RagError>)
    requires h < HoursPerDay
    requires Valid(pop, inp, cfg)
    requires found.Err? ==> found.error == EmptyChoice || found.error.MissingRow?
    requires found.Ok? && found.value.pair.Some? ==>
      && found.value.pair.value.0 in TreeOf(inp, mode)
      && Accepts(TreeOf(inp, mode)[found.value.pair.value.0], found.value.pair.value.1)
      && found.value.pair.value.0 in inp.intersections && found.value.pair.value.1 in inp.intersections
    ensures r.Ok? ==> Valid(r.value.0, inp, cfg)
    ensures r.Ok? ==> Extends(pop, r.value.0, HourStart(h), HourStart(h + 1))
    ensures r.Ok? ==> r.value.0.nextId <= pop.nextId + 1
    ensures r.Ok? && mode == Car ==> r.value.0.bikes == pop.bikes
    ensures r.Ok? && mode == Bike ==> r.value.0.cars == pop.cars
    ensures r.Err? ==> r.error == EmptyChoice || r.error.MissingRow?
    ensures FollowsDraw(pop, mode, pos, found, r)
  {
    if found.Err? then Err(found.error)
    else
      var sp := found.value;
      var pos1 := pos + 2 * sp.attempts;
      if sp.pair.None? then
        ExtendsRefl(pop, HourStart(h), HourStart(h + 1));
        Ok((pop, pos1))
      else Ok(Place(inp, cfg, mode, h, pop, sp.pair.value, src, pos1))
  }

  lemma ExtendsRefl(pop: Population, lo: real, hi: real)
    ensures Extends(pop, pop, lo, hi)
  {
  }

  /**
   * A slot's result follows its pair search `sp`: the search's error is the
   * slot's; no pair leaves the population as it was, past the `2 * attempts`
   * draws; a pair becomes the agent under the next id, which then advances.
   */
  predicate FollowsDraw(pop: Population, mode: Mode, pos: nat, sp: Result<PairDraw, RagError>,
                        r: Result<(Population, nat), RagError>) {
    && (r.Err? <==> sp.Err?)
    && (r.Err? && sp.Err? ==> r.error == sp.error)
    && (r.Ok? && sp.Ok? && sp.value.pair.None? ==> r.value == (pop, pos + 2 * sp.value.attempts))
    && (r.Ok? && sp.Ok? && sp.value.pair.Some? ==>
          r.value.0.nextId == pop.nextId + 1 && PlacedAt(r.value.0, mode, NatToString(pop.nextId), sp.value.pair.value))
  }

  /** The agent under `key` in the dict of `mode` travels between the two ends of `pair`. */
  predicate PlacedAt(pop: Population, mode: Mode, key: string, pair: (string, string)) {
    var agents := if mode == Car then pop.cars else pop.bikes;
    key in agents && agents[key].startId == pair.0 && agents[key].endId == pair.1
  }

  /** A found pair becomes an agent: its properties, then its waiting period within hour `h`, under the next id. */
  function Place(inp: Inputs, cfg: Config, mode: Mode, h: nat, pop: Population, pair: (string, string), src: UnitStream, pos: nat)
    : (r: (Population, nat))
    requires h < HoursPerDay
    requires Valid(pop, inp, cfg)
    requires pair.0 in TreeOf(inp, mode) && Accepts(TreeOf(inp, mode)[pair.0], pair.1)
    requires pair.0 in inp.intersections && pair.1 in inp.intersections
    ensures Valid(r.0, inp, cfg)
    ensures Extends(pop, r.0, HourStart(h), HourStart(h + 1))
    ensures r.0.nextId == pop.nextId + 1
    ensures mode == Car ==> r.0.bikes == pop.bikes
    ensures mode == Bike ==> r.0.cars == pop.cars
    ensures PlacedAt(r.0, mode, NatToString(pop.nextId), pair)
    ensures r.1 == pos + 6
  {
    var (agent, pos1) := GenerateAgent(RangesOf(cfg, mode), pair.0, pair.1, src, pos);
    var a := agent.(waitingPeriod := Uniform(HourStart(h), HourStart(h + 1), src(pos1)));
    HourWithinDay(h, a.waitingPeriod);
    InsertOk(pop, inp, cfg, mode, a, HourStart(h), HourStart(h + 1));
    (Insert(pop, mode, a), pos1 + 1)
  }

  lemma HourWithinDay(h: nat, x: real)
    requires h < HoursPerDay && HourStart(h) <= x <= HourStart(h + 1)
    ensures 0.0 <= x <= SecondsPerDay
  {
  }

  /** Giving the next id to an agent the generator can produce keeps the population valid and extends it. */
  lemma InsertOk(pop: Population, inp: Inputs, cfg: Config, mode: Mode, a: Agent, lo: real, hi: real)
    requires Valid(pop, inp, cfg)
    requires AgentOk(a, RangesOf(cfg, mode), TreeOf(inp, mode), inp.intersections)
    requires lo <= a.waitingPeriod <= hi
    ensures var q := Insert(pop, mode, a);
            && Valid(q, inp, cfg) && Extends(pop, q, lo, hi) && q.nextId == pop.nextId + 1
            && (mode == Car ==> q.bikes == pop.bikes) && (mode == Bike ==> q.cars == pop.cars)
  {
    IdSetStep(pop.nextId);
    InsertKeys(pop, mode, a);
    InsertAgents(pop, inp, cfg, mode, a);
    InsertExtends(pop, mode, a, lo, hi);
  }

  lemma InsertKeys(pop: Population, mode: Mode, a: Agent)
    requires pop.cars.Keys !! pop.bikes.Keys && pop.cars.Keys + pop.bikes.Keys == IdSet(pop.nextId)
    requires NatToString(pop.nextId) !in IdSet(pop.nextId)
    requires IdSet(pop.nextId + 1) == IdSet(pop.nextId) + {NatToString(pop.nextId)}
    ensures var q := Insert(pop, mode, a);
            q.cars.Keys !! q.bikes.Keys && q.cars.Keys + q.bikes.Keys == IdSet(q.nextId)
  {
    var key := NatToString(pop.nextId);
    if mode == Car {
      assert Insert(pop, mode, a).cars.Keys == pop.cars.Keys + {key};
    } else {
      assert Insert(pop, mode, a).bikes.Keys == pop.bikes.Keys + {key};
    }
  }

  lemma InsertAgents(pop: Population, inp: Inputs, cfg: Config, mode: Mode, a: Agent)
    requires Valid(pop, inp, cfg)
    requires AgentOk(a, RangesOf(cfg, mode), TreeOf(inp, mode), inp.intersections)
    ensures var q := Insert(pop, mode, a);
            && (forall k :: k in q.cars ==> AgentOk(q.cars[k], cfg.carRanges, inp.carTree, inp.intersections))
            && (forall k :: k in q.bikes ==> AgentOk(q.bikes[k], cfg.bikeRanges, inp.bikeTree, inp.intersections))
  {
  }

  lemma InsertExtends(pop: Population, mode: Mode, a: Agent, lo: real, hi: real)
    requires NatToString(pop.nextId) !in pop.cars && NatToString(pop.nextId) !in pop.bikes
    requires lo <= a.waitingPeriod <= hi
    ensures Extends(pop, Insert(pop, mode, a), lo, hi)
  {
  }

  function Nat(x: int): nat {
    if x < 0 then 0 else x
  }

  /** `for _ in range(count)`: `count` slots of one mode; none when `count <= 0`. */
  function FillSlots(inp: Inputs, cfg: Config, mode: Mode, h: nat, count: int, pop: Population, src: UnitStream, pos: nat)
    : (r: Result<(Population, nat), RagError>)
    requires h < HoursPerDay
    requires Valid(pop, inp, cfg)
    decreases count
    ensures count <= 0 ==> r == Ok((pop, pos))
    ensures r.Ok? ==> Valid(r.value.0, inp, cfg)
    ensures r.Ok? ==> Extends(pop, r.value.0, HourStart(h), HourStart(h + 1))
    ensures r.Ok? ==> r.value.0.nextId <= pop.nextId + Nat(count)
    ensures r.Ok? && mode == Car ==> r.value.0.bikes == pop.bikes
    ensures r.Ok? && mode == Bike ==> r.value.0.cars == pop.cars
    ensures r.Err? ==> r.error == EmptyChoice || r.error.MissingRow?
  {
    if count <= 0 then Ok((pop, pos))
    else
      var (pop1, pos1) :- FillSlot(inp, cfg, mode, h, pop, src, pos);
      FillSlots(inp, cfg, mode, h, count - 1, pop1, src, pos1)
  }

  /** The car and bike slots of hour `h` at bike percentage `p`. */
  function HourSlots(rule: SplitRule, numAgents: int, pattern: seq<int>, p: int, h: nat): nat
    requires h < |pattern|
    requires Sum(pattern) != 0
  {
    var total := HourTotal(numAgents, pattern, h);
    Nat(CarsOfHour(rule, total, p)) + Nat(BikesOfHour(rule, total, p))
  }

  /** The slots of hours `h`, ..., 23 added up: an upper bound on the agents they produce. */
  function SlotsFrom(rule: SplitRule, numAgents: int, pattern: seq<int>, p: int, h: nat): nat
    requires h <= |pattern| == HoursPerDay
    requires Sum(pattern) != 0
    decreases HoursPerDay - h
  {
    if h == HoursPerDay then 0 else HourSlots(rule, numAgents, pattern, p, h) + SlotsFrom(rule, numAgents, pattern, p, h + 1)
  }

  /** One hour: its car slots, then its bike slots. */
  function FillHour(inp: Inputs, cfg: Config, numAgents: int, pattern: seq<int>, p: int, h: nat, pop: Population, src: UnitStream, pos: nat)
    : (r: Result<(Population, nat), RagError>)
    requires h < |pattern| == HoursPerDay
    requires Sum(pattern) != 0
    requires Valid(pop, inp, cfg)
    ensures r.Ok? ==> Valid(r.value.0, inp, cfg)
    ensures r.Ok? ==> Extends(pop, r.value.0, HourStart(h), HourStart(h + 1))
    ensures r.Ok? ==> r.value.0.nextId <= pop.nextId + HourSlots(cfg.split, numAgents, pattern, p, h)
    ensures r.Err? ==> r.error == EmptyChoice || r.error.MissingRow?
  {
    var total := HourTotal(numAgents, pattern, h);
    var (pop1, pos1) :- FillSlots(inp, cfg, Car, h, CarsOfHour(cfg.split, total, p), pop, src, pos);
    FillSlots(inp, cfg, Bike, h, BikesOfHour(cfg.split, total, p), pop1, src, pos1)
  }

  /** Hours `h`, ..., 23 of one trial. */
  function FillHours(inp: Inputs, cfg: Config, numAgents: int, pattern: seq<int>, p: int, h: nat, pop: Population, src: UnitStream, pos: nat)
    : (r: Result<(Population, nat), RagError>)
    requires h <= |pattern| == HoursPerDay
    requires Sum(pattern) != 0
    requires Valid(pop, inp, cfg)
    decreases HoursPerDay - h
    ensures r.Ok? ==> Valid(r.value.0, inp, cfg)
    ensures r.Ok? ==> Extends(pop, r.value.0, HourStart(h), SecondsPerDay)
    ensures r.Ok? ==> r.value.0.nextId <= pop.nextId + SlotsFrom(cfg.split, numAgents, pattern, p, h)
    ensures r.Err? ==> r.error == EmptyChoice || r.error.MissingRow?
  {
    if h == HoursPerDay then Ok((pop, pos))
    else
      var (pop1, pos1) :- FillHour(inp, cfg, numAgents, pattern, p, h, pop, src, pos);
      FillHours(inp, cfg, numAgents, pattern, p, h + 1, pop1, src, pos1)
  }

  /**
   * One trial (one percentage, one retrial): a fresh population with the id
   * counter at 0, filled hour by hour. A pattern summing to zero raises
   * `ZeroDivisionError` at the first hour.
   */
  function Trial(inp: Inputs, cfg: Config, numAgents: int, pattern: seq<int>, p: int, src: UnitStream, pos: nat)
    : (r: Result<(Population, nat), RagError>)
    requires |pattern| == HoursPerDay
    ensures r == Err(ZeroDivision) <==> Sum(pattern) == 0
    ensures r.Ok? ==> Valid(r.value.0, inp, cfg)
    ensures r.Ok? ==> r.value.0.nextId <= SlotsFrom(cfg.split, numAgents, pattern, p, 0)
  {
    if Sum(pattern) == 0 then Err(ZeroDivision)
    else FillHours(inp, cfg, numAgents, pattern, p, 0, Empty, src, pos)
  }

  // ---------------------------------------------------------------- properties of one trial

  /**
   * Under the script's split formula no bike is ever generated: with a
   * percentage up to 9900 every hour's bike count is at most zero.
   */
  lemma {:induction false} AsWrittenNoBikesFrom(inp: Inputs, cfg: Config, numAgents: nat, pattern: seq<int>, p: int, h: nat, pop: Population, src: UnitStream, pos: nat)
    requires h <= |pattern| == HoursPerDay
    requires forall i :: 0 <= i < |pattern| ==> 0 <= pattern[i]
    requires Sum(pattern) > 0
    requires Valid(pop, inp, cfg)
    requires cfg.split == AsWritten && p <= 9900
    requires pop.bikes == map[]
    decreases HoursPerDay - h
    ensures var r := FillHours(inp, cfg, numAgents, pattern, p, h, pop, src, pos);
            r.Ok? ==> r.value.0.bikes == map[]
  {
    if h < HoursPerDay {
      var total := HourTotal(numAgents, pattern, h);
      HourTotalNonNegative(numAgents, pattern, h);
      var r1 := FillSlots(inp, cfg, Car, h, CarsOfHour(cfg.split, total, p), pop, src, pos);
      if r1.Ok? {
        AsWrittenStarvesBikes(total, p);
        var (pop1, pos1) := r1.value;
        assert FillHour(inp, cfg, numAgents, pattern, p, h, pop, src, pos) == Ok((pop1, pos1));
        AsWrittenNoBikesFrom(inp, cfg, numAgents, pattern, p, h + 1, pop1, src, pos1);
      }
    }
  }

  lemma HourTotalNonNegative(numAgents: nat, pattern: seq<int>, h: nat)
    requires h < |pattern|
    requires 0 <= pattern[h]
    requires Sum(pattern) > 0
    ensures 0 <= HourTotal(numAgents, pattern, h)
  {
    var q := HourTotal(numAgents, pattern, h);
    var d := Sum(pattern);
    assert 0 <= numAgents * pattern[h] < q * d + d;
    MulMonotone(-1, q, d);
  }

  lemma AsWrittenNoBikes(inp: Inputs, cfg: Config, numAgents: nat, pattern: seq<int>, p: int, src: UnitStream, pos: nat)
    requires |pattern| == HoursPerDay
    requires forall i :: 0 <= i < |pattern| ==> 0 <= pattern[i]
    requires cfg.split == AsWritten && p <= 9900
    ensures var r := Trial(inp, cfg, numAgents, pattern, p, src, pos);
            r.Ok? ==> r.value.0.bikes == map[]
  {
    if Sum(pattern) != 0 {
      SumNonNegative(pattern);
      AsWrittenNoBikesFrom(inp, cfg, numAgents, pattern, p, 0, Empty, src, pos);
    }
  }

  lemma {:induction false} SumNonNegative(s: seq<int>)
    requires forall i :: 0 <= i < |s| ==> 0 <= s[i]
    ensures 0 <= Sum(s)
  {
    if |s| > 0 {
      SumNonNegative(s[..|s| - 1]);
    }
  }

  /** With the percentage split, the slots of hours `h`, ..., 23 are exactly those hours' totals. */
  lemma {:induction false} PercentSlotsFrom(numAgents: nat, pattern: seq<int>, p: int, h: nat)
    requires h <= |pattern| == HoursPerDay
    requires forall i :: 0 <= i < |pattern| ==> 0 <= pattern[i]
    requires Sum(pattern) > 0
    requires 0 <= p <= 100
    decreases HoursPerDay - h
    ensures TotalsUpTo(numAgents, pattern, h) + SlotsFrom(Percent, numAgents, pattern, p, h)
            == TotalsUpTo(numAgents, pattern, HoursPerDay)
  {
    if h < HoursPerDay {
      HourTotalNonNegative(numAgents, pattern, h);
      PercentSplit(HourTotal(numAgents, pattern, h), p);
      PercentSlotsFrom(numAgents, pattern, p, h + 1);
    }
  }

  /**
   * With the percentage split a trial produces at most `num_agents` agents,
   * each under a distinct id `"0"`, ..., counted without gaps.
   */
  lemma PercentTrialWithinBudget(inp: Inputs, cfg: Config, numAgents: nat, pattern: seq<int>, p: int, src: UnitStream, pos: nat)
    requires |pattern| == HoursPerDay
    requires forall i :: 0 <= i < |pattern| ==> 0 <= pattern[i]
    requires cfg.split == Percent && 0 <= p <= 100
    ensures var r := Trial(inp, cfg, numAgents, pattern, p, src, pos);
            r.Ok? ==> |r.value.0.cars| + |r.value.0.bikes| == r.value.0.nextId <= numAgents
  {
    var r := Trial(inp, cfg, numAgents, pattern, p, src, pos);
    if r.Ok? {
      SumNonNegative(pattern);
      PercentSlotsFrom(numAgents, pattern, p, 0);
      HourTotalsDrift(numAgents, pattern);
      ValidSize(r.value.0, inp, cfg);
    }
  }

  // ---------------------------------------------------------------- Python range

  /** Whether `x` is still inside `range(..., stop, step)`. */
  predicate Inside(x: int, stop: int, step: int) {
    if step > 0 then x < stop else x > stop
  }

  /** `list(range(start, stop, step))` for a non-zero step. */
  function Range(start: int, stop: int, step: int): (r: seq<int>)
    requires step != 0
    decreases if step > 0 then stop - start else start - stop
    ensures |r| == 0 <==> !Inside(start, stop, step)
    ensures |r| > 0 ==> r[0] == start && !Inside(r[|r| - 1] + step, stop, step)
    ensures forall i :: 0 <= i < |r| ==> Inside(r[i], stop, step)
    ensures forall i :: 0 < i < |r| ==> r[i] == r[i - 1] + step
  {
    if !Inside(start, stop, step) then [] else [start] + Range(start + step, stop, step)
  }

  /** `range(start, stop, step)`, which raises `ValueError` for a zero step. */
  function PyRange(start: int, stop: int, step: int): (r: Result<seq<int>, RagError>)
    ensures step == 0 <==> r == Err(StepZero)
    ensures step != 0 ==> r == Ok(Range(start, stop, step))
  {
    if step == 0 then Err(StepZero) else Ok(Range(start, stop, step))
  }

  // ---------------------------------------------------------------- paths

  predicate NoSlash(s: string) {
    forall i :: 0 <= i < |s| ==> s[i] != '/'
  }

  /** `os.path.join(a, b)` on POSIX: an absolute `b` replaces `a`, otherwise one separator in between. */
  function Join(a: string, b: string): (p: string)
    ensures 0 < |b| && b[0] == '/' ==> p == b
    ensures !(0 < |b| && b[0] == '/') ==> exists x :: p == a + x + b && (x == "" || x == "/")
  {
    if 0 < |b| && b[0] == '/' then b
    else if a == "" || a[|a| - 1] == '/' then assert a + "" + b == a + b; a + b
    else a + "/" + b
  }

  /** `f"{prefix}_{percent}"`. */
  function DirName(prefix: string, percent: int): string {
    prefix + "_" + IntToString(percent)
  }

  /** `f"{prefix}_{retrial:02d}.json"`. */
  function FileName(prefix: string, retrial: nat): string {
    prefix + "_" + Pad2(retrial) + ".json"
  }

  /** The directory of one percentage. */
  function DirPath(cfg: Config, percent: int): string {
    Join(cfg.agentsOut, DirName(cfg.prefix, percent))
  }

  /** The file of one percentage and retrial. */
  function AgentsPath(cfg: Config, percent: int, retrial: nat): string {
    Join(DirPath(cfg, percent), FileName(cfg.prefix, retrial))
  }

  lemma IntToStringInjective(a: int, b: int)
    ensures IntToString(a) == IntToString(b) ==> a == b
  {
    ParseIntOfIntToString(a);
    ParseIntOfIntToString(b);
  }

  lemma IntToStringNoSlash(i: int)
    ensures NoSlash(IntToString(i))
  {
    var s := IntToString(i);
    if i < 0 {
      assert s == "-" + NatToString(-i);
    }
  }

  /** Splitting at the first separator: two strings that agree and have no `/` before it agree on both sides. */
  lemma SplitAtSlash(a: string, b: string, c: string, d: string)
    requires NoSlash(a) && NoSlash(c)
    requires a + "/" + b == c + "/" + d
    ensures a == c && b == d
  {
    var s := a + "/" + b;
    assert s[|a|] == '/' && s[|c|] == '/';
    assert forall i :: 0 <= i < |a| ==> s[i] == a[i] != '/';
    assert forall i :: 0 <= i < |c| ==> s[i] == c[i] != '/';
    assert a == s[..|a|] == c;
    assert b == s[|a| + 1..] == d;
  }

  /** What `os.path.join` puts in front of a relative second part. */
  function Lead(a: string): string {
    if a == "" || a[|a| - 1] == '/' then a else a + "/"
  }

  lemma JoinRelative(a: string, b: string)
    requires 0 < |b| && b[0] != '/'
    ensures Join(a, b) == Lead(a) + b
  {
  }

  lemma DirNameShape(prefix: string, percent: int)
    requires NoSlash(prefix)
    ensures var d := DirName(prefix, percent);
            NoSlash(d) && 0 < |d| && d[0] != '/' && d[|d| - 1] != '/'
    ensures DirName(prefix, percent)[|prefix| + 1..] == IntToString(percent)
  {
    IntToStringNoSlash(percent);
    var s := IntToString(percent);
    var d := DirName(prefix, percent);
    assert d == prefix + "_" + s;
    assert d[|d| - 1] == s[|s| - 1];
    assert forall i :: 0 <= i < |d| ==> d[i] != '/' by {
      forall i | 0 <= i < |d|
        ensures d[i] != '/'
      {
        if i < |prefix| { assert d[i] == prefix[i]; }
        else if i > |prefix| { assert d[i] == s[i - |prefix| - 1]; }
      }
    }
  }

  lemma FileNameShape(prefix: string, retrial: nat)
    ensures var f := FileName(prefix, retrial);
            0 < |f| && (f[0] == '/' ==> 0 < |prefix| && prefix[0] == '/')
    ensures var f := FileName(prefix, retrial);
            f[|prefix| + 1..|f| - 5] == Pad2(retrial)
  {
    var f := FileName(prefix, retrial);
    assert f == prefix + "_" + Pad2(retrial) + ".json";
    assert f == (prefix + "_") + Pad2(retrial) + ".json";
  }

  /** Where a trial's file lands when the prefix holds no `/`. */
  lemma AgentsPathShape(cfg: Config, p: int, r: nat)
    requires NoSlash(cfg.prefix)
    ensures AgentsPath(cfg, p, r) == Lead(cfg.agentsOut) + (DirName(cfg.prefix, p) + "/" + FileName(cfg.prefix, r))
  {
    var d := DirName(cfg.prefix, p);
    var f := FileName(cfg.prefix, r);
    DirNameShape(cfg.prefix, p);
    FileNameShape(cfg.prefix, r);
    assert 0 < |cfg.prefix| ==> cfg.prefix[0] != '/';
    JoinRelative(cfg.agentsOut, d);
    var dp := Lead(cfg.agentsOut) + d;
    assert DirPath(cfg, p) == dp;
    assert dp[|dp| - 1] == d[|d| - 1];
    assert Lead(dp) == dp + "/";
    JoinRelative(dp, f);
    assert (dp + "/") + f == Lead(cfg.agentsOut) + (d + "/" + f);
  }

  /**
   * When the prefix holds no `/`, different percentages or retrials get
   * different files, so no trial's file overwrites another's.
   */
  lemma AgentsPathInjective(cfg: Config, p1: int, r1: nat, p2: int, r2: nat)
    requires NoSlash(cfg.prefix)
    requires AgentsPath(cfg, p1, r1) == AgentsPath(cfg, p2, r2)
    ensures p1 == p2 && r1 == r2
  {
    var x := Lead(cfg.agentsOut);
    var d1, d2 := DirName(cfg.prefix, p1), DirName(cfg.prefix, p2);
    var f1, f2 := FileName(cfg.prefix, r1), FileName(cfg.prefix, r2);
    AgentsPathShape(cfg, p1, r1);
    AgentsPathShape(cfg, p2, r2);
    var s := x + (d1 + "/" + f1);
    assert d1 + "/" + f1 == s[|x|..] == d2 + "/" + f2;
    DirNameShape(cfg.prefix, p1);
    DirNameShape(cfg.prefix, p2);
    SplitAtSlash(d1, f1, d2, f2);
    IntToStringInjective(p1, p2);
    FileNameShape(cfg.prefix, r1);
    FileNameShape(cfg.prefix, r2);
    Pad2Injective(r1, r2);
  }

  /**
   * `build_dirs`: store the sweep settings, then compute the directory of
   * every percentage in `range(start, end + 1, step)`; a zero step leaves the
   * settings stored and raises `ValueError`.
   */
  function BuildDirs(cfg: Config, start: int, end: int, step: int, prefix: string)
    : (r: (Config, Result<seq<string>, RagError>))
    ensures r.0 == cfg.(startRatio := start, endRatio := end, stepSize := step, prefix := prefix)
    ensures step == 0 <==> r.1 == Err(StepZero)
    ensures r.1.Ok? ==> |r.1.value| == |Range(start, end + 1, step)|
    ensures r.1.Ok? ==> forall i :: 0 <= i < |r.1.value| ==> r.1.value[i] == DirPath(r.0, Range(start, end + 1, step)[i])
  {
    var cfg' := cfg.(startRatio := start, endRatio := end, stepSize := step, prefix := prefix);
    match PyRange(start, end + 1, step)
    case Err(e) => (cfg', Err(e))
    case Ok(ps) => (cfg', Ok(seq(|ps|, i requires 0 <= i < |ps| => DirPath(cfg', ps[i]))))
  }

  // ---------------------------------------------------------------- the sweep

  /** One written agents file: which percentage and retrial, where, and which agents. */
  datatype Written = Written(percent: int, retrial: nat, path: string, pop: Population)

  /** What a sweep leaves behind: the files written in order, and the exception that stopped it, if any. */
  datatype Outcome = Outcome(files: seq<Written>, failure: Option<RagError>)

  /** The (percentage, retrial) of each written file. */
  function Tags(files: seq<Written>): seq<(int, nat)> {
    seq(|files|, i requires 0 <= i < |files| => (files[i].percent, files[i].retrial))
  }

  lemma TagsConcat(a: seq<Written>, b: seq<Written>)
    ensures Tags(a + b) == Tags(a) + Tags(b)
  {
  }

  /** `for r in range(r, retrials)` at one percentage. */
  function RetrialTags(p: int, r: nat, retrials: int): seq<(int, nat)>
    decreases retrials - r
  {
    if r >= retrials then [] else [(p, r)] + RetrialTags(p, r + 1, retrials)
  }

  /** The nested loop order `for p in ps: for r in range(retrials)`. */
  function Schedule(ps: seq<int>, retrials: int): seq<(int, nat)> {
    if |ps| == 0 then [] else RetrialTags(ps[0], 0, retrials) + Schedule(ps[1..], retrials)
  }

  lemma {:induction false} RetrialTagsShape(p: int, r: nat, retrials: int)
    ensures |RetrialTags(p, r, retrials)| == Nat(retrials - r)
    ensures forall t :: t in RetrialTags(p, r, retrials) <==> t.0 == p && r <= t.1 < retrials
    decreases retrials - r
  {
    if r < retrials {
      RetrialTagsShape(p, r + 1, retrials);
    }
  }

  /** Every percentage meets every retrial exactly once: `|ps| * retrials` files, one per pair. */
  lemma {:induction false} ScheduleShape(ps: seq<int>, retrials: int)
    ensures |Schedule(ps, retrials)| == |ps| * Nat(retrials)
    ensures forall t :: t in Schedule(ps, retrials) <==> t.0 in ps && 0 <= t.1 < retrials
  {
    if |ps| > 0 {
      var n := Nat(retrials);
      RetrialTagsShape(ps[0], 0, retrials);
      ScheduleShape(ps[1..], retrials);
      MulSucc(|ps| - 1, n);
      assert |Schedule(ps, retrials)| == n + (|ps| - 1) * n;
      assert forall x :: x in ps <==> x == ps[0] || x in ps[1..];
    }
  }

  lemma MulSucc(x: nat, n: nat)
    ensures (x + 1) * n == n + x * n
  {
  }

  /** Every scheduled percentage is one of the sweep's. */
  lemma ScheduleSound(ps: seq<int>, retrials: int)
    ensures forall t :: t in Schedule(ps, retrials) ==> t.0 in ps
  {
    ScheduleShape(ps, retrials);
  }

  predicate FileOk(w: Written, inp: Inputs, cfg: Config) {
    Valid(w.pop, inp, cfg) && w.path == AgentsPath(cfg, w.percent, w.retrial)
  }

  lemma PrefixAppend<T>(a: seq<T>, b: seq<T>, c: seq<T>)
    requires b <= c
    ensures a + b <= a + c
  {
    assert (a + b) == (a + c)[..|a + b|];
  }

  /** The retrials `r`, ..., `retrials - 1` at percentage `p`, written one after another. */
  function RunRetrials(inp: Inputs, cfg: Config, numAgents: int, pattern: seq<int>, p: int, r: nat, retrials: int, src: UnitStream, pos: nat)
    : (res: (Outcome, nat))
    requires |pattern| == HoursPerDay
    decreases retrials - r
    ensures Tags(res.0.files) <= RetrialTags(p, r, retrials)
    ensures res.0.failure.None? ==> Tags(res.0.files) == RetrialTags(p, r, retrials)
    ensures forall i :: 0 <= i < |res.0.files| ==> FileOk(res.0.files[i], inp, cfg)
    ensures Sum(pattern) == 0 && r < retrials ==> res.0 == Outcome([], Some(ZeroDivision))
  {
    if r >= retrials then (Outcome([], None), pos)
    else
      var t := Trial(inp, cfg, numAgents, pattern, p, src, pos);
      if t.Err? then (Outcome([], Some(t.error)), pos)
      else
        var (rest, pos2) := RunRetrials(inp, cfg, numAgents, pattern, p, r + 1, retrials, src, t.value.1);
        var w := Written(p, r, AgentsPath(cfg, p, r), t.value.0);
        RetrialPrepend(w, rest, p, r, retrials);
        AllCons([w] + rest.files, (x: Written) => FileOk(x, inp, cfg));
        assert ([w] + rest.files)[1..] == rest.files;
        (Outcome([w] + rest.files, rest.failure), pos2)
  }

  /** The file of retrial `r` goes in front of those of the later retrials. */
  lemma RetrialPrepend(w: Written, rest: Outcome, p: int, r: nat, retrials: int)
    requires r < retrials && w.percent == p && w.retrial == r
    requires Tags(rest.files) <= RetrialTags(p, r + 1, retrials)
    requires rest.failure.None? ==> Tags(rest.files) == RetrialTags(p, r + 1, retrials)
    ensures Tags([w] + rest.files) <= RetrialTags(p, r, retrials)
    ensures rest.failure.None? ==> Tags([w] + rest.files) == RetrialTags(p, r, retrials)
  {
    TagsConcat([w], rest.files);
    PrefixAppend([(p, r)], Tags(rest.files), RetrialTags(p, r + 1, retrials));
  }

  /** The percentages `ps`, each with all its retrials. */
  function RunPercents(inp: Inputs, cfg: Config, numAgents: int, pattern: seq<int>, ps: seq<int>, retrials: int, src: UnitStream, pos: nat)
    : (res: (Outcome, nat))
    requires |pattern| == HoursPerDay
    ensures Tags(res.0.files) <= Schedule(ps, retrials)
    ensures res.0.failure.None? ==> Tags(res.0.files) == Schedule(ps, retrials)
    ensures forall i :: 0 <= i < |res.0.files| ==> FileOk(res.0.files[i], inp, cfg)
    ensures Sum(pattern) == 0 && Schedule(ps, retrials) != [] ==> res.0 == Outcome([], Some(ZeroDivision))
  {
    if |ps| == 0 then (Outcome([], None), pos)
    else
      var (first, pos1) := RunRetrials(inp, cfg, numAgents, pattern, ps[0], 0, retrials, src, pos);
      if first.failure.Some? then
        assert Tags(first.files) <= Schedule(ps, retrials) by {
          assert Tags(first.files) == (RetrialTags(ps[0], 0, retrials) + Schedule(ps[1..], retrials))[..|first.files|];
        }
        (first, pos1)
      else
        var (rest, pos2) := RunPercents(inp, cfg, numAgents, pattern, ps[1..], retrials, src, pos1);
        TagsConcat(first.files, rest.files);
        PrefixAppend(Tags(first.files), Tags(rest.files), Schedule(ps[1..], retrials));
        (Outcome(first.files + rest.files, rest.failure), pos2)
  }

  /**
   * `make_random_agents`: resolve the traffic pattern, then run every
   * retrial of every percentage in `range(start_ratio, end_ratio + 1,
   * step_size)`, writing one file per trial. The draws come from `src`;
   * the seed that fixes them is not modelled.
   */
  function MakeRandomAgents(inp: Inputs, cfg: Config, numAgents: int, retrials: int, arg: PatternArg, src: UnitStream)
    : (out: Outcome)
    ensures arg.Given? && |arg.weights| != HoursPerDay ==> out == Outcome([], Some(PatternLength))
    ensures SelectPattern(arg).Ok? && cfg.stepSize == 0 ==> out == Outcome([], Some(StepZero))
    ensures SelectPattern(arg).Ok? && cfg.stepSize != 0 ==>
              var sched := Schedule(Range(cfg.startRatio, cfg.endRatio + 1, cfg.stepSize), retrials);
              && Tags(out.files) <= sched
              && (out.failure.None? ==> Tags(out.files) == sched)
              && (Sum(SelectPattern(arg).value) == 0 && sched != [] ==> out == Outcome([], Some(ZeroDivision)))
    ensures forall i :: 0 <= i < |out.files| ==> FileOk(out.files[i], inp, cfg)
  {
    match SelectPattern(arg)
    case Err(e) => Outcome([], Some(e))
    case Ok(pattern) =>
      match PyRange(cfg.startRatio, cfg.endRatio + 1, cfg.stepSize)
      case Err(e) => Outcome([], Some(e))
      case Ok(ps) => RunPercents(inp, cfg, numAgents, pattern, ps, retrials, src, 0).0
  }

  /** A file directory of the sweep, as `build_dirs` created it for the same settings. */
  predicate InBuiltDir(w: Written, dirs: seq<string>, prefix: string) {
    exists i :: 0 <= i < |dirs| && w.path == Join(dirs[i], FileName(prefix, w.retrial))
  }

  /**
   * Every file a sweep writes lies in one of the directories `build_dirs`
   * made beforehand with the same ratios, step and prefix, so `open(..., "w")`
   * never lacks its directory.
   */
  lemma FilesInBuiltDirs(cfg: Config, start: int, end: int, step: int, prefix: string, cfg': Config, dirs: seq<string>,
                         inp: Inputs, numAgents: int, retrials: int, arg: PatternArg, src: UnitStream)
    requires BuildDirs(cfg, start, end, step, prefix) == (cfg', Ok(dirs))
    ensures forall w :: w in MakeRandomAgents(inp, cfg', numAgents, retrials, arg, src).files ==> InBuiltDir(w, dirs, prefix)
  {
    var out := MakeRandomAgents(inp, cfg', numAgents, retrials, arg, src);
    assert step != 0 && cfg'.stepSize == step && cfg'.startRatio == start && cfg'.endRatio == end && cfg'.prefix == prefix;
    var ps := Range(cfg'.startRatio, cfg'.endRatio + 1, cfg'.stepSize);
    assert ps == Range(start, end + 1, step);
    if SelectPattern(arg).Ok? {
      assert Tags(out.files) <= Schedule(ps, retrials);
      OutcomeInBuiltDirs(out, ps, retrials, cfg', dirs, inp);
    }
  }

  /** The files of any outcome that follows the schedule of `ps` lie in the directories of `ps`. */
  lemma OutcomeInBuiltDirs(out: Outcome, ps: seq<int>, retrials: int, cfg: Config, dirs: seq<string>, inp: Inputs)
    requires Tags(out.files) <= Schedule(ps, retrials)
    requires forall i :: 0 <= i < |out.files| ==> FileOk(out.files[i], inp, cfg)
    requires |dirs| == |ps| && forall i :: 0 <= i < |dirs| ==> dirs[i] == DirPath(cfg, ps[i])
    ensures forall w :: w in out.files ==> InBuiltDir(w, dirs, cfg.prefix)
  {
    ScheduleSound(ps, retrials);
    forall k | 0 <= k < |out.files|
      ensures InBuiltDir(out.files[k], dirs, cfg.prefix)
    {
      FileInBuiltDir(out.files, k, Schedule(ps, retrials), ps, retrials, cfg, dirs, inp);
    }
  }

  lemma FileInBuiltDir(files: seq<Written>, k: nat, sched: seq<(int, nat)>, ps: seq<int>, retrials: int, cfg: Config, dirs: seq<string>, inp: Inputs)
    requires k < |files|
    requires sched == Schedule(ps, retrials) && Tags(files) <= sched
    requires forall t :: t in sched ==> t.0 in ps
    requires FileOk(files[k], inp, cfg)
    requires |dirs| == |ps| && forall i :: 0 <= i < |dirs| ==> dirs[i] == DirPath(cfg, ps[i])
    ensures InBuiltDir(files[k], dirs, cfg.prefix)
  {
    var w := files[k];
    assert Tags(files)[k] == (w.percent, w.retrial) == sched[k];
    var i :| 0 <= i < |ps| && ps[i] == w.percent;
    assert w.path == Join(dirs[i], FileName(cfg.prefix, w.retrial));
  }
}

=== FILE: rag_types.dfy ===
/**
 * Shared vocabulary of the synthetic agent workload generator (class `RAG`
 * of the traffic generator script): per-mode kinematic ranges, generated
 * agents, reachability tables and the errors a run can stop with.
 */
module RagTypes {
  import opened Json
  import opened Draws

  /** A `{"min": .., "max": ..}` pair of the generator's configuration. */
  datatype Range = Range(min: real, max: real)

  /** The five kinematic ranges configured for one travel mode. */
  datatype ModeRanges = ModeRanges(
    length: Range,
    maxVelocity: Range,
    acceleration: Range,
    deceleration: Range,
    exponent: Range)

  const CarDefaults := ModeRanges(Range(4.5, 5.5), Range(100.0, 250.0), Range(1.5, 5.0), Range(2.0, 8.0), Range(8.0, 12.0))
  const BikeDefaults := ModeRanges(Range(1.5, 2.5), Range(10.0, 35.0), Range(0.5, 1.5), Range(1.0, 3.0), Range(8.0, 12.0))

  datatype Mode = Car | Bike

  /** One generated traveller, as written to the agents file. */
  datatype Agent = Agent(
    startId: string,
    endId: string,
    length: real,
    maxVelocity: real,
    acceleration: real,
    deceleration: real,
    exponent: real,
    waitingPeriod: real)

  predicate InRange(r: Range, x: real) {
    Between(r.min, r.max, x)
  }

  /** Every numeric field of `a` lies in the matching configured range. */
  predicate WithinRanges(a: Agent, m: ModeRanges) {
    && InRange(m.length, a.length)
    && InRange(m.maxVelocity, a.maxVelocity)
    && InRange(m.acceleration, a.acceleration)
    && InRange(m.deceleration, a.deceleration)
    && InRange(m.exponent, a.exponent)
  }

  /** A reachability tree (`carTree` or `bikeTree`): start id -> end id -> flag. */
  type Tree = map<string, map<string, Json>>

  /**
   * The generator's acceptance test for a drawn pair, given the row of its
   * start: `row.get(end) is None or row.get(end) is True`. A missing entry
   * and a JSON `null` both read as `None`, so both are accepted.
   */
  predicate Accepts(row: map<string, Json>, end: string) {
    end !in row || row[end] == JNull || row[end] == JBool(true)
  }

  datatype RagError =
    | PatternLength          // a traffic pattern list whose length is not 24
    | ZeroDivision           // the traffic pattern sums to zero
    | StepZero               // `range` with a step of zero
    | EmptyChoice            // `random.choice` on an empty intersection list
    | MissingRow(id: string) // a drawn start id without a row in the reachability tree
}

=== FILE: random_actors.dfy ===
/**
 * Random path choice and actor population of the C++ simulator:
 * `randint` over the KISS generator, `choseRandomPath` with its bounded
 * retry, and `createRandomActors` filling a range of actor slots.
 * The KISS generator is a stream of unsigned 64-bit values and
 * `std::rand` a stream of naturals; path retrieval is a parameter.
 */
module RandomActors {
  import opened Wrappers
  import Strings

  const TwoTo31: int := 0x8000_0000
  const TwoTo32: int := 0x1_0000_0000
  const TwoTo64: int := 0x1_0000_0000_0000_0000

  predicate InInt32(x: int) { -TwoTo31 <= x < TwoTo31 }
  type Int32 = x: int | InInt32(x)
  type U64 = x: int | 0 <= x < TwoTo64
  /** Successive values of the KISS generator. */
  type Kiss = nat -> U64

  /** The `int` whose 32-bit pattern is `v`. */
  function ToInt32(v: int): (r: Int32)
    requires 0 <= v < TwoTo32
    ensures r % TwoTo32 == v
  {
    if v < TwoTo31 then v else v - TwoTo32
  }

  /** Adding `lo` as an unsigned 64-bit value and truncating to 32 bits gives back `lo + x` in range. */
  lemma Wrap(lo: Int32, x: int)
    requires 0 <= x && InInt32(lo + x)
    ensures 0 <= (x + lo % TwoTo64) % TwoTo64 < TwoTo64
    ensures ToInt32((x + lo % TwoTo64) % TwoTo64 % TwoTo32) == lo + x
  {
    assert InInt32(lo);
    var y := x + lo;
    if lo >= 0 {
      SmallMod(lo, TwoTo64);
      SmallMod(y, TwoTo64);
      SmallMod(y, TwoTo32);
    } else {
      NegMod64(lo);
      assert x + lo % TwoTo64 == y + TwoTo64;
      if y >= 0 {
        Mod64Shift(y);
        SmallMod(y, TwoTo32);
      } else {
        SmallMod(y + TwoTo64, TwoTo64);
        Mod32Wrap(y);
      }
    }
  }

  lemma NegMod64(a: int)
    requires -TwoTo31 <= a < 0
    ensures a % TwoTo64 == a + TwoTo64
  {
  }

  lemma Mod64Shift(y: int)
    requires 0 <= y < TwoTo31
    ensures (y + TwoTo64) % TwoTo64 == y
  {
  }

  lemma Mod32Wrap(y: int)
    requires -TwoTo31 <= y < 0
    ensures (y + TwoTo64) % TwoTo32 == y + TwoTo32
  {
  }

  lemma SmallMod(k: int, m: int)
    requires 0 <= k < m
    ensures k % m == k
  {
  }

  lemma ModBounds(k: int, m: int)
    requires 0 <= k && 0 < m
    ensures 0 <= k % m < m
  {
  }

  /** A non-zero `int` converted to `unsigned long long`. */
  lemma Unsigned(m: int)
    requires m != 0 && InInt32(m)
    ensures 0 < m % TwoTo64 < TwoTo64
    ensures 0 < m ==> m % TwoTo64 == m
  {
    if 0 < m {
      SmallMod(m, TwoTo64);
    } else {
      NegMod64(m);
    }
  }

  /** `KISS % (max - min + 1) + min` with both operands converted to `unsigned long long`. */
  function Mix(k: U64, m: int, lo: Int32): (v: int)
    requires m != 0 && InInt32(m)
    ensures 0 <= v < TwoTo64
    ensures 0 < m && InInt32(lo + m - 1) ==> ToInt32(v % TwoTo32) == lo + k % m
  {
    var mu := m % TwoTo64;
    Unsigned(m);
    ModBounds(k, mu);
    if 0 < m && InInt32(lo + m - 1) then
      ModBounds(k, m);
      var x := k % m;
      assert InInt32(lo);
      Wrap(lo, x);
      (x + lo % TwoTo64) % TwoTo64
    else
      (k % mu + lo % TwoTo64) % TwoTo64
  }

  /** `max - min` and `max - min + 1` fit an `int`, and the divisor is not zero. */
  predicate RangeDefined(lo: int, hi: int) {
    InInt32(hi - lo) && InInt32(hi - lo + 1) && hi - lo + 1 != 0
  }

  /**
   * `randint(min, max)`: `KISS % (max - min + 1) + min` in unsigned 64-bit
   * arithmetic, cast back to `int`. `None` where C++ leaves it undefined:
   * the `int` subtraction `max - min` overflows, the `+ 1` after it
   * overflows, or the divisor is zero.
   */
  function Randint(lo: Int32, hi: Int32, k: U64): (r: Option<Int32>)
    ensures r.None? <==> !RangeDefined(lo, hi)
    ensures lo <= hi && r.Some? ==> r.value == lo + k % (hi - lo + 1)
  {
    var m := hi - lo + 1;
    if !RangeDefined(lo, hi) then None
    else Some(ToInt32(Mix(k, m, lo) % TwoTo32))
  }

  /** `randint(1, INT_MIN)`: `max - min` already overflows, although `max - min + 1` would fit. */
  lemma RandintSubtractionOverflows(k: U64)
    ensures InInt32(-0x8000_0000 - 1 + 1) && Randint(1, -0x8000_0000, k).None?
  {
  }

  /** For a well-formed range the draw lies in [min, max]. */
  lemma RandintInRange(lo: Int32, hi: Int32, k: U64)
    requires lo <= hi && hi - lo + 1 < TwoTo31
    ensures Randint(lo, hi, k).Some? && lo <= Randint(lo, hi, k).value <= hi
  {
    ModBounds(k, hi - lo + 1);
  }

  /** Every value of a well-formed range is drawn by some generator value. */
  lemma RandintCovers(lo: Int32, hi: Int32, v: int)
    requires lo <= v <= hi && hi - lo + 1 < TwoTo31
    ensures Randint(lo, hi, v - lo) == Some(v)
  {
    SmallMod(v - lo, hi - lo + 1);
  }

  /** `randint(0, n - 1)` for a positive intersection count. */
  function Draw(n: int, k: U64): (r: int)
    requires 1 <= n < TwoTo31
    ensures 0 <= r < n
  {
    ModBounds(k, n);
    k % n
  }

  /** A draw is what `randint(0, n - 1)` returns. */
  lemma DrawIsRandint(n: int, k: U64)
    requires 1 <= n < TwoTo31
    ensures Randint(0, n - 1, k) == Some(Draw(n, k))
  {
    ModBounds(k, n);
  }

  // ---------------------------------------------------------------- choseRandomPath

  /** `spt_t`: a `size` by `size` matrix stored row by row; -1 marks "no path". */
  datatype Spt = Spt(size: int, cells: seq<int>)

  /** The matrix covers the first `n` crossings. */
  predicate Covers(spt: Spt, n: int) {
    0 <= n <= spt.size && |spt.cells| == spt.size * spt.size
  }

  lemma CellIndex(size: int, s: int, e: int)
    requires 0 <= s < size && 0 <= e < size
    ensures 0 <= s * size + e < size * size
  {
    assert s * size <= (size - 1) * size;
  }

  /** `spt->array[s * spt->size + e]`. */
  function Cell(spt: Spt, s: int, e: int): int
    requires 0 <= s < spt.size && 0 <= e < spt.size && |spt.cells| == spt.size * spt.size
  {
    CellIndex(spt.size, s, e);
    spt.cells[s * spt.size + e]
  }

  /** The retry loop stops at a pair of distinct crossings with a path. */
  predicate Linked(spt: Spt, s: int, e: int)
    requires 0 <= s < spt.size && 0 <= e < spt.size && |spt.cells| == spt.size * spt.size
  {
    s != e && Cell(spt, s, e) != -1
  }

  const MaxTries: nat := 1000

  /** The retry loop from its `tries`-th round on; each round draws a new start and end. */
  function Retry(n: int, spt: Spt, kiss: Kiss, s: int, e: int, tries: nat, pos: nat): (r: (int, int, nat))
    requires 1 <= n < TwoTo31 && Covers(spt, n)
    requires 0 <= s < n && 0 <= e < n && tries <= MaxTries
    decreases MaxTries - tries
    ensures 0 <= r.0 < n && 0 <= r.1 < n
    ensures pos <= r.2 <= pos + 2 * (MaxTries - tries)
    ensures r.2 < pos + 2 * (MaxTries - tries) ==> Linked(spt, r.0, r.1)
  {
    if tries < MaxTries && !Linked(spt, s, e) then
      Retry(n, spt, kiss, Draw(n, kiss(pos)), Draw(n, kiss(pos + 1)), tries + 1, pos + 2)
    else (s, e, pos)
  }

  /**
   * `choseRandomPath`: with no intersections nothing changes; otherwise a
   * start is drawn, pairs are redrawn at most 1000 times until they are
   * distinct and linked, and a pair still equal at the end gets
   * `end = (start + 1) % size`. Returns start, end and the next stream position.
   */
  function ChoosePath(n: nat, spt: Spt, kiss: Kiss, start: int, end: int, pos: nat): (r: (int, int, nat))
    requires n < TwoTo31 && Covers(spt, n)
    ensures n == 0 ==> r == (start, end, pos)
    ensures n > 0 ==> 0 <= r.0 < n && 0 <= r.1 < spt.size
    ensures n > 0 && 2 <= spt.size ==> r.0 != r.1
    ensures n > 0 ==> pos + 1 <= r.2 <= pos + 1 + 2 * MaxTries
    ensures n > 0 && r.2 < pos + 1 + 2 * MaxTries ==> Linked(spt, r.0, r.1)
  {
    if n == 0 then (start, end, pos)
    else
      var s := Draw(n, kiss(pos));
      var r := Retry(n, spt, kiss, s, s, 0, pos + 1);
      if r.0 == r.1 then
        (r.0, Successor(r.0, spt.size), r.2)
      else r
  }

  /** `(s + 1) % size` for a crossing index `s`: the next index, wrapping to 0. */
  function Successor(s: int, size: int): (t: int)
    requires 0 <= s < size
    ensures 0 <= t < size
    ensures 2 <= size ==> t != s
  {
    if s + 1 < size then s + 1 else 0
  }

  lemma SuccessorIsMod(s: int, size: int)
    requires 0 <= s < size
    ensures Successor(s, size) == (s + 1) % size
  {
    if s + 1 < size {
      SmallMod(s + 1, size);
    } else {
      assert (s + 1) % size == 0;
    }
  }

  /** The loop of `choseRandomPath`, computing `ChoosePath`. */
  method ChoseRandomPath(n: nat, spt: Spt, kiss: Kiss, start: int, end: int, pos: nat)
    returns (start': int, end': int, pos': nat)
    requires n < TwoTo31 && Covers(spt, n)
    ensures (start', end', pos') == ChoosePath(n, spt, kiss, start, end, pos)
  {
    if n == 0 {
      return start, end, pos;
    }
    var s0 := Draw(n, kiss(pos));
    start', end', pos' := RetryLoop(n, spt, kiss, s0, pos + 1);
    if start' == end' {
      SuccessorIsMod(start', spt.size);
      end' := (start' + 1) % spt.size;
    }
  }

  /** The `do`-`while` retry loop, starting from the pair (s0, s0). */
  method RetryLoop(n: nat, spt: Spt, kiss: Kiss, s0: int, pos: nat) returns (start': int, end': int, pos': nat)
    requires 1 <= n < TwoTo31 && Covers(spt, n) && 0 <= s0 < n
    ensures (start', end', pos') == Retry(n, spt, kiss, s0, s0, 0, pos)
  {
    start', end', pos' := s0, s0, pos;
    var tries: nat := 0;
    while tries < MaxTries && !Linked(spt, start', end')
      invariant tries <= MaxTries && 0 <= start' < n && 0 <= end' < n
      invariant Retry(n, spt, kiss, start', end', tries, pos') == Retry(n, spt, kiss, s0, s0, 0, pos)
      decreases MaxTries - tries
    {
      ghost var before := Retry(n, spt, kiss, start', end', tries, pos');
      start' := Draw(n, kiss(pos'));
      end' := Draw(n, kiss(pos' + 1));
      assert Retry(n, spt, kiss, start', end', tries + 1, pos' + 2) == before;
      pos' := pos' + 2;
      tries := tries + 1;
    }
  }

  // ---------------------------------------------------------------- createRandomActors

  datatype ActorType = Bike | Car

  datatype Actor = Actor(
    kind: ActorType,
    distanceToIntersection: real,
    distanceToRight: int,
    length: real,
    maxVelocity: real,
    insertAfter: real,
    id: string,
    startId: int,
    endId: int,
    path: seq<int>)

  datatype Intersection = Intersection(id: int, waiting: seq<Actor>)

  /** The intersections with their insertion queues, and the actor slots (`None` is an unset pointer). */
  datatype SimWorld = SimWorld(intersections: seq<Intersection>, actors: seq<Option<Actor>>)

  datatype ActorError =
    | Undefined   // a `randint` call whose result C++ leaves undefined
    | SameEnds    // the `start_id != end_id` assertion fails
    | OutOfRange  // `world->actors.at(i)` throws

  /** km/h to m/s, as the source writes it. */
  const KmhToMs: real := 0.277778

  /** The arguments shared by every slot; `retrieve` stands for `retrievePath` on the matrix. */
  datatype Params = Params(
    kind: ActorType, minSpeed: Int32, maxSpeed: Int32, length: real, maxStartTime: Int32,
    retrieve: (int, int) -> seq<int>)

  /** What every created actor satisfies. */
  predicate Created(p: Params, a: Actor) {
    && a.kind == p.kind && a.length == p.length
    && a.distanceToIntersection == 0.0 && a.distanceToRight == 0
    && (p.minSpeed <= p.maxSpeed ==> p.minSpeed as real * KmhToMs <= a.maxVelocity <= p.maxSpeed as real * KmhToMs)
    && (0 <= p.maxStartTime ==> 0.0 <= a.insertAfter <= p.maxStartTime as real)
    && a.startId != a.endId
    && a.path == p.retrieve(a.startId, a.endId) && a.path != []
  }

  /** The first intersection carrying `id`. */
  function FirstWithId(xs: seq<Intersection>, id: int): (r: Option<nat>)
    ensures r.Some? ==> r.value < |xs| && xs[r.value].id == id
    ensures r.Some? ==> forall q :: 0 <= q < r.value ==> xs[q].id != id
    ensures r.None? ==> forall q :: 0 <= q < |xs| ==> xs[q].id != id
  {
    if |xs| == 0 then None
    else if xs[0].id == id then Some(0)
    else match FirstWithId(xs[1..], id)
      case None => None
      case Some(q) => Some(q + 1)
  }

  /** The queues grew only at their ends, by created actors that start at that intersection. */
  predicate Grew(p: Params, before: seq<Intersection>, after: seq<Intersection>) {
    && |after| == |before|
    && forall q :: 0 <= q < |before| ==>
         && after[q].id == before[q].id
         && |before[q].waiting| <= |after[q].waiting|
         && after[q].waiting[..|before[q].waiting|] == before[q].waiting
         && forall x :: |before[q].waiting| <= x < |after[q].waiting| ==>
              Created(p, after[q].waiting[x]) && after[q].waiting[x].startId == after[q].id
  }

  /** The insertion loop: `a` joins the queue of the first intersection whose id is its start, if any. */
  function Enqueue(xs: seq<Intersection>, a: Actor): (r: seq<Intersection>)
    ensures |r| == |xs|
    ensures forall q :: 0 <= q < |xs| && xs[q].id == a.startId && (forall q' :: 0 <= q' < q ==> xs[q'].id != a.startId) ==>
              r[q] == Intersection(xs[q].id, xs[q].waiting + [a])
    ensures forall q :: 0 <= q < |xs| && !(xs[q].id == a.startId && (forall q' :: 0 <= q' < q ==> xs[q'].id != a.startId)) ==>
              r[q] == xs[q]
  {
    match FirstWithId(xs, a.startId)
    case None => xs
    case Some(q) => xs[q := Intersection(xs[q].id, xs[q].waiting + [a])]
  }

  lemma GrewByEnqueue(p: Params, xs: seq<Intersection>, a: Actor)
    requires Created(p, a)
    ensures Grew(p, xs, Enqueue(xs, a))
  {
    var r := Enqueue(xs, a);
    forall q | 0 <= q < |xs|
      ensures r[q].id == xs[q].id && |xs[q].waiting| <= |r[q].waiting|
      ensures r[q].waiting[..|xs[q].waiting|] == xs[q].waiting
      ensures forall x :: |xs[q].waiting| <= x < |r[q].waiting| ==> Created(p, r[q].waiting[x]) && r[q].waiting[x].startId == r[q].id
    {
      if r[q] != xs[q] {
        assert r[q].waiting == xs[q].waiting + [a];
        assert r[q].waiting[..|xs[q].waiting|] == xs[q].waiting;
      }
    }
  }

  lemma GrewTrans(p: Params, a: seq<Intersection>, b: seq<Intersection>, c: seq<Intersection>)
    requires Grew(p, a, b) && Grew(p, b, c)
    ensures Grew(p, a, c)
  {
    forall q | 0 <= q < |a|
      ensures c[q].waiting[..|a[q].waiting|] == a[q].waiting
    {
      assert c[q].waiting[..|a[q].waiting|] == c[q].waiting[..|b[q].waiting|][..|a[q].waiting|];
    }
  }

  /** The matrix belongs to the world's intersections, as the source assumes. */
  predicate Fits(w: SimWorld, spt: Spt) {
    |w.intersections| < TwoTo31 && Covers(spt, |w.intersections|)
  }

  /** Slot `i`'s result: the world, and the next KISS and `std::rand` positions. */
  type SlotResult = Result<(SimWorld, nat, nat), ActorError>

  /** Slot `i` either stays as it was, or holds a created actor that also joined its start's queue. */
  predicate SlotStep(p: Params, w: SimWorld, w': SimWorld, i: int) {
    && |w'.actors| == |w.actors|
    && Grew(p, w.intersections, w'.intersections)
    && (forall k :: 0 <= k < |w.actors| && k != i ==> w'.actors[k] == w.actors[k])
    && ((w'.intersections == w.intersections && w'.actors == w.actors)
        || (&& 0 <= i < |w.actors| && w'.actors[i].Some? && Created(p, w'.actors[i].value)
            && w'.actors == w.actors[i := w'.actors[i]]
            && w'.intersections == Enqueue(w.intersections, w'.actors[i].value)))
  }

  /**
   * One iteration of `createRandomActors`: draw the speed, the insertion time
   * and the id, choose a path; an empty retrieved path skips the slot.
   * `unset` holds the ids a newly constructed actor carries before
   * `choseRandomPath` runs.
   */
  function Slot(p: Params, w: SimWorld, spt: Spt, i: int, kiss: Kiss, pos: nat,
                rand: nat -> nat, rpos: nat, unset: (int, int)): (r: SlotResult)
    requires Fits(w, spt)
    ensures r == Err(Undefined) <==>
              Randint(p.minSpeed, p.maxSpeed, kiss(pos)).None? || Randint(0, p.maxStartTime, kiss(pos + 1)).None?
    ensures r == Err(OutOfRange) ==> !(0 <= i < |w.actors|)
    ensures r.Ok? ==> SlotStep(p, w, r.value.0, i)
    ensures r.Ok? ==> pos + 2 <= r.value.1 && r.value.2 == rpos + 1
  {
    var speed := Randint(p.minSpeed, p.maxSpeed, kiss(pos));
    var wait := Randint(0, p.maxStartTime, kiss(pos + 1));
    if speed.None? || wait.None? then Err(Undefined)
    else
      var id := Strings.NatToString(rand(rpos));
      var (s, e, pos') := ChoosePath(|w.intersections|, spt, kiss, unset.0, unset.1, pos + 2);
      if s == e then Err(SameEnds)
      else
        var path := p.retrieve(s, e);
        if path == [] then Ok((w, pos', rpos + 1))
        else
          var a := Actor(p.kind, 0.0, 0, p.length, speed.value as real * KmhToMs, wait.value as real, id, s, e, path);
          var queues := Enqueue(w.intersections, a);
          GrewByEnqueue(p, w.intersections, a);
          if !(0 <= i < |w.actors|) then Err(OutOfRange)
          else Ok((SimWorld(queues, w.actors[i := Some(a)]), pos', rpos + 1))
  }

  /** Every slot in [lo, hi) stays as it was or holds a created actor; nothing else changes. */
  predicate Populated(p: Params, w: SimWorld, w': SimWorld, lo: int, hi: int) {
    && |w'.actors| == |w.actors|
    && Grew(p, w.intersections, w'.intersections)
    && (forall k :: 0 <= k < |w.actors| && !(lo <= k < hi) ==> w'.actors[k] == w.actors[k])
    && (forall k :: 0 <= k < |w.actors| && lo <= k < hi ==>
          w'.actors[k] == w.actors[k] || (w'.actors[k].Some? && Created(p, w'.actors[k].value)))
  }

  lemma GrewRefl(p: Params, xs: seq<Intersection>)
    ensures Grew(p, xs, xs)
  {
    forall q | 0 <= q < |xs|
      ensures xs[q].waiting[..|xs[q].waiting|] == xs[q].waiting
    {
    }
  }

  /** The queues after the actors of `filled` joined them one after the other, in that order. */
  function EnqueueAll(xs: seq<Intersection>, filled: seq<(int, Actor)>): (r: seq<Intersection>)
    decreases |filled|
  {
    if |filled| == 0 then xs
    else Enqueue(EnqueueAll(xs, filled[..|filled| - 1]), filled[|filled| - 1].1)
  }

  /**
   * The slots in [lo, hi) that received an actor, with that actor: they are
   * listed in slot order, each holds its created actor, the other slots of
   * the range stay, and the queues are those actors enqueued in that order.
   */
  predicate Filled(p: Params, w: SimWorld, w': SimWorld, lo: int, hi: int, filled: seq<(int, Actor)>) {
    && |w'.actors| == |w.actors|
    && w'.intersections == EnqueueAll(w.intersections, filled)
    && (forall j :: 0 <= j < |filled| ==>
          && lo <= filled[j].0 < hi && 0 <= filled[j].0 < |w.actors|
          && w'.actors[filled[j].0] == Some(filled[j].1) && Created(p, filled[j].1))
    && (forall j, j' :: 0 <= j < j' < |filled| ==> filled[j].0 < filled[j'].0)
    && (forall k :: lo <= k < hi && 0 <= k < |w.actors| && (forall j :: 0 <= j < |filled| ==> filled[j].0 != k) ==>
          w'.actors[k] == w.actors[k])
  }

  /** A slot that stays extends the record of filled slots by nothing. */
  lemma FilledSame(p: Params, w: SimWorld, cur: SimWorld, lo: int, i: int, filled: seq<(int, Actor)>)
    requires lo <= i && Filled(p, w, cur, lo, i, filled)
    requires Populated(p, w, cur, lo, i)
    ensures Filled(p, w, cur, lo, i + 1, filled)
  {
  }

  /** Slot `i` receiving actor `a` extends the record of filled slots by `(i, a)`. */
  lemma {:induction false} FilledStep(p: Params, w: SimWorld, cur: SimWorld, next: SimWorld, lo: int, i: int,
                                      filled: seq<(int, Actor)>)
    requires lo <= i && Filled(p, w, cur, lo, i, filled) && Populated(p, w, cur, lo, i)
    requires 0 <= i < |cur.actors| && |next.actors| == |cur.actors| && next.actors[i].Some? && Created(p, next.actors[i].value)
    requires next.actors == cur.actors[i := next.actors[i]]
    requires next.intersections == Enqueue(cur.intersections, next.actors[i].value)
    ensures Filled(p, w, next, lo, i + 1, filled + [(i, next.actors[i].value)])
  {
    var f := filled + [(i, next.actors[i].value)];
    assert f[..|f| - 1] == filled;
    assert EnqueueAll(w.intersections, f) == next.intersections;
    forall j | 0 <= j < |f|
      ensures lo <= f[j].0 < i + 1 && 0 <= f[j].0 < |w.actors| && next.actors[f[j].0] == Some(f[j].1) && Created(p, f[j].1)
    {
      if j < |filled| {
        assert f[j] == filled[j];
      }
    }
    forall k | lo <= k < i + 1 && 0 <= k < |w.actors| && (forall j :: 0 <= j < |f| ==> f[j].0 != k)
      ensures next.actors[k] == w.actors[k]
    {
      assert f[|f| - 1].0 == i;
      forall j | 0 <= j < |filled|
        ensures filled[j].0 != k
      {
        assert f[j] == filled[j];
      }
    }
  }

  /** The loop state after slots [lo, i): the matrix still fits, and the slots so far are populated and recorded. */
  predicate Progress(p: Params, w: SimWorld, cur: SimWorld, spt: Spt, lo: int, i: int, filled: seq<(int, Actor)>) {
    Fits(cur, spt) && Populated(p, w, cur, lo, i) && Filled(p, w, cur, lo, i, filled)
  }

  /** The record of filled slots after slot `i`: extended by `(i, a)` when the slot received `a`. */
  function Record(p: Params, w: SimWorld, cur: SimWorld, next: SimWorld, spt: Spt, lo: int, i: int,
                  filled: seq<(int, Actor)>): (f: seq<(int, Actor)>)
    requires lo <= i && Progress(p, w, cur, spt, lo, i, filled)
    requires SlotStep(p, cur, next, i)
    ensures Progress(p, w, next, spt, lo, i + 1, f)
    ensures f == filled || (|f| == |filled| + 1 && f[..|filled|] == filled && f[|filled|].0 == i)
  {
    PopulatedStep(p, w, cur, next, lo, i);
    if next == cur then
      FilledSame(p, w, cur, lo, i, filled);
      filled
    else
      assert !(next.intersections == cur.intersections && next.actors == cur.actors);
      FilledStep(p, w, cur, next, lo, i, filled);
      var f := filled + [(i, next.actors[i].value)];
      assert f[..|filled|] == filled;
      f
  }

  /** One more slot in order keeps the slots so far populated. */
  lemma PopulatedStep(p: Params, w: SimWorld, cur: SimWorld, next: SimWorld, lo: int, i: int)
    requires lo <= i
    requires Populated(p, w, cur, lo, i) && SlotStep(p, cur, next, i)
    ensures Populated(p, w, next, lo, i + 1)
  {
    GrewTrans(p, w.intersections, cur.intersections, next.intersections);
  }

  /**
   * `createRandomActors`: slots `start .. start + numberOfActors - 1` in
   * order, stopping at the first error.
   */
  method CreateRandomActors(p: Params, w: SimWorld, spt: Spt, start: int, count: int, kiss: Kiss, pos: nat,
                            rand: nat -> nat, rpos: nat, unset: (int, int))
    returns (r: SlotResult, filled: seq<(int, Actor)>)
    requires Fits(w, spt)
    ensures r.Ok? ==> Populated(p, w, r.value.0, start, start + count)
    ensures r.Ok? ==> Filled(p, w, r.value.0, start, start + count, filled)
    ensures count > 0 && !RangeDefined(p.minSpeed, p.maxSpeed) ==> r == Err(Undefined)
    ensures count <= 0 ==> r == Ok((w, pos, rpos))
  {
    filled := [];
    if count <= 0 {
      return Ok((w, pos, rpos)), filled;
    }
    if !RangeDefined(p.minSpeed, p.maxSpeed) {
      // the first slot's speed draw is already undefined
      return Err(Undefined), filled;
    }
    var cur, kp, rp := w, pos, rpos;
    GrewRefl(p, w.intersections);
    assert Progress(p, w, w, spt, start, start, filled);
    var i := start;
    while i < start + count
      invariant start <= i <= start + count
      invariant Progress(p, w, cur, spt, start, i, filled)
            decreases start + count - i
    {
      var step := Slot(p, cur, spt, i, kiss, kp, rand, rp, unset);
      if step.Err? {
        return Err(step.error), filled;
      }
      var next := step.value.0;
      filled := Record(p, w, cur, next, spt, start, i, filled);
      cur, kp, rp := next, step.value.1, step.value.2;
      i := i + 1;
    }
    return Ok((cur, kp, rp)), filled;
  }
}

=== FILE: routing_fw.dfy ===
/**
 * `calculateShortestPathTree`: Floyd-Warshall over string-keyed crossings,
 * recording for each reachable pair its distance (`minimumDistance`) and the
 * first crossing to drive to (`spt`). The two nested maps always have the
 * same keys, so one table holds both.
 */
module RoutingFW {
  import opened Wrappers
  import opened RoutingGraph

  /** `spt[i][j]` and `minimumDistance[i][j]` of one pair. */
  datatype Entry = Entry(hop: Id, dist: real)

  type Table = map<(Id, Id), Entry>

  function CrossingSet(w: World): set<Id> {
    set c | c in w.crossings
  }

  /** The street entries, then every crossing's own entry at distance 0. */
  function InitTable(e: Edges, s: set<Id>): Table {
    var keys := e.Keys + (set c | c in s :: (c, c));
    map k | k in keys :: if k in e && !(k.0 == k.1 && k.0 in s) then Entry(k.1, e[k]) else Entry(k.0, 0.0)
  }

  /** The table before the first round, for a rule on parallel streets. */
  function Initial(rule: InitRule, w: World): Table {
    InitTable(StreetEdges(rule, w.streets), CrossingSet(w))
  }

  /** `hasEdge && (!spt[i].contains(j) || minimumDistance[i][j] > minimumDistance[i][c] + minimumDistance[c][j])`. */
  predicate Relaxes(t: Table, c: Id, i: Id, j: Id) {
    && (i, c) in t && (c, j) in t
    && ((i, j) !in t || t[(i, j)].dist > t[(i, c)].dist + t[(c, j)].dist)
  }

  /** The entry of the detour through `c`: the first hop toward `c`, the two distances added. */
  function Through(t: Table, c: Id, i: Id, j: Id): Entry
    requires (i, c) in t && (c, j) in t
  {
    Entry(t[(i, c)].hop, t[(i, c)].dist + t[(c, j)].dist)
  }

  /** The entry of pair `k` after relaxing it through `c` against table `t`. */
  function RelaxedAt(t: Table, c: Id, s: set<Id>, k: (Id, Id)): Option<Entry> {
    if k.0 in s && k.1 in s && Relaxes(t, c, k.0, k.1) then Some(Through(t, c, k.0, k.1))
    else if k in t then Some(t[k])
    else None
  }

  /** Round `c` with every pair of crossings relaxed against the table as it was before the round. */
  function Round(t: Table, c: Id, s: set<Id>): Table {
    var keys := t.Keys + (set i, j | i in s && j in s && (i, c) in t && (c, j) in t :: (i, j));
    map k | k in keys && RelaxedAt(t, c, s, k).Some? :: RelaxedAt(t, c, s, k).value
  }

  /** The rounds for `cs`, in order. */
  function Rounds(t: Table, cs: seq<Id>, s: set<Id>): Table
    decreases |cs|
  {
    if |cs| == 0 then t else Round(Rounds(t, cs[..|cs| - 1], s), cs[|cs| - 1], s)
  }

  /** The reference result: the initial table, then one round per listed crossing. */
  function ShortestPathTree(rule: InitRule, w: World): Table {
    Rounds(Initial(rule, w), w.crossings, CrossingSet(w))
  }

  // ---------------------------------------------------------------- what an entry means

  /** Walk `vs` realises entry `en` of pair (i, j): same ends, same length, and its first step goes to the hop. */
  predicate Witness(e: Edges, vs: seq<Id>, i: Id, j: Id, p: set<Id>, en: Entry) {
    && WalkFromTo(e, vs, i, j, p)
    && Weight(e, vs) == en.dist
    && (|vs| == 1 ==> en.hop == i)
    && (2 <= |vs| ==> en.hop == vs[1])
  }

  /** Every entry between crossings is realised by a walk through `p`. */
  ghost predicate Sound(t: Table, e: Edges, s: set<Id>, p: set<Id>) {
    forall i, j :: i in s && j in s && (i, j) in t ==> exists vs :: Witness(e, vs, i, j, p, t[(i, j)])
  }

  /** Every walk through `p` between crossings has an entry no longer than itself. */
  ghost predicate Least(t: Table, e: Edges, s: set<Id>, p: set<Id>) {
    forall i, j, vs :: i in s && j in s && WalkFromTo(e, vs, i, j, p) ==> (i, j) in t && t[(i, j)].dist <= Weight(e, vs)
  }

  /** `spt[c][c] == c` and `minimumDistance[c][c] == 0` for every crossing. */
  predicate Diagonal(t: Table, s: set<Id>) {
    forall c :: c in s ==> (c, c) in t && t[(c, c)] == Entry(c, 0.0)
  }

  predicate NonNegativeTable(t: Table) {
    forall k :: k in t ==> 0.0 <= t[k].dist
  }

  /** The hop of (i, j) is a crossing one edge away whose own entry toward `j` is no longer than what remains. */
  predicate HopStep(t: Table, e: Edges, s: set<Id>, i: Id, j: Id)
    requires (i, j) in t
  {
    var h := t[(i, j)].hop;
    (i, h) in e && h in s && (h, j) in t && t[(i, j)].dist >= e[(i, h)] + t[(h, j)].dist
  }

  ghost predicate HopsAdvance(t: Table, e: Edges, s: set<Id>) {
    forall i, j :: i in s && j in s && (i, j) in t && i != j ==> HopStep(t, e, s, i, j)
  }

  /** What holds after the rounds for the crossings in `p`. */
  ghost predicate Inv(t: Table, e: Edges, s: set<Id>, p: set<Id>) {
    Sound(t, e, s, p) && Least(t, e, s, p) && Diagonal(t, s) && NonNegativeTable(t) && HopsAdvance(t, e, s)
  }

  // ---------------------------------------------------------------- one round

  lemma RoundAt(t: Table, c: Id, s: set<Id>, k: (Id, Id))
    ensures k in Round(t, c, s) <==> RelaxedAt(t, c, s, k).Some?
    ensures k in Round(t, c, s) ==> Round(t, c, s)[k] == RelaxedAt(t, c, s, k).value
  {
    if RelaxedAt(t, c, s, k).Some? && k !in t {
      var extra := set i, j | i in s && j in s && (i, c) in t && (c, j) in t :: (i, j);
      assert k == (k.0, k.1);
      assert k in extra;
    }
  }

  /** A relaxation only fills a missing entry or shortens one; entries never disappear. */
  lemma RoundMonotone(t: Table, c: Id, s: set<Id>, k: (Id, Id))
    requires k in t
    ensures k in Round(t, c, s) && Round(t, c, s)[k].dist <= t[k].dist
    ensures Round(t, c, s)[k] != t[k] ==> Round(t, c, s)[k] == Through(t, c, k.0, k.1) && Round(t, c, s)[k].dist < t[k].dist
  {
    RoundAt(t, c, s, k);
  }

  /** After round `c` each pair of crossings is no longer than its detour through `c`. */
  lemma RoundBound(t: Table, c: Id, s: set<Id>, i: Id, j: Id)
    requires i in s && j in s && (i, c) in t && (c, j) in t
    ensures (i, j) in Round(t, c, s)
    ensures Round(t, c, s)[(i, j)].dist <= t[(i, c)].dist + t[(c, j)].dist
  {
    RoundAt(t, c, s, (i, j));
  }

  /** Pairs with an end outside the crossings are left as they are. */
  lemma RoundOutside(t: Table, c: Id, s: set<Id>, k: (Id, Id))
    requires !(k.0 in s && k.1 in s)
    ensures k in Round(t, c, s) <==> k in t
    ensures k in t ==> Round(t, c, s)[k] == t[k]
  {
    RoundAt(t, c, s, k);
  }

  /** With `c`'s own entry at 0, round `c` changes neither row `c` nor column `c`. */
  lemma RoundFixesCross(t: Table, c: Id, s: set<Id>, x: Id)
    requires (c, c) in t && t[(c, c)].dist == 0.0
    ensures (x, c) in Round(t, c, s) <==> (x, c) in t
    ensures (x, c) in t ==> Round(t, c, s)[(x, c)] == t[(x, c)]
    ensures (c, x) in Round(t, c, s) <==> (c, x) in t
    ensures (c, x) in t ==> Round(t, c, s)[(c, x)] == t[(c, x)]
  {
    RoundAt(t, c, s, (x, c));
    RoundAt(t, c, s, (c, x));
  }

  lemma RoundSound(t: Table, e: Edges, s: set<Id>, p: set<Id>, c: Id)
    requires Sound(t, e, s, p) && Diagonal(t, s) && c in s
    ensures Sound(Round(t, c, s), e, s, p + {c})
  {
    var t1 := Round(t, c, s);
    forall i, j | i in s && j in s && (i, j) in t1
      ensures exists vs :: Witness(e, vs, i, j, p + {c}, t1[(i, j)])
    {
      RoundAt(t, c, s, (i, j));
      if Relaxes(t, c, i, j) {
        assert i != c;
        var w1 :| Witness(e, w1, i, c, p, t[(i, c)]);
        var w2 :| Witness(e, w2, c, j, p, t[(c, j)]);
        ViaMono(w1, p, p + {c});
        ViaMono(w2, p, p + {c});
        ViaAppend(w1, w2, p + {c});
        WeightAppend(e, w1, w2);
        var vs := w1 + w2[1..];
        assert vs[1] == w1[1];
        assert vs[|vs| - 1] == j;
        assert Witness(e, vs, i, j, p + {c}, t1[(i, j)]);
      } else {
        var vs :| Witness(e, vs, i, j, p, t[(i, j)]);
        ViaMono(vs, p, p + {c});
        assert Witness(e, vs, i, j, p + {c}, t1[(i, j)]);
      }
    }
  }

  lemma ViaMono(vs: seq<Id>, p: set<Id>, q: set<Id>)
    requires Via(vs, p) && p <= q
    ensures Via(vs, q)
  {
  }

  function IndexOf(s: seq<Id>, x: Id): (r: nat)
    requires x in s
    ensures r < |s| && s[r] == x
    ensures forall k :: 0 <= k < r ==> s[k] != x
  {
    if s[0] == x then 0 else 1 + IndexOf(s[1..], x)
  }

  function LastIndexOf(s: seq<Id>, x: Id): (r: nat)
    requires x in s
    ensures r < |s| && s[r] == x
    ensures forall k :: r < k < |s| ==> s[k] != x
  {
    if s[|s| - 1] == x then |s| - 1 else LastIndexOf(s[..|s| - 1], x)
  }

  lemma RoundLeast(t: Table, e: Edges, s: set<Id>, p: set<Id>, c: Id)
    requires Least(t, e, s, p) && NonNegativeEdges(e) && c in s
    ensures Least(Round(t, c, s), e, s, p + {c})
  {
    forall i, j, vs | i in s && j in s && WalkFromTo(e, vs, i, j, p + {c})
      ensures (i, j) in Round(t, c, s) && Round(t, c, s)[(i, j)].dist <= Weight(e, vs)
    {
      if exists k :: 0 < k < |vs| - 1 && vs[k] == c {
        var k :| 0 < k < |vs| - 1 && vs[k] == c;
        var a, b := SplitAround(e, vs, i, j, p, c, k);
        assert (i, c) in t && t[(i, c)].dist <= Weight(e, a);
        assert (c, j) in t && t[(c, j)].dist <= Weight(e, b);
        RoundBound(t, c, s, i, j);
      } else {
        assert WalkFromTo(e, vs, i, j, p);
        RoundMonotone(t, c, s, (i, j));
      }
    }
  }

  /**
   * A walk through `p + {c}` that passes `c` splits at the first and last
   * visit into a walk to `c` and a walk from `c`, both through `p`, whose
   * lengths add up to no more than the whole.
   */
  lemma SplitAround(e: Edges, vs: seq<Id>, i: Id, j: Id, p: set<Id>, c: Id, k: nat) returns (a: seq<Id>, b: seq<Id>)
    requires NonNegativeEdges(e) && WalkFromTo(e, vs, i, j, p + {c})
    requires 0 < k < |vs| - 1 && vs[k] == c
    ensures WalkFromTo(e, a, i, c, p) && WalkFromTo(e, b, c, j, p)
    ensures Weight(e, a) + Weight(e, b) <= Weight(e, vs)
  {
    var inner := vs[1..|vs| - 1];
    assert inner[k - 1] == c;
    var f := 1 + IndexOf(inner, c);
    var l := 1 + LastIndexOf(inner, c);
    assert inner[l - 1] == c;
    assert f <= l;
    assert vs[f] == c && vs[l] == c && l < |vs| - 1;
    a := vs[..f + 1];
    b := vs[l..];
    WeightSplitTwice(e, vs, f, l);
    WeightNonNegative(e, vs[f..l + 1]);
    forall x | 0 < x < |a| - 1
      ensures a[x] in p
    {
      assert a[x] == vs[x] == inner[x - 1];
    }
    forall x | 0 < x < |b| - 1
      ensures b[x] in p
    {
      assert b[x] == vs[l + x] == inner[l + x - 1];
    }
  }

  lemma RoundDiagonal(t: Table, s: set<Id>, c: Id)
    requires Diagonal(t, s) && NonNegativeTable(t)
    ensures Diagonal(Round(t, c, s), s)
  {
    forall x | x in s
      ensures (x, x) in Round(t, c, s) && Round(t, c, s)[(x, x)] == Entry(x, 0.0)
    {
      RoundAt(t, c, s, (x, x));
    }
  }

  lemma RoundNonNegative(t: Table, s: set<Id>, c: Id)
    requires NonNegativeTable(t)
    ensures NonNegativeTable(Round(t, c, s))
  {
    forall k | k in Round(t, c, s)
      ensures 0.0 <= Round(t, c, s)[k].dist
    {
      RoundAt(t, c, s, k);
    }
  }

  lemma RoundHops(t: Table, e: Edges, s: set<Id>, c: Id)
    requires HopsAdvance(t, e, s) && Diagonal(t, s) && c in s
    ensures HopsAdvance(Round(t, c, s), e, s)
  {
    var t1 := Round(t, c, s);
    forall i, j | i in s && j in s && (i, j) in t1 && i != j
      ensures HopStep(t1, e, s, i, j)
    {
      RoundAt(t, c, s, (i, j));
      if Relaxes(t, c, i, j) {
        assert i != c;
        assert HopStep(t, e, s, i, c);
        var h := t[(i, c)].hop;
        RoundBound(t, c, s, h, j);
      } else {
        assert HopStep(t, e, s, i, j);
        RoundMonotone(t, c, s, (t[(i, j)].hop, j));
      }
    }
  }

  /** One round keeps the invariant and admits `c` as an inner vertex. */
  lemma RoundInv(t: Table, e: Edges, s: set<Id>, p: set<Id>, c: Id)
    requires Inv(t, e, s, p) && NonNegativeEdges(e) && c in s
    ensures Inv(Round(t, c, s), e, s, p + {c})
  {
    RoundSound(t, e, s, p, c);
    RoundLeast(t, e, s, p, c);
    RoundDiagonal(t, s, c);
    RoundNonNegative(t, s, c);
    RoundHops(t, e, s, c);
  }

  // ---------------------------------------------------------------- all rounds

  lemma InitAt(e: Edges, s: set<Id>, k: (Id, Id))
    ensures k in InitTable(e, s) <==> k in e || (k.0 == k.1 && k.0 in s)
    ensures k.0 == k.1 && k.0 in s ==> InitTable(e, s)[k] == Entry(k.0, 0.0)
    ensures k in e && !(k.0 == k.1 && k.0 in s) ==> InitTable(e, s)[k] == Entry(k.1, e[k])
  {
    if k.0 == k.1 && k.0 in s {
      assert k == (k.0, k.0);
    }
  }

  /** Before any round, entries are the streets and the crossings themselves: walks without inner vertices. */
  lemma InitInv(e: Edges, s: set<Id>)
    requires NonNegativeEdges(e)
    ensures Inv(InitTable(e, s), e, s, {})
  {
    var t := InitTable(e, s);
    forall i, j | i in s && j in s && (i, j) in t
      ensures exists vs :: Witness(e, vs, i, j, {}, t[(i, j)])
    {
      InitAt(e, s, (i, j));
      if i == j {
        assert Witness(e, [i], i, j, {}, t[(i, j)]);
      } else {
        assert Witness(e, [i, j], i, j, {}, t[(i, j)]);
      }
    }
    forall i, j, vs | i in s && j in s && WalkFromTo(e, vs, i, j, {})
      ensures (i, j) in t && t[(i, j)].dist <= Weight(e, vs)
    {
      InitAt(e, s, (i, j));
      ViaSecond(vs, {});
      if |vs| == 2 {
        assert (vs[0], vs[1]) in e;
        assert Weight(e, vs) == e[(i, j)] + Weight(e, vs[1..]);
      }
    }
    forall c | c in s
      ensures (c, c) in t && t[(c, c)] == Entry(c, 0.0)
    {
      InitAt(e, s, (c, c));
    }
    forall k | k in t
      ensures 0.0 <= t[k].dist
    {
      InitAt(e, s, k);
    }
    forall i, j | i in s && j in s && (i, j) in t && i != j
      ensures HopStep(t, e, s, i, j)
    {
      InitAt(e, s, (i, j));
      InitAt(e, s, (j, j));
    }
  }

  lemma ViaSecond(vs: seq<Id>, p: set<Id>)
    requires Via(vs, p)
    ensures 2 < |vs| ==> vs[1] in p
  {
  }

  function SetOf(cs: seq<Id>): set<Id> {
    set c | c in cs
  }

  lemma SetOfSnoc(cs: seq<Id>)
    requires |cs| > 0
    ensures SetOf(cs) == SetOf(cs[..|cs| - 1]) + {cs[|cs| - 1]}
  {
    assert cs == cs[..|cs| - 1] + [cs[|cs| - 1]];
  }

  lemma {:induction false} RoundsInv(t: Table, e: Edges, s: set<Id>, cs: seq<Id>)
    requires Inv(t, e, s, {}) && NonNegativeEdges(e)
    requires forall k :: 0 <= k < |cs| ==> cs[k] in s
    ensures Inv(Rounds(t, cs, s), e, s, SetOf(cs))
    decreases |cs|
  {
    if |cs| == 0 {
      assert SetOf(cs) == {};
    } else {
      var front := cs[..|cs| - 1];
      RoundsInv(t, e, s, front);
      RoundInv(Rounds(t, front, s), e, s, SetOf(front), cs[|cs| - 1]);
      SetOfSnoc(cs);
    }
  }

  /**
   * With non-negative street lengths the result, restricted to crossings, is
   * exactly the shortest-path relation over walks through crossings: every
   * entry is the length of such a walk whose first step is the entry's hop,
   * every such walk has an entry no longer than itself, each crossing keeps
   * its own entry at 0, and every hop moves one edge toward the target.
   */
  lemma ShortestPathTreeCorrect(rule: InitRule, w: World)
    requires NonNegativeLengths(w.streets)
    ensures var e := StreetEdges(rule, w.streets);
            Inv(ShortestPathTree(rule, w), e, CrossingSet(w), CrossingSet(w))
  {
    var e := StreetEdges(rule, w.streets);
    StreetEdgesProperties(rule, w);
    InitInv(e, CrossingSet(w));
    RoundsInv(Initial(rule, w), e, CrossingSet(w), w.crossings);
    assert SetOf(w.crossings) == CrossingSet(w);
  }

  /** An entry of the tree between crossings is realised by a walk. */
  lemma TreeSound(rule: InitRule, w: World, i: Id, j: Id)
    requires NonNegativeLengths(w.streets)
    requires i in w.crossings && j in w.crossings && (i, j) in ShortestPathTree(rule, w)
    ensures exists vs :: Witness(StreetEdges(rule, w.streets), vs, i, j, CrossingSet(w), ShortestPathTree(rule, w)[(i, j)])
  {
    ShortestPathTreeCorrect(rule, w);
  }

  /** A walk between crossings has an entry in the tree no longer than itself. */
  lemma TreeLeast(rule: InitRule, w: World, vs: seq<Id>, i: Id, j: Id)
    requires NonNegativeLengths(w.streets)
    requires i in w.crossings && j in w.crossings
    requires WalkFromTo(StreetEdges(rule, w.streets), vs, i, j, CrossingSet(w))
    ensures (i, j) in ShortestPathTree(rule, w)
    ensures ShortestPathTree(rule, w)[(i, j)].dist <= Weight(StreetEdges(rule, w.streets), vs)
  {
    ShortestPathTreeCorrect(rule, w);
  }

  /** Every crossing's own entry is itself at distance 0. */
  lemma TreeDiagonal(rule: InitRule, w: World, c: Id)
    requires NonNegativeLengths(w.streets) && c in w.crossings
    ensures (c, c) in ShortestPathTree(rule, w) && ShortestPathTree(rule, w)[(c, c)] == Entry(c, 0.0)
  {
    ShortestPathTreeCorrect(rule, w);
  }

  /** Every hop of the tree advances along an edge, and no entry is negative. */
  lemma TreeHops(rule: InitRule, w: World)
    requires NonNegativeLengths(w.streets)
    ensures HopsAdvance(ShortestPathTree(rule, w), StreetEdges(rule, w.streets), CrossingSet(w))
    ensures NonNegativeTable(ShortestPathTree(rule, w))
  {
    ShortestPathTreeCorrect(rule, w);
  }

  // ---------------------------------------------------------------- the in-place loops

  /** One step of the innermost loop: relax pair (a, b) through `c` against the current table. */
  function Relax(t: Table, c: Id, a: Id, b: Id): Table {
    if Relaxes(t, c, a, b) then t[(a, b) := Through(t, c, a, b)] else t
  }

  /** Tables `x` and `y` agree on pair `k`. */
  predicate Matches(x: Table, y: Table, k: (Id, Id)) {
    (k in x <==> k in y) && (k in x ==> x[k] == y[k])
  }

  /** Pair `k` has been visited once rows `cs[..i]` and the first `j` columns of row `cs[i]` are done. */
  predicate Done(k: (Id, Id), cs: seq<Id>, i: nat, j: nat)
    requires i <= |cs| && j <= |cs|
  {
    k.0 in cs[..i] || (i < |cs| && k.0 == cs[i] && k.1 in cs[..j])
  }

  /** Visited pairs hold their value after the round, the others their value before it. */
  ghost predicate Progress(t: Table, t0: Table, r: Table, cs: seq<Id>, i: nat, j: nat)
    requires i <= |cs| && j <= |cs|
  {
    forall k :: ProgressAt(t, t0, r, cs, i, j, k)
  }

  predicate ProgressAt(t: Table, t0: Table, r: Table, cs: seq<Id>, i: nat, j: nat, k: (Id, Id))
    requires i <= |cs| && j <= |cs|
  {
    Matches(t, if Done(k, cs, i, j) then r else t0, k)
  }

  /**
   * Relaxing in place gives the same entry as relaxing against the table
   * before the round, because row `c` and column `c` stay put during round
   * `c`, and relaxing an already relaxed pair again changes nothing.
   */
  lemma ProgressStep(t: Table, t0: Table, c: Id, s: set<Id>, cs: seq<Id>, i: nat, j: nat)
    requires i < |cs| && j < |cs| && (forall x :: 0 <= x < |cs| ==> cs[x] in s) && c in s
    requires (c, c) in t0 && t0[(c, c)].dist == 0.0
    requires Progress(t, t0, Round(t0, c, s), cs, i, j)
    ensures Progress(Relax(t, c, cs[i], cs[j]), t0, Round(t0, c, s), cs, i, j + 1)
  {
    var r := Round(t0, c, s);
    var a, b := cs[i], cs[j];
    var t1 := Relax(t, c, a, b);
    RoundFixesCross(t0, c, s, a);
    RoundFixesCross(t0, c, s, b);
    assert Matches(t, t0, (a, c)) by {
      assert ProgressAt(t, t0, r, cs, i, j, (a, c));
    }
    assert Matches(t, t0, (c, b)) by {
      assert ProgressAt(t, t0, r, cs, i, j, (c, b));
    }
    RoundAt(t0, c, s, (a, b));
    assert ProgressAt(t, t0, r, cs, i, j, (a, b));
    assert Matches(t1, r, (a, b));
    var j1 := j + 1;
    forall k
      ensures ProgressAt(t1, t0, r, cs, i, j1, k)
    {
      if k != (a, b) {
        assert Done(k, cs, i, j1) == Done(k, cs, i, j) by {
          assert cs[..j + 1] == cs[..j] + [b];
        }
        assert ProgressAt(t, t0, r, cs, i, j, k);
      } else {
        assert cs[..j + 1][j] == b;
      }
    }
  }

  lemma ProgressNextRow(t: Table, t0: Table, c: Id, s: set<Id>, cs: seq<Id>, i: nat)
    requires s == SetOf(cs)
    requires i < |cs| && Progress(t, t0, Round(t0, c, s), cs, i, |cs|)
    ensures Progress(t, t0, Round(t0, c, s), cs, i + 1, 0)
  {
    var r := Round(t0, c, s);
    var i1 := i + 1;
    forall k
      ensures ProgressAt(t, t0, r, cs, i1, 0, k)
    {
      assert ProgressAt(t, t0, r, cs, i, |cs|, k);
      assert cs[..i + 1] == cs[..i] + [cs[i]];
      assert cs[..|cs|] == cs;
      if k.1 !in s {
        RoundOutside(t0, c, s, k);
      }
    }
  }

  lemma ProgressDone(t: Table, t0: Table, c: Id, s: set<Id>, cs: seq<Id>)
    requires s == SetOf(cs)
    requires Progress(t, t0, Round(t0, c, s), cs, |cs|, 0)
    ensures t == Round(t0, c, s)
  {
    var r := Round(t0, c, s);
    forall k
      ensures Matches(t, r, k)
    {
      assert ProgressAt(t, t0, r, cs, |cs|, 0, k);
      assert cs[..|cs|] == cs;
      if !Done(k, cs, |cs|, 0) {
        RoundOutside(t0, c, s, k);
      }
    }
    assert t.Keys == r.Keys by {
      assert forall k :: k in t <==> k in r by {
        forall k
          ensures k in t <==> k in r
        {
          assert Matches(t, r, k);
        }
      }
    }
    forall k | k in t
      ensures t[k] == r[k]
    {
      assert Matches(t, r, k);
    }
  }

  /**
   * One pass of the two inner loops for crossing `c`: every pair of listed
   * crossings relaxed through `c` in place. When `c`'s own entry is at 0
   * this is the round against the table as it was before the pass.
   */
  method RelaxThrough(t0: Table, c: Id, cs: seq<Id>) returns (t: Table)
    ensures c in cs && (c, c) in t0 && t0[(c, c)].dist == 0.0 ==> t == Round(t0, c, SetOf(cs))
  {
    var n := |cs|;
    ghost var s := SetOf(cs);
    ghost var ok := c in cs && (c, c) in t0 && t0[(c, c)].dist == 0.0;
    t := t0;
    var i := 0;
    while i < n
      invariant 0 <= i <= n
      invariant ok ==> Progress(t, t0, Round(t0, c, s), cs, i, 0)
    {
      var a := cs[i];
      var j := 0;
      while j < n
        invariant 0 <= j <= n
        invariant ok ==> Progress(t, t0, Round(t0, c, s), cs, i, j)
      {
        var b := cs[j];
        ghost var before := t;
        var hasEdge := (a, c) in t && (c, b) in t;
        if hasEdge && ((a, b) !in t || t[(a, b)].dist > t[(a, c)].dist + t[(c, b)].dist) {
          t := t[(a, b) := Entry(t[(a, c)].hop, t[(a, c)].dist + t[(c, b)].dist)];
        }
        if ok {
          assert t == Relax(before, c, a, b);
          ProgressStep(before, t0, c, s, cs, i, j);
        }
        j := j + 1;
      }
      if ok {
        ProgressNextRow(t, t0, c, s, cs, i);
      }
      i := i + 1;
    }
    if ok {
      ProgressDone(t, t0, c, s, cs);
    }
  }

  /** Before the pass for each listed crossing its own entry is at 0. */
  ghost predicate DiagonalBeforeEach(init: Table, cs: seq<Id>, s: set<Id>) {
    forall k :: 0 <= k < |cs| ==> DiagonalBefore(init, cs, s, k)
  }

  ghost predicate DiagonalBefore(init: Table, cs: seq<Id>, s: set<Id>, k: nat)
    requires k < |cs|
  {
    var t := Rounds(init, cs[..k], s);
    (cs[k], cs[k]) in t && t[(cs[k], cs[k])].dist == 0.0
  }

  /** With non-negative lengths every crossing's own entry stays at 0 through the rounds. */
  lemma InitialDiagonal(rule: InitRule, w: World)
    requires NonNegativeLengths(w.streets)
    ensures DiagonalBeforeEach(Initial(rule, w), w.crossings, CrossingSet(w))
  {
    var e := StreetEdges(rule, w.streets);
    var s := CrossingSet(w);
    StreetEdgesProperties(rule, w);
    InitInv(e, s);
    forall k | 0 <= k < |w.crossings|
      ensures DiagonalBefore(Initial(rule, w), w.crossings, s, k)
    {
      RoundsInv(Initial(rule, w), e, s, w.crossings[..k]);
      assert w.crossings[k] in s;
    }
  }

  /** One more pass extends the prefix of rounds by one crossing. */
  lemma RoundsStep(t: Table, cs: seq<Id>, s: set<Id>, k: nat, before: Table, after: Table)
    requires k < |cs| && before == Rounds(t, cs[..k], s) && after == Round(before, cs[k], s)
    ensures after == Rounds(t, cs[..k + 1], s)
  {
    assert cs[..k + 1][..k] == cs[..k];
  }

  /** The outer loop: one in-place pass per listed crossing. */
  method RelaxAll(init: Table, cs: seq<Id>) returns (t: Table)
    ensures DiagonalBeforeEach(init, cs, SetOf(cs)) ==> t == Rounds(init, cs, SetOf(cs))
  {
    var n := |cs|;
    ghost var s := SetOf(cs);
    ghost var ok := DiagonalBeforeEach(init, cs, s);
    t := init;
    var k := 0;
    while k < n
      invariant 0 <= k <= n
      invariant ok ==> t == Rounds(init, cs[..k], s)
    {
      ghost var t0 := t;
      if ok {
        assert DiagonalBefore(init, cs, s, k);
        assert cs[k] in cs;
      }
      t := RelaxThrough(t, cs[k], cs);
      if ok {
        RoundsStep(init, cs, s, k, t0, t);
      }
      k := k + 1;
    }
    assert cs[..n] == cs;
  }

  /**
   * `calculateShortestPathTree`: initialise, then one in-place pass per
   * listed crossing. With non-negative lengths this computes the
   * round-by-round reference, whose meaning `ShortestPathTreeCorrect`
   * states: every entry is a shortest walk through crossings, and every
   * such walk has an entry.
   */
  method CalculateShortestPathTree(rule: InitRule, w: World) returns (t: Table)
    ensures NonNegativeLengths(w.streets) ==> t == ShortestPathTree(rule, w)
  {
    assert CrossingSet(w) == SetOf(w.crossings);
    if NonNegativeLengths(w.streets) {
      InitialDiagonal(rule, w);
    }
    t := RelaxAll(Initial(rule, w), w.crossings);
  }
}

=== FILE: routing_graph.dfy ===
/**
 * The street graph the routing works on: crossings named by id, directed
 * streets with a length, the direct-edge reading of the street list, and
 * walks over those edges.
 */
module RoutingGraph {
  type Id = string

  /** A directed street from `start` to `end`; its length is a `float` in the simulator, a `real` here. */
  datatype Street = Street(start: Id, end: Id, length: real)

  datatype World = World(crossings: seq<Id>, streets: seq<Street>)

  /** The direct distance between two crossings that the shortest path tree starts from. */
  type Edges = map<(Id, Id), real>

  /** Which of several parallel streets (same start and end) gives the initial distance. */
  datatype InitRule =
    | LastStreet     // assignment in street order: the last parallel street wins
    | ShortestStreet // the shortest parallel street wins

  function Key(s: Street): (Id, Id) {
    (s.start, s.end)
  }

  /** The initial distances: one edge per (start, end) pair of the street list, in street order. */
  function StreetEdges(rule: InitRule, streets: seq<Street>): Edges {
    if |streets| == 0 then map[]
    else
      var e := StreetEdges(rule, streets[..|streets| - 1]);
      var s := streets[|streets| - 1];
      if rule == LastStreet || Key(s) !in e || e[Key(s)] > s.length then e[Key(s) := s.length] else e
  }

  /** Exactly the (start, end) pairs of the streets get an edge, and each edge has the length of one of those streets. */
  lemma {:induction false} StreetEdgesFrom(rule: InitRule, streets: seq<Street>)
    ensures KeysFrom(StreetEdges(rule, streets), streets)
    ensures LengthsFrom(StreetEdges(rule, streets), streets)
  {
    if |streets| > 0 {
      StreetEdgesFrom(rule, streets[..|streets| - 1]);
      KeysStep(rule, streets);
      LengthsStep(rule, streets);
    }
  }

  /** An edge stands for a street with its pair and its length. */
  lemma EdgeOrigin(rule: InitRule, streets: seq<Street>, k: (Id, Id))
    requires k in StreetEdges(rule, streets)
    ensures exists x :: 0 <= x < |streets| && Key(streets[x]) == k && streets[x].length == StreetEdges(rule, streets)[k]
  {
    StreetEdgesFrom(rule, streets);
  }

  /** Every street's pair has an edge. */
  lemma EdgeOfStreet(rule: InitRule, streets: seq<Street>, x: nat)
    requires x < |streets|
    ensures Key(streets[x]) in StreetEdges(rule, streets)
  {
    StreetEdgesFrom(rule, streets);
  }

  lemma KeysStep(rule: InitRule, streets: seq<Street>)
    requires |streets| > 0
    requires KeysFrom(StreetEdges(rule, streets[..|streets| - 1]), streets[..|streets| - 1])
    ensures KeysFrom(StreetEdges(rule, streets), streets)
  {
    EdgeKeysStep(rule, streets);
    KeysStepSound(rule, streets);
    var front := streets[..|streets| - 1];
    assert forall i :: 0 <= i < |front| ==> streets[i] == front[i];
    KeysStepComplete(rule, streets);
  }

  lemma KeysStepSound(rule: InitRule, streets: seq<Street>)
    requires |streets| > 0
    requires KeysFrom(StreetEdges(rule, streets[..|streets| - 1]), streets[..|streets| - 1])
    requires forall k :: k in StreetEdges(rule, streets) <==>
      k in StreetEdges(rule, streets[..|streets| - 1]) || k == Key(streets[|streets| - 1])
    ensures forall k :: k in StreetEdges(rule, streets) ==> exists i :: 0 <= i < |streets| && Key(streets[i]) == k
  {
    var front := streets[..|streets| - 1];
    var e0 := StreetEdges(rule, front);
    var e := StreetEdges(rule, streets);
    forall k | k in e
      ensures exists i :: 0 <= i < |streets| && Key(streets[i]) == k
    {
      if k == Key(streets[|streets| - 1]) {
        assert Key(streets[|streets| - 1]) == k;
      } else {
        assert k in e0;
        var i :| 0 <= i < |front| && Key(front[i]) == k;
        assert streets[i] == front[i];
      }
    }
  }

  lemma KeysStepComplete(rule: InitRule, streets: seq<Street>)
    requires |streets| > 0
    requires forall i :: 0 <= i < |streets| - 1 ==> Key(streets[i]) in StreetEdges(rule, streets[..|streets| - 1])
    requires forall k :: k in StreetEdges(rule, streets) <==>
      k in StreetEdges(rule, streets[..|streets| - 1]) || k == Key(streets[|streets| - 1])
    ensures forall i :: 0 <= i < |streets| ==> Key(streets[i]) in StreetEdges(rule, streets)
  {
    var front := streets[..|streets| - 1];
    var e0 := StreetEdges(rule, front);
    var e := StreetEdges(rule, streets);
    forall i | 0 <= i < |streets|
      ensures Key(streets[i]) in e
    {
      if i < |front| {
        assert Key(streets[i]) in e0;
      } else {
        assert i == |streets| - 1;
      }
    }
  }

  /** Adding a street adds its pair to the edge keys and nothing else. */
  lemma EdgeKeysStep(rule: InitRule, streets: seq<Street>)
    requires |streets| > 0
    ensures forall k :: k in StreetEdges(rule, streets) <==>
      k in StreetEdges(rule, streets[..|streets| - 1]) || k == Key(streets[|streets| - 1])
  {
  }

  lemma LengthsStep(rule: InitRule, streets: seq<Street>)
    requires |streets| > 0
    requires LengthsFrom(StreetEdges(rule, streets[..|streets| - 1]), streets[..|streets| - 1])
    ensures LengthsFrom(StreetEdges(rule, streets), streets)
  {
    var front := streets[..|streets| - 1];
    var e0 := StreetEdges(rule, front);
    var e := StreetEdges(rule, streets);
    var s := streets[|streets| - 1];
    var updated := rule == LastStreet || Key(s) !in e0 || e0[Key(s)] > s.length;
    assert e == if updated then e0[Key(s) := s.length] else e0;
    forall k | k in e
      ensures exists i :: 0 <= i < |streets| && Key(streets[i]) == k && streets[i].length == e[k]
    {
      if updated && k == Key(s) {
        assert Key(streets[|streets| - 1]) == k && streets[|streets| - 1].length == e[k];
      } else {
        assert e[k] == e0[k];
        var i :| 0 <= i < |front| && Key(front[i]) == k && front[i].length == e0[k];
        assert streets[i] == front[i];
      }
    }
  }

  /** The edge pairs are exactly the streets' (start, end) pairs. */
  ghost predicate KeysFrom(e: Edges, streets: seq<Street>) {
    && (forall k :: k in e ==> exists i :: 0 <= i < |streets| && Key(streets[i]) == k)
    && (forall i :: 0 <= i < |streets| ==> Key(streets[i]) in e)
  }

  /** Each edge has the length of some street with its pair. */
  predicate LengthsFrom(e: Edges, streets: seq<Street>) {
    forall k :: k in e ==> exists i :: 0 <= i < |streets| && Key(streets[i]) == k && streets[i].length == e[k]
  }

  /** With the shortest-street rule each edge is no longer than any street it stands for. */
  lemma {:induction false} StreetEdgesShortest(streets: seq<Street>)
    ensures var e := StreetEdges(ShortestStreet, streets);
            forall i :: 0 <= i < |streets| ==> Key(streets[i]) in e && e[Key(streets[i])] <= streets[i].length
  {
    if |streets| > 0 {
      var front := streets[..|streets| - 1];
      StreetEdgesShortest(front);
      assert forall i :: 0 <= i < |front| ==> streets[i] == front[i];
    }
  }

  /** With the last-street rule each edge has the length of the last street with its pair. */
  lemma {:induction false} StreetEdgesLast(streets: seq<Street>)
    ensures var e := StreetEdges(LastStreet, streets);
            forall i :: 0 <= i < |streets| && LastWithKey(streets, i) ==> Key(streets[i]) in e && e[Key(streets[i])] == streets[i].length
  {
    if |streets| > 0 {
      var front := streets[..|streets| - 1];
      StreetEdgesLast(front);
      forall i | 0 <= i < |front| && LastWithKey(streets, i)
        ensures LastWithKey(front, i)
      {
        assert forall j :: i < j < |front| ==> front[j] == streets[j];
      }
      assert forall i :: 0 <= i < |front| ==> streets[i] == front[i];
    }
  }

  /** Street `i` is the last one of the list with its (start, end) pair. */
  predicate LastWithKey(streets: seq<Street>, i: nat)
    requires i < |streets|
  {
    forall j :: i < j < |streets| ==> Key(streets[j]) != Key(streets[i])
  }

  predicate NonNegativeLengths(streets: seq<Street>) {
    forall i :: 0 <= i < |streets| ==> 0.0 <= streets[i].length
  }

  predicate PositiveLengths(streets: seq<Street>) {
    forall i :: 0 <= i < |streets| ==> 0.0 < streets[i].length
  }

  /** Every street starts and ends at a listed crossing. */
  predicate EndpointsKnown(w: World) {
    forall i :: 0 <= i < |w.streets| ==> w.streets[i].start in w.crossings && w.streets[i].end in w.crossings
  }

  predicate NonNegativeEdges(e: Edges) {
    forall k :: k in e ==> 0.0 <= e[k]
  }

  predicate PositiveEdges(e: Edges) {
    forall k :: k in e ==> 0.0 < e[k]
  }

  /** Every edge ends at a vertex of `s`. */
  predicate EdgesWithin(e: Edges, s: set<Id>) {
    forall k :: k in e ==> k.0 in s && k.1 in s
  }

  /** Conditions on the streets carry over to the edges. */
  lemma StreetEdgesProperties(rule: InitRule, w: World)
    ensures NonNegativeLengths(w.streets) ==> NonNegativeEdges(StreetEdges(rule, w.streets))
    ensures PositiveLengths(w.streets) ==> PositiveEdges(StreetEdges(rule, w.streets))
    ensures EndpointsKnown(w) ==> EdgesWithin(StreetEdges(rule, w.streets), set c | c in w.crossings)
  {
    StreetEdgesFrom(rule, w.streets);
  }

  // ---------------------------------------------------------------- walks

  /** A walk: a non-empty vertex sequence whose consecutive vertices are joined by edges. */
  predicate IsWalk(e: Edges, vs: seq<Id>) {
    && 1 <= |vs|
    && forall t :: 0 <= t < |vs| - 1 ==> (vs[t], vs[t + 1]) in e
  }

  /** The total length of a walk. */
  function Weight(e: Edges, vs: seq<Id>): real
    requires IsWalk(e, vs)
  {
    if |vs| == 1 then 0.0 else e[(vs[0], vs[1])] + Weight(e, vs[1..])
  }

  /** Every vertex strictly inside the walk lies in `p`. */
  predicate Via(vs: seq<Id>, p: set<Id>) {
    forall t :: 0 < t < |vs| - 1 ==> vs[t] in p
  }

  /** A walk from `i` to `j` whose inner vertices lie in `p`. */
  predicate WalkFromTo(e: Edges, vs: seq<Id>, i: Id, j: Id, p: set<Id>) {
    IsWalk(e, vs) && vs[0] == i && vs[|vs| - 1] == j && Via(vs, p)
  }

  lemma {:induction false} WeightNonNegative(e: Edges, vs: seq<Id>)
    requires NonNegativeEdges(e) && IsWalk(e, vs)
    ensures 0.0 <= Weight(e, vs)
    decreases |vs|
  {
    if |vs| > 1 {
      WeightNonNegative(e, vs[1..]);
    }
  }

  /** Joining two walks at a shared vertex adds their lengths. */
  lemma {:induction false} WeightAppend(e: Edges, a: seq<Id>, b: seq<Id>)
    requires IsWalk(e, a) && IsWalk(e, b) && a[|a| - 1] == b[0]
    ensures IsWalk(e, a + b[1..])
    ensures Weight(e, a + b[1..]) == Weight(e, a) + Weight(e, b)
    decreases |a|
  {
    var ab := a + b[1..];
    assert forall t :: 0 <= t < |ab| - 1 ==> (ab[t], ab[t + 1]) in e by {
      forall t | 0 <= t < |ab| - 1
        ensures (ab[t], ab[t + 1]) in e
      {
        if t < |a| - 1 {
          assert ab[t] == a[t] && ab[t + 1] == a[t + 1];
        } else {
          assert ab[t] == b[t - |a| + 1] && ab[t + 1] == b[t - |a| + 2];
        }
      }
    }
    if |a| == 1 {
      assert ab == b;
    } else {
      WeightAppend(e, a[1..], b);
      assert ab[1..] == a[1..] + b[1..];
    }
  }

  /** Cutting a walk at position `m` splits its length. */
  lemma WeightSplit(e: Edges, vs: seq<Id>, m: nat)
    requires IsWalk(e, vs) && m < |vs|
    ensures IsWalk(e, vs[..m + 1]) && IsWalk(e, vs[m..])
    ensures Weight(e, vs) == Weight(e, vs[..m + 1]) + Weight(e, vs[m..])
  {
    var a, b := vs[..m + 1], vs[m..];
    assert forall t :: 0 <= t < |a| ==> a[t] == vs[t];
    assert forall t :: 0 <= t < |b| ==> b[t] == vs[m + t];
    WeightAppend(e, a, b);
    assert a + b[1..] == vs;
  }

  /** Cutting a walk at two of its vertices. */
  lemma WeightSplitTwice(e: Edges, vs: seq<Id>, f: nat, l: nat)
    requires IsWalk(e, vs) && f <= l < |vs|
    ensures IsWalk(e, vs[..f + 1]) && IsWalk(e, vs[f..l + 1]) && IsWalk(e, vs[l..])
    ensures Weight(e, vs) == Weight(e, vs[..f + 1]) + Weight(e, vs[f..l + 1]) + Weight(e, vs[l..])
  {
    var r := vs[f..];
    WeightSplit(e, vs, f);
    WeightSplit(e, r, l - f);
    assert r[..l - f + 1] == vs[f..l + 1];
    assert r[l - f..] == vs[l..];
  }

  /** The inner vertices of a walk that joins two walks at `a`'s last vertex. */
  lemma ViaAppend(a: seq<Id>, b: seq<Id>, p: set<Id>)
    requires 1 <= |a| && 1 <= |b| && Via(a, p) && Via(b, p)
    requires |a| == 1 || |b| == 1 || a[|a| - 1] in p
    ensures Via(a + b[1..], p)
  {
    var ab := a + b[1..];
    forall t | 0 < t < |ab| - 1
      ensures ab[t] in p
    {
      if t < |a| - 1 {
        assert ab[t] == a[t];
      } else if t == |a| - 1 {
        assert ab[t] == a[|a| - 1];
      } else {
        assert ab[t] == b[t - |a| + 1];
      }
    }
  }
}

=== FILE: routing_path.dfy ===
/**
 * `retrievePath`: follow the recorded hops from `start` until `end`,
 * collecting every crossing reached (`start` itself is not pushed).
 */
module RoutingPath {
  import opened Wrappers
  import opened RoutingGraph
  import opened RoutingFW

  /** `spt[u][end]`; a missing entry reads as the empty string that `operator[]` inserts. */
  function NextHop(t: Table, u: Id, end: Id): Id {
    if (u, end) in t then t[(u, end)].hop else ""
  }

  /**
   * The `while (u != end)` loop with at most `fuel` steps; `None` when the
   * fuel runs out before `end` is reached. Each pushed crossing is the hop
   * toward `end` from the one before, and `end` appears only at the end.
   */
  function Follow(t: Table, u: Id, end: Id, fuel: nat): (r: Option<seq<Id>>)
    decreases fuel
    ensures r.Some? ==> (r.value == [] <==> u == end)
    ensures r.Some? && r.value != [] ==> r.value[0] == NextHop(t, u, end) && r.value[|r.value| - 1] == end
    ensures r.Some? ==> forall x :: 0 < x < |r.value| ==> r.value[x] == NextHop(t, r.value[x - 1], end)
    ensures r.Some? ==> forall x :: 0 <= x < |r.value| - 1 ==> r.value[x] != end
    ensures r.Some? ==> |r.value| <= fuel
  {
    if u == end then Some([])
    else if fuel == 0 then None
    else
      var v := NextHop(t, u, end);
      match Follow(t, v, end, fuel - 1)
      case None => None
      case Some(rest) => Some([v] + rest)
  }

  /** `retrievePath`: empty when there is no entry for the pair, otherwise the hops toward `end`. */
  function RetrievePath(t: Table, start: Id, end: Id, fuel: nat): (r: Option<seq<Id>>)
    ensures (start, end) !in t ==> r == Some([])
    ensures start == end ==> r == Some([])
  {
    if (start, end) !in t then Some([]) else Follow(t, start, end, fuel)
  }

  /** The crossings strictly closer to `end` than `u`. */
  function Closer(t: Table, s: set<Id>, u: Id, end: Id): set<Id>
    requires (u, end) in t
  {
    set x | x in s && (x, end) in t && t[(x, end)].dist < t[(u, end)].dist
  }

  /** With positive edges each hop gets strictly closer, so fewer crossings remain closer than it. */
  lemma {:induction false} FollowTerminates(t: Table, e: Edges, s: set<Id>, u: Id, end: Id, fuel: nat)
    requires HopsAdvance(t, e, s) && PositiveEdges(e)
    requires u in s && end in s && (u, end) in t
    requires |Closer(t, s, u, end)| < fuel
    ensures Follow(t, u, end, fuel).Some?
    decreases fuel
  {
    if u != end {
      assert HopStep(t, e, s, u, end);
      var h := t[(u, end)].hop;
      assert 0.0 < e[(u, h)];
      HopCloser(t, s, u, h, end);
      FollowTerminates(t, e, s, h, end, fuel - 1);
      assert NextHop(t, u, end) == h;
      var rest := Follow(t, h, end, fuel - 1).value;
      assert Follow(t, u, end, fuel) == Some([h] + rest);
    }
  }

  /** A crossing strictly closer to `end` has fewer crossings closer still. */
  lemma HopCloser(t: Table, s: set<Id>, u: Id, h: Id, end: Id)
    requires (u, end) in t && (h, end) in t && h in s
    requires t[(h, end)].dist < t[(u, end)].dist
    ensures |Closer(t, s, h, end)| < |Closer(t, s, u, end)|
  {
    assert Closer(t, s, h, end) <= Closer(t, s, u, end) - {h};
    assert h in Closer(t, s, u, end);
    assert |Closer(t, s, u, end) - {h}| == |Closer(t, s, u, end)| - 1;
    SubsetSize(Closer(t, s, h, end), Closer(t, s, u, end) - {h});
  }

  lemma SubsetSize(a: set<Id>, b: set<Id>)
    requires a <= b
    ensures |a| <= |b|
  {
    assert b == a + (b - a);
  }

  /** The hops walk along edges through crossings, and their length adds up to at most the entry's distance. */
  lemma {:induction false} FollowWeight(t: Table, e: Edges, s: set<Id>, u: Id, end: Id, fuel: nat, p: seq<Id>)
    requires HopsAdvance(t, e, s) && NonNegativeTable(t)
    requires u in s && end in s && (u, end) in t
    requires Follow(t, u, end, fuel) == Some(p)
    ensures IsWalk(e, [u] + p) && Via([u] + p, s)
    ensures Weight(e, [u] + p) <= t[(u, end)].dist
    decreases fuel
  {
    var vs := [u] + p;
    if u == end {
      assert vs == [u];
    } else {
      assert HopStep(t, e, s, u, end);
      var h := t[(u, end)].hop;
      var rest := p[1..];
      assert p == [h] + rest;
      FollowWeight(t, e, s, h, end, fuel - 1, rest);
      assert vs[1..] == [h] + rest;
    }
  }

  /**
   * With positive lengths the hop walk between two crossings with an entry
   * reaches `end` within as many steps as there are crossings; with
   * non-negative lengths any walk it completes is a shortest walk: the
   * crossings from `start` to `end` along streets, of total length
   * `minimumDistance[start][end]`.
   */
  lemma RetrievePathCorrect(rule: InitRule, w: World, start: Id, end: Id, fuel: nat)
    requires NonNegativeLengths(w.streets)
    requires start in w.crossings && end in w.crossings
    ensures var t := ShortestPathTree(rule, w);
            PositiveLengths(w.streets) && |CrossingSet(w)| <= fuel ==> RetrievePath(t, start, end, fuel).Some?
    ensures var t := ShortestPathTree(rule, w);
            var r := RetrievePath(t, start, end, fuel);
            (start, end) in t && r.Some? ==>
              && WalkFromTo(StreetEdges(rule, w.streets), [start] + r.value, start, end, CrossingSet(w))
              && Weight(StreetEdges(rule, w.streets), [start] + r.value) == t[(start, end)].dist
  {
    var t := ShortestPathTree(rule, w);
    if (start, end) in t {
      if PositiveLengths(w.streets) && |CrossingSet(w)| <= fuel {
        RetrieveTerminates(rule, w, start, end, fuel);
      }
      var r := RetrievePath(t, start, end, fuel);
      if r.Some? {
        RetrieveShortest(rule, w, start, end, fuel, r.value);
      }
    }
  }

  lemma RetrieveTerminates(rule: InitRule, w: World, start: Id, end: Id, fuel: nat)
    requires PositiveLengths(w.streets) && NonNegativeLengths(w.streets)
    requires start in w.crossings && end in w.crossings
    requires (start, end) in ShortestPathTree(rule, w) && |CrossingSet(w)| <= fuel
    ensures Follow(ShortestPathTree(rule, w), start, end, fuel).Some?
  {
    var t := ShortestPathTree(rule, w);
    var e := StreetEdges(rule, w.streets);
    var s := CrossingSet(w);
    TreeHops(rule, w);
    StreetEdgesProperties(rule, w);
    assert start !in Closer(t, s, start, end);
    assert Closer(t, s, start, end) <= s - {start};
    SubsetSize(Closer(t, s, start, end), s - {start});
    FollowTerminates(t, e, s, start, end, fuel);
  }

  lemma RetrieveShortest(rule: InitRule, w: World, start: Id, end: Id, fuel: nat, p: seq<Id>)
    requires NonNegativeLengths(w.streets)
    requires start in w.crossings && end in w.crossings
    requires (start, end) in ShortestPathTree(rule, w)
    requires Follow(ShortestPathTree(rule, w), start, end, fuel) == Some(p)
    ensures WalkFromTo(StreetEdges(rule, w.streets), [start] + p, start, end, CrossingSet(w))
    ensures Weight(StreetEdges(rule, w.streets), [start] + p) == ShortestPathTree(rule, w)[(start, end)].dist
  {
    var t := ShortestPathTree(rule, w);
    var e := StreetEdges(rule, w.streets);
    var s := CrossingSet(w);
    TreeHops(rule, w);
    FollowWeight(t, e, s, start, end, fuel, p);
    var vs := [start] + p;
    assert vs[|vs| - 1] == end;
    TreeLeast(rule, w, vs, start, end);
  }
}

=== FILE: routing_streets.dfy ===
/**
 * The shortest path tree read back in terms of the street list: routes are
 * sequences of streets, and the table's distances are compared with route
 * lengths under both rules for parallel streets.
 */
module RoutingStreets {
  import opened RoutingGraph
  import opened RoutingFW

  /** A route: positions in the street list, each street starting where the previous one ends. */
  predicate IsRoute(w: World, route: seq<nat>) {
    && 1 <= |route|
    && (forall x :: 0 <= x < |route| ==> route[x] < |w.streets|)
    && (forall x :: 0 <= x < |route| - 1 ==> w.streets[route[x]].end == w.streets[route[x + 1]].start)
  }

  predicate RouteFromTo(w: World, route: seq<nat>, i: Id, j: Id) {
    IsRoute(w, route) && w.streets[route[0]].start == i && w.streets[route[|route| - 1]].end == j
  }

  /** The total street length of a route. */
  function RouteLength(w: World, route: seq<nat>): real
    requires forall x :: 0 <= x < |route| ==> route[x] < |w.streets|
  {
    if |route| == 0 then 0.0 else w.streets[route[0]].length + RouteLength(w, route[1..])
  }

  /** The crossings a route passes, its start included. */
  function RouteVertices(w: World, route: seq<nat>): (vs: seq<Id>)
    requires IsRoute(w, route)
    ensures |vs| == |route| + 1
    ensures vs[0] == w.streets[route[0]].start
    ensures forall x :: 0 <= x < |route| ==> vs[x + 1] == w.streets[route[x]].end
  {
    [w.streets[route[0]].start] + seq(|route|, x requires 0 <= x < |route| => w.streets[route[x]].end)
  }

  /** Under the shortest-street rule a route's crossings form a walk no longer than the route. */
  lemma {:induction false} RouteWalk(w: World, route: seq<nat>)
    requires IsRoute(w, route)
    ensures var e := StreetEdges(ShortestStreet, w.streets);
            IsWalk(e, RouteVertices(w, route)) && Weight(e, RouteVertices(w, route)) <= RouteLength(w, route)
    decreases |route|
  {
    var e := StreetEdges(ShortestStreet, w.streets);
    var vs := RouteVertices(w, route);
    StreetEdgesShortest(w.streets);
    forall x | 0 <= x < |vs| - 1
      ensures (vs[x], vs[x + 1]) in e
    {
      if x == 0 {
        assert Key(w.streets[route[0]]) == (vs[0], vs[1]);
      } else {
        assert Key(w.streets[route[x]]) == (vs[x], vs[x + 1]);
      }
    }
    if |route| > 1 {
      var rest := route[1..];
      RouteWalk(w, rest);
      assert RouteVertices(w, rest) == vs[1..];
    }
  }

  /** Under the shortest-street rule every step of a walk is realised by a street of the same length. */
  lemma {:induction false} WalkRoute(w: World, vs: seq<Id>) returns (route: seq<nat>)
    requires 2 <= |vs| && IsWalk(StreetEdges(ShortestStreet, w.streets), vs)
    ensures RouteFromTo(w, route, vs[0], vs[|vs| - 1])
    ensures RouteLength(w, route) == Weight(StreetEdges(ShortestStreet, w.streets), vs)
    decreases |vs|
  {
    var e := StreetEdges(ShortestStreet, w.streets);
    var k := (vs[0], vs[1]);
    assert k in e;
    EdgeOrigin(ShortestStreet, w.streets, k);
    var x :| 0 <= x < |w.streets| && Key(w.streets[x]) == k && w.streets[x].length == e[k];
    if |vs| == 2 {
      route := [x];
      assert RouteLength(w, route[1..]) == 0.0;
    } else {
      var rest := WalkRoute(w, vs[1..]);
      route := [x] + rest;
      assert route[1..] == rest;
    }
  }

  /** Every vertex of a route lies on a street, hence at a listed crossing when endpoints are known. */
  lemma RouteVia(w: World, route: seq<nat>)
    requires IsRoute(w, route) && EndpointsKnown(w)
    ensures Via(RouteVertices(w, route), CrossingSet(w))
  {
    var vs := RouteVertices(w, route);
    forall x | 0 < x < |vs| - 1
      ensures vs[x] in CrossingSet(w)
    {
      assert vs[x] == w.streets[route[x - 1]].end;
    }
  }

  /**
   * With the shortest-street rule, non-negative lengths and streets between
   * listed crossings, `minimumDistance[i][j]` is the least total street
   * length from `i` to `j`: no route is shorter, and some route (or, for
   * `i == j`, no street at all) has exactly that length.
   */
  lemma ShortestStreetIsLeast(w: World, i: Id, j: Id)
    requires NonNegativeLengths(w.streets) && EndpointsKnown(w)
    requires i in w.crossings && j in w.crossings
    ensures var t := ShortestPathTree(ShortestStreet, w);
            forall route :: RouteFromTo(w, route, i, j) ==> (i, j) in t && t[(i, j)].dist <= RouteLength(w, route)
    ensures var t := ShortestPathTree(ShortestStreet, w);
            (i, j) in t && i != j ==> exists route :: RouteFromTo(w, route, i, j) && RouteLength(w, route) == t[(i, j)].dist
    ensures var t := ShortestPathTree(ShortestStreet, w);
            (i, i) in t && t[(i, i)].dist == 0.0
  {
    var t := ShortestPathTree(ShortestStreet, w);
    var e := StreetEdges(ShortestStreet, w.streets);
    var s := CrossingSet(w);
    forall route | RouteFromTo(w, route, i, j)
      ensures (i, j) in t && t[(i, j)].dist <= RouteLength(w, route)
    {
      RouteWalk(w, route);
      RouteVia(w, route);
      assert WalkFromTo(e, RouteVertices(w, route), i, j, s);
      TreeLeast(ShortestStreet, w, RouteVertices(w, route), i, j);
    }
    if (i, j) in t && i != j {
      TreeSound(ShortestStreet, w, i, j);
      var vs :| Witness(e, vs, i, j, s, t[(i, j)]);
      var route := WalkRoute(w, vs);
      assert RouteFromTo(w, route, i, j) && RouteLength(w, route) == t[(i, j)].dist;
    }
    TreeDiagonal(ShortestStreet, w, i);
  }

  /**
   * With streets between listed crossings, an entry exists for two
   * crossings exactly when one is reachable from the other.
   */
  lemma EntryIffReachable(rule: InitRule, w: World, i: Id, j: Id)
    requires NonNegativeLengths(w.streets) && EndpointsKnown(w)
    requires i in w.crossings && j in w.crossings
    ensures (i, j) in ShortestPathTree(rule, w) <==> i == j || exists route :: RouteFromTo(w, route, i, j)
  {
    if i == j {
      TreeDiagonal(rule, w, i);
    }
    if (i, j) in ShortestPathTree(rule, w) && i != j {
      EntryReachable(rule, w, i, j);
    }
    if exists route :: RouteFromTo(w, route, i, j) {
      var route :| RouteFromTo(w, route, i, j);
      ReachableEntry(rule, w, route, i, j);
    }
  }

  lemma EntryReachable(rule: InitRule, w: World, i: Id, j: Id)
    requires NonNegativeLengths(w.streets)
    requires i in w.crossings && j in w.crossings && i != j
    requires (i, j) in ShortestPathTree(rule, w)
    ensures exists route :: RouteFromTo(w, route, i, j)
  {
    var t := ShortestPathTree(rule, w);
    TreeSound(rule, w, i, j);
    var vs :| Witness(StreetEdges(rule, w.streets), vs, i, j, CrossingSet(w), t[(i, j)]);
    var route := AnyWalkRoute(rule, w, vs);
  }

  lemma ReachableEntry(rule: InitRule, w: World, route: seq<nat>, i: Id, j: Id)
    requires NonNegativeLengths(w.streets) && EndpointsKnown(w)
    requires i in w.crossings && j in w.crossings
    requires RouteFromTo(w, route, i, j)
    ensures (i, j) in ShortestPathTree(rule, w)
  {
    var vs := RouteVertices(w, route);
    RouteEdges(rule, w, route);
    RouteVia(w, route);
    TreeLeast(rule, w, vs, i, j);
  }

  /** A route's crossings form a walk over either rule's edges. */
  lemma RouteEdges(rule: InitRule, w: World, route: seq<nat>)
    requires IsRoute(w, route)
    ensures IsWalk(StreetEdges(rule, w.streets), RouteVertices(w, route))
  {
    var e := StreetEdges(rule, w.streets);
    var vs := RouteVertices(w, route);
    forall x | 0 <= x < |vs| - 1
      ensures (vs[x], vs[x + 1]) in e
    {
      EdgeOfStreet(rule, w.streets, route[x]);
      if x == 0 {
        assert Key(w.streets[route[0]]) == (vs[0], vs[1]);
      } else {
        assert Key(w.streets[route[x]]) == (vs[x], vs[x + 1]);
      }
    }
  }

  /** Every step of a walk over either rule's edges is some street. */
  lemma {:induction false} AnyWalkRoute(rule: InitRule, w: World, vs: seq<Id>) returns (route: seq<nat>)
    requires 2 <= |vs| && IsWalk(StreetEdges(rule, w.streets), vs)
    ensures RouteFromTo(w, route, vs[0], vs[|vs| - 1])
    decreases |vs|
  {
    var e := StreetEdges(rule, w.streets);
    var k := (vs[0], vs[1]);
    assert k in e;
    EdgeOrigin(rule, w.streets, k);
    var x :| 0 <= x < |w.streets| && Key(w.streets[x]) == k;
    if |vs| == 2 {
      route := [x];
    } else {
      var rest := AnyWalkRoute(rule, w, vs[1..]);
      route := [x] + rest;
    }
  }

  // ---------------------------------------------------------------- parallel streets

  /** Two crossings joined by two parallel streets, the shorter one listed first. */
  const Parallel := World(["A", "B"], [Street("A", "B", 1.0), Street("A", "B", 2.0)])

  function ParallelLength(rule: InitRule): real {
    if rule == LastStreet then 2.0 else 1.0
  }

  lemma ParallelEdges(rule: InitRule)
    ensures StreetEdges(rule, Parallel.streets) == map[("A", "B") := ParallelLength(rule)]
  {
    var ss := Parallel.streets;
    assert ss[..1] == [Street("A", "B", 1.0)];
    assert ss[..1][..0] == [];
    assert StreetEdges(rule, ss[..1]) == map[("A", "B") := 1.0];
  }

  /** In `Parallel` the only walk from A to B is the single step. */
  lemma ParallelWalks(rule: InitRule, vs: seq<Id>)
    requires WalkFromTo(StreetEdges(rule, Parallel.streets), vs, "A", "B", CrossingSet(Parallel))
    ensures vs == ["A", "B"]
  {
    var e := StreetEdges(rule, Parallel.streets);
    ParallelEdges(rule);
    assert (vs[0], vs[1]) in e;
    SecondStep(e, vs);
  }

  lemma SecondStep(e: Edges, vs: seq<Id>)
    requires IsWalk(e, vs)
    ensures 2 < |vs| ==> (vs[1], vs[2]) in e
  {
  }

  lemma ParallelResult(rule: InitRule)
    ensures ("A", "B") in ShortestPathTree(rule, Parallel)
    ensures ShortestPathTree(rule, Parallel)[("A", "B")].dist == ParallelLength(rule)
  {
    var s := CrossingSet(Parallel);
    assert "A" in s && "B" in s;
    assert NonNegativeLengths(Parallel.streets);
    var e := StreetEdges(rule, Parallel.streets);
    var t := ShortestPathTree(rule, Parallel);
    ParallelEdges(rule);
    var direct := ["A", "B"];
    assert WalkFromTo(e, direct, "A", "B", s);
    TreeLeast(rule, Parallel, direct, "A", "B");
    TreeSound(rule, Parallel, "A", "B");
    var vs :| Witness(e, vs, "A", "B", s, t[("A", "B")]);
    ParallelWalks(rule, vs);
    assert Weight(e, vs[1..]) == 0.0;
  }

  /**
   * As written, initialisation assigns the streets in order, so of two
   * parallel streets the later one sets the distance: from A to B the
   * result is 2 although a one-street route of length 1 exists. The
   * shortest-street rule gives 1.
   */
  lemma ParallelStreetsCounterexample()
    ensures ("A", "B") in ShortestPathTree(LastStreet, Parallel)
    ensures ShortestPathTree(LastStreet, Parallel)[("A", "B")].dist == 2.0
    ensures RouteFromTo(Parallel, [0], "A", "B") && RouteLength(Parallel, [0]) == 1.0
    ensures ("A", "B") in ShortestPathTree(ShortestStreet, Parallel)
    ensures ShortestPathTree(ShortestStreet, Parallel)[("A", "B")].dist == 1.0
  {
    assert RouteLength(Parallel, [0]) == 1.0 by {
      assert RouteLength(Parallel, [0][1..]) == 0.0;
    }
    ParallelResult(LastStreet);
    ParallelResult(ShortestStreet);
  }
}

=== FILE: seqs.dfy ===
/** Facts about sequences shared by several modules. */
module Seqs {
  /** A property holds of every element exactly when it holds of the first and of every later one. */
  lemma AllCons<T>(xs: seq<T>, P: T -> bool)
    requires |xs| > 0
    ensures (forall i :: 0 <= i < |xs| ==> P(xs[i])) <==> P(xs[0]) && forall i :: 0 <= i < |xs| - 1 ==> P(xs[1..][i])
  {
    if forall i :: 0 <= i < |xs| - 1 ==> P(xs[1..][i]) {
      forall i | 1 <= i < |xs| ensures P(xs[i]) {
        assert xs[i] == xs[1..][i - 1];
      }
    }
  }

  /** Putting the head back in front of the tail with `x` appended is appending `x`. */
  lemma ConsAppend<T>(xs: seq<T>, x: T)
    requires 0 < |xs|
    ensures [xs[0]] + (xs[1..] + [x]) == xs + [x]
  {
    assert xs == [xs[0]] + xs[1..];
  }
}

=== FILE: street_update.dfy ===
/**
 * The per-street traffic pass of the C++ simulator: three decision
 * predicates over a street's `traffic` (ordered by distance to the next
 * crossing) and one pass that lets each vehicle wait, drive or start an
 * overtake, then repairs the order with one adjacent swap. Floats are
 * reals; `distanceToRight` is an `int`, as the struct declares it.
 */
module StreetUpdate {

  /** `MIN_TRAFFIC_OFFSET_LENGTH`, `MIN_TRAFFIC_OFFSET_WIDTH`. */
  const MinOffsetLength: real := 1.0
  const MinOffsetWidth: real := 0.5
  /** `PRECISION`: twice the single-precision epsilon 2^-23. */
  const Precision: real := 1.0 / 4194304.0

  datatype ActorType = Bike | Car

  /** An `Actor`; `ref` stands for the pointer identity the street's vector holds. */
  datatype Actor = Actor(
    ref: nat,
    kind: ActorType,
    waiting: bool,
    dist: real,
    right: int,
    speed: real,
    length: real,
    width: real)

  datatype StreetType = OnlyBike | OnlyCar | Both

  /** A `Street`; the `opposite` pointer is not part of this model. */
  datatype Street = Street(start: int, end: int, kind: StreetType, width: real, length: real, traffic: seq<Actor>)

  // ---------------------------------------------------------------- decisions

  /** `hasArrivedAtCrossing`. */
  predicate Arrived(tr: seq<Actor>, i: nat)
    requires i < |tr|
  {
    if i == 0 then tr[i].dist <= Precision
    else tr[i - 1].waiting && tr[i - 1].dist + tr[i - 1].length + MinOffsetLength >= tr[i].dist
  }

  /** `hasEnoughSpaceForDriving`. */
  predicate EnoughSpace(tr: seq<Actor>, i: nat)
    requires i < |tr|
  {
    i == 0 || tr[i - 1].dist + tr[i - 1].length + MinOffsetLength < tr[i].dist
  }

  /** `hasSpaceForOvertake`; an actor already offset to the left never starts a second overtake. */
  predicate Overtake(tr: seq<Actor>, streetWidth: real, i: nat)
    requires i < |tr|
  {
    if i == 0 || tr[i].speed <= tr[i - 1].speed then false
    else if tr[i].right > 0 then false
    else tr[i - 1].right as real + tr[i - 1].width + tr[i].width + MinOffsetWidth < streetWidth
  }

  /**
   * Behind another vehicle, having arrived and having room to drive exclude
   * each other; the lead vehicle can always drive and never overtakes.
   */
  lemma Decisions(tr: seq<Actor>, w: real, i: nat)
    requires i < |tr|
    ensures i == 0 ==> EnoughSpace(tr, i) && !Overtake(tr, w, i)
    ensures i == 0 ==> (Arrived(tr, i) <==> tr[i].dist <= Precision)
    ensures 0 < i && EnoughSpace(tr, i) ==> !Arrived(tr, i)
    ensures 0 < i && !tr[i - 1].waiting ==> !Arrived(tr, i)
    ensures 0 < i && tr[i - 1].waiting ==> (Arrived(tr, i) <==> !EnoughSpace(tr, i))
    ensures Overtake(tr, w, i) <==>
              0 < i && tr[i].speed > tr[i - 1].speed && tr[i].right <= 0
              && tr[i - 1].right as real + tr[i - 1].width + tr[i].width + MinOffsetWidth < w
  {
  }

  // ---------------------------------------------------------------- one iteration

  /** Where the driving distance is capped: as written, or by the gap to the vehicle in front. */
  datatype DriveRule = FrontPosition | Gap

  /** `maxDistance`: the lead vehicle may drive up to the crossing. */
  function MaxDistance(rule: DriveRule, tr: seq<Actor>, i: nat): real
    requires i < |tr|
  {
    if i == 0 then tr[i].dist
    else if rule == FrontPosition then tr[i - 1].dist + tr[i - 1].length
    else tr[i].dist - (tr[i - 1].dist + tr[i - 1].length)
  }

  /** `std::min(a, b)`: `b` only when it is strictly smaller. */
  function Min(a: real, b: real): (r: real)
    ensures r <= a && r <= b && (r == a || r == b)
  {
    if b < a then b else a
  }

  /** A float converted to `int`: truncation toward zero. */
  function Trunc(x: real): (r: int)
    ensures 0.0 <= x ==> 0 <= r && r as real <= x < r as real + 1.0
    ensures x < 0.0 ==> r <= 0 && r as real - 1.0 < x <= r as real
  {
    if 0.0 <= x then x.Floor else -((-x).Floor)
  }

  /** Only the actor at `i` changed, and only in the listed way. */
  predicate OnlyAt(tr: seq<Actor>, tr': seq<Actor>, i: nat)
    requires i < |tr|
  {
    |tr'| == |tr| && forall j :: 0 <= j < |tr| && j != i ==> tr'[j] == tr[j]
  }

  /**
   * The decision chain for the actor at `i`: start waiting, drive by
   * `min(maxDistance, speed * dt)`, or take the lateral offset beside the
   * vehicle in front.
   */
  function Act(rule: DriveRule, tr: seq<Actor>, w: real, dt: real, i: nat): (r: seq<Actor>)
    requires i < |tr|
    ensures OnlyAt(tr, r, i)
    ensures r[i].ref == tr[i].ref && r[i].kind == tr[i].kind && r[i].speed == tr[i].speed
    ensures r[i].length == tr[i].length && r[i].width == tr[i].width
    ensures Arrived(tr, i) ==> r[i] == tr[i].(waiting := true)
    ensures !Arrived(tr, i) ==> r[i].waiting == tr[i].waiting
    ensures !Arrived(tr, i) && EnoughSpace(tr, i) ==>
              r[i].dist == tr[i].dist - Min(MaxDistance(rule, tr, i), tr[i].speed * dt) && r[i].right == tr[i].right
    ensures !Arrived(tr, i) && !EnoughSpace(tr, i) && Overtake(tr, w, i) ==>
              r[i].dist == tr[i].dist
              && r[i].right == Trunc(tr[i - 1].right as real + tr[i - 1].width + MinOffsetWidth)
    ensures !Arrived(tr, i) && !EnoughSpace(tr, i) && !Overtake(tr, w, i) ==> r == tr
  {
    var a := tr[i];
    if Arrived(tr, i) then tr[i := a.(waiting := true)]
    else if EnoughSpace(tr, i) then tr[i := a.(dist := a.dist - Min(MaxDistance(rule, tr, i), a.speed * dt))]
    else if Overtake(tr, w, i) then
      var front := tr[i - 1];
      tr[i := a.(right := Trunc(front.right as real + front.width + MinOffsetWidth))]
    else tr
  }

  /**
   * The ordering check at `i > 0`: a vehicle now closer to the crossing
   * than the one in front swaps places with it and the two exchange their
   * lateral offsets; otherwise a slower offset vehicle with clear road
   * ahead returns to the right.
   */
  function Order(tr: seq<Actor>, i: nat): (r: seq<Actor>)
    requires i < |tr|
    ensures |r| == |tr| && forall j :: 0 <= j < |tr| && j != i && j + 1 != i ==> r[j] == tr[j]
    ensures 0 < i ==> r[i - 1].dist <= r[i].dist
    ensures 0 < i && tr[i - 1].dist > tr[i].dist ==>
              r[i - 1] == tr[i].(right := tr[i - 1].right) && r[i] == tr[i - 1].(right := tr[i].right)
    ensures 0 < i && tr[i - 1].dist <= tr[i].dist ==>
              r[i - 1] == tr[i - 1]
              && (r[i] == tr[i] || (r[i] == tr[i].(right := 0) && tr[i].right > 0 && tr[i].speed < tr[i - 1].speed))
    ensures i == 0 ==> r == tr
  {
    if i == 0 then tr
    else
      var front, a := tr[i - 1], tr[i];
      if front.dist > a.dist then tr[i - 1 := a.(right := front.right)][i := front.(right := a.right)]
      else if a.right > 0 && a.speed < front.speed && front.dist + front.length + MinOffsetLength < a.dist then
        tr[i := a.(right := 0)]
      else tr
  }

  /** Iteration `i` of the inner loop of `updateStreets`. */
  function Step(rule: DriveRule, tr: seq<Actor>, w: real, dt: real, i: nat): (r: seq<Actor>)
    requires i < |tr|
    ensures |r| == |tr|
  {
    Order(Act(rule, tr, w, dt, i), i)
  }

  /** The first `k` iterations. */
  function Pass(rule: DriveRule, tr: seq<Actor>, w: real, dt: real, k: nat): (r: seq<Actor>)
    requires k <= |tr|
    ensures |r| == |tr|
  {
    if k == 0 then tr else Step(rule, Pass(rule, tr, w, dt, k - 1), w, dt, k - 1)
  }

  // ---------------------------------------------------------------- the same vehicles

  function Refs(tr: seq<Actor>): (r: seq<nat>)
    ensures |r| == |tr| && forall j :: 0 <= j < |tr| ==> r[j] == tr[j].ref
  {
    if |tr| == 0 then [] else Refs(tr[..|tr| - 1]) + [tr[|tr| - 1].ref]
  }

  /** The vector holds each pointer once. */
  predicate DistinctRefs(tr: seq<Actor>) {
    forall j, k :: 0 <= j < k < |tr| ==> tr[j].ref != tr[k].ref
  }

  /** What a pass may change about one vehicle: position, lateral offset, and waiting only from false to true. */
  predicate Kept(a: Actor, b: Actor) {
    && a.ref == b.ref && a.kind == b.kind && a.speed == b.speed && a.length == b.length && a.width == b.width
    && (a.waiting ==> b.waiting)
  }

  /** `after` holds the same vehicles as `before`, each changed only as `Kept` allows. */
  predicate Tracks(before: seq<Actor>, after: seq<Actor>) {
    && multiset(Refs(after)) == multiset(Refs(before))
    && forall j, k :: 0 <= j < |before| && 0 <= k < |after| && before[j].ref == after[k].ref ==> Kept(before[j], after[k])
  }

  lemma RefsUpdate(tr: seq<Actor>, i: nat, a: Actor)
    requires i < |tr|
    ensures Refs(tr[i := a]) == Refs(tr)[i := a.ref]
  {
  }

  /** Replacing one vehicle by a changed copy of itself keeps the vehicles. */
  lemma UpdateTracks(tr: seq<Actor>, i: nat, a: Actor)
    requires i < |tr| && DistinctRefs(tr) && Kept(tr[i], a)
    ensures Tracks(tr, tr[i := a]) && DistinctRefs(tr[i := a])
  {
    RefsUpdate(tr, i, a);
    assert Refs(tr)[i := a.ref] == Refs(tr);
  }

  /** Exchanging two neighbours together with their lateral offsets keeps the vehicles. */
  lemma SwapTracks(tr: seq<Actor>, i: nat)
    requires 0 < i < |tr| && DistinctRefs(tr)
    ensures var r := tr[i - 1 := tr[i].(right := tr[i - 1].right)][i := tr[i - 1].(right := tr[i].right)];
            Tracks(tr, r) && DistinctRefs(r)
  {
    var r := tr[i - 1 := tr[i].(right := tr[i - 1].right)][i := tr[i - 1].(right := tr[i].right)];
    var rs, ts := Refs(r), Refs(tr);
    assert rs == ts[i - 1 := ts[i]][i := ts[i - 1]];
    SwapMultiset(ts, i);
    forall j, k | 0 <= j < |tr| && 0 <= k < |r| && tr[j].ref == r[k].ref
      ensures Kept(tr[j], r[k])
    {
      if k == i - 1 {
        assert j == i;
      } else if k == i {
        assert j == i - 1;
      } else {
        assert j == k;
      }
    }
  }

  lemma ActTracks(rule: DriveRule, tr: seq<Actor>, w: real, dt: real, i: nat)
    requires i < |tr| && DistinctRefs(tr)
    ensures Tracks(tr, Act(rule, tr, w, dt, i)) && DistinctRefs(Act(rule, tr, w, dt, i))
  {
    var r := Act(rule, tr, w, dt, i);
    UpdateTracks(tr, i, r[i]);
    assert r == tr[i := r[i]];
  }

  lemma OrderTracks(tr: seq<Actor>, i: nat)
    requires i < |tr| && DistinctRefs(tr)
    ensures Tracks(tr, Order(tr, i)) && DistinctRefs(Order(tr, i))
  {
    if i == 0 {
      TracksRefl(tr);
    } else if tr[i - 1].dist > tr[i].dist {
      SwapTracks(tr, i);
    } else {
      var r := Order(tr, i);
      UpdateTracks(tr, i, r[i]);
      assert r == tr[i := r[i]];
    }
  }

  lemma SwapMultiset(s: seq<nat>, i: nat)
    requires 0 < i < |s|
    ensures multiset(s[i - 1 := s[i]][i := s[i - 1]]) == multiset(s)
  {
    var t := s[i - 1 := s[i]][i := s[i - 1]];
    assert s == s[..i - 1] + [s[i - 1], s[i]] + s[i + 1..];
    assert t == s[..i - 1] + [s[i], s[i - 1]] + s[i + 1..];
  }

  lemma TracksTrans(a: seq<Actor>, b: seq<Actor>, c: seq<Actor>)
    requires Tracks(a, b) && Tracks(b, c) && DistinctRefs(b)
    ensures Tracks(a, c)
  {
    forall j, k | 0 <= j < |a| && 0 <= k < |c| && a[j].ref == c[k].ref
      ensures Kept(a[j], c[k])
    {
      assert Refs(a)[j] == a[j].ref;
      assert a[j].ref in multiset(Refs(b));
      var m :| 0 <= m < |b| && Refs(b)[m] == a[j].ref;
      assert Kept(a[j], b[m]) && Kept(b[m], c[k]);
    }
  }

  lemma TracksRefl(tr: seq<Actor>)
    requires DistinctRefs(tr)
    ensures Tracks(tr, tr)
  {
  }

  /**
   * Iteration `i` keeps the vehicles, never clears `waitingAtCrossing`,
   * and leaves the pair at `i - 1`, `i` in order.
   */
  lemma StepProperties(rule: DriveRule, tr: seq<Actor>, w: real, dt: real, i: nat)
    requires i < |tr| && DistinctRefs(tr)
    ensures var r := Step(rule, tr, w, dt, i); Tracks(tr, r) && DistinctRefs(r)
    ensures var r := Step(rule, tr, w, dt, i); 0 < i ==> r[i - 1].dist <= r[i].dist
  {
    var a := Act(rule, tr, w, dt, i);
    ActTracks(rule, tr, w, dt, i);
    OrderTracks(a, i);
    TracksTrans(tr, a, Order(a, i));
  }

  /** A whole pass keeps the vehicles and never clears `waitingAtCrossing`. */
  lemma {:induction false} PassTracks(rule: DriveRule, tr: seq<Actor>, w: real, dt: real, k: nat)
    requires k <= |tr| && DistinctRefs(tr)
    ensures Tracks(tr, Pass(rule, tr, w, dt, k)) && DistinctRefs(Pass(rule, tr, w, dt, k))
  {
    if k == 0 {
      TracksRefl(tr);
    } else {
      var p := Pass(rule, tr, w, dt, k - 1);
      var q := Step(rule, p, w, dt, k - 1);
      assert q == Pass(rule, tr, w, dt, k);
      PassTracks(rule, tr, w, dt, k - 1);
      StepProperties(rule, p, w, dt, k - 1);
      TracksTrans(tr, p, q);
    }
  }

  // ---------------------------------------------------------------- the loops

  /** The inner loop of `updateStreets` over one street's traffic. */
  method UpdateStreet(rule: DriveRule, s: Street, dt: real) returns (s': Street)
    ensures s' == s.(traffic := Pass(rule, s.traffic, s.width, dt, |s.traffic|))
    ensures DistinctRefs(s.traffic) ==> Tracks(s.traffic, s'.traffic) && DistinctRefs(s'.traffic)
  {
    var tr := s.traffic;
    var i := 0;
    while i < |tr|
      invariant 0 <= i <= |tr| && |tr| == |s.traffic|
      invariant tr == Pass(rule, s.traffic, s.width, dt, i)
    {
      tr := Step(rule, tr, s.width, dt, i);
      i := i + 1;
    }
    s' := s.(traffic := tr);
    if DistinctRefs(s.traffic) {
      PassTracks(rule, s.traffic, s.width, dt, |s.traffic|);
    }
  }

  /** `updateStreets`: every street in turn; nothing but the traffic changes. */
  method UpdateStreets(rule: DriveRule, streets: seq<Street>, dt: real) returns (r: seq<Street>)
    ensures |r| == |streets|
    ensures forall q :: 0 <= q < |streets| ==>
              r[q] == streets[q].(traffic := Pass(rule, streets[q].traffic, streets[q].width, dt, |streets[q].traffic|))
  {
    r := [];
    var q := 0;
    while q < |streets|
      invariant 0 <= q <= |streets| && |r| == q
      invariant forall x :: 0 <= x < q ==>
                  r[x] == streets[x].(traffic := Pass(rule, streets[x].traffic, streets[x].width, dt, |streets[x].traffic|))
    {
      var s' := UpdateStreet(rule, streets[q], dt);
      r := r + [s'];
      q := q + 1;
    }
  }

  // ---------------------------------------------------------------- the drive cap

  /**
   * As written, a vehicle behind another may drive up to the front
   * vehicle's distance plus its length, so it can land ahead of the vehicle
   * it must not overtake: front at 50 m (5 m long), follower at 100 m
   * driving 100 m/s for one second ends at 45 m and is swapped ahead.
   */
  lemma FrontPositionPassesFront()
    ensures var front := Actor(0, Car, false, 50.0, 0, 10.0, 5.0, 2.0);
            var follower := Actor(1, Car, false, 100.0, 0, 100.0, 5.0, 2.0);
            var tr := [front, follower];
            && Act(FrontPosition, tr, 8.0, 1.0, 1)[1].dist == 45.0
            && Act(FrontPosition, tr, 8.0, 1.0, 1)[1].dist < front.dist
            && Step(FrontPosition, tr, 8.0, 1.0, 1)[0].ref == 1
  {
    var front := Actor(0, Car, false, 50.0, 0, 10.0, 5.0, 2.0);
    var follower := Actor(1, Car, false, 100.0, 0, 100.0, 5.0, 2.0);
    var tr := [front, follower];
    assert !Arrived(tr, 1) && EnoughSpace(tr, 1);
    assert MaxDistance(FrontPosition, tr, 1) == 55.0;
  }

  /**
   * Capped by the gap, a driving vehicle stops no closer than the back of
   * the vehicle in front, and the lead vehicle stops no later than the
   * crossing; so a drive never causes a swap.
   */
  lemma GapKeepsBehind(tr: seq<Actor>, w: real, dt: real, i: nat)
    requires i < |tr| && 0.0 <= tr[i].speed * dt
    requires !Arrived(tr, i) && EnoughSpace(tr, i)
    ensures var r := Act(Gap, tr, w, dt, i);
            (i == 0 ==> 0.0 <= r[i].dist) && (0 < i ==> tr[i - 1].dist + tr[i - 1].length <= r[i].dist)
    ensures 0 < i && 0.0 <= tr[i - 1].length ==> Step(Gap, tr, w, dt, i)[i].ref == tr[i].ref
  {
  }
}

=== FILE: strings.dfy ===
/**
 * Decimal rendering and parsing of integers, as the programs use them for
 * synthetic ids (`str(n)`, `strval(n)`), zero-padded file names (`{r:02d}`)
 * and numeric conversions of strings (Python `int(s)`, PHP `intval(s)`).
 */
module Strings {
  import opened Wrappers

  predicate IsDigit(c: char) {
    '0' <= c <= '9'
  }

  function DigitChar(d: nat): (c: char)
    requires d < 10
    ensures IsDigit(c)
    ensures c as int - '0' as int == d
  {
    (('0' as int) + d) as char
  }

  function DigitValue(c: char): (d: nat)
    requires IsDigit(c)
    ensures d < 10
  {
    c as int - '0' as int
  }

  /** The decimal rendering of a natural number, without leading zeros. */
  function NatToString(n: nat): (s: string)
    ensures 1 <= |s|
    ensures forall i :: 0 <= i < |s| ==> IsDigit(s[i])
    ensures |s| == 1 <==> n < 10
    ensures 1 <= n ==> s[0] != '0'
  {
    if n < 10 then [DigitChar(n)] else NatToString(n / 10) + [DigitChar(n % 10)]
  }

  /** Reading a digit string back as a number; the inverse of `NatToString`. */
  function DigitsValue(s: string): nat
    requires forall i :: 0 <= i < |s| ==> IsDigit(s[i])
  {
    if |s| == 0 then 0 else DigitsValue(s[..|s| - 1]) * 10 + DigitValue(s[|s| - 1])
  }

  lemma {:induction false} DigitsValueOfNatToString(n: nat)
    ensures DigitsValue(NatToString(n)) == n
  {
    if n >= 10 {
      var s := NatToString(n);
      assert s[..|s| - 1] == NatToString(n / 10);
      DigitsValueOfNatToString(n / 10);
    }
  }

  /** Distinct numbers have distinct renderings, so counter-based ids never clash. */
  lemma NatToStringInjective(a: nat, b: nat)
    ensures NatToString(a) == NatToString(b) ==> a == b
  {
    if NatToString(a) == NatToString(b) {
      DigitsValueOfNatToString(a);
      DigitsValueOfNatToString(b);
    }
  }

  /** Python `str(i)` / PHP `strval(i)` of an integer. */
  function IntToString(i: int): (s: string)
    ensures 1 <= |s|
    ensures i < 0 <==> s[0] == '-'
  {
    if i < 0 then "-" + NatToString(-i) else NatToString(i)
  }

  /** Python `f"{n:02d}"` for a non-negative `n`: at least two digits, zero-padded. */
  function Pad2(n: nat): (s: string)
    ensures 2 <= |s|
    ensures forall i :: 0 <= i < |s| ==> IsDigit(s[i])
  {
    if n < 10 then "0" + NatToString(n) else NatToString(n)
  }

  lemma Pad2Injective(a: nat, b: nat)
    ensures Pad2(a) == Pad2(b) ==> a == b
  {
    if Pad2(a) == Pad2(b) {
      if a < 10 && b < 10 {
        assert NatToString(a) == Pad2(a)[1..];
        assert NatToString(b) == Pad2(b)[1..];
        NatToStringInjective(a, b);
      } else if a >= 10 && b >= 10 {
        NatToStringInjective(a, b);
      }
    }
  }

  /** Python's `str.isspace`: the characters `int()` ignores around a number. */
  predicate IsSpace(c: char) {
    var n := c as int;
    n == 32 || 9 <= n <= 13 || 28 <= n <= 31 || n == 0x85 || n == 0xA0 || n == 0x1680
    || 0x2000 <= n <= 0x200A || n == 0x2028 || n == 0x2029 || n == 0x202F || n == 0x205F || n == 0x3000
  }

  function StripStart(s: string): string {
    if 0 < |s| && IsSpace(s[0]) then StripStart(s[1..]) else s
  }

  function StripEnd(s: string): string {
    if 0 < |s| && IsSpace(s[|s| - 1]) then StripEnd(s[..|s| - 1]) else s
  }

  /** `s.strip()`: without leading and trailing whitespace. */
  function Strip(s: string): string {
    StripEnd(StripStart(s))
  }

  /** Decimal digits with single underscores between them, the digit part `int()` accepts. */
  predicate Grouped(b: string) {
    && 0 < |b| && IsDigit(b[0]) && IsDigit(b[|b| - 1])
    && (forall i :: 0 <= i < |b| ==> IsDigit(b[i]) || b[i] == '_')
    && NoDoubleUnderscore(b)
  }

  predicate NoDoubleUnderscore(b: string) {
    |b| < 2 || (!(b[0] == '_' && b[1] == '_') && NoDoubleUnderscore(b[1..]))
  }

  lemma {:induction false} DigitsNoDoubleUnderscore(b: string)
    requires forall i :: 0 <= i < |b| ==> IsDigit(b[i])
    ensures NoDoubleUnderscore(b)
    decreases |b|
  {
    if 2 <= |b| {
      DigitsNoDoubleUnderscore(b[1..]);
    }
  }

  /** The digits of `b` with the underscores removed. */
  function Ungroup(b: string): (d: string)
    requires forall i :: 0 <= i < |b| ==> IsDigit(b[i]) || b[i] == '_'
    ensures forall i :: 0 <= i < |d| ==> IsDigit(d[i])
    ensures (forall i :: 0 <= i < |b| ==> IsDigit(b[i])) ==> d == b
  {
    if |b| == 0 then [] else (if b[0] == '_' then [] else [b[0]]) + Ungroup(b[1..])
  }

  /**
   * Python `int(s)` of a string: surrounding whitespace is ignored, then an
   * optional sign and decimal digits, with single underscores allowed between
   * digits; anything else is a `ValueError`, modelled as `None`.
   */
  function ParseInt(s: string): Option<int> {
    ParseStripped(Strip(s))
  }

  /** The sign and digits of a stripped string. */
  function ParseStripped(t: string): Option<int> {
    var neg := 0 < |t| && t[0] == '-';
    var body := if 0 < |t| && (t[0] == '-' || t[0] == '+') then t[1..] else t;
    if Grouped(body) then
      var v: int := DigitsValue(Ungroup(body));
      Some(if neg then -v else v)
    else
      None
  }

  lemma {:induction false} StripStartSkips(pre: string, x: string)
    requires forall i :: 0 <= i < |pre| ==> IsSpace(pre[i])
    requires 0 < |x| && !IsSpace(x[0])
    ensures StripStart(pre + x) == x
    decreases |pre|
  {
    if pre == [] {
      assert pre + x == x;
    } else {
      assert (pre + x)[1..] == pre[1..] + x;
      StripStartSkips(pre[1..], x);
    }
  }

  lemma {:induction false} StripEndSkips(x: string, post: string)
    requires forall i :: 0 <= i < |post| ==> IsSpace(post[i])
    requires 0 < |x| && !IsSpace(x[|x| - 1])
    ensures StripEnd(x + post) == x
    decreases |post|
  {
    if post == [] {
      assert x + post == x;
    } else {
      var post' := post[..|post| - 1];
      assert (x + post)[..|x + post| - 1] == x + post';
      StripEndSkips(x, post');
    }
  }

  /** A string with no whitespace at either end is its own strip. */
  lemma StripUnchanged(s: string)
    requires 0 < |s| && !IsSpace(s[0]) && !IsSpace(s[|s| - 1])
    ensures Strip(s) == s
  {
    StripStartSkips([], s);
    assert [] + s == s;
    StripEndSkips(s, []);
    assert s + [] == s;
  }

  /** `int()` reads a number the same with any whitespace around it: `int(" 50 ")` is `int("50")`. */
  lemma ParseIntIgnoresSpace(pre: string, s: string, post: string)
    requires forall i :: 0 <= i < |pre| ==> IsSpace(pre[i])
    requires forall i :: 0 <= i < |post| ==> IsSpace(post[i])
    requires 0 < |s| && !IsSpace(s[0]) && !IsSpace(s[|s| - 1])
    ensures ParseInt(pre + s + post) == ParseInt(s)
  {
    assert pre + s + post == pre + (s + post);
    StripStartSkips(pre, s + post);
    StripEndSkips(s, post);
    StripUnchanged(s);
  }

  /** A digit string is read as its decimal value `v`. */
  lemma ParseStrippedUnsigned(n: string, v: nat)
    requires 0 < |n| && AllDigits(n) && DigitsValue(n) == v
    ensures ParseStripped(n) == Some(v as int)
  {
    assert IsDigit(n[0]);
    DigitsNoDoubleUnderscore(n);
    assert Grouped(n);
    assert Ungroup(n) == n;
  }

  /** A minus sign before a digit string of value `v` reads as `-v`. */
  lemma ParseStrippedNegative(n: string, v: nat)
    requires 0 < |n| && AllDigits(n) && DigitsValue(n) == v
    ensures ParseStripped("-" + n) == Some(-(v as int))
  {
    var t := "-" + n;
    assert t[0] == '-' && t[1..] == n;
    DigitsNoDoubleUnderscore(n);
    assert Grouped(n);
    assert Ungroup(n) == n;
    ParseStrippedMinus(t, n, -(v as int));
  }

  /** A minus sign before a grouped number negates the value of its digits. */
  lemma ParseStrippedMinus(t: string, body: string, r: int)
    requires 0 < |t| && t[0] == '-' && t[1..] == body && Grouped(body)
    requires r == -(DigitsValue(Ungroup(body)) as int)
    ensures ParseStripped(t) == Some(r)
  {
  }

  /** `int(d)` of a digit string `d` is its decimal value `v`. */
  lemma ParseIntOfDigits(d: string, v: nat)
    requires 0 < |d| && AllDigits(d) && DigitsValue(d) == v
    ensures ParseInt(d) == Some(v as int)
  {
    StripUnchanged(d);
    ParseIntStripped(d);
    ParseStrippedUnsigned(d, v);
  }

  /** `int("-" + d)` of a digit string `d` of decimal value `v` is `-v`. */
  lemma ParseIntOfNegative(d: string, v: nat)
    requires 0 < |d| && AllDigits(d) && DigitsValue(d) == v
    ensures ParseInt("-" + d) == Some(-(v as int))
  {
    var s := "-" + d;
    assert s[0] == '-' && s[|s| - 1] == d[|d| - 1];
    StripUnchanged(s);
    ParseIntStripped(s);
    ParseStrippedNegative(d, v);
  }

  /** A string that is the digit string `d` reads as its value. */
  lemma ParseIntRenderedPlain(s: string, d: string, v: nat, r: int)
    requires 0 < |d| && AllDigits(d) && DigitsValue(d) == v
    requires s == d && r == v
    ensures ParseInt(s) == Some(r)
  {
    ParseIntOfDigits(d, v);
  }

  /** A string that is a minus sign and the digit string `d` reads as minus its value. */
  lemma ParseIntRenderedNegative(s: string, d: string, v: nat, r: int)
    requires 0 < |d| && AllDigits(d) && DigitsValue(d) == v
    requires s == "-" + d && r == -(v as int)
    ensures ParseInt(s) == Some(r)
  {
    ParseIntOfNegative(d, v);
  }

  /** `int(str(i)) == i`. */
  lemma ParseIntOfIntToString(i: int)
    ensures ParseInt(IntToString(i)) == Some(i)
  {
    if i < 0 {
      DigitsValueOfNatToString(-i);
      ParseIntRenderedNegative(IntToString(i), NatToString(-i), -i, i);
    } else {
      DigitsValueOfNatToString(i);
      ParseIntRenderedPlain(IntToString(i), NatToString(i), i, i);
    }
  }

  predicate AllDigits(s: string) {
    forall i :: 0 <= i < |s| ==> IsDigit(s[i])
  }

  lemma {:induction false} UngroupSkips(a: string, b: string)
    requires AllDigits(a) && AllDigits(b)
    ensures Ungroup(a + "_" + b) == a + b
    decreases |a|
  {
    if a == [] {
      assert a + "_" + b == "_" + b;
      assert ("_" + b)[1..] == b;
    } else {
      assert (a + "_" + b)[1..] == a[1..] + "_" + b;
      UngroupSkips(a[1..], b);
      assert [a[0]] + (a[1..] + b) == a + b;
    }
  }

  lemma {:induction false} NoDoubleJoin(a: string, b: string)
    requires AllDigits(a) && AllDigits(b) && 0 < |b|
    ensures NoDoubleUnderscore(a + "_" + b)
    decreases |a|
  {
    if a == [] {
      assert a + "_" + b == "_" + b;
      assert ("_" + b)[1..] == b;
      DigitsNoDoubleUnderscore(b);
    } else {
      assert (a + "_" + b)[1..] == a[1..] + "_" + b;
      NoDoubleJoin(a[1..], b);
    }
  }

  lemma {:induction false} DoubleUnderscoreFound(a: string, b: string)
    ensures !NoDoubleUnderscore(a + "__" + b)
    decreases |a|
  {
    if a == [] {
      assert a + "__" + b == "__" + b;
    } else {
      assert (a + "__" + b)[1..] == a[1..] + "__" + b;
      DoubleUnderscoreFound(a[1..], b);
    }
  }

  /** A grouped number reads as the digits it has once the underscores are dropped. */
  lemma ParseIntUngrouped(t: string, d: string)
    requires Strip(t) == t && Grouped(t) && Ungroup(t) == d
    ensures ParseInt(t) == Some(DigitsValue(d))
  {
    ParseIntStripped(t);
    ParseStrippedGrouped(t);
  }

  lemma ParseIntStripped(t: string)
    requires Strip(t) == t
    ensures ParseInt(t) == ParseStripped(t)
  {
  }

  lemma ParseStrippedGrouped(t: string)
    requires Grouped(t)
    ensures ParseStripped(t) == Some(DigitsValue(Ungroup(t)))
  {
  }

  /** A single underscore between digit groups is skipped: `int("1_000")` is 1000. */
  lemma ParseIntSkipsUnderscore(a: string, b: string)
    requires 0 < |a| && 0 < |b| && AllDigits(a) && AllDigits(b)
    ensures ParseInt(a + "_" + b) == Some(DigitsValue(a + b))
  {
    var t := a + "_" + b;
    assert t[0] == a[0] && t[|t| - 1] == b[|b| - 1];
    StripUnchanged(t);
    NoDoubleJoin(a, b);
    UngroupSkips(a, b);
    assert Grouped(t);
    ParseIntUngrouped(t, a + b);
  }

  /** Two underscores in a row are a `ValueError`: `int("1__000")` fails. */
  lemma ParseIntRejectsDoubleUnderscore(a: string, b: string)
    requires 0 < |a| && 0 < |b| && AllDigits(a) && AllDigits(b)
    ensures ParseInt(a + "__" + b) == None
  {
    var t := a + "__" + b;
    assert t[0] == a[0] && t[|t| - 1] == b[|b| - 1];
    StripUnchanged(t);
    DoubleUnderscoreFound(a, b);
  }

  /** The longest prefix of `s` made of decimal digits. */
  function LeadingDigits(s: string): (d: string)
    ensures |d| <= |s| && d == s[..|d|]
    ensures forall i :: 0 <= i < |d| ==> IsDigit(s[i])
    ensures |d| < |s| ==> !IsDigit(s[|d|])
  {
    if 0 < |s| && IsDigit(s[0]) then [s[0]] + LeadingDigits(s[1..]) else []
  }

  /** The blanks PHP skips before a numeric string: space, tab, newline, carriage return, vertical tab, form feed. */
  predicate IsBlank(c: char) {
    c == ' ' || c as int == 9 || c as int == 10 || c as int == 11 || c as int == 12 || c as int == 13
  }

  function SkipBlanks(s: string): string {
    if 0 < |s| && IsBlank(s[0]) then SkipBlanks(s[1..]) else s
  }

  /**
   * PHP `intval(s)` of a string: leading blanks are skipped, then an optional
   * sign and the longest run of digits are read; without digits the value is 0.
   */
  function IntVal(s: string): int {
    SignedPrefix(SkipBlanks(s))
  }

  /** The optional sign and leading digits of a string that starts past the blanks. */
  function SignedPrefix(t: string): int {
    var neg := 0 < |t| && t[0] == '-';
    var body := if 0 < |t| && (t[0] == '-' || t[0] == '+') then t[1..] else t;
    var v: int := DigitsValue(LeadingDigits(body));
    if neg then -v else v
  }

  lemma {:induction false} LeadingDigitsOfDigits(s: string)
    requires forall i :: 0 <= i < |s| ==> IsDigit(s[i])
    ensures LeadingDigits(s) == s
    decreases |s|
  {
    if 0 < |s| {
      LeadingDigitsOfDigits(s[1..]);
      assert [s[0]] + s[1..] == s;
    }
  }

  /** `intval(d)` of a digit string `d` is its decimal value `v`. */
  lemma IntValOfDigits(d: string, v: nat)
    requires 0 < |d| && AllDigits(d) && DigitsValue(d) == v
    ensures IntVal(d) == v
  {
    assert IsDigit(d[0]) && SkipBlanks(d) == d;
    LeadingDigitsOfDigits(d);
  }

  /** `intval("-" + d)` of a digit string `d` of decimal value `v` is `-v`. */
  lemma IntValOfNegative(d: string, v: nat)
    requires 0 < |d| && AllDigits(d) && DigitsValue(d) == v
    ensures IntVal("-" + d) == -(v as int)
  {
    var s := "-" + d;
    assert s[0] == '-' && s[1..] == d;
    assert SkipBlanks(s) == s;
    LeadingDigitsOfDigits(d);
  }

  /** A string that is the digit string `d` reads as its value. */
  lemma IntValRenderedPlain(s: string, d: string, v: nat, r: int)
    requires 0 < |d| && AllDigits(d) && DigitsValue(d) == v
    requires s == d && r == v
    ensures IntVal(s) == r
  {
    IntValOfDigits(d, v);
  }

  /** A string that is a minus sign and the digit string `d` reads as minus its value. */
  lemma IntValRenderedNegative(s: string, d: string, v: nat, r: int)
    requires 0 < |d| && AllDigits(d) && DigitsValue(d) == v
    requires s == "-" + d && r == -(v as int)
    ensures IntVal(s) == r
  {
    IntValOfNegative(d, v);
  }

  /** `intval(strval(i)) == i`. */
  lemma IntValOfIntToString(i: int)
    ensures IntVal(IntToString(i)) == i
  {
    if i < 0 {
      DigitsValueOfNatToString(-i);
      IntValRenderedNegative(IntToString(i), NatToString(-i), -i, i);
    } else {
      DigitsValueOfNatToString(i);
      IntValRenderedPlain(IntToString(i), NatToString(i), i, i);
    }
  }
}

=== FILE: wrappers.dfy ===
/** Failure-compatible result types shared by every module of the model. */
module Wrappers {

  /** An optional value: `None` stands for a missing entry or an absent result. */
  datatype Option<+T> = None | Some(value: T)

  /** Either a value or the error the modelled program raises instead of returning one. */
  datatype Result<+T, +E> = Ok(value: T) | Err(error: E) {

    predicate IsFailure() {
      Err?
    }

    function PropagateFailure<U>(): Result<U, E>
      requires Err?
    {
      Err(error)
    }

    function Extract(): T
      requires Ok?
    {
      value
    }
  }
}

=== FILE: zone_agents.dfy ===
/**
 * The zone-based car generator of the parsing stage: a day of car agents,
 * hour by hour and minute by minute, whose start and end intersections are
 * drawn from an inner zone around the map's centre and the outer rest.
 * PHP's `rand` is a stream of raw generator values and the haversine
 * distance is a parameter.
 */
module ZoneAgents {
  import opened Wrappers
  import Strings
  import Php
  import Draws

  /** A distance in metres between two (lon, lat) points. */
  type Distance = (real, real, real, real) -> real

  /** A raw PHP generator value per draw. */
  type Stream = nat -> nat

  // ---------------------------------------------------------------- the zone

  /** The map's centre and the radius of the inner zone, a third of the shorter half-side. */
  datatype Zone = Zone(lon: real, lat: real, radius: int)

  function MakeZone(lon1: real, lon2: real, lat1: real, lat2: real, dist: Distance): (z: Zone)
    ensures z.lon == (lon1 + lon2) / 2.0 && z.lat == (lat1 + lat2) / 2.0
    ensures var a, b := dist(z.lon, z.lat, lon1, z.lat), dist(z.lon, z.lat, z.lon, lat1);
            z.radius == Php.Round((if a <= b then a else b) / 3.0)
  {
    var lon, lat := (lon1 + lon2) / 2.0, (lat1 + lat2) / 2.0;
    var a, b := dist(lon, lat, lon1, lat), dist(lon, lat, lon, lat1);
    Zone(lon, lat, Php.Round((if a <= b then a else b) / 3.0))
  }

  /** An intersection of the map export: its id and coordinates. */
  datatype Intersection = Intersection(id: string, lon: real, lat: real)

  predicate Outside(z: Zone, x: Intersection, dist: Distance) {
    dist(x.lon, x.lat, z.lon, z.lat) > z.radius as real
  }

  /** The partition step of `readData`, in the export's order: first the inner, then the outer intersections. */
  function Partition(z: Zone, xs: seq<Intersection>, dist: Distance): (p: (seq<Intersection>, seq<Intersection>))
    ensures multiset(p.0) + multiset(p.1) == multiset(xs)
    ensures forall x :: x in p.0 ==> x in xs && !Outside(z, x, dist)
    ensures forall x :: x in p.1 ==> x in xs && Outside(z, x, dist)
  {
    if xs == [] then ([], [])
    else
      var rest := Partition(z, xs[..|xs| - 1], dist);
      var x := xs[|xs| - 1];
      assert xs == xs[..|xs| - 1] + [x];
      if Outside(z, x, dist) then (rest.0, rest.1 + [x]) else (rest.0 + [x], rest.1)
  }

  /** An intersection lands in exactly one part: as often as it occurs in the export. */
  lemma PartitionExact(z: Zone, xs: seq<Intersection>, dist: Distance, x: Intersection)
    ensures var p := Partition(z, xs, dist);
            (Outside(z, x, dist) ==> multiset(p.1)[x] == multiset(xs)[x] && x !in p.0)
            && (!Outside(z, x, dist) ==> multiset(p.0)[x] == multiset(xs)[x] && x !in p.1)
  {
  }

  function Ids(xs: seq<Intersection>): (r: seq<string>)
    ensures |r| == |xs| && forall i :: 0 <= i < |xs| ==> r[i] == xs[i].id
  {
    if xs == [] then [] else Ids(xs[..|xs| - 1]) + [xs[|xs| - 1].id]
  }

  /** The node pools: ids of the intersections inside the zone and outside it. */
  datatype Pools = Pools(nodesIn: seq<string>, nodesOut: seq<string>)

  function ReadPools(z: Zone, xs: seq<Intersection>, dist: Distance): (p: Pools)
    ensures |p.nodesIn| + |p.nodesOut| == |xs|
  {
    var parts := Partition(z, xs, dist);
    assert |multiset(parts.0) + multiset(parts.1)| == |xs|;
    Pools(Ids(parts.0), Ids(parts.1))
  }

  // ---------------------------------------------------------------- cars per hour

  /** The share of the peak amount spawned in each hour of the day. */
  const HourFractions: seq<real> :=
    [0.05, 0.05, 0.06, 0.75, 0.1, 0.25, 0.4, 0.65, 0.55, 0.45, 0.4, 0.5,
     0.5, 0.4, 0.4, 0.55, 0.8, 1.0, 0.8, 0.5, 0.3, 0.1, 0.075, 0.05]

  /** The share of each hour's cars that head into the centre. */
  const Direction: seq<real> :=
    [0.5, 0.5, 0.5, 0.5, 0.55, 0.65, 0.75, 0.85, 0.8, 0.75, 0.65, 0.5,
     0.5, 0.5, 0.5, 0.35, 0.3, 0.2, 0.2, 0.25, 0.35, 0.5, 0.5, 0.5]

  /** One new car per 3000 m² of the map's area at the peak hour. */
  function MaxCarAmount(lon1: real, lon2: real, lat1: real, lat2: real, dist: Distance): real {
    Php.Round(dist(lon1, lat1, lon2, lat1) * dist(lon1, lat1, lon1, lat2)) as real / 3000.0
  }

  /** The cars of hour `h`: its share of the peak amount, rounded; never more than the peak's. */
  function HourAmount(h: nat, maxCars: real): (n: int)
    requires h < 24
    ensures 0.0 <= maxCars ==> 0 <= n <= Php.Round(maxCars)
  {
    FractionsAtMostOne();
    HourAtMostPeak(HourFractions[h], maxCars);
    Php.Round(HourFractions[h] * maxCars)
  }

  /** `calculateCarDistribution`: the number of cars for each of the 24 hours. */
  function CarDistribution(maxCars: real): (r: seq<int>)
    ensures |r| == 24
    ensures forall h :: 0 <= h < 24 ==> r[h] == HourAmount(h, maxCars)
  {
    seq(24, h requires 0 <= h < 24 => HourAmount(h, maxCars))
  }

  lemma FractionsAtMostOne()
    ensures |HourFractions| == 24 && forall h :: 0 <= h < 24 ==> 0.0 <= HourFractions[h] <= 1.0
  {
  }

  lemma ScaleAtMost(f: real, m: real, y: real)
    requires 0.0 <= f <= 1.0 && 0.0 <= m && y == f * m
    ensures 0.0 <= y <= m
  {
    Draws.MulNonneg(f, m);
    Draws.MulNonneg(1.0 - f, m);
    assert (1.0 - f) * m == m - y;
  }

  lemma HourAtMostPeak(f: real, maxCars: real)
    ensures 0.0 <= f <= 1.0 && 0.0 <= maxCars ==> 0 <= Php.Round(f * maxCars) <= Php.Round(maxCars)
  {
    if 0.0 <= f <= 1.0 && 0.0 <= maxCars {
      var x := f * maxCars;
      ScaleAtMost(f, maxCars, x);
      Php.RoundMonotone(x, maxCars);
    }
  }

  /** Hour 17 carries the peak: no hour gets more cars, and none gets a negative amount. */
  lemma PeakHour(maxCars: real)
    requires 0.0 <= maxCars
    ensures var r := CarDistribution(maxCars);
            r[17] == Php.Round(maxCars) && forall h :: 0 <= h < 24 ==> 0 <= r[h] <= r[17]
  {
    var r := CarDistribution(maxCars);
    assert HourFractions[17] == 1.0;
    assert r[17] == Php.Round(1.0 * maxCars);
  }

  /** `max(round(amount / 60), 1)`: cars spawned per minute, at least one. */
  function PerMinute(amount: int): (k: int)
    ensures 1 <= k
  {
    Php.AtLeastOne(amount as real / 60.0)
  }

  // ---------------------------------------------------------------- routes

  datatype Route = OutIn | InIn | InOut | OutOut

  function Rank(r: Route): nat {
    match r
    case OutIn => 0
    case InIn => 1
    case InOut => 2
    case OutOut => 3
  }

  /**
   * `directionAmount`: how far into the hour out→in, in→in and in→out cars
   * run. For a share between 0 and 1 and a non-negative amount the three
   * are ordered and within the hour's amount.
   */
  function Thresholds(d: real, amount: int): (t: seq<int>)
    ensures |t| == 3
    ensures 0.0 <= d <= 1.0 && 0 <= amount ==> 0 <= t[0] <= t[1] <= t[2] <= amount
  {
    var a := amount as real;
    var da := d * a;
    var third := a - a * (1.0 - d) * 0.25;
    ThresholdsOrdered(d, amount, da, third);
    [Php.Round(da * 0.75), Php.Round(da), Php.Round(third)]
  }

  lemma ThresholdsOrdered(d: real, amount: int, da: real, third: real)
    requires da == d * amount as real && third == amount as real - amount as real * (1.0 - d) * 0.25
    ensures 0.0 <= d <= 1.0 && 0 <= amount ==>
      0 <= Php.Round(da * 0.75) <= Php.Round(da) <= Php.Round(third) <= amount
  {
    if 0.0 <= d <= 1.0 && 0 <= amount {
      ThirdThreshold(d, amount as real, da, third);
      LowThresholds(da);
      HighThresholds(da, third, amount);
    }
  }

  lemma LowThresholds(x: real)
    requires 0.0 <= x
    ensures 0 <= Php.Round(x * 0.75) <= Php.Round(x)
  {
    Php.RoundMonotone(x * 0.75, x);
  }

  lemma HighThresholds(x: real, y: real, a: int)
    requires x <= y <= a as real
    ensures Php.Round(x) <= Php.Round(y) <= a
  {
    Php.RoundMonotone(x, y);
    Php.RoundMonotone(y, a as real);
    Php.RoundOfInt(a);
  }

  lemma ThirdThreshold(d: real, a: real, da: real, third: real)
    requires 0.0 <= d <= 1.0 && 0.0 <= a && da == d * a && third == a - a * (1.0 - d) * 0.25
    ensures 0.0 <= da <= third <= a
  {
    ScaleAtMost(d, a, da);
    assert a * (1.0 - d) == a - da;
  }

  /** The route of the hour's `tot`-th car: the first threshold it is still below. */
  function RouteOf(tot: nat, t: seq<int>): Route
    requires |t| == 3
  {
    if tot < t[0] then OutIn else if tot < t[1] then InIn else if tot < t[2] then InOut else OutOut
  }

  /** Later cars of an hour never take an earlier route kind. */
  lemma RoutesInOrder(a: nat, b: nat, t: seq<int>)
    requires |t| == 3 && a <= b
    ensures Rank(RouteOf(a, t)) <= Rank(RouteOf(b, t))
  {
  }

  /** With ordered thresholds, each route kind takes exactly its band of the hour. */
  lemma RouteBands(tot: nat, t: seq<int>)
    requires |t| == 3 && t[0] <= t[1] <= t[2]
    ensures RouteOf(tot, t) == OutIn <==> tot < t[0]
    ensures RouteOf(tot, t) == InIn <==> t[0] <= tot < t[1]
    ensures RouteOf(tot, t) == InOut <==> t[1] <= tot < t[2]
    ensures RouteOf(tot, t) == OutOut <==> t[2] <= tot
  {
  }

  // ---------------------------------------------------------------- drawing a car

  /** `$pool[i]`: a missing index reads as null, which `strval` renders as "". */
  function NodeAt(pool: seq<string>, i: int): string {
    if 0 <= i < |pool| then pool[i] else ""
  }

  /** `$pool[rand(0, count($pool) - 1)]`. */
  function Pick(pool: seq<string>, raw: Stream, pos: nat): (id: string)
    ensures 1 <= |pool| ==> id in pool
    ensures pool == [] ==> id == ""
  {
    NodeAt(pool, Php.Rand(0, |pool| - 1, raw(pos)))
  }

  /**
   * The retry loop of the in→in and out→out routes: two ids are drawn until
   * they differ. The loop of the source has no bound; `fuel` is the number
   * of attempts modelled, and `None` means it did not exit within them.
   */
  function DistinctPair(pool: seq<string>, raw: Stream, pos: nat, fuel: nat): (r: Option<(string, string, nat)>)
    ensures r.Some? ==> r.value.0 != r.value.1 && r.value.0 in pool && r.value.1 in pool
    ensures r.Some? ==> pos + 2 <= r.value.2
    decreases fuel
  {
    if fuel == 0 then None
    else
      var s, e := Pick(pool, raw, pos), Pick(pool, raw, pos + 1);
      if s == e then DistinctPair(pool, raw, pos + 2, fuel - 1) else Some((s, e, pos + 2))
  }

  /** A pool without two different ids never lets the loop exit, however many attempts are made. */
  lemma {:induction false} NoDistinctNeverExits(pool: seq<string>, raw: Stream, pos: nat, fuel: nat)
    requires forall i, j :: 0 <= i < |pool| && 0 <= j < |pool| ==> pool[i] == pool[j]
    ensures DistinctPair(pool, raw, pos, fuel) == None
    decreases fuel
  {
    if fuel > 0 {
      var s, e := Pick(pool, raw, pos), Pick(pool, raw, pos + 1);
      if pool != [] {
        var i, j :| 0 <= i < |pool| && 0 <= j < |pool| && pool[i] == s && pool[j] == e;
      }
      assert s == e;
      NoDistinctNeverExits(pool, raw, pos + 2, fuel - 1);
    }
  }

  /** With two different ids in the pool, draws that hit them end the loop at its first attempt. */
  lemma DistinctExits(pool: seq<string>, raw: Stream, pos: nat, fuel: nat, i: nat, j: nat)
    requires i < |pool| && j < |pool| && pool[i] != pool[j] && 1 <= fuel
    requires raw(pos) == i && raw(pos + 1) == j
    ensures DistinctPair(pool, raw, pos, fuel) == Some((pool[i], pool[j], pos + 2))
  {
    Php.RandCovers(0, |pool| - 1, i);
    Php.RandCovers(0, |pool| - 1, j);
  }

  datatype Car = Car(startId: string, endId: string, length: real, maxVelocity: int,
                     acceleration: real, deceleration: real, accelerationExponent: real, waitingPeriod: nat)

  /** The kinematic ranges the five draws produce. */
  predicate Kinematics(c: Car) {
    && (c.length == 3.5 || c.length == 4.0 || c.length == 4.5 || c.length == 5.0)
    && 100 <= c.maxVelocity <= 250
    && 1.5 <= c.acceleration <= 5.0
    && 2.0 <= c.deceleration <= 6.0
    && 8.0 <= c.accelerationExponent <= 12.0
  }

  /** The ends a car of a route gets: from the route's pools, and different for in→in and out→out. */
  predicate Fits(p: Pools, route: Route, c: Car) {
    match route
    case OutIn => (p.nodesOut != [] ==> c.startId in p.nodesOut) && (p.nodesIn != [] ==> c.endId in p.nodesIn)
    case InIn => c.startId != c.endId && c.startId in p.nodesIn && c.endId in p.nodesIn
    case InOut => (p.nodesIn != [] ==> c.startId in p.nodesIn) && (p.nodesOut != [] ==> c.endId in p.nodesOut)
    case OutOut => c.startId != c.endId && c.startId in p.nodesOut && c.endId in p.nodesOut
  }

  /** One car of the inner loop: five kinematic draws, then its ends; the next stream position comes back. */
  function MakeCar(p: Pools, route: Route, raw: Stream, pos: nat, waiting: nat, fuel: nat): (r: Option<(Car, nat)>)
    ensures r.Some? ==> Kinematics(r.value.0) && Fits(p, route, r.value.0) && r.value.0.waitingPeriod == waiting
    ensures r.Some? ==> pos + 7 <= r.value.1
    ensures r.None? ==> route == InIn || route == OutOut
  {
    var length := Php.Rand(7, 10, raw(pos)) as real / 2.0;
    var maxVelocity := Php.Rand(100, 250, raw(pos + 1));
    var acceleration := Php.Rand(150, 500, raw(pos + 2)) as real / 100.0;
    var deceleration := Php.Rand(200, 600, raw(pos + 3)) as real / 100.0;
    var exponent := Php.Rand(80, 120, raw(pos + 4)) as real / 10.0;
    var ids: Option<(string, string, nat)> :=
      match route
      case OutIn => Some((Pick(p.nodesOut, raw, pos + 5), Pick(p.nodesIn, raw, pos + 6), pos + 7))
      case InIn => DistinctPair(p.nodesIn, raw, pos + 5, fuel)
      case InOut => Some((Pick(p.nodesIn, raw, pos + 5), Pick(p.nodesOut, raw, pos + 6), pos + 7))
      case OutOut => DistinctPair(p.nodesOut, raw, pos + 5, fuel);
    if ids.None? then None
    else Some((Car(ids.value.0, ids.value.1, length, maxVelocity, acceleration, deceleration, exponent, waiting), ids.value.2))
  }

  // ---------------------------------------------------------------- the loops

  /** The agents so far, keyed by `strval($carCounter)`, the counter and the stream position. */
  datatype Gen = Gen(cars: seq<(string, Car)>, counter: nat, pos: nat)

  /**
   * `after` is `before` with cars appended: the n-th new car is keyed by the
   * counter plus n, is the hour's (`tot` + n)-th car and has that car's
   * route, and waits a whole number of minutes between `lo` and `hi`.
   */
  predicate Added(before: Gen, after: Gen, p: Pools, t: seq<int>, tot: nat, lo: nat, hi: nat)
    requires |t| == 3
  {
    && |before.cars| <= |after.cars|
    && after.cars[..|before.cars|] == before.cars
    && after.counter == before.counter + (|after.cars| - |before.cars|)
    && forall k :: |before.cars| <= k < |after.cars| ==>
         NewCar(after.cars[k], before.counter + (k - |before.cars|), p, RouteOf(tot + (k - |before.cars|), t), lo, hi)
  }

  predicate NewCar(e: (string, Car), key: nat, p: Pools, route: Route, lo: nat, hi: nat) {
    && e.0 == Strings.NatToString(key)
    && Kinematics(e.1) && Fits(p, route, e.1)
    && e.1.waitingPeriod % 60 == 0 && lo <= e.1.waitingPeriod <= hi
  }

  lemma AddedRefl(g: Gen, p: Pools, t: seq<int>, tot: nat, lo: nat, hi: nat)
    requires |t| == 3
    ensures Added(g, g, p, t, tot, lo, hi)
  {
    assert g.cars[..|g.cars|] == g.cars;
  }

  lemma {:induction false} AddedTrans(a: Gen, b: Gen, c: Gen, p: Pools, t: seq<int>, tot: nat, lo: nat, hi: nat, lo': nat)
    requires |t| == 3 && lo <= lo'
    requires Added(a, b, p, t, tot, lo, hi)
    requires Added(b, c, p, t, tot + (|b.cars| - |a.cars|), lo', hi)
    ensures Added(a, c, p, t, tot, lo, hi)
  {
    var m, m' := |a.cars|, |b.cars|;
    assert c.cars[..m] == c.cars[..m'][..m];
    forall k | m <= k < |c.cars|
      ensures NewCar(c.cars[k], a.counter + (k - m), p, RouteOf(tot + (k - m), t), lo, hi)
    {
      if k < m' {
        assert c.cars[k] == c.cars[..m'][k] == b.cars[k];
      } else {
        assert NewCar(c.cars[k], b.counter + (k - m'), p, RouteOf(tot + (m' - m) + (k - m'), t), lo', hi);
      }
    }
  }

  lemma AddedWiden(a: Gen, b: Gen, p: Pools, t: seq<int>, tot: nat, lo: nat, hi: nat, hi': nat)
    requires |t| == 3 && hi <= hi'
    requires Added(a, b, p, t, tot, lo, hi)
    ensures Added(a, b, p, t, tot, lo, hi')
  {
  }

  lemma AddOne(g: Gen, c: Car, pos: nat, p: Pools, t: seq<int>, tot: nat, waiting: nat)
    requires |t| == 3 && waiting % 60 == 0
    requires Kinematics(c) && Fits(p, RouteOf(tot, t), c) && c.waitingPeriod == waiting
    ensures Added(g, Gen(g.cars + [(Strings.NatToString(g.counter), c)], g.counter + 1, pos), p, t, tot, waiting, waiting)
  {
    var g' := Gen(g.cars + [(Strings.NatToString(g.counter), c)], g.counter + 1, pos);
    assert g'.cars[..|g.cars|] == g.cars;
    assert g'.cars[|g.cars|] == (Strings.NatToString(g.counter), c);
  }

  /** The inner loop: cars `j` .. `k`-1 of one minute, all waiting `waiting` seconds. */
  function MinuteCars(p: Pools, t: seq<int>, g: Gen, tot: nat, j: nat, k: nat, waiting: nat, raw: Stream, fuel: nat): (r: Option<Gen>)
    requires |t| == 3 && j <= k && waiting % 60 == 0
    ensures r.Some? ==> |r.value.cars| == |g.cars| + (k - j)
    ensures r.Some? ==> Added(g, r.value, p, t, tot, waiting, waiting)
    decreases k - j
  {
    if j == k then AddedRefl(g, p, t, tot, waiting, waiting); Some(g)
    else
      var one := MakeCar(p, RouteOf(tot, t), raw, g.pos, waiting, fuel);
      if one.None? then None
      else
        var g' := Gen(g.cars + [(Strings.NatToString(g.counter), one.value.0)], g.counter + 1, one.value.1);
        var rest := MinuteCars(p, t, g', tot + 1, j + 1, k, waiting, raw, fuel);
        if rest.None? then None
        else
          MinuteStep(g, one.value.0, one.value.1, rest.value, p, t, tot, waiting);
          rest
  }

  /** One new car followed by the rest of the minute's cars are the minute's cars from that car on. */
  lemma MinuteStep(g: Gen, c: Car, pos: nat, r: Gen, p: Pools, t: seq<int>, tot: nat, waiting: nat)
    requires |t| == 3 && waiting % 60 == 0
    requires Kinematics(c) && Fits(p, RouteOf(tot, t), c) && c.waitingPeriod == waiting
    requires Added(Gen(g.cars + [(Strings.NatToString(g.counter), c)], g.counter + 1, pos), r, p, t, tot + 1, waiting, waiting)
    ensures Added(g, r, p, t, tot, waiting, waiting)
  {
    var g' := Gen(g.cars + [(Strings.NatToString(g.counter), c)], g.counter + 1, pos);
    AddOne(g, c, pos, p, t, tot, waiting);
    AddedTrans(g, g', r, p, t, tot, waiting, waiting, waiting);
  }

  lemma Distribute(m: nat, k: nat)
    requires 1 <= m
    ensures m * k == k + (m - 1) * k
  {
  }

  /** The outer loop: minutes `i` .. 59 of an hour, `k` cars each, waiting 60 × the minute. */
  function HourCars(p: Pools, t: seq<int>, g: Gen, tot: nat, i: nat, k: nat, raw: Stream, fuel: nat): (r: Option<Gen>)
    requires |t| == 3 && i <= 60
    ensures r.Some? ==> |r.value.cars| == |g.cars| + (60 - i) * k
    ensures r.Some? ==> Added(g, r.value, p, t, tot, 60 * i, 3540)
    decreases 60 - i
  {
    if i == 60 then AddedRefl(g, p, t, tot, 3600, 3540); Some(g)
    else
      var minute := MinuteCars(p, t, g, tot, 0, k, 60 * i, raw, fuel);
      if minute.None? then None
      else
        var rest := HourCars(p, t, minute.value, tot + k, i + 1, k, raw, fuel);
        if rest.None? then None
        else
          HourStep(g, minute.value, rest.value, p, t, tot, i, k);
          rest
  }

  /** A minute's cars followed by the rest of the hour's are the hour's cars from that minute on. */
  lemma HourStep(g: Gen, m: Gen, r: Gen, p: Pools, t: seq<int>, tot: nat, i: nat, k: nat)
    requires |t| == 3 && i < 60
    requires |m.cars| == |g.cars| + k && Added(g, m, p, t, tot, 60 * i, 60 * i)
    requires |r.cars| == |m.cars| + (60 - (i + 1)) * k && Added(m, r, p, t, tot + k, 60 * (i + 1), 3540)
    ensures |r.cars| == |g.cars| + (60 - i) * k && Added(g, r, p, t, tot, 60 * i, 3540)
  {
    Distribute(60 - i, k);
    AddedWiden(g, m, p, t, tot, 60 * i, 60 * i, 3540);
    AddedTrans(g, m, r, p, t, tot, 60 * i, 3540, 60 * (i + 1));
  }

  /** Cars in a day of the given hourly amounts, from hour `h` on. */
  function DayCount(amounts: seq<int>, h: nat): nat
    requires h <= |amounts|
    decreases |amounts| - h
  {
    if h == |amounts| then 0 else 60 * PerMinute(amounts[h]) + DayCount(amounts, h + 1)
  }

  /** A car of the day: keyed by `key`, with the kinematic ranges and a waiting period within its hour. */
  predicate DayCar(e: (string, Car), key: nat) {
    && e.0 == Strings.NatToString(key) && Kinematics(e.1)
    && e.1.waitingPeriod % 60 == 0 && e.1.waitingPeriod <= 3540
  }

  /** `after` is `before` with day cars appended under consecutive keys. */
  predicate DayAdded(before: Gen, after: Gen) {
    && |before.cars| <= |after.cars|
    && after.cars[..|before.cars|] == before.cars
    && after.counter == before.counter + (|after.cars| - |before.cars|)
    && forall k :: |before.cars| <= k < |after.cars| ==> DayCar(after.cars[k], before.counter + (k - |before.cars|))
  }

  lemma HourIsDay(before: Gen, after: Gen, p: Pools, t: seq<int>)
    requires |t| == 3 && Added(before, after, p, t, 0, 0, 3540)
    ensures DayAdded(before, after)
  {
    forall k | |before.cars| <= k < |after.cars|
      ensures DayCar(after.cars[k], before.counter + (k - |before.cars|))
    {
      assert NewCar(after.cars[k], before.counter + (k - |before.cars|), p, RouteOf(k - |before.cars|, t), 0, 3540);
    }
  }

  lemma DayAddedTrans(a: Gen, b: Gen, c: Gen)
    requires DayAdded(a, b) && DayAdded(b, c)
    ensures DayAdded(a, c)
  {
    assert c.cars[..|a.cars|] == c.cars[..|b.cars|][..|a.cars|];
    forall k | |a.cars| <= k < |c.cars|
      ensures DayCar(c.cars[k], a.counter + (k - |a.cars|))
    {
      if k < |b.cars| {
        assert c.cars[k] == c.cars[..|b.cars|][k] == b.cars[k];
      }
    }
  }

  /** The hours loop from hour `h` on; `totAmount` restarts at 0 every hour. */
  function DayCars(p: Pools, amounts: seq<int>, g: Gen, h: nat, raw: Stream, fuel: nat): (r: Option<Gen>)
    requires |amounts| == 24 && h <= 24
    ensures r.Some? ==> |r.value.cars| == |g.cars| + DayCount(amounts, h)
    ensures r.Some? ==> DayAdded(g, r.value)
    decreases 24 - h
  {
    if h == 24 then assert g.cars[..|g.cars|] == g.cars; Some(g)
    else
      var t := Thresholds(Direction[h], amounts[h]);
      var hour := HourCars(p, t, g, 0, 0, PerMinute(amounts[h]), raw, fuel);
      if hour.None? then None
      else
        var rest := DayCars(p, amounts, hour.value, h + 1, raw, fuel);
        if rest.None? then None
        else
          HourIsDay(g, hour.value, p, t);
          DayAddedTrans(g, hour.value, rest.value);
          rest
  }

  /**
   * `generateCars` for a map box: the car agents in insertion order, keyed
   * from "0" on. `None` stands for a retry loop that did not exit within
   * `fuel` attempts.
   */
  function GenerateCars(lon1: real, lon2: real, lat1: real, lat2: real, xs: seq<Intersection>,
                        dist: Distance, raw: Stream, fuel: nat): (r: Option<seq<(string, Car)>>)
    ensures r.Some? ==> |r.value| == DayCount(CarDistribution(MaxCarAmount(lon1, lon2, lat1, lat2, dist)), 0)
    ensures r.Some? ==> forall n :: 0 <= n < |r.value| ==> DayCar(r.value[n], n)
  {
    var p := ReadPools(MakeZone(lon1, lon2, lat1, lat2, dist), xs, dist);
    var amounts := CarDistribution(MaxCarAmount(lon1, lon2, lat1, lat2, dist));
    var day := DayCars(p, amounts, Gen([], 0, 0), 0, raw, fuel);
    if day.None? then None else Some(day.value.cars)
  }

  /** Agent keys never repeat, so storing them by key in `$carAgents` never overwrites an agent. */
  lemma KeysDistinct(cars: seq<(string, Car)>)
    requires forall n :: 0 <= n < |cars| ==> cars[n].0 == Strings.NatToString(n)
    ensures forall a, b :: 0 <= a < b < |cars| ==> cars[a].0 != cars[b].0
  {
    forall a, b | 0 <= a < b < |cars|
      ensures cars[a].0 != cars[b].0
    {
      if cars[a].0 == cars[b].0 {
        Strings.NatToStringInjective(a, b);
      }
    }
  }

  /** An hour of any amount spawns sixty cars per minute-slot, at least sixty in all. */
  lemma HourAtLeastSixty(amounts: seq<int>, h: nat)
    requires h < |amounts|
    ensures DayCount(amounts, h) >= 60 + DayCount(amounts, h + 1)
  {
  }
}
